=== FILE: README.md ===
# writeassist-llmops, modelled in Dafny

writeassist-llmops runs experiments on LLM-written essay feedback. An experiment is a
configuration tree: per pipeline stage ("ops") and per resource ("resources"), a `config`
map of factors. Treatments from a fixed catalogue overwrite selected factors. The pipeline then:

- builds a persona ("teacher model") for each teacher from class documents and onboarding
  answers, and optionally updates it from the teacher's own past feedback;
- retrieves similar past feedback and class-document passages for every feedback request
  from in-memory vector stores;
- assembles one feedback-generation prompt per request from versioned prompt templates;
- records parameters and artifacts with a tracking client.

This project models that core and proves what each part promises. There is one module per
source file:

| module | source file | what it holds |
|---|---|---|
| `DesignModels` | experiment/design/_models.py | `Treatment`; the asset and resource configuration exports, including the environment-variable redaction |
| `DesignFunctions` | experiment/design/_functions.py | `build_system_config`; `introduce_treatment` over a deep copy of the tree |
| `Treatments` | experiment/design/treatments.py | the whole treatment catalogue and the facts each entry relies on |
| `Utils` | experiment/utils/__init__.py | token counting; in-place trimming of documents to a token budget |
| `PromptEnums` | experiment/prompt/_enums.py | the template and prefix tables of versions V1 and V2; instruction styles; output formats |
| `PromptBuilder` | experiment/prompt/_builder.py | few-shot and compose prompt construction over those tables |
| `PromptDirectors` | experiment/prompt/_directors.py | the four prompt directors: validation, summarising, trimming and composition |
| `EmbeddingPreprocess` | experiment/pipeline/resources/_embedding_preprocess.py | index texts for stored feedback; search texts for requests |
| `VectorStore` | experiment/pipeline/resources/_vector_store.py | the local vector store: storing feedback and class documents; top-k search per teacher |
| `FileStoreBucket` | experiment/pipeline/resources/_file_store_bucket.py | source and dataset validation; latest-version selection; reads and JSON appends over a file-system value |
| `Tracking` | experiment/pipeline/resources/_mlflow.py | parameter naming and filtering; artifact paths; the JSON and table append rules |
| `PromptLayerAssets` | experiment/pipeline/assets/prompt_layer.py | `teacher_model_base`, `teacher_model_update_prompt`, `teacher_model` |
| `FeedbackGenerationTask` | experiment/pipeline/assets/feedback_generation_task.py | the two retrieval assets, grouping by request, and `feedback_generation_prompt` |

Shared helpers:

- `Wrappers` gives the `Result`/`Option` types and the Python exceptions the model raises (`KeyError`,
  `ValueError`, `AssertionError`, ...).
- `PyText` gives Python string slicing, joining and formatting.
- `Values` gives JSON-like values.
- `PipelineModels` gives the records the pipeline passes around.
- `Loops` gives the shared "replace every object in place until the first exception" walk.

Three behaviours of the code that a reader might not expect:

- `introduce_treatment` silently inserts a factor that the stage's `config` map lacks, instead of
  rejecting it.
- `trim_document_content` has no guard for an empty document list. An empty list escapes
  division by zero only because the empty text counts zero tokens. With a negative budget it
  raises ZeroDivisionError (`Utils.TrimEmpty`).
- The student-conferencing director accepts an empty list of essays.

Some other edge cases of the code are modelled as written, each as an exception in the `Result`:

- `store_feedback` with no embeddings at all raises KeyError on `_id`.
- Searching a class store that holds no rows raises KeyError on `user_id`.
- An unknown score name raises only when there is at least one query.
- A `.json` name without a `v<number>.json` match makes `read` raise AttributeError.
- A string-valued `tracking_client` field that names a set environment variable is popped twice
  by `ResourceConfigurations.export`, which raises KeyError.
- The debug lines of `teacher_model_base` and `feedback_generation_prompt` read element 0, which
  raises IndexError on an empty list.

## Model

| member | source | states |
|---|---|---|
| Loops.MapLoop | experiment/pipeline/assets/prompt_layer.py:46-54 | the walk keeps the list's length |
| Loops.MapLoopOk | experiment/pipeline/assets/prompt_layer.py:46-54 | the walk succeeds exactly when every step does, and then every object is its step's result |
| Loops.MapLoopFirstError | experiment/pipeline/assets/feedback_generation_task.py:152-160 | the first failing step decides the exception; objects before it are replaced, the rest left as they were |
| Loops.MapLoopStep | experiment/pipeline/assets/prompt_layer.py:46-54 | one more object extends the walk by that object's step, unless an earlier step failed |
| Loops.MapLoopAfterError | experiment/pipeline/assets/feedback_generation_task.py:152-160 | once a step fails, the later objects are untouched |
| Loops.MapInPlace | experiment/pipeline/assets/prompt_layer.py:46-54 | the caller's array is changed in place to the walk over its contents before the call |
| PyText.ClampIndex | experiment/utils/__init__.py:18 | a slice bound clamps to the length; a negative bound counts from the end and floors at 0 |
| PyText.SliceTo | experiment/utils/__init__.py:18 | `s[:n]` is a prefix of `s` of length min(n, len) for n ≥ 0, and len + n (floored at 0) for negative n |
| PyText.IndexOf | experiment/prompt/_builder.py:20-26 | the first index holding the character, or none exactly when the character is absent |
| PyText.DigitChar | experiment/pipeline/resources/_file_store_bucket.py:55 | a digit below ten renders as the character of that value |
| PyText.NatDecimal | experiment/pipeline/resources/_file_store_bucket.py:55 | `str(n)` is a non-empty run of decimal digits |
| PyText.DigitsValueOfDecimal | experiment/pipeline/resources/_file_store_bucket.py:51-55 | `int(str(n)) == n`: parsing the rendered number gives it back |
| PyText.DecimalSingleDigit | experiment/prompt/_enums.py:180-182 | `str(n)` is one character exactly when n < 10 |
| Utils.Column | experiment/utils/__init__.py:13 | the column of `key` is the key's value in every document, in order; KeyError exactly when some document lacks the key |
| Utils.JoinTexts | experiment/utils/__init__.py:13 | the space join succeeds exactly when every entry is a text; a `None` entry raises TypeError |
| Utils.Trim | experiment/utils/__init__.py:11-19 | on success: same number of documents, same keys, the text key holds text, every other key unchanged |
| Utils.TrimDocumentContent | experiment/utils/__init__.py:11-19 | the list is rewritten in place to the `Trim` result and the same list is returned; unchanged when an exception is raised |
| Utils.TrimWithinBudget | experiment/utils/__init__.py:13-19 | when the joined texts count at most `max_tokens`, the documents are returned untouched |
| Utils.TrimOverBudget | experiment/utils/__init__.py:15-18 | over budget, each text becomes its first `max_tokens // len(documents)` characters plus "..." |
| Utils.TrimmedTextBound | experiment/utils/__init__.py:13-19 | within budget a text comes back untouched; over budget it is at least 3 and at most min(original length, per-document budget) + 3 long, starts with a prefix of the original and ends with "..." |
| Utils.TrimEmpty | experiment/utils/__init__.py:13-16 | the empty list passes only because the empty text counts 0 tokens; with a negative budget it raises ZeroDivisionError |
| Utils.TrimErrors | experiment/utils/__init__.py:13 | a document without the key raises KeyError; a `None` text raises TypeError |
| PromptEnums.Fill | experiment/prompt/_builder.py:19-34 | formatting a template succeeds exactly when every placeholder has a value; otherwise KeyError naming a missing placeholder |
| PromptEnums.FillDependsOnlyOnSlots | experiment/prompt/_builder.py:19-34 | two variable maps that agree on the template's placeholders format it identically |
| PromptEnums.FillNoSlots | experiment/prompt/_enums.py:186-217 | a template without placeholders (every prefix) formats to its own text |
| PromptEnums.RegisteredVersions | experiment/prompt/_enums.py:180-222 | exactly V1 and V2 are registered, for templates and prefixes alike |
| PromptEnums.PrefixesNameTemplatesV1 | experiment/prompt/_enums.py:5-202 | every V1 prefix names a V1 template, and no compose template has a prefix |
| PromptEnums.PrefixesNameTemplatesV2 | experiment/prompt/_enums.py:103-217 | every V2 prefix names a V2 template, and no compose template has a prefix |
| PromptEnums.SectionsV1 | experiment/prompt/_enums.py:5-202 | V1 holds every standard section and the three student-conferencing sections |
| PromptEnums.SectionsV2 | experiment/prompt/_enums.py:103-217 | V2 holds the standard sections but lacks STUDENT_CONFERENCING and both conferencing example sections |
| PromptEnums.RegisteredSections | experiment/prompt/_enums.py:180-222 | every registered version has the standard sections; it has the conferencing sections exactly when it is V1 |
| PromptEnums.SlotsV1 | experiment/prompt/_enums.py:5-100 | the placeholder order of every V1 template |
| PromptEnums.SlotsV2 | experiment/prompt/_enums.py:103-175 | the placeholder order of every V2 template |
| PromptEnums.ComposeSlotOrder | experiment/prompt/_enums.py:29-175 | in both versions CREATE puts class context before onboarding, and FEEDBACK_GENERATION puts teacher model, class context, feedback, essay context before the student text |
| PromptEnums.ConferencingSlotOrder | experiment/prompt/_enums.py:78-93 | STUDENT_CONFERENCING puts the teacher model before the essay context, then the student text, the teacher feedback and the query |
| PromptEnums.ExampleTemplateFields | experiment/prompt/_enums.py:6-123 | the example templates ask for exactly `document_name`/`document_content`, `question`/`response`, `highlighted_text`/`feedback_text`, `teacher_model` |
| PromptEnums.ConferencingExampleFields | experiment/prompt/_enums.py:95-100 | the conferencing example templates ask for `document_name`/`document_content` and `teacher_model` |
| PromptEnums.BaseInstructionStyleNames | experiment/prompt/_enums.py:232-234 | the base instruction styles are DESCRIBE and IMPERSONATE |
| PromptEnums.UpdateInstructionStyleNames | experiment/prompt/_enums.py:237-239 | the update instruction styles are DESCRIBE and IMPERSONATE |
| PromptEnums.FeedbackGenerationInstructionStyleNames | experiment/prompt/_enums.py:242-244 | the feedback-generation instruction styles are DESCRIBE and IMPERSONATE |
| PromptEnums.StudentConferencingInstructionStyleNames | experiment/prompt/_enums.py:247-249 | the conferencing instruction styles are DESCRIBE and IMPERSONATE |
| PromptEnums.OutputFormatNames | experiment/prompt/_enums.py:226-229 | the output formats are PARAGRAPH, BULLET_POINTS and SECTIONS |
| PromptBuilder.FormatNoArgs | experiment/prompt/_builder.py:21-27 | the few-shot text formatted again with no arguments is never longer than the text ("{{" becomes "{"); a lone brace, a malformed field or any replacement field fails |
| PromptBuilder.FormatNoArgsOfPlainText | experiment/prompt/_builder.py:21-27 | brace-free text survives the second formatting unchanged; a lone brace does not survive it |
| PromptBuilder.ParseField | experiment/prompt/_builder.py:21-27 | parsing a replacement field fails only with ValueError; on success the name is the text from the field's start up to a `}`, `:` or `!` that ends it |
| PromptBuilder.ParsedArgNamePlain | experiment/prompt/_builder.py:21-27 | the argument part of a parsed name holds no `{`, `}`, `:` or `!` |
| PromptBuilder.ParseFieldEnds | experiment/prompt/_builder.py:21-27 | a field whose name scans cleanly is named by that text when it ends at `}`, at a one-character conversion followed by `}`, or at a closed format spec; a conversion followed by anything but `:` or `}` is ValueError |
| PromptBuilder.LookupError | experiment/prompt/_builder.py:21-27 | a field looked up among no arguments raises IndexError or KeyError only; an empty or numeric name is IndexError; a KeyError names the non-numeric part of the name before its first `.` or `[`, and the whole name when it has neither |
| PromptBuilder.FormatNoArgsOfField | experiment/prompt/_builder.py:21-27 | text opening with a single `{` fails with the field's parse error, or else with the lookup error of its name |
| PromptBuilder.FormatNoArgsPlainPrefix | experiment/prompt/_builder.py:21-27 | brace-free text in front leaves a failure unchanged and a success prefixed by that text |
| PromptBuilder.ParseFieldOfPlainText | experiment/prompt/_builder.py:21-27 | a field whose text holds no brace, `[` or `!` is named by its text before any `:` |
| PromptBuilder.FormatNoArgsFirstField | experiment/prompt/_builder.py:21-27 | after brace-free text, such a field makes the second formatting fail with exactly its name's lookup error, whatever follows |
| PromptBuilder.EmptyFieldExample | experiment/prompt/_builder.py:21-27 | `{}` fails with IndexError |
| PromptBuilder.NumberedFieldExample | experiment/prompt/_builder.py:21-27 | `{0}` fails with IndexError |
| PromptBuilder.AttributeFieldExample | experiment/prompt/_builder.py:21-27 | `{a.b}` fails with KeyError('a') |
| PromptBuilder.NestedSpecFieldExample | experiment/prompt/_builder.py:21-27 | `{a:{b}}` fails with KeyError('a'): the nested field sits in the format spec |
| PromptBuilder.UnclosedBracketFieldExample | experiment/prompt/_builder.py:21-27 | `{a[}` fails with ValueError: the `[` runs past the `}` to the end |
| PromptBuilder.BracedIndexFieldExample | experiment/prompt/_builder.py:21-27 | `{a[{]}` fails with KeyError('a'): a `{` inside brackets is part of the index |
| PromptBuilder.BraceConversionFieldExample | experiment/prompt/_builder.py:21-27 | `{a!}}` fails with KeyError('a'): the conversion character may be `}` |
| PromptBuilder.LongConversionFieldExample | experiment/prompt/_builder.py:21-27 | `{a!rx}` fails with ValueError: a conversion is one character |
| PromptBuilder.ExampleVars | experiment/prompt/_builder.py:19-23 | an example supplies exactly its own keys, each as its `str` rendering |
| PromptBuilder.RenderExamples | experiment/prompt/_builder.py:19-23 | every example is rendered, in order, by the example template; it fails exactly when some example lacks a placeholder |
| PromptBuilder.NonEmpty | experiment/prompt/_builder.py:21-27 | the pieces kept for joining are the non-empty ones, never more than given |
| PromptBuilder.RenderPipeline | experiment/prompt/_builder.py:36-40 | rendering the sub-prompts keeps the caller's variables and binds every sub-prompt name |
| PromptBuilder.RenderPipelineValues | experiment/prompt/_builder.py:36-40 | with distinct names, each slot holds exactly its own sub-prompt's rendered text |
| PromptBuilder.RenderPipelineKeeps | experiment/prompt/_builder.py:36-40 | a variable no sub-prompt rebinds keeps the caller's value |
| PromptBuilder.NewPromptLayerBuilder | experiment/prompt/_builder.py:9-12 | construction succeeds exactly for V1 and V2 and fixes that version's two tables; otherwise KeyError naming the version |
| PromptBuilder.BuildFewShotPrompt | experiment/prompt/_builder.py:14-28 | AssertionError unless the section is a template name, KeyError when it has no prefix; otherwise the given examples in order, an empty suffix, no input variables |
| PromptBuilder.BuildComposePrompt | experiment/prompt/_builder.py:30-42 | AssertionError unless the event is a template name; otherwise the sub-prompts in the given order and the given input variables |
| PromptBuilder.BuilderVersions | experiment/prompt/_builder.py:9-12 | the builder for version n exists exactly when n is 1 or 2 |
| PromptBuilder.FewShotOfNoExamples | experiment/prompt/_builder.py:21-27 | a few-shot block with no examples renders as its prefix |
| PromptBuilder.FewShotLayout | experiment/prompt/_builder.py:21-27 | a few-shot block is the prefix and then each rendered example, separated by blank lines, in the given order |
| PromptBuilder.NonEmptyOfNonEmpty | experiment/prompt/_builder.py:21-27 | pieces that are all non-empty are all kept |
| PromptBuilder.NonEmptyDropsTrailingEmpty | experiment/prompt/_builder.py:21-27 | the empty suffix adds nothing to the joined block |
| PromptDirectors.RequireKeys | experiment/prompt/_directors.py:89-96 | the per-document key assertions pass exactly when every document has both keys; otherwise AssertionError naming a missing key |
| PromptDirectors.SectionPrompt | experiment/prompt/_directors.py:102-115 | a disabled section is the empty template; an enabled one is the few-shot block over the documents, built exactly when the section has a template and a prefix |
| PromptDirectors.DirectorBuilder | experiment/prompt/_directors.py:43-52 | the builder of version n exists exactly for n ∈ {1, 2}, and then holds every section the directors ask for |
| PromptDirectors.ValidateBaseConfig | experiment/prompt/_directors.py:55-66 | passes exactly when a section is on, summarising has class context, and the style and format are registered; ValueError otherwise |
| PromptDirectors.NewTeacherModelBaseDirector | experiment/prompt/_directors.py:31-66 | constructed exactly for versions 1 and 2 with a valid configuration; KeyError for another version, ValueError for a bad configuration; keeps every argument |
| PromptDirectors.ValidateBaseInputs | experiment/prompt/_directors.py:89-96 | passes exactly when class documents have name and content and onboarding answers have question and response; AssertionError otherwise |
| PromptDirectors.SummaryShapeFills | experiment/prompt/_directors.py:70-75 | the summarising template places the instruction and the document text between its fixed parts |
| PromptDirectors.SummaryPromptFills | experiment/prompt/_directors.py:70-83 | the summarising template filled with the style text and the content is the summary prompt |
| PromptDirectors.SummarizeOne | experiment/prompt/_directors.py:77-84 | a summary keeps `document_name` and holds the model's answer to the summary prompt; KeyError for an unknown style or a missing key |
| PromptDirectors.Summaries | experiment/prompt/_directors.py:68-87 | one summary per document, in order, each the model's answer for that document; fails exactly when some document fails |
| PromptDirectors.SummarizeClassContext | experiment/prompt/_directors.py:68-87 | the loop appends exactly the `Summaries` list |
| PromptDirectors.SummariesPrefixError | experiment/prompt/_directors.py:76-85 | once a document fails, the whole call fails with that exception |
| PromptDirectors.BuildBasePrompt | experiment/prompt/_directors.py:98-127 | the prompt and the caller's list afterwards are those of `BaseBuild` on the list before the call |
| PromptDirectors.PipelineOfTwo | experiment/prompt/_directors.py:118-126 | a two-part composition renders the first part, then the second, then fills the final template with both |
| PromptDirectors.BaseComposeFills | experiment/prompt/_directors.py:112-126 | CREATE is filled with the style text, the output format text and the two section texts under their names |
| PromptDirectors.SectionPromptText | experiment/prompt/_directors.py:107-115 | a section renders to its few-shot text, or to "" when disabled |
| PromptDirectors.BaseBuildComposes | experiment/prompt/_directors.py:98-127 | for valid inputs the base prompt equals the CREATE template filled directly with the section texts, in the fixed order class context then onboarding |
| PromptDirectors.BaseCallerList | experiment/prompt/_directors.py:102-106 | the caller's class documents are trimmed in place only when included and not summarised; otherwise untouched |
| PromptDirectors.BaseValidatesFirst | experiment/prompt/_directors.py:98-99 | invalid inputs raise AssertionError before any summary or trimming, leaving the caller's list untouched |
| PromptDirectors.PipelineOfOne | experiment/prompt/_directors.py:150-158 | a one-part composition renders the part, then fills the final template |
| PromptDirectors.RenderPipelineCons | experiment/prompt/_directors.py:243-258 | rendering the parts renders the first, then the rest with its text bound |
| PromptDirectors.PipelineOfFour | experiment/prompt/_directors.py:243-258 | a four-part composition renders the parts in order, then fills the final template with all four |
| PromptDirectors.TrimSection | experiment/prompt/_directors.py:218-236 | an enabled section's list is trimmed in place before its block is built; the outcome is `TrimmedSection` of the list before |
| PromptDirectors.TrimmedSectionText | experiment/prompt/_directors.py:218-236 | the block exists exactly when trimming succeeds, the list keeps the trimmed documents, and the block renders to the section text over them |
| PromptDirectors.NewTeacherModelUpdateDirector | experiment/prompt/_directors.py:130-136 | constructed exactly for versions 1 and 2 (KeyError otherwise); the style is not checked and is kept as given |
| PromptDirectors.ValidateUpdateInputs | experiment/prompt/_directors.py:138-142 | passes exactly when there is at least one example and each has `highlighted_text` and `feedback_text`; AssertionError otherwise |
| PromptDirectors.BuildUpdatePrompt | experiment/prompt/_directors.py:144-159 | the prompt and the caller's list afterwards are those of `UpdateBuild` on the list before the call |
| PromptDirectors.UpdateBuildComposes | experiment/prompt/_directors.py:144-159 | for valid inputs the update prompt equals the UPDATE template filled directly with the style, the base model and the trimmed examples |
| PromptDirectors.UpdateUnknownStyle | experiment/prompt/_directors.py:147-154 | an unknown style raises KeyError only after the caller's examples were trimmed in place |
| PromptDirectors.NewFeedbackGenerationDirector | experiment/prompt/_directors.py:162-189 | constructed exactly for versions 1 and 2 with some section on; KeyError for another version, ValueError when all four flags are off; keeps every argument |
| PromptDirectors.ValidateFeedbackGenerationInputs | experiment/prompt/_directors.py:191-205 | passes exactly when the request has its two keys and each of the three lists its two keys (even for disabled sections) |
| PromptDirectors.BuildFeedbackGenerationPrompt | experiment/prompt/_directors.py:207-260 | the prompt and the caller's three lists afterwards are those of `FeedbackGenerationBuild` on the lists before the call |
| PromptDirectors.FeedbackGenerationComposeFills | experiment/prompt/_directors.py:243-258 | FEEDBACK_GENERATION is filled with the style, the request's text and instruction, then the four section texts in order teacher model, class context, feedback, essay context |
| PromptDirectors.FeedbackGenerationBuildComposes | experiment/prompt/_directors.py:207-260 | for valid inputs the prompt equals the template filled directly with the section texts over the trimmed lists |
| PromptDirectors.FeedbackGenerationComposeSections | experiment/prompt/_directors.py:217-258 | each disabled section contributes "", each enabled one its few-shot text |
| PromptDirectors.FeedbackGenerationBuildPrompt | experiment/prompt/_directors.py:215-258 | the prompt is the first trimming error, in the order feedback, class context, essay, or the composition over the trimmed lists |
| PromptDirectors.FeedbackGenerationCallerLists | experiment/prompt/_directors.py:218-236 | a disabled section's list is untouched; an enabled one is trimmed in place with its own budget and text key |
| PromptDirectors.NewStudentConferencingDirector | experiment/prompt/_directors.py:263-268 | constructed exactly for versions 1 and 2 (KeyError otherwise); the style is kept as given |
| PromptDirectors.ValidateConferencingInputs | experiment/prompt/_directors.py:270-276 | passes exactly when student text, query and feedback are non-empty and essay documents have their keys; an empty essay list passes |
| PromptDirectors.BuildConferencingPrompt | experiment/prompt/_directors.py:278-303 | the prompt and the caller's essay list afterwards are those of `ConferencingBuild` on the list before the call |
| PromptDirectors.ConferencingNeedsV1 | experiment/prompt/_directors.py:283 | a version-2 director raises AssertionError on every valid input, after trimming the essay list |
| PromptDirectors.ConferencingBuildComposes | experiment/prompt/_directors.py:278-303 | a V1 prompt equals STUDENT_CONFERENCING filled with teacher model then essay context, the student text, feedback and query, the essays trimmed to 2000 tokens |
| EmbeddingPreprocess.AssignmentContext | experiment/pipeline/resources/_embedding_preprocess.py:28-64 | exactly the documents sharing the assignment id, never more than the list |
| EmbeddingPreprocess.ContextBodyAppend | experiment/pipeline/resources/_embedding_preprocess.py:33-70 | the essay-context block splits along the document list |
| EmbeddingPreprocess.BuildContext | experiment/pipeline/resources/_embedding_preprocess.py:32-70 | the accumulated block is "ESSAY CONTEXT:\n" followed by each document's content and a blank line, in order |
| EmbeddingPreprocess.IndexTextsEntries | experiment/pipeline/resources/_embedding_preprocess.py:21-41 | one index text per chunk (a single one with essay text off), each the context block, then the chunk entry, then the feedback part |
| EmbeddingPreprocess.IndexTextsOutcome | experiment/pipeline/resources/_embedding_preprocess.py:21-31 | an item raises exactly when essay text is on without chunks, and is skipped exactly when essay context is on and no document shares its assignment |
| EmbeddingPreprocess.PreprocessIndexFirstError | experiment/pipeline/resources/_embedding_preprocess.py:19-43 | the first item that raises decides the exception; items before it are indexed, and it and the items after it keep their previous index texts |
| EmbeddingPreprocess.PreprocessIndexEach | experiment/pipeline/resources/_embedding_preprocess.py:19-43 | when no item raises, every item is indexed on its own, in place |
| EmbeddingPreprocess.IndexOne | experiment/pipeline/resources/_embedding_preprocess.py:20-43 | the step-by-step loop body gives the item's specified index texts, or leaves it when skipped |
| EmbeddingPreprocess.PreprocessFeedbackIndex | experiment/pipeline/resources/_embedding_preprocess.py:15-45 | the items are updated in place to `PreprocessIndex` of the list before the call, in order, until one raises |
| EmbeddingPreprocess.SearchOne | experiment/pipeline/resources/_embedding_preprocess.py:52-72 | the query text grown part by part is the specified search text; a skipped request keeps its old text |
| EmbeddingPreprocess.PreprocessFeedbackSearch | experiment/pipeline/resources/_embedding_preprocess.py:47-74 | every request's search text is assigned in place, each independently, same length and order |
| EmbeddingPreprocess.SearchTextAllOff | experiment/pipeline/resources/_embedding_preprocess.py:52-72 | with every flag off the search text is "" |
| EmbeddingPreprocess.IndexAndSearchAgree | experiment/pipeline/resources/_embedding_preprocess.py:21-71 | with feedback and instruction off, a request whose selection is an item's chunk on the same assignment gets that chunk's index text as its query |
| VectorStore.FeedbackMetadata | experiment/pipeline/resources/_vector_store.py:30-36 | a feedback row's metadata carries the given `highlighted_text_chunk` |
| VectorStore.FeedbackRows | experiment/pipeline/resources/_vector_store.py:29-38 | one piece of feedback gives one row per index embedding |
| VectorStore.FeedbackRowIds | experiment/pipeline/resources/_vector_store.py:27-38 | row ids are 0, 1, 2, … consecutive across all feedback, in input order |
| VectorStore.FeedbackRowContents | experiment/pipeline/resources/_vector_store.py:29-36 | row j has id start + j, the j-th embedding, the j-th index text, the owner, and the j-th chunk exactly when chunks and index texts are equally many (else None) |
| VectorStore.ClassRows | experiment/pipeline/resources/_vector_store.py:53-59 | a document without embeddings gives no rows; otherwise one row per embedding |
| VectorStore.ClassRowContents | experiment/pipeline/resources/_vector_store.py:53-59 | row j of a class document has id start + j, the j-th embedding, the j-th chunk as its text, the document's owner and its class, document, name and path metadata |
| VectorStore.ClassRowIds | experiment/pipeline/resources/_vector_store.py:50-59 | class row ids are 0, 1, 2, … across the documents that have embeddings |
| VectorStore.ClassRowsWithoutEmbeddings | experiment/pipeline/resources/_vector_store.py:53-54 | documents without embeddings add no rows and raise nothing |
| VectorStore.ParseScore | experiment/pipeline/resources/_vector_store.py:86-91 | the score name is accepted exactly when it is "cosine" or "dot-product"; ValueError otherwise |
| VectorStore.Authorized | experiment/pipeline/resources/_vector_store.py:85 | exactly the rows whose owner is the query's teacher |
| VectorStore.Scored | experiment/pipeline/resources/_vector_store.py:86-89 | every row paired with its similarity to the query vector, in order |
| VectorStore.InsertByScore | experiment/pipeline/resources/_vector_store.py:92 | inserting keeps the rows sorted by descending score and adds exactly the one row |
| VectorStore.HeadBoundsRest | experiment/pipeline/resources/_vector_store.py:92 | the head of a descending list scores at least every row of its reordered tail |
| VectorStore.SortByScore | experiment/pipeline/resources/_vector_store.py:92 | descending by score, and a permutation of the input |
| VectorStore.AtLeast | experiment/pipeline/resources/_vector_store.py:93 | exactly the rows scoring at least the threshold, in order |
| VectorStore.KeptSound | experiment/pipeline/resources/_vector_store.py:85-96 | a row kept after ranking, cutting to `top_k` and thresholding is one of the teacher's rows, with its own score, at least the threshold |
| VectorStore.QueryResultsSound | experiment/pipeline/resources/_vector_store.py:85-97 | every result is a row of the query's teacher, scores at least the threshold by the chosen measure, and carries the query's id and texts |
| VectorStore.QueryResultsBound | experiment/pipeline/resources/_vector_store.py:92-93 | at most `top_k` results per query, and never more than the teacher's rows |
| VectorStore.QueryResultsTopK | experiment/pipeline/resources/_vector_store.py:92-93 | every result scores at least every row the top-k cut left out, and every row within the cut at or above the threshold is returned |
| VectorStore.RankedIsSortedPermutation | experiment/pipeline/resources/_vector_store.py:85-92 | the ranking is a permutation of the teacher's scored rows, highest first |
| VectorStore.SearchScoreChecked | experiment/pipeline/resources/_vector_store.py:79-91 | with no queries the result is empty whatever the score name; with queries a bad name raises |
| VectorStore.VectorStoreClient.constructor | experiment/pipeline/resources/_vector_store.py:15-20 | a new client keeps its name and source and holds no vectors and no data key |
| VectorStore.VectorStoreClient.StoreFeedback | experiment/pipeline/resources/_vector_store.py:22-45 | the rows replace the stored ones under "feedback_vector_store"; an exception leaves the store unchanged |
| VectorStore.VectorStoreClient.StoreClassContext | experiment/pipeline/resources/_vector_store.py:48-67 | the rows replace the stored ones under "class_document_vector_store", even when there are none; an exception leaves the store unchanged |
| VectorStore.VectorStoreClient.Search | experiment/pipeline/resources/_vector_store.py:75-107 | the result is `SearchSpec`: None unless the source is local, else the per-query blocks in query order |
| VectorStore.FeedbackItemRows | experiment/pipeline/resources/_vector_store.py:31-38 | the inner loop builds exactly `FeedbackRows` |
| VectorStore.ClassItemRows | experiment/pipeline/resources/_vector_store.py:53-59 | the inner loop builds exactly `ClassRows` |
| VectorStore.AllFeedbackRowsAfterError | experiment/pipeline/resources/_vector_store.py:28-38 | the first feedback item that raises decides the exception of the whole call |
| VectorStore.ErrorPersistsFeedback | experiment/pipeline/resources/_vector_store.py:28-38 | an exception in a prefix of the feedback is the call's exception |
| VectorStore.AllClassRowsAfterError | experiment/pipeline/resources/_vector_store.py:51-59 | the first document that raises decides the exception of the whole call |
| VectorStore.ErrorPersistsClass | experiment/pipeline/resources/_vector_store.py:51-59 | an exception in a prefix of the documents is the call's exception |
| VectorStore.AllQueryResultsAfterError | experiment/pipeline/resources/_vector_store.py:79-91 | the first query that raises (no `user_id` column, or a bad score name) decides the exception of the search |
| VectorStore.ErrorPersistsQueries | experiment/pipeline/resources/_vector_store.py:79-98 | an exception in a prefix of the queries is the search's exception |
| FileStoreBucket.ValidateInputs | experiment/pipeline/resources/_file_store_bucket.py:27-31 | passes exactly for source AWS or local and dataset simulation, real or dummy; ValueError otherwise |
| FileStoreBucket.NewFileStoreClient | experiment/pipeline/resources/_file_store_bucket.py:20-25 | a client is constructed exactly when its inputs validate, and keeps them |
| FileStoreBucket.DigitRun | experiment/pipeline/resources/_file_store_bucket.py:50 | the run of `\d+` consists of digits and stays inside the name |
| FileStoreBucket.MatchDigits | experiment/pipeline/resources/_file_store_bucket.py:50 | a match's group is a non-empty run of digits |
| FileStoreBucket.SearchVersion | experiment/pipeline/resources/_file_store_bucket.py:50 | the first match's group of `v(\d+).json` is a non-empty run of digits |
| FileStoreBucket.JsonVersions | experiment/pipeline/resources/_file_store_bucket.py:50 | the versions are exactly the numbers matched in names containing ".json"; such a name without a match raises |
| FileStoreBucket.MaxOf | experiment/pipeline/resources/_file_store_bucket.py:54 | the maximum of a non-empty set is a member at least every member |
| FileStoreBucket.LatestVersion | experiment/pipeline/resources/_file_store_bucket.py:47-55 | "latest" resolves to `v{max}` over the parsed versions of an existing directory |
| FileStoreBucket.RecordsOf | experiment/pipeline/resources/_file_store_bucket.py:59-60 | succeeds exactly when the data is a list of objects (one record per item, in order) or an empty object or string (no records); otherwise TypeError |
| FileStoreBucket.Read | experiment/pipeline/resources/_file_store_bucket.py:33-62 | inputs are validated first; an AWS read (after "default" resolves to the client's source) returns "" and nothing else does; records are only returned for a known data key |
| FileStoreBucket.ReadExplicitVersion | experiment/pipeline/resources/_file_store_bucket.py:44-60 | a local read of an explicit version gives the records of that version's file, and fails exactly when building them fails |
| FileStoreBucket.ReadLatestIsHighest | experiment/pipeline/resources/_file_store_bucket.py:46-55 | "latest" reads the highest version number found in the directory, and gives `[]` when there is no JSON file |
| FileStoreBucket.WriteJson | experiment/pipeline/resources/_file_store_bucket.py:64-85 | a successful write changes only the output file |
| FileStoreBucket.InvalidClientRejected | experiment/pipeline/resources/_file_store_bucket.py:35-88 | every operation of a client with a bad source or dataset raises its ValueError |
| FileStoreBucket.DefaultSourceIsOwn | experiment/pipeline/resources/_file_store_bucket.py:37-91 | "default" behaves exactly as the client's own source in every operation |
| FileStoreBucket.AwsNotImplemented | experiment/pipeline/resources/_file_store_bucket.py:42-95 | AWS reads give "" and AWS writes leave the disk alone |
| FileStoreBucket.EndsWithContains | experiment/pipeline/resources/_file_store_bucket.py:50 | a name ending in ".json" contains ".json" |
| FileStoreBucket.DigitRunExact | experiment/pipeline/resources/_file_store_bucket.py:50 | a run of n digits followed by a non-digit is read as n digits |
| FileStoreBucket.CanonicalVersionName | experiment/pipeline/resources/_file_store_bucket.py:50-55 | the pattern reads the number n back from `v{n}.json` |
| FileStoreBucket.LatestOfCanonicalNames | experiment/pipeline/resources/_file_store_bucket.py:47-55 | over canonical version files, "latest" is the highest version; with none there is no version (the read returns []) |
| FileStoreBucket.WriteJsonAppends | experiment/pipeline/resources/_file_store_bucket.py:76-83 | appending writes the existing list followed by the new data; any other mode writes only the new data |
| FileStoreBucket.WriteThenReadFile | experiment/pipeline/resources/_file_store_bucket.py:82-101 | written data reads back through `read_file` as the same list |
| FileStoreBucket.ReadFileDispatch | experiment/pipeline/resources/_file_store_bucket.py:96-106 | False exactly for a missing path; otherwise ".json" is checked before ".csv", and anything else is plain text |
| Tracking.AssetNameOfKey | experiment/pipeline/resources/_mlflow.py:55 | cutting two characters off each end of `["name"]` gives the name back |
| Tracking.AssetParamsNamed | experiment/pipeline/resources/_mlflow.py:54-57 | one parameter per field, named asset name, a dash and the field, with the field's value |
| Tracking.ResourceParamsFiltered | experiment/pipeline/resources/_mlflow.py:67-70 | a field is logged, as class name, dash, field, exactly when its name contains none of "api_key", "tracking_client", "dagster_run_id_" and does not start with "_" |
| Tracking.PairsToMap | experiment/pipeline/resources/_mlflow.py:126 | a dict updated with a list succeeds only when every element is a string-keyed pair, each key then present |
| Tracking.MergeDictUpdates | experiment/pipeline/resources/_mlflow.py:125-126 | an existing dict updated with a dict keeps both key sets, the new value winning |
| Tracking.MergeListExtends | experiment/pipeline/resources/_mlflow.py:127-131 | an existing list keeps its elements first, then is extended by a list, or gets a dict as one more element |
| Tracking.StoredArtifactKeepsExisting | experiment/pipeline/resources/_mlflow.py:108-136 | an append that stores something keeps what the file held: a table's rows first (and grows by exactly the new rows; rows as the model stores them, exact for parquet, see Left out for csv), a JSON list's elements first, a JSON dict's keys |
| Tracking.StoredArtifactOverwrite | experiment/pipeline/resources/_mlflow.py:108-136 | outside append mode the write succeeds and its result does not depend on what was stored before |
| Tracking.TableAppendsCompose | experiment/pipeline/resources/_mlflow.py:108-118 | appending two tables in turn to a table file leaves what appending their rows joined leaves (exact for parquet; for csv see Left out) |
| Tracking.TrackingClient.constructor | experiment/pipeline/resources/_mlflow.py:14-28 | a client keeps its enabled flag and run id and has logged nothing |
| Tracking.TrackingClient.LogAssetConfig | experiment/pipeline/resources/_mlflow.py:51-57 | appends the asset's named parameters when enabled; nothing when disabled; nothing else changes |
| Tracking.TrackingClient.LogResourceConfig | experiment/pipeline/resources/_mlflow.py:59-70 | appends the filtered, class-named parameters when enabled; nothing when disabled; nothing else changes |
| Tracking.TrackingClient.LogMetric | experiment/pipeline/resources/_mlflow.py:72-76 | appends one metric named after the asset when enabled; nothing else changes |
| Tracking.TrackingClient.LogMetrics | experiment/pipeline/resources/_mlflow.py:78-81 | appends the given metrics without a step when enabled; nothing else changes |
| Tracking.TrackingClient.SetDataset | experiment/pipeline/resources/_mlflow.py:141-144 | sets the "dataset" tag when enabled; nothing else changes |
| Tracking.TrackingClient.LogArtifact | experiment/pipeline/resources/_mlflow.py:83-139 | disabled: no effect; enabled: the directory `artifacts/{run_id}/[{asset_key}/]` is created first, then a bad extension raises ValueError, else the file gets its merged contents and is uploaded unless local only |
| DesignModels.ExportAssets | experiment/design/_models.py:21-31 | the asset export has exactly the seven declared stages |
| DesignModels.ExportAssetsEntries | experiment/design/_models.py:30-31 | every stage's entry holds exactly "config", with all of that stage's fields |
| DesignModels.ExportAssetsFields | experiment/design/_models.py:22-31 | each stage exports its own settings, nothing removed |
| DesignModels.RetrievalDefaultsDiffer | experiment/design/_models.py:26-27 | the two retrieval stages share their defaults except `enabled` |
| DesignModels.DefaultRetrievalStages | experiment/design/_models.py:26-27 | by default `class_context_retrieval` exports `enabled = False` and `feedback_retrieval` exports `enabled = True` |
| DesignModels.AsFields | experiment/design/_models.py:46 | the dump as a dictionary has exactly the dumped names |
| DesignModels.RedactShrinks | experiment/design/_models.py:47-54 | the loop only removes settings, never changes a value |
| DesignModels.RedactUntouched | experiment/design/_models.py:47-48 | a setting the loop does not visit stays |
| DesignModels.RedactVisited | experiment/design/_models.py:48-54 | a visited setting survives exactly when it is neither a string naming a set environment variable nor "tracking_client" |
| DesignModels.RedactOk | experiment/design/_models.py:49-54 | every pop finds its setting except a "tracking_client" that names a set variable, which is popped twice (KeyError) |
| DesignModels.ExportResourceKeeps | experiment/design/_models.py:46-56 | a resource keeps a setting exactly when it is neither a secret nor "tracking_client", value unchanged; it fails exactly in the double-pop case |
| DesignModels.ExportAll | experiment/design/_models.py:42-57 | one entry per resource, each holding exactly "config" |
| DesignModels.ExportResourceLoop | experiment/design/_models.py:46-56 | the in-place loop over a copy computes exactly `ExportResource` |
| DesignModels.RedactAfterError | experiment/design/_models.py:48-54 | once a pop raises, the whole loop raises it |
| DesignModels.ExportResourcesLoop | experiment/design/_models.py:42-57 | the export loop computes exactly `ExportResources` over the six resources |
| DesignModels.ExportAllAfterError | experiment/design/_models.py:44-56 | once a resource raises, the whole export raises it |
| DesignModels.RedactDropsTracking | experiment/design/_models.py:53-54 | a successful loop has dropped a visited "tracking_client" |
| DesignModels.ExportDropsTracking | experiment/design/_models.py:53-56 | no resource's export keeps "tracking_client" |
| DesignModels.ExportsCleanly | experiment/design/_models.py:47-56 | distinct names with a non-string tracking client export without error and without it |
| DesignModels.DefaultDumpsDistinct1 | experiment/design/_models.py:35-40 | the bucket, vector-store and preprocessor defaults have distinct field names |
| DesignModels.DefaultDumpsDistinct2 | experiment/design/_models.py:36 | the LLM defaults have distinct field names |
| DesignModels.DefaultDumpsDistinct3 | experiment/design/_models.py:37 | the embedding-model defaults have distinct field names |
| DesignModels.DefaultDumpsDistinct4 | experiment/design/_models.py:39 | the tracking-client defaults have distinct field names |
| DesignModels.DefaultResourcesExport | experiment/design/_models.py:34-57 | the default resources export in every environment, six entries, none keeping a tracking client |
| DesignModels.ExportAllFromParts | experiment/design/_models.py:44-56 | when every resource exports cleanly, so does the whole loop |
| DesignModels.DefaultLlmSecrets | experiment/design/_models.py:49-52 | the default LLM's API keys leave the export exactly when their variables are set; `temperature` always stays |
| DesignFunctions.BuildSystemConfig | experiment/design/_functions.py:5-6 | the tree has exactly "ops" and "resources", holding the asset export and the resource export; it fails exactly when the resource export does |
| DesignFunctions.DefaultSystemConfig | experiment/design/_functions.py:5-6 | the default tree exists in every environment, with the seven stages under "ops" |
| DesignFunctions.AsList | experiment/design/_functions.py:11-12 | a single treatment becomes a one-element list; a list is kept |
| DesignFunctions.Section | experiment/design/_functions.py:14-19 | "Asset" targets "ops", "Resource" targets "resources", any other kind raises ValueError |
| DesignFunctions.ApplyTreatment | experiment/design/_functions.py:20 | the write succeeds exactly when section, key and "config" exist; KeyError for a missing section or key; a missing factor is inserted |
| DesignFunctions.IntroduceTreatment | experiment/design/_functions.py:9-21 | the loop over a copy gives `ApplyAll` of the treatments in list order; an empty list gives the tree back unchanged |
| DesignFunctions.ApplyOne | experiment/design/_functions.py:14-20 | one loop pass computes exactly `ApplyTreatment` |
| DesignFunctions.ApplyAllAfterError | experiment/design/_functions.py:13-20 | once a treatment raises, the whole call raises it |
| DesignFunctions.ApplyTreatmentShape | experiment/design/_functions.py:20 | one treatment keeps sections and stages and adds at most its own factor |
| DesignFunctions.ApplyTreatmentOthers | experiment/design/_functions.py:20 | one treatment leaves every other stage as it was |
| DesignFunctions.ApplyAllShape | experiment/design/_functions.py:13-20 | a successful call keeps the tree's sections and stages |
| DesignFunctions.ReachesKept | experiment/design/_functions.py:20 | trees of the same shape offer the same write paths |
| DesignFunctions.ApplyAllOk | experiment/design/_functions.py:13-20 | the call succeeds exactly when every treatment's section, key and "config" exist in the input tree |
| DesignFunctions.ApplyAllKeepsSettings | experiment/design/_functions.py:20 | when every factor written into a stage already exists, the stage keeps the same setting names |
| DesignFunctions.ApplyTreatmentLeaf | experiment/design/_functions.py:20 | the targeted leaf gets the value (inserted if missing); every other leaf is unchanged |
| DesignFunctions.LastWriteWins | experiment/design/_functions.py:13-20 | each leaf holds the value of the last treatment targeting it, or its old value when none does |
| DesignFunctions.Idempotent | experiment/design/_functions.py:13-20 | applying the same treatment twice equals applying it once |
| DesignFunctions.UpdateCommutes | experiment/design/_functions.py:20 | dictionary writes to different keys commute |
| DesignFunctions.WriteCommutes | experiment/design/_functions.py:20 | writes to different leaves commute |
| DesignFunctions.UpdateTwice | experiment/design/_functions.py:20 | a second write to a key replaces the first |
| DesignFunctions.WriteTwice | experiment/design/_functions.py:20 | two writes into one stage are the two factor updates of its "config" |
| DesignFunctions.SameStageCommutes | experiment/design/_functions.py:20 | writes to two factors of one stage commute |
| DesignFunctions.Commute | experiment/design/_functions.py:13-20 | two treatments writing different leaves give the same tree in either order |
| DesignFunctions.ApplyPair | experiment/design/_functions.py:13-20 | two treatments in a row: the second applies to the first's result, or the first's exception |
| DesignFunctions.ValidTreatmentNoValueError | experiment/design/_functions.py:14-20 | a validated treatment never raises ValueError, only KeyError for a missing stage |
| DesignFunctions.SingleIsList | experiment/design/_functions.py:11-12 | a single treatment behaves exactly like a one-element list holding it |
| Treatments.ClassContextAugmentedPromptWellFormed | experiment/design/treatments.py:10-25 | every treatment of `CLASS_CONTEXT_AUGMENTED_PROMPT` is validated and names an existing stage and default setting (an asset stage field, or a field of the `llm`/`embedding_preprocessor` defaults) |
| Treatments.LlmSummaryPromptWellFormed | experiment/design/treatments.py:27-42 | every treatment of `LLM_SUMMARY_PROMPT` is validated and names an existing stage and default setting (an asset stage field, or a field of the `llm`/`embedding_preprocessor` defaults) |
| Treatments.ImpersonatePromptStyleWellFormed | experiment/design/treatments.py:44-66 | every treatment of `IMPERSONATE_PROMPT_STYLE` is validated and names an existing stage and default setting (an asset stage field, or a field of the `llm`/`embedding_preprocessor` defaults) |
| Treatments.ParagraphsOutputFormatWellFormed | experiment/design/treatments.py:68-74 | every treatment of `PARAGRAPHS_OUTPUT_FORMAT` is validated and names an existing stage and default setting (an asset stage field, or a field of the `llm`/`embedding_preprocessor` defaults) |
| Treatments.MarkdownPromptStyleWellFormed | experiment/design/treatments.py:76-98 | every treatment of `MARKDOWN_PROMPT_STYLE` is validated and names an existing stage and default setting (an asset stage field, or a field of the `llm`/`embedding_preprocessor` defaults) |
| Treatments.OnboardingAblationWellFormed | experiment/design/treatments.py:100-115 | every treatment of `ONBOARDING_ABLATION` is validated and names an existing stage and default setting (an asset stage field, or a field of the `llm`/`embedding_preprocessor` defaults) |
| Treatments.DynamicTeacherModelAblationWellFormed | experiment/design/treatments.py:117-123 | every treatment of `DYNAMIC_TEACHER_MODEL_ABLATION` is validated and names an existing stage and default setting (an asset stage field, or a field of the `llm`/`embedding_preprocessor` defaults) |
| Treatments.OneShotTeacherModelUpdateWellFormed | experiment/design/treatments.py:125-131 | every treatment of `ONE_SHOT_TEACHER_MODEL_UPDATE` is validated and names an existing stage and default setting (an asset stage field, or a field of the `llm`/`embedding_preprocessor` defaults) |
| Treatments.LargeTeacherModelPromptWithClassContextWellFormed | experiment/design/treatments.py:133-162 | every treatment of `LARGE_TEACHER_MODEL_PROMPT_WITH_CLASS_CONTEXT` is validated and names an existing stage and default setting (an asset stage field, or a field of the `llm`/`embedding_preprocessor` defaults) |
| Treatments.LargeTeacherModelPromptWithoutClassContextWellFormed | experiment/design/treatments.py:164-179 | every treatment of `LARGE_TEACHER_MODEL_PROMPT_WITHOUT_CLASS_CONTEXT` is validated and names an existing stage and default setting (an asset stage field, or a field of the `llm`/`embedding_preprocessor` defaults) |
| Treatments.FewShotFeedbackAblationWellFormed | experiment/design/treatments.py:183-189 | every treatment of `FEW_SHOT_FEEDBACK_ABLATION` is validated and names an existing stage and default setting (an asset stage field, or a field of the `llm`/`embedding_preprocessor` defaults) |
| Treatments.TeacherModelAblationWellFormed | experiment/design/treatments.py:191-197 | every treatment of `TEACHER_MODEL_ABLATION` is validated and names an existing stage and default setting (an asset stage field, or a field of the `llm`/`embedding_preprocessor` defaults) |
| Treatments.EssayContextAblationWellFormed | experiment/design/treatments.py:199-205 | every treatment of `ESSAY_CONTEXT_ABLATION` is validated and names an existing stage and default setting (an asset stage field, or a field of the `llm`/`embedding_preprocessor` defaults) |
| Treatments.LargeFeedbackGenerationContextHeadWellFormed | experiment/design/treatments.py:207-250 | the first three treatments of `LARGE_FEEDBACK_GENERATION_CONTEXT` are validated and name existing default settings |
| Treatments.LargeFeedbackGenerationContextTailWellFormed | experiment/design/treatments.py:207-250 | the remaining treatments of `LARGE_FEEDBACK_GENERATION_CONTEXT` are validated and name existing default settings |
| Treatments.LargeFeedbackGenerationContextWellFormed | experiment/design/treatments.py:207-250 | every treatment of `LARGE_FEEDBACK_GENERATION_CONTEXT` is validated and names an existing stage and default setting (an asset stage field, or a field of the `llm`/`embedding_preprocessor` defaults) |
| Treatments.StrictFewShotFeedbackRetrievalWellFormed | experiment/design/treatments.py:252-258 | every treatment of `STRICT_FEW_SHOT_FEEDBACK_RETRIEVAL` is validated and names an existing stage and default setting (an asset stage field, or a field of the `llm`/`embedding_preprocessor` defaults) |
| Treatments.LooseFewShotFeedbackRetrievalWellFormed | experiment/design/treatments.py:260-266 | every treatment of `LOOSE_FEW_SHOT_FEEDBACK_RETRIEVAL` is validated and names an existing stage and default setting (an asset stage field, or a field of the `llm`/`embedding_preprocessor` defaults) |
| Treatments.OneShotFeedbackWellFormed | experiment/design/treatments.py:268-274 | every treatment of `ONE_SHOT_FEEDBACK` is validated and names an existing stage and default setting (an asset stage field, or a field of the `llm`/`embedding_preprocessor` defaults) |
| Treatments.StrictClassContextRetrievalWellFormed | experiment/design/treatments.py:276-291 | every treatment of `STRICT_CLASS_CONTEXT_RETRIEVAL` is validated and names an existing stage and default setting (an asset stage field, or a field of the `llm`/`embedding_preprocessor` defaults) |
| Treatments.LooseClassContextRetrievalWellFormed | experiment/design/treatments.py:293-308 | every treatment of `LOOSE_CLASS_CONTEXT_RETRIEVAL` is validated and names an existing stage and default setting (an asset stage field, or a field of the `llm`/`embedding_preprocessor` defaults) |
| Treatments.OneShotClassContextWellFormed | experiment/design/treatments.py:310-325 | every treatment of `ONE_SHOT_CLASS_CONTEXT` is validated and names an existing stage and default setting (an asset stage field, or a field of the `llm`/`embedding_preprocessor` defaults) |
| Treatments.SemanticChunkingWellFormed | experiment/design/treatments.py:329-351 | every treatment of `SEMANTIC_CHUNKING` is validated and names an existing stage and default setting (an asset stage field, or a field of the `llm`/`embedding_preprocessor` defaults) |
| Treatments.NltkChunkingWellFormed | experiment/design/treatments.py:353-375 | every treatment of `NLTK_CHUNKING` is validated and names an existing stage and default setting (an asset stage field, or a field of the `llm`/`embedding_preprocessor` defaults) |
| Treatments.SmallChunksHeadWellFormed | experiment/design/treatments.py:377-413 | the first three treatments of `SMALL_CHUNKS` are validated and name existing default settings |
| Treatments.SmallChunksTailWellFormed | experiment/design/treatments.py:377-413 | the remaining treatments of `SMALL_CHUNKS` are validated and name existing default settings |
| Treatments.SmallChunksWellFormed | experiment/design/treatments.py:377-413 | every treatment of `SMALL_CHUNKS` is validated and names an existing stage and default setting (an asset stage field, or a field of the `llm`/`embedding_preprocessor` defaults) |
| Treatments.LargeChunksHeadWellFormed | experiment/design/treatments.py:415-465 | the first three treatments of `LARGE_CHUNKS` are validated and name existing default settings |
| Treatments.LargeChunksTailWellFormed | experiment/design/treatments.py:415-465 | the remaining treatments of `LARGE_CHUNKS` are validated and name existing default settings |
| Treatments.LargeChunksWellFormed | experiment/design/treatments.py:415-465 | every treatment of `LARGE_CHUNKS` is validated and names an existing stage and default setting (an asset stage field, or a field of the `llm`/`embedding_preprocessor` defaults) |
| Treatments.GeminiProLlmWellFormed | experiment/design/treatments.py:484-490 | every treatment of `GEMINI_PRO_LLM` is validated and names an existing stage and default setting (an asset stage field, or a field of the `llm`/`embedding_preprocessor` defaults) |
| Treatments.Gpt35TurboLlmWellFormed | experiment/design/treatments.py:492-498 | every treatment of `GPT_35_TURBO_LLM` is validated and names an existing stage and default setting (an asset stage field, or a field of the `llm`/`embedding_preprocessor` defaults) |
| Treatments.Gpt4TurboLlmWellFormed | experiment/design/treatments.py:500-506 | every treatment of `GPT_4_TURBO_LLM` is validated and names an existing stage and default setting (an asset stage field, or a field of the `llm`/`embedding_preprocessor` defaults) |
| Treatments.HighTemperatureLlmWellFormed | experiment/design/treatments.py:508-514 | every treatment of `HIGH_TEMPERATURE_LLM` is validated and names an existing stage and default setting (an asset stage field, or a field of the `llm`/`embedding_preprocessor` defaults) |
| Treatments.LowTemperatureLlmWellFormed | experiment/design/treatments.py:516-522 | every treatment of `LOW_TEMPERATURE_LLM` is validated and names an existing stage and default setting (an asset stage field, or a field of the `llm`/`embedding_preprocessor` defaults) |
| Treatments.LowTopPLlmWellFormed | experiment/design/treatments.py:524-530 | every treatment of `LOW_TOP_P_LLM` is validated and names an existing stage and default setting (an asset stage field, or a field of the `llm`/`embedding_preprocessor` defaults) |
| Treatments.CompleteEmbeddingPreprocessWellFormed | experiment/design/treatments.py:532-554 | every treatment of `COMPLETE_EMBEDDING_PREPROCESS` is validated and names an existing stage and default setting (an asset stage field, or a field of the `llm`/`embedding_preprocessor` defaults) |
| Treatments.EmbeddingWithEssayContextEssayTextWellFormed | experiment/design/treatments.py:556-564 | every treatment of `EMBEDDING_WITH_ESSAY_CONTEXT_ESSAY_TEXT` is validated and names an existing stage and default setting (an asset stage field, or a field of the `llm`/`embedding_preprocessor` defaults) |
| Treatments.EmbeddingWithEssayContextEssayTextInstructionWellFormed | experiment/design/treatments.py:566-581 | every treatment of `EMBEDDING_WITH_ESSAY_CONTEXT_ESSAY_TEXT_INSTRUCTION` is validated and names an existing stage and default setting (an asset stage field, or a field of the `llm`/`embedding_preprocessor` defaults) |
| Treatments.ClassContextAugmentedPromptDistinct | experiment/design/treatments.py:10-25 | no two treatments of `CLASS_CONTEXT_AUGMENTED_PROMPT` target the same kind, key and factor, so their order does not matter |
| Treatments.LlmSummaryPromptDistinct | experiment/design/treatments.py:27-42 | no two treatments of `LLM_SUMMARY_PROMPT` target the same kind, key and factor, so their order does not matter |
| Treatments.ImpersonatePromptStyleDistinct | experiment/design/treatments.py:44-66 | no two treatments of `IMPERSONATE_PROMPT_STYLE` target the same kind, key and factor, so their order does not matter |
| Treatments.MarkdownPromptStyleDistinct | experiment/design/treatments.py:76-98 | no two treatments of `MARKDOWN_PROMPT_STYLE` target the same kind, key and factor, so their order does not matter |
| Treatments.OnboardingAblationDistinct | experiment/design/treatments.py:100-115 | no two treatments of `ONBOARDING_ABLATION` target the same kind, key and factor, so their order does not matter |
| Treatments.LargeTeacherModelPromptWithClassContextDistinct | experiment/design/treatments.py:133-162 | no two treatments of `LARGE_TEACHER_MODEL_PROMPT_WITH_CLASS_CONTEXT` target the same kind, key and factor, so their order does not matter |
| Treatments.LargeTeacherModelPromptWithoutClassContextDistinct | experiment/design/treatments.py:164-179 | no two treatments of `LARGE_TEACHER_MODEL_PROMPT_WITHOUT_CLASS_CONTEXT` target the same kind, key and factor, so their order does not matter |
| Treatments.LargeFeedbackGenerationContextDistinct | experiment/design/treatments.py:207-250 | no two treatments of `LARGE_FEEDBACK_GENERATION_CONTEXT` target the same kind, key and factor, so their order does not matter |
| Treatments.StrictClassContextRetrievalDistinct | experiment/design/treatments.py:276-291 | no two treatments of `STRICT_CLASS_CONTEXT_RETRIEVAL` target the same kind, key and factor, so their order does not matter |
| Treatments.LooseClassContextRetrievalDistinct | experiment/design/treatments.py:293-308 | no two treatments of `LOOSE_CLASS_CONTEXT_RETRIEVAL` target the same kind, key and factor, so their order does not matter |
| Treatments.OneShotClassContextDistinct | experiment/design/treatments.py:310-325 | no two treatments of `ONE_SHOT_CLASS_CONTEXT` target the same kind, key and factor, so their order does not matter |
| Treatments.SemanticChunkingDistinct | experiment/design/treatments.py:329-351 | no two treatments of `SEMANTIC_CHUNKING` target the same kind, key and factor, so their order does not matter |
| Treatments.NltkChunkingDistinct | experiment/design/treatments.py:353-375 | no two treatments of `NLTK_CHUNKING` target the same kind, key and factor, so their order does not matter |
| Treatments.SmallChunksDistinct | experiment/design/treatments.py:377-413 | no two treatments of `SMALL_CHUNKS` target the same kind, key and factor, so their order does not matter |
| Treatments.LargeChunksDistinct | experiment/design/treatments.py:415-465 | no two treatments of `LARGE_CHUNKS` target the same kind, key and factor, so their order does not matter |
| Treatments.CompleteEmbeddingPreprocessDistinct | experiment/design/treatments.py:532-554 | no two treatments of `COMPLETE_EMBEDDING_PREPROCESS` target the same kind, key and factor, so their order does not matter |
| Treatments.EmbeddingWithEssayContextEssayTextDistinct | experiment/design/treatments.py:556-564 | no two treatments of `EMBEDDING_WITH_ESSAY_CONTEXT_ESSAY_TEXT` target the same kind, key and factor, so their order does not matter |
| Treatments.EmbeddingWithEssayContextEssayTextInstructionDistinct | experiment/design/treatments.py:566-581 | no two treatments of `EMBEDDING_WITH_ESSAY_CONTEXT_ESSAY_TEXT_INSTRUCTION` target the same kind, key and factor, so their order does not matter |
| Treatments.ImpersonateEverywhere | experiment/design/treatments.py:44-66 | IMPERSONATE is an instruction style of all three prompt stages |
| Treatments.ImpersonateStyleRegistered | experiment/design/treatments.py:44-66 | `IMPERSONATE_PROMPT_STYLE` sets `instruction_style` to IMPERSONATE, a style every targeted director registers |
| Treatments.ParagraphFormatRegistered | experiment/design/treatments.py:68-74 | `PARAGRAPHS_OUTPUT_FORMAT` sets `output_format` to a registered output format |
| Treatments.VersionTwoBuilds | experiment/design/treatments.py:76-98 | the prompt layer has a builder for template version 2 |
| Treatments.MarkdownVersionRegistered | experiment/design/treatments.py:76-98 | `MARKDOWN_PROMPT_STYLE` only sets `version` to 2, which is a registered template version |
| Treatments.PromptLayerSectionWellFormed | experiment/design/treatments.py:8-179 | every prompt-layer treatment is well-formed against the defaults |
| Treatments.PromptLayerSectionDistinct | experiment/design/treatments.py:8-179 | no prompt-layer group targets one setting twice |
| Treatments.FeedbackGenerationSectionWellFormed | experiment/design/treatments.py:181-325 | every feedback-generation treatment is well-formed against the defaults |
| Treatments.FeedbackGenerationSectionDistinct | experiment/design/treatments.py:181-325 | no feedback-generation group targets one setting twice |
| Treatments.DataProcessingSectionWellFormed | experiment/design/treatments.py:327-465 | every data-processing treatment is well-formed against the defaults |
| Treatments.DataProcessingSectionDistinct | experiment/design/treatments.py:327-465 | no data-processing group targets one setting twice |
| Treatments.ResourceSectionWellFormed | experiment/design/treatments.py:467-581 | every resource treatment is well-formed against the defaults: Resource keys are only `llm` or `embedding_preprocessor` |
| Treatments.ResourceSectionDistinct | experiment/design/treatments.py:467-581 | no resource group targets one setting twice |
| Treatments.CatalogueWellFormed | experiment/design/treatments.py:6-581 | every catalogue entry consists of validated treatments aimed at existing default settings |
| Treatments.CatalogueDistinct | experiment/design/treatments.py:6-581 | no catalogue entry writes the same setting twice |
| Treatments.DefaultTree | experiment/design/_functions.py:5-6 | the default tree has "ops" and "resources" holding the two default exports |
| Treatments.TargetReachesDefault | experiment/design/_functions.py:20 | a well-formed treatment's path exists in the default tree in every environment |
| Treatments.TreatedResourcesExported | experiment/design/_models.py:36-56 | `llm` and `embedding_preprocessor` are exported with a "config" entry |
| Treatments.WellFormedApplies | experiment/design/_functions.py:13-20 | well-formed treatments apply to the default tree without raising |
| Treatments.WellFormedOverridesOnly | experiment/design/_functions.py:20 | well-formed treatments only override existing asset settings of the default tree, never insert one |
| Treatments.DefaultBaseLeaves | experiment/pipeline/assets/prompt_layer.py:22-29 | the default base settings: onboarding only, no summary, DESCRIBE, BULLET_POINTS |
| Treatments.BaseDefaultsLeaves | experiment/pipeline/assets/prompt_layer.py:22-29 | a stage holding the base defaults reads back those five settings |
| Treatments.DefaultBaseAccepted | experiment/prompt/_directors.py:55-66 | the base director accepts the default base settings |
| Treatments.BaseAfter | experiment/design/_functions.py:13-20 | after well-formed treatments each base setting is the last write to it, or the default |
| Treatments.PairBaseLeaf | experiment/design/_functions.py:13-20 | after two treatments a base setting is the second one's value, else the first one's, else the default |
| Treatments.SingleBaseLeaf | experiment/design/_functions.py:13-20 | after one treatment a base setting is its value if it targets it, else the default |
| Treatments.BaseAccepts | experiment/prompt/_directors.py:55-60 | with the default style and format, the base director accepts the settings exactly when class context or onboarding is on and summary implies class context |
| Treatments.SummaryLeaves | experiment/design/treatments.py:27-42 | after `LLM_SUMMARY_PROMPT`: class context, onboarding and summary all on |
| Treatments.SummaryAloneLeaves | experiment/design/treatments.py:27-34 | after its first treatment alone: summary on, class context off |
| Treatments.SummaryNeedsClassContext | experiment/design/treatments.py:27-42 | `LLM_SUMMARY_PROMPT` keeps the base director valid; its summary treatment alone would be rejected |
| Treatments.AblationLeaves | experiment/design/treatments.py:100-115 | after `ONBOARDING_ABLATION`: onboarding off, class context on |
| Treatments.AblationAloneLeaves | experiment/design/treatments.py:100-107 | after its first treatment alone: neither onboarding nor class context |
| Treatments.AblationNeedsClassContext | experiment/design/treatments.py:100-115 | `ONBOARDING_ABLATION` keeps the base director valid; its first treatment alone would be rejected |
| PromptLayerAssets.ClassContextFor | experiment/pipeline/assets/prompt_layer.py:47-48 | a teacher's class documents are name/content entries, never more than the documents |
| PromptLayerAssets.ClassContextConcat | experiment/pipeline/assets/prompt_layer.py:47-48 | the selection splits along the document list, keeping list order |
| PromptLayerAssets.ClassContextSingle | experiment/pipeline/assets/prompt_layer.py:47-48 | one document is selected, as `{document_name, document_content}`, exactly when its `user_id` is the teacher's |
| PromptLayerAssets.ClassContextOthers | experiment/pipeline/assets/prompt_layer.py:47 | documents of other teachers never reach a teacher's prompt |
| PromptLayerAssets.OnboardingDocs | experiment/pipeline/assets/prompt_layer.py:49 | one question/response entry per onboarding answer, in order |
| PromptLayerAssets.BasePromptForComposes | experiment/pipeline/assets/prompt_layer.py:47-53 | a teacher's base prompt is CREATE filled with that teacher's own class documents and onboarding answers |
| PromptLayerAssets.TeacherModelBaseRun | experiment/pipeline/assets/prompt_layer.py:41-60 | the teacher list keeps its length; success needs a teacher (the debug line reads the first); a failed director construction leaves the list untouched |
| PromptLayerAssets.TeacherModelBaseUpdates | experiment/pipeline/assets/prompt_layer.py:46-60 | success exactly when there is a teacher and every prompt builds; then each teacher's persona is the model's answer to its own prompt and nothing else changes |
| PromptLayerAssets.TeacherModelBaseFirstError | experiment/pipeline/assets/prompt_layer.py:46-54 | the first teacher whose prompt fails decides the exception; earlier teachers already have new personas, later ones are untouched |
| PromptLayerAssets.TeacherModelBase | experiment/pipeline/assets/prompt_layer.py:41-60 | the caller's teacher list is changed in place to `TeacherModelBaseRun` of the list before the call |
| PromptLayerAssets.OwnFeedback | experiment/pipeline/assets/prompt_layer.py:74 | a teacher's feedback is a sub-list of all feedback |
| PromptLayerAssets.OwnFeedbackFilters | experiment/pipeline/assets/prompt_layer.py:74 | exactly the teacher's feedback items, each as often as it occurs, nothing else |
| PromptLayerAssets.PrefixMultiset | experiment/pipeline/assets/prompt_layer.py:83 | a slice's prefix holds nothing the list does not |
| PromptLayerAssets.SelectedSample | experiment/pipeline/assets/prompt_layer.py:80-83 | for a shuffle that permutes, the examples are a sample of the teacher's feedback of size min(len, `max_examples`), and the whole list in order when it fits |
| PromptLayerAssets.ExampleDocs | experiment/pipeline/assets/prompt_layer.py:85 | one highlighted-text/feedback-text entry per example, in order |
| PromptLayerAssets.UpdatePromptForComposes | experiment/pipeline/assets/prompt_layer.py:74-90 | a teacher with feedback gets UPDATE filled with its current persona and a sample of its own feedback |
| PromptLayerAssets.NoExamplesRefused | experiment/pipeline/assets/prompt_layer.py:80-90 | with `max_examples` 0 a teacher with feedback gets no examples, which the director refuses with AssertionError |
| PromptLayerAssets.PromptsLoopOk | experiment/pipeline/assets/prompt_layer.py:70-90 | the loop succeeds exactly when every teacher's prompt outcome does |
| PromptLayerAssets.PromptsLoopKeys | experiment/pipeline/assets/prompt_layer.py:70-90 | one entry per input teacher id |
| PromptLayerAssets.PromptsLoopSource | experiment/pipeline/assets/prompt_layer.py:70-90 | each entry is the outcome of some teacher with that id |
| PromptLayerAssets.PromptsLoopLast | experiment/pipeline/assets/prompt_layer.py:70-90 | the last teacher with an id decides its entry |
| PromptLayerAssets.PromptsLoopAfterError | experiment/pipeline/assets/prompt_layer.py:70-90 | once a prompt raises, the loop raises it |
| PromptLayerAssets.PromptsLoopCount | experiment/pipeline/assets/prompt_layer.py:79-92 | with distinct teacher ids the update count equals the number of non-None entries |
| PromptLayerAssets.PromptsLoopNone | experiment/pipeline/assets/prompt_layer.py:71-77 | when no teacher gets a prompt, every entry is None and the count is 0 |
| PromptLayerAssets.BuildPrompts | experiment/pipeline/assets/prompt_layer.py:67-90 | the loop fills the dictionary and the count exactly as `PromptsLoop` |
| PromptLayerAssets.UpdatePromptRun | experiment/pipeline/assets/prompt_layer.py:69 | a failed director construction is the asset's exception, before any teacher is visited |
| PromptLayerAssets.UpdateDisabled | experiment/pipeline/assets/prompt_layer.py:71-73 | switched off, every teacher id maps to None and nothing is counted |
| PromptLayerAssets.UpdateWithoutFeedback | experiment/pipeline/assets/prompt_layer.py:74-77 | a teacher id without feedback maps to None |
| PromptLayerAssets.TeacherModelUpdatePrompt | experiment/pipeline/assets/prompt_layer.py:63-93 | the prompts by teacher id and the update count are `UpdatePromptRun` of the configured director |
| PromptLayerAssets.ModelsLoop | experiment/pipeline/assets/prompt_layer.py:105-110 | the teacher list keeps its length |
| PromptLayerAssets.ModelsLoopOk | experiment/pipeline/assets/prompt_layer.py:105-110 | success exactly when every teacher id has an entry; then each teacher is updated by its own entry, and the result has one persona per teacher id |
| PromptLayerAssets.ModelsLoopLast | experiment/pipeline/assets/prompt_layer.py:110 | the last teacher with an id decides the persona returned for it |
| PromptLayerAssets.ModelsLoopMissing | experiment/pipeline/assets/prompt_layer.py:106 | the first teacher without an entry raises KeyError; earlier teachers are updated, later ones untouched |
| PromptLayerAssets.ModelsLoopAfterError | experiment/pipeline/assets/prompt_layer.py:105-110 | once a lookup fails, later teachers are untouched |
| PromptLayerAssets.ModelsLoopStep | experiment/pipeline/assets/prompt_layer.py:105-110 | one more teacher: replaced only when its prompt is not None, and its persona recorded |
| PromptLayerAssets.TeacherModel | experiment/pipeline/assets/prompt_layer.py:97-114 | the caller's teachers are changed in place, and the personas returned, as `ModelsLoop` of the list before the call |
| PromptLayerAssets.UpdateThenModel | experiment/pipeline/assets/prompt_layer.py:70-110 | on the teachers the prompts were built from, `teacher_model` never raises KeyError, and a teacher without feedback keeps its base persona |
| PromptLayerAssets.DisabledKeepsBase | experiment/pipeline/assets/prompt_layer.py:71-110 | switched off, the update leaves every persona as the base asset made it |
| FeedbackGenerationTask.MatchingConcat | experiment/pipeline/assets/feedback_generation_task.py:80-84 | a request's group is its results in result order, so grouping distributes over concatenation |
| FeedbackGenerationTask.MatchingMembers | experiment/pipeline/assets/feedback_generation_task.py:80-84 | a group holds exactly the converted results that carry its request id |
| FeedbackGenerationTask.GroupedCovers | experiment/pipeline/assets/feedback_generation_task.py:80-84 | one group per distinct request id in the results, none empty, and every result in its own request's group |
| FeedbackGenerationTask.MatchingKeys | experiment/pipeline/assets/feedback_generation_task.py:82-84 | a group inherits the keys every converted result has |
| FeedbackGenerationTask.GroupedKeys | experiment/pipeline/assets/feedback_generation_task.py:80-124 | every grouped feedback example has `feedback_text` and `highlighted_text`, every class passage `document_name` and `document_content` |
| FeedbackGenerationTask.MatchingStep | experiment/pipeline/assets/feedback_generation_task.py:81-84 | one more result extends only its own request's group |
| FeedbackGenerationTask.GroupByRequest | experiment/pipeline/assets/feedback_generation_task.py:80-84 | the grouping loop produces exactly `Grouped` of the results |
| FeedbackGenerationTask.Prepared | experiment/pipeline/assets/feedback_generation_task.py:67-71 | preparation keeps one request per request |
| FeedbackGenerationTask.RetrievalRun | experiment/pipeline/assets/feedback_generation_task.py:61-86 | switched off gives None; switched on and successful gives a map, possibly empty, never None |
| FeedbackGenerationTask.Retrieval | experiment/pipeline/assets/feedback_generation_task.py:45-126 | switched off leaves the requests untouched; otherwise the caller's requests are preprocessed and embedded in place, searched, and the outcome grouped as `RetrievalRun` |
| FeedbackGenerationTask.GenerationDirector | experiment/pipeline/assets/feedback_generation_task.py:141-147 | the director builds exactly for version 1 or 2 with at least one section on; few-shot and class-context sections are on exactly when the retrieval produced a map |
| FeedbackGenerationTask.Defaulted | experiment/pipeline/assets/feedback_generation_task.py:148-151 | a switched-off retrieval stands for an empty list for every request id; a produced map is kept |
| FeedbackGenerationTask.NoExamples | experiment/pipeline/assets/feedback_generation_task.py:148-158 | a request reads no examples when its retrieval was switched off or found nothing for it |
| FeedbackGenerationTask.EssayDocs | experiment/pipeline/assets/feedback_generation_task.py:153 | one name/content document per essay context, in order |
| FeedbackGenerationTask.EssayInput | experiment/pipeline/assets/feedback_generation_task.py:153 | every essay document passed to the director has a name and a content |
| FeedbackGenerationTask.GenerationPromptRun | experiment/pipeline/assets/feedback_generation_task.py:147-162 | the request list keeps its length; success needs a request (the debug line reads the first); a failed director construction leaves the requests untouched |
| FeedbackGenerationTask.GenerationPromptsAssigned | experiment/pipeline/assets/feedback_generation_task.py:152-162 | on success every request has a prompt and nothing else about it changes |
| FeedbackGenerationTask.UnknownTeacherFails | experiment/pipeline/assets/feedback_generation_task.py:156 | a request whose teacher has no persona entry raises KeyError |
| FeedbackGenerationTask.GenerationStepComposes | experiment/pipeline/assets/feedback_generation_task.py:152-160 | a request's prompt is FEEDBACK_GENERATION filled with its own texts, its teacher's persona, its own retrieved examples and its assignment's documents |
| FeedbackGenerationTask.FeedbackGenerationPrompt | experiment/pipeline/assets/feedback_generation_task.py:129-162 | the caller's requests are changed in place as `GenerationPromptRun` of the configured director |

## Left out

- The LLM, the embedding model, tiktoken token counting and the similarity measure are function parameters. `call_gpt`, the LLM and embedding clients and their cost estimation are not part of this model.
- The rendering of langchain's prompt templates is modelled as the substitution and joining the templates perform. Pydantic validation, aliasing and `model_dump` are library behaviour: records are plain datatypes.
- Floating-point scores are abstract ordered values. Thresholds are real numbers. Cosine and dot-product arithmetic is left to the similarity parameter.
- `random.shuffle` is a parameter. `PromptLayerAssets.SelectedSample` assumes only that the parameter permutes its input.
- File I/O and S3 are a file-system value (a map from paths to contents). Directory listing is the set of its names. CSV and parquet parsing is not modelled; the table append is modelled on row sequences.
- Dagster orchestration, logging, the sensors, `llm_feedback` (it calls the LLM and reads the clock) and the `feedback_request` asset (a bucket read) are not part of this model.
- The tracking client's `setup_for_execution`, `teardown_after_execution` and `delete_artifacts` (polling, sleeping, shell commands) are not part of this model. The MLflow calls themselves become records of what is logged.
- Unicode: strings are sequences of characters with no normalisation. Dictionary iteration order is not modelled where the result does not depend on it.
- A stored metadata value that is not a string is read back as None.
- The retrieval assets mutate the request objects they share with the other assets. The model changes the caller's array in place, but it does not carry that aliasing on to later assets.
- `FeedbackGenerationTask.FeedbackGenerationPrompt`: two requests that share a `request_id` receive the same retrieved-feedback list and the same class-context list, and the director trims those lists' texts in place. The second build therefore sees texts already trimmed (with a per-document budget of 4, "ab" becomes "ab..." and then "ab....."). The model builds every request from the untrimmed retrieval maps, so it matches the code only when request ids are distinct.
- `FeedbackGenerationTask.GenerationStep`: the step for one request takes the retrieval maps as values and returns only the new request. It does not pass the in-place trimming of a shared list on to a later request with the same `request_id` (see the line above).
- `PromptBuilder.FormatNoArgs`: field numbers are ASCII digits only (Python's `isdigit` test also accepts other Unicode digits), and a number too large for a Python index is not modelled (Python raises ValueError there, the model IndexError). The lookup follows `string.Formatter`, which langchain's strict formatter uses: `{.a}` raises KeyError('') there, where plain `str.format` would raise IndexError.
- `PromptBuilder.ParseField`: the absence of `{` and `!` in a field does not make it parse. A `[` runs to the next `]` even past the closing brace, so `{a[}` raises ValueError (`PromptBuilder.UnclosedBracketFieldExample`). The contract therefore promises a parse only for fields with no brace, no `[` and no `!` (`PromptBuilder.ParseFieldOfPlainText`).
- `DesignFunctions.Commute`: is proved for two treatments that write different leaves. Invariance under any reordering of a group follows by adjacent swaps, but it is not stated as a single lemma.
- `Tracking.PairsToMap`: `dict(...)` over key/value pairs is modelled only for two-element lists with string keys. Any other item is a TypeError.
- `PromptLayerAssets.PromptsLoopCount`: the logged update count equals the number of non-None entries only when teacher ids are distinct. With repeated ids the code counts teacher visits, and the model states exactly that.
- `PromptLayerAssets.TeacherModelUpdatePrompt`: the teacher list is a sequence value, because the asset does not change it. The director is built, and can raise KeyError on an unknown version, even when updating is disabled, as in the code.
- `DesignModels`: a resource dependency that dumps as None is modelled as a null value.
- The stale test file of the teacher-model assets passes arguments that the directors do not accept. It is not used as a reference.
- `VectorStore.VectorStoreClient.Search`: with the score "dot-product" the code computes `np.dot([x], [q])` on two 1×N matrices. For any stored embedding of more than one dimension numpy raises ValueError (shapes not aligned), so a dot-product search over stored rows fails in the code. The model instead ranks those rows with the similarity parameter. No treatment of the experiment selects "dot-product".
- `VectorStore.SortByScore`: `sort_values` with its default quicksort makes no promise about the order of equal scores. The model fixes one order (stable, in table order), so among tied rows the `top_k` cut may keep different rows than the code does.
- `FileStoreBucket.DigitRun`: `\d` in Python's `re` also matches non-ASCII Unicode digits, and `int` accepts them. The model reads ASCII digits only, so a file name such as "v٣.json" is not listed as a version.
- `FileStoreBucket.SearchVersion`: the same ASCII-only reading of `\d` as `FileStoreBucket.DigitRun`.
- `FileStoreBucket.ReadFileDispatch`: a path that names a directory exists, so `open` raises IsADirectoryError in the code. The file-system value holds files only, so the model returns False for such a path.
- `Tracking.TrackingClient.LogArtifact`: when the data's kind does not match the extension (a DataFrame to ".json", a list or dict to ".csv"), the code writes nothing and then, with `local_only` false, still calls `mlflow.log_artifact` on a path that may not exist. The model records that upload as the code requests it, and does not model MLflow's own failure on a missing file.
- `Tracking.StoredArtifact`: a ".csv" table is stored as its rows, but `to_csv` also writes the DataFrame index as a first column. The next append's `read_csv` reads that index back as an extra "Unnamed: 0" column, the new rows get NaN in it, and every later append adds one more such column ("Unnamed: 0.1", …). The model does not track that column. So for ".csv", `Tracking.StoredArtifactKeepsExisting` (existing rows kept as they were), `Tracking.TableAppendsCompose` (two appends equal one joined append) and `Tracking.TrackingClient.LogArtifact` hold for the rows as modelled, not for the file pandas writes. For ".parquet" the index is stored as the index, and they hold as stated.

=== FILE: design_functions.dfy ===
/** Composing an experiment's configuration (experiment/design/_functions.py): the default
    tree of both sections, and treatments written into a copy of a tree. The copy is a value
    here, so the caller's tree can never change. */
module DesignFunctions {
  import opened Wrappers
  import opened Values
  import opened DesignModels

  /** `build_system_config`: the asset export under "ops", the resource export under
      "resources". */
  function BuildSystemConfig(a: AssetConfigurations, rc: ResourceConfigurations, env: Environment): (r: Result<ConfigTree>)
    ensures r.Ok? <==> ExportResources(rc, env).Ok?
    ensures r.Ok? ==> r.value.Keys == {"ops", "resources"}
                      && r.value["ops"] == ExportAssets(a)
                      && r.value["resources"] == ExportResources(rc, env).value
  {
    var exported := ExportResources(rc, env);
    if exported.Err? then Err(exported.error)
    else
      Ok(map["ops" := ExportAssets(a), "resources" := exported.value])
  }

  /** The default tree exists in every environment, with the seven stages under "ops". */
  lemma DefaultSystemConfig(env: Environment)
    ensures BuildSystemConfig(DefaultAssetConfigurations, DefaultResourceConfigurations, env).Ok?
    ensures BuildSystemConfig(DefaultAssetConfigurations, DefaultResourceConfigurations, env).value["ops"].Keys == AssetStages
  {
    DefaultResourcesExport(env);
  }

  /** The argument: one treatment or a list of them. */
  datatype TreatmentArg = One(treatment: Treatment) | Several(treatments: seq<Treatment>)

  /** A single treatment is wrapped in a list. */
  function AsList(arg: TreatmentArg): (r: seq<Treatment>)
    ensures arg.One? ==> r == [arg.treatment]
    ensures arg.Several? ==> r == arg.treatments
  {
    match arg
    case One(t) => [t]
    case Several(ts) => ts
  }

  /** The section a treatment writes into. */
  function Section(t: Treatment): (r: Result<string>)
    ensures r.Ok? <==> ValidTreatment(t)
    ensures r.Err? ==> r.error.ValueError?
    ensures t.dagsterType == "Asset" ==> r == Ok("ops")
    ensures t.dagsterType == "Resource" ==> r == Ok("resources")
  {
    if t.dagsterType == "Asset" then Ok("ops")
    else if t.dagsterType == "Resource" then Ok("resources")
    else Err(ValueError("Unknown Dagster type " + t.dagsterType))
  }

  /** `cfg[section][key]["config"][factor] = value`: each lookup raises KeyError on a
      missing key, the last assignment inserts a missing factor. */
  function ApplyTreatment(cfg: ConfigTree, t: Treatment): (r: Result<ConfigTree>)
    ensures r.Ok? <==> Section(t).Ok? && Section(t).value in cfg && t.key in cfg[Section(t).value]
                       && "config" in cfg[Section(t).value][t.key]
    ensures Section(t).Ok? && Section(t).value !in cfg ==> r == Err(KeyError(Section(t).value))
    ensures Section(t).Ok? && Section(t).value in cfg && t.key !in cfg[Section(t).value] ==> r == Err(KeyError(t.key))
  {
    var section :- Section(t);
    if section !in cfg then Err(KeyError(section))
    else if t.key !in cfg[section] then Err(KeyError(t.key))
    else if "config" !in cfg[section][t.key] then Err(KeyError("config"))
    else Ok(Write(cfg, section, t.key, t.factor, t.value))
  }

  /** The nested assignment into a tree whose stage has a "config" entry. */
  function Write(cfg: ConfigTree, section: string, key: string, factor: string, value: Value): ConfigTree
    requires section in cfg && key in cfg[section] && "config" in cfg[section][key]
  {
    var stage := cfg[section][key];
    cfg[section := cfg[section][key := stage["config" := stage["config"][factor := value]]]]
  }

  /** The loop over the first treatments: the first failure is raised. */
  function ApplyAll(cfg: ConfigTree, ts: seq<Treatment>): Result<ConfigTree>
  {
    if ts == [] then Ok(cfg)
    else
      var before :- ApplyAll(cfg, ts[..|ts| - 1]);
      ApplyTreatment(before, ts[|ts| - 1])
  }

  /** `introduce_treatment`: walks the treatments over a copy of the tree; an empty list gives the
      tree back as it was. */
  method IntroduceTreatment(cfg: ConfigTree, arg: TreatmentArg) returns (r: Result<ConfigTree>)
    ensures r == ApplyAll(cfg, AsList(arg))
    ensures AsList(arg) == [] ==> r == Ok(cfg)
  {
    var treatments := AsList(arg);
    var config := cfg;
    var i := 0;
    while i < |treatments|
      invariant 0 <= i <= |treatments|
      invariant ApplyAll(cfg, treatments[..i]) == Ok(config)
    {
      assert treatments[..i + 1][..i] == treatments[..i];
      var next := ApplyOne(config, treatments[i]);
      if next.Err? {
        ApplyAllAfterError(cfg, treatments, i + 1);
        return next;
      }
      config := next.value;
      i := i + 1;
    }
    assert treatments[..i] == treatments;
    r := Ok(config);
  }

  /** One pass of the loop: pick the section, then assign through the nested lookups. */
  method ApplyOne(config: ConfigTree, t: Treatment) returns (r: Result<ConfigTree>)
    ensures r == ApplyTreatment(config, t)
  {
    var section: string;
    if t.dagsterType == "Asset" {
      section := "ops";
    } else if t.dagsterType == "Resource" {
      section := "resources";
    } else {
      return Err(ValueError("Unknown Dagster type " + t.dagsterType));
    }
    if section !in config {
      return Err(KeyError(section));
    }
    if t.key !in config[section] {
      return Err(KeyError(t.key));
    }
    if "config" !in config[section][t.key] {
      return Err(KeyError("config"));
    }
    r := Ok(Write(config, section, t.key, t.factor, t.value));
  }

  /** Once a treatment raises, the whole call raises it. */
  lemma {:induction false} ApplyAllAfterError(cfg: ConfigTree, ts: seq<Treatment>, n: nat)
    requires 0 < n <= |ts|
    requires ApplyAll(cfg, ts[..n]).Err?
    ensures ApplyAll(cfg, ts) == ApplyAll(cfg, ts[..n])
    decreases |ts| - n
  {
    if n < |ts| {
      assert ts[..n + 1][..n] == ts[..n];
      ApplyAllAfterError(cfg, ts, n + 1);
    } else {
      assert ts[..n] == ts;
    }
  }

  // ===================== PROPERTIES =====================

  /** `cfg[section][key]["config"][factor]`, when every level exists. */
  function Leaf(cfg: ConfigTree, section: string, key: string, factor: string): Option<Value>
  {
    if section in cfg && key in cfg[section] && "config" in cfg[section][key] && factor in cfg[section][key]["config"]
    then Some(cfg[section][key]["config"][factor])
    else None
  }

  /** The treatment writes that leaf. */
  predicate Targets(t: Treatment, section: string, key: string, factor: string)
  {
    Section(t) == Ok(section) && t.key == key && t.factor == factor
  }

  /** The value of the last treatment that writes the leaf, if any does. */
  function LastValue(ts: seq<Treatment>, section: string, key: string, factor: string): Option<Value>
  {
    if ts == [] then None
    else if Targets(ts[|ts| - 1], section, key, factor) then Some(ts[|ts| - 1].value)
    else LastValue(ts[..|ts| - 1], section, key, factor)
  }

  /** The tree keeps its sections, stages and "config" entries; settings are only added. */
  predicate ShapeKept(before: ConfigTree, after: ConfigTree)
  {
    && before.Keys == after.Keys
    && (forall s :: s in before ==> before[s].Keys == after[s].Keys)
    && (forall s, k :: s in before && k in before[s] ==> before[s][k].Keys == after[s][k].Keys)
    && (forall s, k :: s in before && k in before[s] && "config" in before[s][k] ==>
          before[s][k]["config"].Keys <= after[s][k]["config"].Keys)
  }

  /** One treatment keeps the shape and adds at most its own factor. */
  lemma ApplyTreatmentShape(cfg: ConfigTree, t: Treatment)
    requires ApplyTreatment(cfg, t).Ok?
    ensures ShapeKept(cfg, ApplyTreatment(cfg, t).value)
    ensures var s := Section(t).value;
            ApplyTreatment(cfg, t).value[s][t.key]["config"].Keys == cfg[s][t.key]["config"].Keys + {t.factor}
  {
  }

  /** One treatment leaves every stage but its own as it was. */
  lemma ApplyTreatmentOthers(cfg: ConfigTree, t: Treatment, s: string, k: string)
    requires ApplyTreatment(cfg, t).Ok?
    requires s in cfg && k in cfg[s] && (s, k) != (Section(t).value, t.key)
    ensures s in ApplyTreatment(cfg, t).value && k in ApplyTreatment(cfg, t).value[s]
    ensures ApplyTreatment(cfg, t).value[s][k] == cfg[s][k]
  {
  }

  /** A call that succeeds keeps the tree's shape. */
  lemma {:induction false} ApplyAllShape(cfg: ConfigTree, ts: seq<Treatment>)
    requires ApplyAll(cfg, ts).Ok?
    ensures ShapeKept(cfg, ApplyAll(cfg, ts).value)
  {
    if ts != [] {
      var before := ApplyAll(cfg, ts[..|ts| - 1]).value;
      ApplyAllShape(cfg, ts[..|ts| - 1]);
      ApplyTreatmentShape(before, ts[|ts| - 1]);
    }
  }

  /** The path a treatment writes through: its section, its stage and the stage's "config"
      entry. */
  predicate Reaches(cfg: ConfigTree, t: Treatment)
  {
    Section(t).Ok? && Section(t).value in cfg && t.key in cfg[Section(t).value]
    && "config" in cfg[Section(t).value][t.key]
  }

  /** A tree of the same shape offers the same paths. */
  lemma ReachesKept(before: ConfigTree, after: ConfigTree, t: Treatment)
    requires ShapeKept(before, after)
    ensures Reaches(after, t) <==> Reaches(before, t)
  {
  }

  /** The treatments all apply exactly when each one's path exists in the tree passed in:
      earlier treatments add settings but never sections or stages. */
  lemma {:induction false} ApplyAllOk(cfg: ConfigTree, ts: seq<Treatment>)
    ensures ApplyAll(cfg, ts).Ok? <==> forall i :: 0 <= i < |ts| ==> Reaches(cfg, ts[i])
  {
    if ts != [] {
      var init := ts[..|ts| - 1];
      ApplyAllOk(cfg, init);
      assert forall i :: 0 <= i < |init| ==> init[i] == ts[i];
      if ApplyAll(cfg, init).Ok? {
        ApplyAllShape(cfg, init);
        ReachesKept(cfg, ApplyAll(cfg, init).value, ts[|ts| - 1]);
      }
    }
  }

  /** When every factor a call writes into a stage is already among that stage's settings,
      the stage ends with the same setting names: values are overridden, none inserted. */
  lemma {:induction false} ApplyAllKeepsSettings(cfg: ConfigTree, ts: seq<Treatment>, s: string, k: string)
    requires ApplyAll(cfg, ts).Ok?
    requires s in cfg && k in cfg[s] && "config" in cfg[s][k]
    requires forall i :: 0 <= i < |ts| && Section(ts[i]) == Ok(s) && ts[i].key == k ==>
               ts[i].factor in cfg[s][k]["config"]
    ensures var after := ApplyAll(cfg, ts).value;
            s in after && k in after[s] && "config" in after[s][k]
            && after[s][k]["config"].Keys == cfg[s][k]["config"].Keys
  {
    if ts != [] {
      var init := ts[..|ts| - 1];
      var t := ts[|ts| - 1];
      assert forall i :: 0 <= i < |init| ==> init[i] == ts[i];
      ApplyAllKeepsSettings(cfg, init, s, k);
      var before := ApplyAll(cfg, init).value;
      if (s, k) == (Section(t).value, t.key) {
        ApplyTreatmentShape(before, t);
      } else {
        ApplyTreatmentOthers(before, t, s, k);
      }
    }
  }

  /** One treatment writes its leaf, inserting it when the factor was missing, and leaves
      every other leaf as it was. */
  lemma ApplyTreatmentLeaf(cfg: ConfigTree, t: Treatment, section: string, key: string, factor: string)
    requires ApplyTreatment(cfg, t).Ok?
    ensures Leaf(ApplyTreatment(cfg, t).value, section, key, factor)
         == if Targets(t, section, key, factor) then Some(t.value) else Leaf(cfg, section, key, factor)
  {
  }

  /** Last write wins: after the call, a leaf holds the value of the last treatment that
      targets it, and a leaf no treatment targets is unchanged. */
  lemma {:induction false} LastWriteWins(cfg: ConfigTree, ts: seq<Treatment>, section: string, key: string, factor: string)
    requires ApplyAll(cfg, ts).Ok?
    ensures Leaf(ApplyAll(cfg, ts).value, section, key, factor)
         == if LastValue(ts, section, key, factor).Some? then LastValue(ts, section, key, factor)
            else Leaf(cfg, section, key, factor)
  {
    if ts != [] {
      var init := ts[..|ts| - 1];
      LastWriteWins(cfg, init, section, key, factor);
      ApplyTreatmentLeaf(ApplyAll(cfg, init).value, ts[|ts| - 1], section, key, factor);
    }
  }

  /** A treatment applied twice in a row has the effect of applying it once. */
  lemma Idempotent(cfg: ConfigTree, t: Treatment)
    ensures ApplyAll(cfg, [t, t]) == ApplyAll(cfg, [t])
  {
    assert [t, t][..1] == [t];
    assert [t][..0] == [];
    if ApplyTreatment(cfg, t).Ok? {
      var s := Section(t).value;
      WriteTwice(cfg, s, t.key, t.factor, t.value, t.factor, t.value);
      UpdateTwice(cfg[s][t.key]["config"], t.factor, t.value, t.value);
    }
  }

  /** Updates of two different keys commute. */
  lemma UpdateCommutes<K, V>(m: map<K, V>, k1: K, v1: V, k2: K, v2: V)
    requires k1 != k2
    ensures m[k1 := v1][k2 := v2] == m[k2 := v2][k1 := v1]
  {
  }

  /** Writes to different leaves commute. */
  lemma WriteCommutes(cfg: ConfigTree, s1: string, k1: string, f1: string, v1: Value,
                      s2: string, k2: string, f2: string, v2: Value)
    requires s1 in cfg && k1 in cfg[s1] && "config" in cfg[s1][k1]
    requires s2 in cfg && k2 in cfg[s2] && "config" in cfg[s2][k2]
    requires s1 != s2 || k1 != k2 || f1 != f2
    ensures Write(Write(cfg, s1, k1, f1, v1), s2, k2, f2, v2) == Write(Write(cfg, s2, k2, f2, v2), s1, k1, f1, v1)
  {
    if s1 != s2 {
      var x1 := Write(cfg, s1, k1, f1, v1)[s1];
      var x2 := Write(cfg, s2, k2, f2, v2)[s2];
      assert Write(cfg[s1 := x1], s2, k2, f2, v2) == cfg[s1 := x1][s2 := x2];
      assert Write(cfg[s2 := x2], s1, k1, f1, v1) == cfg[s2 := x2][s1 := x1];
      UpdateCommutes(cfg, s1, x1, s2, x2);
    } else if k1 != k2 {
      var sec := cfg[s1];
      var y1 := Write(cfg, s1, k1, f1, v1)[s1][k1];
      var y2 := Write(cfg, s2, k2, f2, v2)[s1][k2];
      assert Write(cfg[s1 := sec[k1 := y1]], s1, k2, f2, v2) == cfg[s1 := sec[k1 := y1][k2 := y2]];
      assert Write(cfg[s1 := sec[k2 := y2]], s1, k1, f1, v1) == cfg[s1 := sec[k2 := y2][k1 := y1]];
      UpdateCommutes(sec, k1, y1, k2, y2);
    } else {
      SameStageCommutes(cfg, s1, k1, f1, v1, f2, v2);
    }
  }

  /** A second update of a key replaces the first. */
  lemma UpdateTwice<K, V>(m: map<K, V>, k: K, v1: V, v2: V)
    ensures m[k := v1][k := v2] == m[k := v2]
  {
  }

  /** Two writes into one stage: the later assignment at each level replaces the earlier. */
  lemma WriteTwice(cfg: ConfigTree, s: string, k: string, f1: string, v1: Value, f2: string, v2: Value)
    requires s in cfg && k in cfg[s] && "config" in cfg[s][k]
    ensures Write(Write(cfg, s, k, f1, v1), s, k, f2, v2)
         == cfg[s := cfg[s][k := cfg[s][k]["config" := cfg[s][k]["config"][f1 := v1][f2 := v2]]]]
  {
    var sec, stage, c := cfg[s], cfg[s][k], cfg[s][k]["config"];
    var once := Write(cfg, s, k, f1, v1);
    UpdateTwice(stage, "config", c[f1 := v1], c[f1 := v1][f2 := v2]);
    UpdateTwice(sec, k, stage["config" := c[f1 := v1]], stage["config" := c[f1 := v1][f2 := v2]]);
    UpdateTwice(cfg, s, sec[k := stage["config" := c[f1 := v1]]], sec[k := stage["config" := c[f1 := v1][f2 := v2]]]);
  }

  /** Writes to two factors of one stage commute. */
  lemma SameStageCommutes(cfg: ConfigTree, s: string, k: string, f1: string, v1: Value, f2: string, v2: Value)
    requires s in cfg && k in cfg[s] && "config" in cfg[s][k]
    requires f1 != f2
    ensures Write(Write(cfg, s, k, f1, v1), s, k, f2, v2) == Write(Write(cfg, s, k, f2, v2), s, k, f1, v1)
  {
    WriteTwice(cfg, s, k, f1, v1, f2, v2);
    WriteTwice(cfg, s, k, f2, v2, f1, v1);
    UpdateCommutes(cfg[s][k]["config"], f1, v1, f2, v2);
  }

  /** Two treatments that write different leaves give the same tree in either order. */
  lemma Commute(cfg: ConfigTree, t1: Treatment, t2: Treatment)
    requires ApplyTreatment(cfg, t1).Ok? && ApplyTreatment(cfg, t2).Ok?
    requires Section(t1) != Section(t2) || t1.key != t2.key || t1.factor != t2.factor
    ensures ApplyAll(cfg, [t1, t2]) == ApplyAll(cfg, [t2, t1])
  {
    ApplyPair(cfg, t1, t2);
    ApplyPair(cfg, t2, t1);
    var s1, s2 := Section(t1).value, Section(t2).value;
    ApplyTreatmentShape(cfg, t1);
    ApplyTreatmentShape(cfg, t2);
    WriteCommutes(cfg, s1, t1.key, t1.factor, t1.value, s2, t2.key, t2.factor, t2.value);
  }

  /** Two treatments in a row: the second is applied to the first one's result. */
  lemma ApplyPair(cfg: ConfigTree, t1: Treatment, t2: Treatment)
    ensures ApplyAll(cfg, [t1, t2])
         == if ApplyTreatment(cfg, t1).Err? then ApplyTreatment(cfg, t1)
            else ApplyTreatment(ApplyTreatment(cfg, t1).value, t2)
  {
    assert [t1, t2][..1] == [t1];
    assert [t1][..0] == [];
    assert ApplyAll(cfg, [t1]) == ApplyTreatment(cfg, t1);
  }

  /** A validated treatment never raises ValueError: it writes, or raises KeyError for a
      missing stage. */
  lemma ValidTreatmentNoValueError(cfg: ConfigTree, t: Treatment)
    requires ValidTreatment(t)
    ensures ApplyTreatment(cfg, t).Err? ==> ApplyTreatment(cfg, t).error.KeyError?
  {
  }

  /** One treatment behaves exactly as a list holding it. */
  lemma SingleIsList(cfg: ConfigTree, t: Treatment)
    ensures ApplyAll(cfg, AsList(One(t))) == ApplyAll(cfg, AsList(Several([t])))
    ensures ApplyAll(cfg, AsList(One(t))) == ApplyTreatment(cfg, t)
  {
    assert [t][..0] == [];
  }
}

=== FILE: design_models.dfy ===
/** The experiment's default configuration (experiment/design/_models.py): the treatment
    record, the seven pipeline stages' default settings exported as they are, and the six
    resources' settings exported with secrets removed. A configuration tree is section ->
    stage -> {"config": fields}. */
module DesignModels {
  import opened Wrappers
  import opened Values

  /** A stage's entry: `{"config": fields}`. */
  type StageConfigs = map<string, map<string, Fields>>

  /** The whole tree: "ops" and "resources" to their stages. */
  type ConfigTree = map<string, StageConfigs>

  /** `Treatment`: one override of one field of one stage. */
  datatype Treatment = Treatment(name: string, dagsterType: string, key: string, factor: string, value: Value)

  /** The schema admits only the two kinds of stage. */
  predicate ValidTreatment(t: Treatment)
  {
    t.dagsterType == "Asset" || t.dagsterType == "Resource"
  }

  // ===================== STAGE DEFAULTS =====================

  /** `ChunkingConfig()`. */
  const ChunkingDefaults: Fields :=
    map["chunk_size" := Int(500), "overlap" := Int(100), "strategy" := Str("recursive_text_splitting")]

  /** `TeacherModelBaseConfig()`. */
  const TeacherModelBaseDefaults: Fields :=
    map["version" := Int(1), "include_class_context" := Bool(false), "include_onboarding" := Bool(true),
        "summarize_class_context" := Bool(false), "instruction_style" := Str("DESCRIBE"),
        "output_format" := Str("BULLET_POINTS"), "max_class_context_tokens" := Int(2000)]

  /** `TeacherModelUpdateConfig()`. */
  const TeacherModelUpdateDefaults: Fields :=
    map["version" := Int(1), "enabled" := Bool(true), "max_examples" := Int(3),
        "instruction_style" := Str("DESCRIBE"), "max_feedback_example_tokens" := Int(1500)]

  /** `RetrievalConfig`'s settings other than `enabled`. */
  const RetrievalSettings: Fields :=
    map["similarity_score" := Str("cosine"), "threshold" := Num(0.6), "top_k" := Int(3)]

  /** `RetrievalConfig(enabled=...)`. */
  function RetrievalDefaults(enabled: bool): Fields
  {
    RetrievalSettings["enabled" := Bool(enabled)]
  }

  /** `FeedbackGenerationPromptConfig()`. */
  const FeedbackGenerationPromptDefaults: Fields :=
    map["version" := Int(1), "include_teacher_model" := Bool(true), "include_essay_context" := Bool(true),
        "instruction_style" := Str("DESCRIBE"), "max_essay_context_tokens" := Int(5000),
        "max_class_context_tokens" := Int(1500), "max_feedback_example_tokens" := Int(2000)]

  /** `AssetConfigurations`: one settings object per stage. */
  datatype AssetConfigurations = AssetConfigurations(
    chunkedClassDocuments: Fields,
    chunkedFeedback: Fields,
    teacherModelBase: Fields,
    teacherModelUpdatePrompt: Fields,
    feedbackRetrieval: Fields,
    classContextRetrieval: Fields,
    feedbackGenerationPrompt: Fields)

  /** The defaults: class-context retrieval is the one stage built switched off. */
  const DefaultAssetConfigurations: AssetConfigurations :=
    AssetConfigurations(ChunkingDefaults, ChunkingDefaults, TeacherModelBaseDefaults, TeacherModelUpdateDefaults,
                        RetrievalDefaults(true), RetrievalDefaults(false), FeedbackGenerationPromptDefaults)

  /** The seven stages, by field name. */
  const AssetStages: set<string> :=
    {"chunked_class_documents", "chunked_feedback", "teacher_model_base", "teacher_model_update_prompt",
     "feedback_retrieval", "class_context_retrieval", "feedback_generation_prompt"}

  /** A stage's entry. */
  function ConfigEntry(fields: Fields): map<string, Fields>
  {
    map["config" := fields]
  }

  /** `self.__dict__[key]` for a stage's field name. */
  function StageFields(a: AssetConfigurations, stage: string): Fields
    requires stage in AssetStages
  {
    if stage == "chunked_class_documents" then a.chunkedClassDocuments
    else if stage == "chunked_feedback" then a.chunkedFeedback
    else if stage == "teacher_model_base" then a.teacherModelBase
    else if stage == "teacher_model_update_prompt" then a.teacherModelUpdatePrompt
    else if stage == "feedback_retrieval" then a.feedbackRetrieval
    else if stage == "class_context_retrieval" then a.classContextRetrieval
    else a.feedbackGenerationPrompt
  }

  /** `AssetConfigurations.export`: every stage, as `{"config": <all its fields>}`. */
  function ExportAssets(a: AssetConfigurations): (r: StageConfigs)
    ensures r.Keys == AssetStages
  {
    map stage | stage in AssetStages :: ConfigEntry(StageFields(a, stage))
  }

  /** Every stage's entry holds exactly "config", with all of the stage's settings. */
  lemma ExportAssetsEntries(a: AssetConfigurations)
    ensures forall k :: k in ExportAssets(a) ==>
              ExportAssets(a)[k].Keys == {"config"} && ExportAssets(a)[k]["config"] == StageFields(a, k)
  {
  }

  /** Each stage exports its own settings, nothing removed. */
  lemma ExportAssetsFields(a: AssetConfigurations)
    ensures ExportAssets(a)["chunked_class_documents"]["config"] == a.chunkedClassDocuments
    ensures ExportAssets(a)["chunked_feedback"]["config"] == a.chunkedFeedback
    ensures ExportAssets(a)["teacher_model_base"]["config"] == a.teacherModelBase
    ensures ExportAssets(a)["teacher_model_update_prompt"]["config"] == a.teacherModelUpdatePrompt
    ensures ExportAssets(a)["feedback_retrieval"]["config"] == a.feedbackRetrieval
    ensures ExportAssets(a)["class_context_retrieval"]["config"] == a.classContextRetrieval
    ensures ExportAssets(a)["feedback_generation_prompt"]["config"] == a.feedbackGenerationPrompt
  {
    ExportAssetsEntries(a);
  }

  /** The two retrieval stages share their defaults but for `enabled`. */
  lemma RetrievalDefaultsDiffer(enabled: bool)
    ensures RetrievalDefaults(enabled)["enabled"] == Bool(enabled)
    ensures RetrievalDefaults(enabled)["enabled" := Bool(!enabled)] == RetrievalDefaults(!enabled)
    ensures RetrievalDefaults(enabled).Keys == RetrievalDefaults(!enabled).Keys
  {
  }

  /** By default class-context retrieval exports switched off and feedback retrieval
      switched on. */
  lemma DefaultRetrievalStages()
    ensures ExportAssets(DefaultAssetConfigurations)["class_context_retrieval"]["config"] == RetrievalDefaults(false)
    ensures ExportAssets(DefaultAssetConfigurations)["feedback_retrieval"]["config"] == RetrievalDefaults(true)
  {
    ExportAssetsFields(DefaultAssetConfigurations);
  }

  // ===================== RESOURCES =====================

  /** A resource's dumped settings, in declaration order. */
  type Dump = seq<(string, Value)>

  /** The process environment. */
  type Environment = map<string, string>

  /** `os.environ.get(name, False)` is truthy: the variable is set and not empty. */
  predicate EnvSet(env: Environment, name: string)
  {
    name in env && env[name] != ""
  }

  /** A setting is a secret when its value is a string naming a set environment variable. */
  predicate NamesSetVariable(v: Value, env: Environment)
  {
    v.Str? && EnvSet(env, v.s)
  }

  /** No setting is dumped twice. */
  predicate DistinctNames(dump: Dump)
  {
    forall i, j :: 0 <= i < j < |dump| ==> dump[i].0 != dump[j].0
  }

  /** The dump as a dictionary. */
  function AsFields(dump: Dump): (r: Fields)
    ensures forall k :: k in r <==> exists i :: 0 <= i < |dump| && dump[i].0 == k
  {
    if dump == [] then map[]
    else
      var init := dump[..|dump| - 1];
      var r := AsFields(init)[dump[|dump| - 1].0 := dump[|dump| - 1].1];
      assert forall i :: 0 <= i < |init| ==> dump[i] == init[i];
      r
  }

  /** The settings loop of `ResourceConfigurations.export` over the first `items`: a secret
      is popped, then a "tracking_client" setting is popped (KeyError when the first pop
      already took it). */
  function Redact(config: Fields, items: Dump, env: Environment): Result<Fields>
  {
    if items == [] then Ok(config)
    else
      var c :- Redact(config, items[..|items| - 1], env);
      var k, v := items[|items| - 1].0, items[|items| - 1].1;
      var c1 :- if NamesSetVariable(v, env) then (if k in c then Ok(c - {k}) else Err(KeyError(k))) else Ok(c);
      if k == "tracking_client" then
        if k in c1 then Ok(c1 - {k}) else Err(KeyError(k))
      else Ok(c1)
  }

  /** A resource's exported settings. */
  function ExportResource(dump: Dump, env: Environment): Result<Fields>
  {
    Redact(AsFields(dump), dump, env)
  }

  /** The names of the first settings. */
  predicate Names(items: Dump, k: string)
  {
    exists i :: 0 <= i < |items| && items[i].0 == k
  }

  /** The loop only removes settings. */
  lemma {:induction false} RedactShrinks(config: Fields, items: Dump, env: Environment)
    ensures Redact(config, items, env).Ok? ==>
              forall k :: k in Redact(config, items, env).value ==> k in config && Redact(config, items, env).value[k] == config[k]
  {
    if items != [] {
      RedactShrinks(config, items[..|items| - 1], env);
    }
  }

  /** A setting the loop does not visit stays as it was. */
  lemma {:induction false} RedactUntouched(config: Fields, items: Dump, env: Environment, k: string)
    requires !Names(items, k)
    ensures Redact(config, items, env).Ok? ==> (k in Redact(config, items, env).value <==> k in config)
  {
    if items != [] {
      var init := items[..|items| - 1];
      assert !Names(init, k);
      RedactUntouched(config, init, env, k);
    }
  }

  /** A visited setting survives exactly when it is neither a secret nor "tracking_client". */
  lemma {:induction false} RedactVisited(config: Fields, items: Dump, env: Environment, i: nat)
    requires DistinctNames(items) && i < |items|
    ensures Redact(config, items, env).Ok? ==>
              (items[i].0 in Redact(config, items, env).value
               <==> items[i].0 in config && !NamesSetVariable(items[i].1, env) && items[i].0 != "tracking_client")
  {
    var init := items[..|items| - 1];
    assert DistinctNames(init);
    if i == |items| - 1 {
      assert !Names(init, items[i].0);
      RedactUntouched(config, init, env, items[i].0);
    } else {
      assert init[i] == items[i];
      RedactVisited(config, init, env, i);
    }
  }

  /** Every pop finds its setting, except a secret named "tracking_client", which the
      second pop no longer finds. */
  lemma {:induction false} RedactOk(config: Fields, items: Dump, env: Environment)
    requires DistinctNames(items)
    requires forall i :: 0 <= i < |items| ==> items[i].0 in config
    ensures Redact(config, items, env).Ok?
            <==> forall i :: 0 <= i < |items| ==> !(items[i].0 == "tracking_client" && NamesSetVariable(items[i].1, env))
  {
    if items != [] {
      var init := items[..|items| - 1];
      var last := |items| - 1;
      assert DistinctNames(init);
      assert forall i :: 0 <= i < |init| ==> init[i] == items[i];
      RedactOk(config, init, env);
      assert !Names(init, items[last].0);
      RedactUntouched(config, init, env, items[last].0);
    }
  }

  /** The export keeps a setting exactly when it is neither a secret nor "tracking_client",
      with its value unchanged; it fails exactly when a secret is named "tracking_client". */
  lemma ExportResourceKeeps(dump: Dump, env: Environment)
    requires DistinctNames(dump)
    ensures ExportResource(dump, env).Ok?
            <==> forall i :: 0 <= i < |dump| ==> !(dump[i].0 == "tracking_client" && NamesSetVariable(dump[i].1, env))
    ensures ExportResource(dump, env).Ok? ==>
              forall i :: 0 <= i < |dump| ==>
                (dump[i].0 in ExportResource(dump, env).value
                 <==> !NamesSetVariable(dump[i].1, env) && dump[i].0 != "tracking_client")
    ensures ExportResource(dump, env).Ok? ==>
              forall k :: k in ExportResource(dump, env).value ==>
                k in AsFields(dump) && ExportResource(dump, env).value[k] == AsFields(dump)[k]
  {
    var config := AsFields(dump);
    assert forall i :: 0 <= i < |dump| ==> dump[i].0 in config;
    RedactOk(config, dump, env);
    RedactShrinks(config, dump, env);
    forall i | 0 <= i < |dump|
      ensures ExportResource(dump, env).Ok? ==>
                (dump[i].0 in ExportResource(dump, env).value
                 <==> !NamesSetVariable(dump[i].1, env) && dump[i].0 != "tracking_client")
    {
      RedactVisited(config, dump, env, i);
    }
  }

  /** `ResourceConfigurations`: one settings dump per resource. */
  datatype ResourceConfigurations = ResourceConfigurations(
    bucket: Dump,
    llm: Dump,
    embeddingModel: Dump,
    embeddingPreprocessor: Dump,
    trackingClient: Dump,
    vectorStore: Dump)

  /** The resources in declaration order. */
  function Resources(rc: ResourceConfigurations): seq<(string, Dump)>
  {
    [("bucket", rc.bucket), ("llm", rc.llm), ("embedding_model", rc.embeddingModel),
     ("embedding_preprocessor", rc.embeddingPreprocessor), ("tracking_client", rc.trackingClient),
     ("vector_store", rc.vectorStore)]
  }

  /** The outer loop of the export over the first resources. */
  function ExportAll(resources: seq<(string, Dump)>, env: Environment): (r: Result<StageConfigs>)
    ensures r.Ok? ==> forall k :: k in r.value <==> exists i :: 0 <= i < |resources| && resources[i].0 == k
    ensures r.Ok? ==> forall k :: k in r.value ==> r.value[k].Keys == {"config"}
  {
    if resources == [] then Ok(map[])
    else
      var init := resources[..|resources| - 1];
      var before :- ExportAll(init, env);
      var fields :- ExportResource(resources[|resources| - 1].1, env);
      assert forall i :: 0 <= i < |init| ==> resources[i] == init[i];
      Ok(before[resources[|resources| - 1].0 := ConfigEntry(fields)])
  }

  /** `ResourceConfigurations.export`, as a function of the settings. */
  function ExportResources(rc: ResourceConfigurations, env: Environment): Result<StageConfigs>
  {
    ExportAll(Resources(rc), env)
  }

  /** One resource's settings loop: pops from the dictionary while walking a copy of it. */
  method ExportResourceLoop(dump: Dump, env: Environment) returns (r: Result<Fields>)
    ensures r == ExportResource(dump, env)
  {
    var config := AsFields(dump);
    var i := 0;
    while i < |dump|
      invariant 0 <= i <= |dump|
      invariant Redact(AsFields(dump), dump[..i], env) == Ok(config)
    {
      assert dump[..i + 1][..i] == dump[..i];
      var k, v := dump[i].0, dump[i].1;
      if NamesSetVariable(v, env) {
        if k !in config {
          RedactAfterError(AsFields(dump), dump, env, i + 1);
          return Err(KeyError(k));
        }
        config := config - {k};
      }
      if k == "tracking_client" {
        if k !in config {
          RedactAfterError(AsFields(dump), dump, env, i + 1);
          return Err(KeyError(k));
        }
        config := config - {k};
      }
      i := i + 1;
    }
    assert dump[..i] == dump;
    r := Ok(config);
  }

  /** Once a pop raises, the whole loop raises it. */
  lemma {:induction false} RedactAfterError(config: Fields, dump: Dump, env: Environment, n: nat)
    requires 0 < n <= |dump|
    requires Redact(config, dump[..n], env).Err?
    ensures Redact(config, dump, env) == Redact(config, dump[..n], env)
    decreases |dump| - n
  {
    if n < |dump| {
      assert dump[..n + 1][..n] == dump[..n];
      RedactAfterError(config, dump, env, n + 1);
    } else {
      assert dump[..n] == dump;
    }
  }

  /** `ResourceConfigurations.export`: the settings of every resource, in order. */
  method ExportResourcesLoop(rc: ResourceConfigurations, env: Environment) returns (r: Result<StageConfigs>)
    ensures r == ExportResources(rc, env)
  {
    var resources := Resources(rc);
    var exported: StageConfigs := map[];
    var i := 0;
    while i < |resources|
      invariant 0 <= i <= |resources|
      invariant ExportAll(resources[..i], env) == Ok(exported)
    {
      var fields := ExportResourceLoop(resources[i].1, env);
      ExportAllExtend(resources, env, i, exported, fields);
      if fields.Err? {
        return Err(fields.error);
      }
      exported := exported[resources[i].0 := ConfigEntry(fields.value)];
      i := i + 1;
    }
    assert resources[..i] == resources;
    r := Ok(exported);
  }

  /** One more resource, from the export of the resources before it: its settings are added
      under its name, or its exception is the whole export's. */
  lemma ExportAllExtend(resources: seq<(string, Dump)>, env: Environment, i: nat, exported: StageConfigs,
                        fields: Result<Fields>)
    requires i < |resources|
    requires ExportAll(resources[..i], env) == Ok(exported)
    requires fields == ExportResource(resources[i].1, env)
    ensures fields.Ok? ==> ExportAll(resources[..i + 1], env) == Ok(exported[resources[i].0 := ConfigEntry(fields.value)])
    ensures fields.Err? ==> ExportAll(resources, env) == Err(fields.error)
  {
    assert resources[..i + 1][..i] == resources[..i];
    if fields.Err? {
      ExportAllAfterError(resources, env, i + 1);
    }
  }

  /** Once a resource raises, the whole export raises it. */
  lemma {:induction false} ExportAllAfterError(resources: seq<(string, Dump)>, env: Environment, n: nat)
    requires 0 < n <= |resources|
    requires ExportAll(resources[..n], env).Err?
    ensures ExportAll(resources, env) == ExportAll(resources[..n], env)
    decreases |resources| - n
  {
    if n < |resources| {
      assert resources[..n + 1][..n] == resources[..n];
      ExportAllAfterError(resources, env, n + 1);
    } else {
      assert resources[..n] == resources;
    }
  }

  // ===================== RESOURCE DEFAULTS =====================

  /** `FileStoreBucket()`: the region is read from AWS_REGION. */
  const BucketDefaults: Dump :=
    [("region", Str("AWS_REGION")), ("source", Str("local")), ("dataset", Str("dummy"))]

  /** `LLM()`: the API keys are read from the environment; the tracking client is a
      dependency that dumps as None. */
  const LlmDefaults: Dump :=
    [("model_name", Str("gpt-4o")), ("max_tokens", Int(600)), ("temperature", Num(0.8)), ("top_p", Num(1.0)),
     ("cost_estimation_mode", Bool(false)), ("tracking_client", Null),
     ("openai_api_key", Str("OPENAI_API_KEY")), ("gemini_api_key", Str("GOOGLE_API_KEY"))]

  /** `EmbeddingModel()`. */
  const EmbeddingModelDefaults: Dump :=
    [("model_name", Str("text-embedding-ada-002")), ("openai_api_key", Str("OPENAI_API_KEY")),
     ("cost_estimation_mode", Bool(false)), ("aws_access_key_id", Str("AWS_ACCESS_KEY_ID")),
     ("aws_secret_access_key", Str("AWS_SECRET_ACCESS_KEY")), ("region_name", Str("us-east-1")),
     ("tracking_client", Null)]

  /** `EmbeddingPreprocessor()`. */
  const EmbeddingPreprocessorDefaults: Dump :=
    [("include_essay_text", Bool(true)), ("include_essay_context", Bool(false)),
     ("include_teacher_feedback", Bool(false)), ("include_teacher_instruction", Bool(false))]

  /** `TrackingClient()`. */
  const TrackingClientDefaults: Dump :=
    [("enabled", Bool(true)), ("mlflow_tracking", Bool(true)), ("mlflow_tracking_uri", Str("http://127.0.0.1:5000")),
     ("experiment_name", Str("dummy")), ("run_name", Null), ("aws_access_key_id", Str("AWS_ACCESS_KEY_ID")),
     ("aws_secret_access_key", Str("AWS_SECRET_ACCESS_KEY"))]

  /** `VectorStore()`. */
  const VectorStoreDefaults: Dump := [("name", Str("parquet")), ("source", Str("local"))]

  const DefaultResourceConfigurations: ResourceConfigurations :=
    ResourceConfigurations(BucketDefaults, LlmDefaults, EmbeddingModelDefaults, EmbeddingPreprocessorDefaults,
                           TrackingClientDefaults, VectorStoreDefaults)

  /** Whatever the settings, a loop that succeeds has dropped a visited "tracking_client". */
  lemma {:induction false} RedactDropsTracking(config: Fields, items: Dump, env: Environment)
    ensures Redact(config, items, env).Ok? && Names(items, "tracking_client") ==>
              "tracking_client" !in Redact(config, items, env).value
  {
    if items != [] {
      var init := items[..|items| - 1];
      RedactDropsTracking(config, init, env);
      RedactShrinks(config, init, env);
      if !Names(init, "tracking_client") && Names(items, "tracking_client") {
        assert items[|items| - 1].0 == "tracking_client";
      }
    }
  }

  /** No resource's export keeps a "tracking_client" setting. */
  lemma ExportDropsTracking(dump: Dump, env: Environment)
    ensures ExportResource(dump, env).Ok? ==> "tracking_client" !in ExportResource(dump, env).value
  {
    RedactDropsTracking(AsFields(dump), dump, env);
    RedactShrinks(AsFields(dump), dump, env);
    assert "tracking_client" in AsFields(dump) ==> Names(dump, "tracking_client");
  }

  /** Settings with distinct names whose tracking client is not a string export cleanly. */
  lemma ExportsCleanly(dump: Dump, env: Environment)
    requires DistinctNames(dump)
    requires forall i :: 0 <= i < |dump| && dump[i].0 == "tracking_client" ==> !dump[i].1.Str?
    ensures ExportResource(dump, env).Ok? && "tracking_client" !in ExportResource(dump, env).value
  {
    ExportResourceKeeps(dump, env);
    ExportDropsTracking(dump, env);
  }

  lemma DefaultDumpsDistinct1()
    ensures DistinctNames(BucketDefaults) && DistinctNames(VectorStoreDefaults) && DistinctNames(EmbeddingPreprocessorDefaults)
  {
  }

  lemma DefaultDumpsDistinct2()
    ensures DistinctNames(LlmDefaults)
  {
  }

  lemma DefaultDumpsDistinct3()
    ensures DistinctNames(EmbeddingModelDefaults)
  {
  }

  lemma DefaultDumpsDistinct4()
    ensures DistinctNames(TrackingClientDefaults)
  {
  }

  /** The default resources export in every environment, and no exported resource keeps a
      tracking client. */
  lemma DefaultResourcesExport(env: Environment)
    ensures ExportResources(DefaultResourceConfigurations, env).Ok?
    ensures forall k :: k in ExportResources(DefaultResourceConfigurations, env).value ==>
              "tracking_client" !in ExportResources(DefaultResourceConfigurations, env).value[k]["config"]
  {
    var rs := Resources(DefaultResourceConfigurations);
    DefaultDumpsDistinct1();
    DefaultDumpsDistinct2();
    DefaultDumpsDistinct3();
    DefaultDumpsDistinct4();
    forall i | 0 <= i < |rs|
      ensures ExportResource(rs[i].1, env).Ok? && "tracking_client" !in ExportResource(rs[i].1, env).value
    {
      if i == 0 { ExportsCleanly(BucketDefaults, env); }
      else if i == 1 { ExportsCleanly(LlmDefaults, env); }
      else if i == 2 { ExportsCleanly(EmbeddingModelDefaults, env); }
      else if i == 3 { ExportsCleanly(EmbeddingPreprocessorDefaults, env); }
      else if i == 4 { ExportsCleanly(TrackingClientDefaults, env); }
      else { ExportsCleanly(VectorStoreDefaults, env); }
    }
    ExportAllFromParts(rs, env);
  }

  /** When every resource exports without a tracking client, so does the whole loop. */
  lemma {:induction false} ExportAllFromParts(rs: seq<(string, Dump)>, env: Environment)
    requires forall i :: 0 <= i < |rs| ==> ExportResource(rs[i].1, env).Ok? && "tracking_client" !in ExportResource(rs[i].1, env).value
    ensures ExportAll(rs, env).Ok?
    ensures forall k :: k in ExportAll(rs, env).value ==> "tracking_client" !in ExportAll(rs, env).value[k]["config"]
  {
    if rs != [] {
      var init := rs[..|rs| - 1];
      assert forall i :: 0 <= i < |init| ==> init[i] == rs[i];
      ExportAllFromParts(init, env);
    }
  }

  /** The API keys leave the export exactly when their variables are set. */
  lemma DefaultLlmSecrets(env: Environment)
    ensures ExportResource(LlmDefaults, env).Ok?
    ensures ("openai_api_key" in ExportResource(LlmDefaults, env).value) <==> !EnvSet(env, "OPENAI_API_KEY")
    ensures ("gemini_api_key" in ExportResource(LlmDefaults, env).value) <==> !EnvSet(env, "GOOGLE_API_KEY")
    ensures ("temperature" in ExportResource(LlmDefaults, env).value)
  {
    DefaultDumpsDistinct2();
    ExportResourceKeeps(LlmDefaults, env);
    assert LlmDefaults[2].0 == "temperature" && LlmDefaults[6].0 == "openai_api_key" && LlmDefaults[7].0 == "gemini_api_key";
  }
}

=== FILE: embedding_preprocess.dfy ===
/** The texts the retrieval stage embeds (experiment/pipeline/resources/_embedding_preprocess.py):
    for each piece of feedback, the index texts, one per highlighted chunk; for each feedback
    request, the search query text. Which parts go in is chosen by four flags. */
module EmbeddingPreprocess {
  import opened Wrappers
  import opened PyText
  import opened PipelineModels
  import opened Loops

  /** `EmbeddingPreprocessor`: the four inclusion flags. */
  datatype EmbeddingPreprocessor = EmbeddingPreprocessor(
    includeEssayText: bool,
    includeEssayContext: bool,
    includeTeacherFeedback: bool,
    includeTeacherInstruction: bool)

  /** The flags' defaults: essay text only. */
  const DefaultPreprocessor := EmbeddingPreprocessor(true, false, false, false)

  /** The documents of one assignment, in list order. */
  function AssignmentContext(essayContext: seq<EssayContext>, assignmentId: int): (r: seq<EssayContext>)
    ensures forall d :: d in r <==> d in essayContext && d.assignmentId == assignmentId
    ensures |r| <= |essayContext|
  {
    if essayContext == [] then []
    else
      var rest := AssignmentContext(essayContext[1..], assignmentId);
      assert forall d :: d in essayContext <==> d == essayContext[0] || d in essayContext[1..];
      if essayContext[0].assignmentId == assignmentId then [essayContext[0]] + rest else rest
  }

  /** The documents' contents, each followed by a blank line; a missing content reads "None". */
  function ContextBody(docs: seq<EssayContext>): string
  {
    if docs == [] then ""
    else ContextBody(docs[..|docs| - 1]) + PyStr(docs[|docs| - 1].content) + "\n\n"
  }

  /** The essay-context block is built document by document, so it splits along the list. */
  lemma {:induction false} ContextBodyAppend(a: seq<EssayContext>, b: seq<EssayContext>)
    ensures ContextBody(a + b) == ContextBody(a) + ContextBody(b)
    decreases |b|
  {
    if b == [] {
      assert a + b == a;
    } else {
      var b' := b[..|b| - 1];
      assert (a + b)[..|a + b| - 1] == a + b';
      ContextBodyAppend(a, b');
    }
  }

  /** The heading of the essay-context block. */
  const ContextHeading := "ESSAY CONTEXT:\n"

  /** The essay-context block, accumulated over the assignment's documents. */
  method BuildContext(docs: seq<EssayContext>) returns (context: string)
    ensures context == ContextHeading + ContextBody(docs)
  {
    context := ContextHeading;
    var i := 0;
    while i < |docs|
      invariant 0 <= i <= |docs|
      invariant context == ContextHeading + ContextBody(docs[..i])
    {
      assert docs[..i + 1][..i] == docs[..i];
      context := context + (PyStr(docs[i].content) + "\n\n");
      i := i + 1;
    }
    assert docs[..i] == docs;
  }

  // ===================== INDEX TEXTS =====================

  /** The index text of one chunk of highlighted essay text. */
  function EssayTextEntry(chunk: string): string
  {
    "STUDENT ESSAY TEXT:\n" + chunk + "\n\n"
  }

  /** The feedback part appended to every index text. */
  function FeedbackPart(feedbackText: string): string
  {
    "TEACHER FEEDBACK:\n" + feedbackText
  }

  /** The index texts of one piece of feedback, step by step as the flags are applied: the
      essay texts (or one empty text), the essay context prepended, the teacher's feedback
      appended. `None` when essay context is on and the assignment has none: the item is
      skipped. A missing list of chunks raises TypeError when essay text is on. */
  function IndexTexts(p: EmbeddingPreprocessor, fb: Feedback, essayContext: seq<EssayContext>)
    : Result<Option<seq<string>>>
  {
    var base :-
      if !p.includeEssayText then Ok([""])
      else if fb.highlightedTextChunks.None? then Err(TypeError("NoneType"))
      else
        var chunks := fb.highlightedTextChunks.value;
        Ok(seq(|chunks|, i requires 0 <= i < |chunks| => EssayTextEntry(chunks[i])));
    var docs := AssignmentContext(essayContext, fb.assignmentId);
    if p.includeEssayContext && |docs| == 0 then Ok(None)
    else
      var withContext :=
        if p.includeEssayContext then seq(|base|, i requires 0 <= i < |base| => ContextHeading + ContextBody(docs) + base[i])
        else base;
      var withFeedback :=
        if p.includeTeacherFeedback then
          seq(|withContext|, i requires 0 <= i < |withContext| => withContext[i] + FeedbackPart(fb.feedbackText))
        else withContext;
      Ok(Some(withFeedback))
  }

  /** The essay-context part of a text: the block, or "" when the flag is off. */
  function ContextPart(p: EmbeddingPreprocessor, essayContext: seq<EssayContext>, assignmentId: int): string
  {
    if p.includeEssayContext then ContextHeading + ContextBody(AssignmentContext(essayContext, assignmentId)) else ""
  }

  /** Every index text, stated entry by entry: one per chunk (one in all when essay text is
      off), each the context part, then the chunk's text, then the feedback part. */
  lemma IndexTextsEntries(p: EmbeddingPreprocessor, fb: Feedback, essayContext: seq<EssayContext>)
    requires IndexTexts(p, fb, essayContext).Ok? && IndexTexts(p, fb, essayContext).value.Some?
    ensures var t := IndexTexts(p, fb, essayContext).value.value;
            && (p.includeEssayText ==> fb.highlightedTextChunks.Some? && |t| == |fb.highlightedTextChunks.value|)
            && (!p.includeEssayText ==> |t| == 1)
            && forall i :: 0 <= i < |t| ==>
                 t[i] == ContextPart(p, essayContext, fb.assignmentId)
                         + (if p.includeEssayText then EssayTextEntry(fb.highlightedTextChunks.value[i]) else "")
                         + (if p.includeTeacherFeedback then FeedbackPart(fb.feedbackText) else "")
  {
  }

  /** An item fails exactly when essay text is on and it has no chunk list, and it is skipped
      exactly when essay context is on and no document shares its assignment. */
  lemma IndexTextsOutcome(p: EmbeddingPreprocessor, fb: Feedback, essayContext: seq<EssayContext>)
    ensures IndexTexts(p, fb, essayContext).Err? <==> p.includeEssayText && fb.highlightedTextChunks.None?
    ensures IndexTexts(p, fb, essayContext).Ok? ==>
              (IndexTexts(p, fb, essayContext).value.None?
               <==> p.includeEssayContext && forall d :: d in essayContext ==> d.assignmentId != fb.assignmentId)
  {
    var docs := AssignmentContext(essayContext, fb.assignmentId);
    if |docs| > 0 {
      assert docs[0] in docs;
    }
  }

  /** One piece of feedback after indexing: its new index texts, or unchanged when skipped. */
  function IndexItem(p: EmbeddingPreprocessor, fb: Feedback, essayContext: seq<EssayContext>): Result<Feedback>
  {
    var t :- IndexTexts(p, fb, essayContext);
    Ok(if t.None? then fb else fb.(indexText := t))
  }

  /** One step of `preprocess_feedback_index`: the item indexed, or the exception it raises. */
  function IndexStep(p: EmbeddingPreprocessor, essayContext: seq<EssayContext>): Feedback -> Result<Feedback>
  {
    (fb: Feedback) => IndexItem(p, fb, essayContext)
  }

  /** `preprocess_feedback_index`, as a function of the list before the call: the items are
      updated in order until one raises, and the rest stay as they were. */
  function PreprocessIndex(p: EmbeddingPreprocessor, feedback: seq<Feedback>, essayContext: seq<EssayContext>)
    : Run<Feedback>
  {
    MapLoop(feedback, IndexStep(p, essayContext))
  }

  /** When no item raises, every item is indexed independently of the others. */
  lemma PreprocessIndexEach(p: EmbeddingPreprocessor, feedback: seq<Feedback>, essayContext: seq<EssayContext>)
    requires forall i :: 0 <= i < |feedback| ==> IndexItem(p, feedback[i], essayContext).Ok?
    ensures PreprocessIndex(p, feedback, essayContext).result.Ok?
    ensures forall i :: 0 <= i < |feedback| ==>
              PreprocessIndex(p, feedback, essayContext).items[i] == IndexItem(p, feedback[i], essayContext).value
  {
    MapLoopOk(feedback, IndexStep(p, essayContext));
  }

  /** The first item that raises decides the exception; the items before it are indexed and
      the items from it on keep their previous index texts. */
  lemma PreprocessIndexFirstError(p: EmbeddingPreprocessor, feedback: seq<Feedback>, essayContext: seq<EssayContext>, k: nat)
    requires k < |feedback| && IndexItem(p, feedback[k], essayContext).Err?
    requires forall i :: 0 <= i < k ==> IndexItem(p, feedback[i], essayContext).Ok?
    ensures var r := PreprocessIndex(p, feedback, essayContext);
            && r.result == Err(IndexItem(p, feedback[k], essayContext).error)
            && r.items[k..] == feedback[k..]
            && forall i :: 0 <= i < k ==> r.items[i] == IndexItem(p, feedback[i], essayContext).value
  {
    MapLoopFirstError(feedback, IndexStep(p, essayContext), k);
  }

  /** The loop body of `preprocess_feedback_index` for one item: its index texts built
      step by step, or the item unchanged when it is skipped. */
  method IndexOne(p: EmbeddingPreprocessor, fb: Feedback, essayContext: seq<EssayContext>) returns (r: Result<Feedback>)
    ensures r == IndexItem(p, fb, essayContext)
  {
    var texts: seq<string>;
    if p.includeEssayText {
      if fb.highlightedTextChunks.None? {
        return Err(TypeError("NoneType"));
      }
      var chunks := fb.highlightedTextChunks.value;
      texts := seq(|chunks|, j requires 0 <= j < |chunks| => EssayTextEntry(chunks[j]));
    } else {
      texts := [""];
    }
    var docs := AssignmentContext(essayContext, fb.assignmentId);
    if p.includeEssayContext && |docs| == 0 {
      return Ok(fb);
    }
    if p.includeEssayContext {
      var context := BuildContext(docs);
      texts := seq(|texts|, j requires 0 <= j < |texts| => context + texts[j]);
    }
    if p.includeTeacherFeedback {
      texts := seq(|texts|, j requires 0 <= j < |texts| => texts[j] + FeedbackPart(fb.feedbackText));
    }
    r := Ok(fb.(indexText := Some(texts)));
  }

  /** `preprocess_feedback_index`: each item's index texts are assigned in place, in list
      order; the list keeps its length and order, and an exception leaves the items after
      the failing one as they were. */
  method PreprocessFeedbackIndex(p: EmbeddingPreprocessor, feedback: array<Feedback>, essayContext: seq<EssayContext>)
    returns (r: Result<()>)
    modifies feedback
    ensures Run(r, feedback[..]) == PreprocessIndex(p, old(feedback[..]), essayContext)
  {
    r := MapInPlace(feedback, IndexStep(p, essayContext));
  }

  // ===================== SEARCH TEXTS =====================

  /** The instruction part of a search text. */
  function InstructionPart(instruction: string): string
  {
    "TEACHER INSTRUCTION TO CREATE FEEDBACK:\n" + instruction + "\n\n"
  }

  /** The search query text of one request: the essay-text part, then the instruction part,
      with the essay-context block in front. `None` when essay context is on and the
      assignment has none: the request is skipped. */
  function SearchText(p: EmbeddingPreprocessor, request: FeedbackRequest, essayContext: seq<EssayContext>): Option<string>
  {
    var text := (if p.includeEssayText then EssayTextEntry(request.textSelection) else "")
              + (if p.includeTeacherInstruction then InstructionPart(request.instruction) else "");
    var docs := AssignmentContext(essayContext, request.assignmentId);
    if p.includeEssayContext && |docs| == 0 then None
    else Some((if p.includeEssayContext then ContextHeading + ContextBody(docs) else "") + text)
  }

  /** One request after preprocessing: its search text, or unchanged when skipped. */
  function SearchItem(p: EmbeddingPreprocessor, request: FeedbackRequest, essayContext: seq<EssayContext>): FeedbackRequest
  {
    var t := SearchText(p, request, essayContext);
    if t.None? then request else request.(searchQueryText := t)
  }

  /** The loop body of `preprocess_feedback_search` for one request: the query text grown
      part by part, then the essay-context block put in front. */
  method SearchOne(p: EmbeddingPreprocessor, request: FeedbackRequest, essayContext: seq<EssayContext>)
    returns (r: FeedbackRequest)
    ensures r == SearchItem(p, request, essayContext)
  {
    var essayPart := if p.includeEssayText then EssayTextEntry(request.textSelection) else "";
    var instructionPart := if p.includeTeacherInstruction then InstructionPart(request.instruction) else "";
    var searchQueryText := "";
    if p.includeEssayText {
      searchQueryText := searchQueryText + EssayTextEntry(request.textSelection);
    }
    assert searchQueryText == essayPart;
    if p.includeTeacherInstruction {
      searchQueryText := searchQueryText + InstructionPart(request.instruction);
    }
    assert searchQueryText == essayPart + instructionPart;
    var docs := AssignmentContext(essayContext, request.assignmentId);
    if p.includeEssayContext && |docs| == 0 {
      return request;
    }
    if p.includeEssayContext {
      var context := BuildContext(docs);
      searchQueryText := context + searchQueryText;
    } else {
      assert "" + searchQueryText == searchQueryText;
    }
    r := request.(searchQueryText := Some(searchQueryText));
  }

  /** `preprocess_feedback_search`: each request's search text is assigned in place. */
  method PreprocessFeedbackSearch(p: EmbeddingPreprocessor, requests: array<FeedbackRequest>,
                                  essayContext: seq<EssayContext>)
    modifies requests
    ensures forall i :: 0 <= i < requests.Length ==> requests[i] == SearchItem(p, old(requests[i]), essayContext)
  {
    var i := 0;
    while i < requests.Length
      invariant 0 <= i <= requests.Length
      invariant forall j :: 0 <= j < i ==> requests[j] == SearchItem(p, old(requests[j]), essayContext)
      invariant forall j :: i <= j < requests.Length ==> requests[j] == old(requests[j])
    {
      var request := requests[i];
      requests[i] := SearchOne(p, request, essayContext);
      i := i + 1;
    }
  }

  /** With every flag off, the search text is empty. */
  lemma SearchTextAllOff(request: FeedbackRequest, essayContext: seq<EssayContext>)
    ensures SearchText(EmbeddingPreprocessor(false, false, false, false), request, essayContext) == Some("")
  {
    assert "" + "" == "";
  }

  /** Index and query texts are built alike: with neither the teacher's feedback nor the
      instruction included, a request whose selected text is one of a feedback item's chunks,
      on the same assignment, gets exactly that chunk's index text as its query. */
  lemma IndexAndSearchAgree(p: EmbeddingPreprocessor, fb: Feedback, request: FeedbackRequest,
                            essayContext: seq<EssayContext>, i: nat)
    requires !p.includeTeacherFeedback && !p.includeTeacherInstruction
    requires fb.assignmentId == request.assignmentId
    requires IndexTexts(p, fb, essayContext).Ok? && IndexTexts(p, fb, essayContext).value.Some?
    requires i < |IndexTexts(p, fb, essayContext).value.value|
    requires p.includeEssayText ==> request.textSelection == fb.highlightedTextChunks.value[i]
    ensures SearchText(p, request, essayContext) == Some(IndexTexts(p, fb, essayContext).value.value[i])
  {
    IndexTextsEntries(p, fb, essayContext);
    var context := ContextPart(p, essayContext, fb.assignmentId);
    var essay := if p.includeEssayText then EssayTextEntry(request.textSelection) else "";
    assert essay + "" == essay;
    assert context + essay + "" == context + essay;
  }
}

=== FILE: feedback_generation_task.dfy ===
/** The feedback-generation assets of the pipeline
    (experiment/pipeline/assets/feedback_generation_task.py): retrieval of feedback examples and
    class-document passages for each feedback request, grouped by request, and the feedback
    generation prompt built for every request from those groups, the teacher's persona and the
    essay's context documents.

    The embedding model, the token counter and the similarity measure are parameters; the
    vector store is the in-memory store modelled in the VectorStore module. */
module FeedbackGenerationTask {
  import opened Wrappers
  import opened Values
  import opened Utils
  import opened PipelineModels
  import opened PromptDirectors
  import opened EmbeddingPreprocess
  import opened VectorStore
  import opened Loops
  import PromptEnums

  // ===================== RETRIEVAL =====================

  /** `RetrievalConfig` (lines 29-33); the threshold is a real number. */
  datatype RetrievalConfig = RetrievalConfig(enabled: bool, similarityScore: string, threshold: real, topK: int)

  /** Retrieved examples by request id. */
  type Retrieved = map<int, seq<Doc>>

  /** A stored field as text: strings are kept, a missing value reads None. */
  function TextOf(row: VectorRow, field: string): Option<string>
  {
    if field in row.metadata && row.metadata[field].Str? then Some(row.metadata[field].s) else None
  }

  /** One feedback-store result as a few-shot example: its feedback text, and its highlighted
      chunk renamed to the highlighted text. */
  function FeedbackExample(r: SearchResult): Doc
  {
    map["feedback_text" := TextOf(r.row, "feedback_text"), "highlighted_text" := TextOf(r.row, "highlighted_text_chunk")]
  }

  /** One class-store result as a context passage: its chunk as the document content and its
      name as the document name. */
  function ClassContextExample(r: SearchResult): Doc
  {
    map["document_content" := Some(r.row.text), "document_name" := TextOf(r.row, "name")]
  }

  /** The distinct request ids of the results. */
  function RequestIds(rows: seq<SearchResult>): set<int>
  {
    set i | 0 <= i < |rows| :: rows[i].requestId
  }

  /** The results of one request, converted, in result order. */
  function Matching(rows: seq<SearchResult>, id: int, extract: SearchResult -> Doc): seq<Doc>
  {
    if rows == [] then []
    else
      var last := rows[|rows| - 1];
      Matching(rows[..|rows| - 1], id, extract) + if last.requestId == id then [extract(last)] else []
  }

  /** The grouping: one entry per distinct request id, holding that request's results. */
  function Grouped(rows: seq<SearchResult>, extract: SearchResult -> Doc): Retrieved
  {
    map id | id in RequestIds(rows) :: Matching(rows, id, extract)
  }

  /** A group is the results of its request in result order: grouping distributes over
      concatenation. */
  lemma {:induction false} MatchingConcat(a: seq<SearchResult>, b: seq<SearchResult>, id: int,
                                          extract: SearchResult -> Doc)
    ensures Matching(a + b, id, extract) == Matching(a, id, extract) + Matching(b, id, extract)
  {
    if b == [] {
      assert a + b == a;
    } else {
      var init := b[..|b| - 1];
      assert (a + b)[..|a + b| - 1] == a + init;
      assert (a + b)[|a + b| - 1] == b[|b| - 1];
      MatchingConcat(a, init, id, extract);
    }
  }

  /** A group holds exactly the converted results that carry its request id. */
  lemma {:induction false} MatchingMembers(rows: seq<SearchResult>, id: int, extract: SearchResult -> Doc)
    ensures forall d :: d in Matching(rows, id, extract) <==>
              exists i :: 0 <= i < |rows| && rows[i].requestId == id && extract(rows[i]) == d
  {
    if rows != [] {
      var init := rows[..|rows| - 1];
      MatchingMembers(init, id, extract);
      forall d | d in Matching(rows, id, extract)
        ensures exists i :: 0 <= i < |rows| && rows[i].requestId == id && extract(rows[i]) == d
      {
        if d !in Matching(init, id, extract) {
          assert rows[|rows| - 1].requestId == id && extract(rows[|rows| - 1]) == d;
        } else {
          var i :| 0 <= i < |init| && init[i].requestId == id && extract(init[i]) == d;
          assert rows[i] == init[i];
        }
      }
      forall d | exists i :: 0 <= i < |rows| && rows[i].requestId == id && extract(rows[i]) == d
        ensures d in Matching(rows, id, extract)
      {
        var i :| 0 <= i < |rows| && rows[i].requestId == id && extract(rows[i]) == d;
        if i < |init| {
          assert init[i] == rows[i];
        }
      }
    }
  }

  /** No group is empty, and every result lands in the group of its own request. */
  lemma GroupedCovers(rows: seq<SearchResult>, extract: SearchResult -> Doc)
    ensures var g := Grouped(rows, extract);
            && g.Keys == RequestIds(rows)
            && (forall id :: id in g ==> |g[id]| > 0)
            && forall i :: 0 <= i < |rows| ==> extract(rows[i]) in g[rows[i].requestId]
  {
    forall id | id in RequestIds(rows)
      ensures |Matching(rows, id, extract)| > 0
    {
      MatchingMembers(rows, id, extract);
      var i :| 0 <= i < |rows| && rows[i].requestId == id;
      assert extract(rows[i]) in Matching(rows, id, extract);
    }
    forall i | 0 <= i < |rows|
      ensures extract(rows[i]) in Matching(rows, rows[i].requestId, extract)
    {
      MatchingMembers(rows, rows[i].requestId, extract);
    }
  }

  /** A group inherits the keys every converted result has. */
  lemma {:induction false} MatchingKeys(rows: seq<SearchResult>, id: int, extract: SearchResult -> Doc,
                                        first: string, second: string)
    requires forall i :: 0 <= i < |rows| ==> first in extract(rows[i]) && second in extract(rows[i])
    ensures HaveKeys(Matching(rows, id, extract), first, second)
  {
    if rows != [] {
      MatchingKeys(rows[..|rows| - 1], id, extract, first, second);
    }
  }

  /** Every feedback example has a highlighted text and a feedback text, and every class
      passage a name and a content, as the feedback-generation director requires. */
  lemma GroupedKeys(rows: seq<SearchResult>)
    ensures forall id :: id in Grouped(rows, FeedbackExample) ==>
              HaveKeys(Grouped(rows, FeedbackExample)[id], "feedback_text", "highlighted_text")
    ensures forall id :: id in Grouped(rows, ClassContextExample) ==>
              HaveKeys(Grouped(rows, ClassContextExample)[id], "document_name", "document_content")
  {
    forall id | id in RequestIds(rows)
      ensures HaveKeys(Matching(rows, id, FeedbackExample), "feedback_text", "highlighted_text")
      ensures HaveKeys(Matching(rows, id, ClassContextExample), "document_name", "document_content")
    {
      MatchingKeys(rows, id, FeedbackExample, "feedback_text", "highlighted_text");
      MatchingKeys(rows, id, ClassContextExample, "document_name", "document_content");
    }
  }

  /** One more result: the groups of a longer prefix, from those of the shorter one. */
  lemma MatchingStep(rows: seq<SearchResult>, id: int, extract: SearchResult -> Doc, i: nat)
    requires i < |rows|
    ensures Matching(rows[..i + 1], id, extract)
         == Matching(rows[..i], id, extract) + if rows[i].requestId == id then [extract(rows[i])] else []
  {
    assert rows[..i + 1][..i] == rows[..i];
  }

  /** The grouping loop (lines 80-84 and 120-124): an empty list for every request id, then
      each result appended to its request's list. */
  method GroupByRequest(rows: seq<SearchResult>, extract: SearchResult -> Doc) returns (groups: Retrieved)
    ensures groups == Grouped(rows, extract)
  {
    groups := map id | id in RequestIds(rows) :: [];
    for i := 0 to |rows|
      invariant groups.Keys == RequestIds(rows)
      invariant forall id :: id in groups ==> groups[id] == Matching(rows[..i], id, extract)
    {
      var id := rows[i].requestId;
      forall other | other in groups
        ensures Matching(rows[..i + 1], other, extract)
             == Matching(rows[..i], other, extract) + if id == other then [extract(rows[i])] else []
      {
        MatchingStep(rows, other, extract, i);
      }
      groups := groups[id := groups[id] + [extract(rows[i])]];
    }
    assert rows[..|rows|] == rows;
  }

  /** The requests as the search sees them: each request's query text from the preprocessor,
      then its embedding. */
  function Prepared(p: EmbeddingPreprocessor, requests: seq<FeedbackRequest>, essays: seq<EssayContext>,
                    embed: Option<string> -> Embedding): (r: seq<FeedbackRequest>)
    ensures |r| == |requests|
  {
    seq(|requests|, i requires 0 <= i < |requests| =>
      var q := SearchItem(p, requests[i], essays);
      q.(searchQueryEmbedding := Some(embed(q.searchQueryText))))
  }

  /** A retrieval asset over the search's outcome: nothing (None) when switched off; the
      search of a store that is not local returns no frame, whose `shape` raises
      AttributeError; no results give an empty map, not None; otherwise the grouped results. */
  function RetrievalRun(cfg: RetrievalConfig, search: Option<Result<seq<SearchResult>>>,
                        extract: SearchResult -> Doc): (r: Result<Option<Retrieved>>)
    ensures !cfg.enabled ==> r == Ok(None)
    ensures cfg.enabled && r.Ok? ==> r.value.Some?
  {
    if !cfg.enabled then Ok(None)
    else if search.None? then Err(AttributeError("shape"))
    else if search.value.Err? then Err(search.value.error)
    else if |search.value.value| == 0 then Ok(Some(map[]))
    else Ok(Some(Grouped(search.value.value, extract)))
  }

  /** `feedback_retrieval` and `class_context_retrieval`: the two assets differ only in the
      store they search and in how a result becomes an example. The caller's requests get
      their query texts and embeddings in place. */
  method Retrieval(cfg: RetrievalConfig, p: EmbeddingPreprocessor, requests: array<FeedbackRequest>,
                   essays: seq<EssayContext>, embed: Option<string> -> Embedding, store: VectorStoreClient,
                   similarity: Similarity, extract: SearchResult -> Doc) returns (r: Result<Option<Retrieved>>)
    modifies requests
    ensures !cfg.enabled ==> requests[..] == old(requests[..])
    ensures cfg.enabled ==> requests[..] == Prepared(p, old(requests[..]), essays, embed)
    ensures r == RetrievalRun(cfg, if cfg.enabled then SearchSpec(store.source, store.vectors, requests[..],
                                                                  cfg.similarityScore, cfg.threshold, cfg.topK,
                                                                  similarity)
                                   else None, extract)
  {
    if !cfg.enabled {
      return Ok(None);
    }
    PreprocessFeedbackSearch(p, requests, essays);
    var i := 0;
    while i < requests.Length
      invariant 0 <= i <= requests.Length
      invariant forall j :: 0 <= j < i ==> requests[j] == Prepared(p, old(requests[..]), essays, embed)[j]
      invariant forall j :: i <= j < requests.Length ==> requests[j] == SearchItem(p, old(requests[j]), essays)
    {
      requests[i] := requests[i].(searchQueryEmbedding := Some(embed(requests[i].searchQueryText)));
      i := i + 1;
    }
    assert requests[..] == Prepared(p, old(requests[..]), essays, embed);
    var results := store.Search(requests[..], cfg.similarityScore, cfg.threshold, cfg.topK, similarity);
    if results.None? {
      return Err(AttributeError("shape"));
    }
    if results.value.Err? {
      return Err(results.value.error);
    }
    var rows := results.value.value;
    if |rows| == 0 {
      return Ok(Some(map[]));
    }
    var groups := GroupByRequest(rows, extract);
    r := Ok(Some(groups));
  }

  // ===================== FEEDBACK GENERATION PROMPT =====================

  /** `FeedbackGenerationPromptConfig` (lines 19-26). */
  datatype PromptConfig = PromptConfig(
    version: int,
    includeTeacherModel: bool,
    includeEssayContext: bool,
    instructionStyle: string,
    maxEssayContextTokens: int,
    maxClassContextTokens: int,
    maxFeedbackExampleTokens: int)

  /** The director: the few-shot and class-context sections are on exactly when the
      corresponding retrieval produced a map, even an empty one. */
  function GenerationDirector(cfg: PromptConfig, feedback: Option<Retrieved>, classContext: Option<Retrieved>)
    : (r: Result<FeedbackGenerationDirector>)
    ensures r.Ok? <==> (cfg.version == 1 || cfg.version == 2)
                       && (cfg.includeTeacherModel || cfg.includeEssayContext || feedback.Some? || classContext.Some?)
    ensures r.Ok? ==> r.value.includeFewShotFeedback == feedback.Some?
                      && r.value.includeClassContextRetrieval == classContext.Some?
  {
    NewFeedbackGenerationDirector(cfg.version, cfg.includeTeacherModel, feedback.Some?, classContext.Some?,
                                  cfg.includeEssayContext, cfg.instructionStyle, cfg.maxEssayContextTokens,
                                  cfg.maxClassContextTokens, cfg.maxFeedbackExampleTokens)
  }

  /** The distinct ids of the requests. */
  function RequestIdSet(requests: seq<FeedbackRequest>): set<int>
  {
    set i | 0 <= i < |requests| :: requests[i].requestId
  }

  /** A switched-off retrieval stands for an empty list per request. */
  function Defaulted(retrieval: Option<Retrieved>, requests: seq<FeedbackRequest>): (r: Retrieved)
    ensures retrieval.Some? ==> r == retrieval.value
    ensures retrieval.None? ==> r.Keys == RequestIdSet(requests) && forall id :: id in r ==> r[id] == []
  {
    if retrieval.Some? then retrieval.value else map id | id in RequestIdSet(requests) :: []
  }

  /** `dict.get(id, [])`. */
  function Get(m: Retrieved, id: int): seq<Doc>
  {
    if id in m then m[id] else []
  }

  /** A request reads no examples when its retrieval was switched off or when the retrieval
      found nothing for it. */
  lemma NoExamples(retrieval: Option<Retrieved>, requests: seq<FeedbackRequest>, id: int)
    requires retrieval.None? || id !in retrieval.value
    ensures Get(Defaulted(retrieval, requests), id) == []
  {
  }

  /** The essay-context documents of one request, as the director receives them. */
  function EssayDocs(essays: seq<EssayContext>): (r: seq<Doc>)
    ensures |r| == |essays|
    ensures forall i :: 0 <= i < |r| ==> r[i] == map["document_name" := essays[i].name, "document_content" := essays[i].content]
  {
    if essays == [] then []
    else [map["document_name" := essays[0].name, "document_content" := essays[0].content]] + EssayDocs(essays[1..])
  }

  /** The essay context of a request: the documents of its assignment, in list order. */
  function EssayInput(essays: seq<EssayContext>, assignmentId: int): (r: seq<Doc>)
    ensures HaveKeys(r, "document_name", "document_content")
  {
    EssayDocs(AssignmentContext(essays, assignmentId))
  }

  /** The request as the director receives it: its instruction and selected text. */
  function RequestDoc(r: FeedbackRequest): Doc
  {
    map["instruction" := Some(r.instruction), "text_selection" := Some(r.textSelection)]
  }

  /** One step of the prompt loop: looking up the teacher's persona raises KeyError for an
      unknown teacher; otherwise the request gets the director's prompt. */
  function GenerationStep(d: FeedbackGenerationDirector, teacherModels: map<string, Option<string>>,
                          feedback: Retrieved, classContext: Retrieved, essays: seq<EssayContext>, count: TokenCounter)
    : FeedbackRequest -> Result<FeedbackRequest>
  {
    (r: FeedbackRequest) => if r.userId !in teacherModels then Err(KeyError(r.userId))
         else
           var prompt := FeedbackGenerationBuild(d, RequestDoc(r), teacherModels[r.userId], Get(feedback, r.requestId),
                                                 Get(classContext, r.requestId), EssayInput(essays, r.assignmentId),
                                                 count).prompt;
           if prompt.Err? then Err(prompt.error) else Ok(r.(llmPrompt := Some(prompt.value)))
  }

  /** `feedback_generation_prompt` once its director has been built (or has failed to be):
      every request in turn gets its prompt; a debug line then reads the first request, which
      raises IndexError for an empty list. */
  function GenerationPromptRun(director: Result<FeedbackGenerationDirector>, teacherModels: map<string, Option<string>>,
                               feedback: Option<Retrieved>, classContext: Option<Retrieved>,
                               essays: seq<EssayContext>, requests: seq<FeedbackRequest>, count: TokenCounter)
    : (r: Run<FeedbackRequest>)
    ensures |r.items| == |requests|
    ensures r.result.Ok? ==> |requests| > 0
    ensures director.Err? ==> r == Run(Err(director.error), requests)
  {
    if director.Err? then Run(Err(director.error), requests)
    else
      var step := GenerationStep(director.value, teacherModels, Defaulted(feedback, requests),
                                 Defaulted(classContext, requests), essays, count);
      var run := MapLoop(requests, step);
      if run.result.Ok? && |requests| == 0 then Run(Err(IndexError("feedback_request")), run.items)
      else run
  }

  /** On success every request has a prompt, and nothing else about the requests changes. */
  lemma GenerationPromptsAssigned(d: FeedbackGenerationDirector, teacherModels: map<string, Option<string>>,
                                  feedback: Option<Retrieved>, classContext: Option<Retrieved>,
                                  essays: seq<EssayContext>, requests: seq<FeedbackRequest>, count: TokenCounter)
    requires GenerationPromptRun(Ok(d), teacherModels, feedback, classContext, essays, requests, count).result.Ok?
    ensures var r := GenerationPromptRun(Ok(d), teacherModels, feedback, classContext, essays, requests, count);
            forall i :: 0 <= i < |requests| ==>
              r.items[i].llmPrompt.Some? && r.items[i] == requests[i].(llmPrompt := r.items[i].llmPrompt)
  {
    var step := GenerationStep(d, teacherModels, Defaulted(feedback, requests), Defaulted(classContext, requests),
                               essays, count);
    MapLoopOk(requests, step);
  }

  /** A request of a teacher without a persona entry stops the loop with KeyError, unless an
      earlier request already did. */
  lemma UnknownTeacherFails(d: FeedbackGenerationDirector, teacherModels: map<string, Option<string>>,
                            feedback: Retrieved, classContext: Retrieved, essays: seq<EssayContext>,
                            count: TokenCounter, r: FeedbackRequest)
    requires r.userId !in teacherModels
    ensures GenerationStep(d, teacherModels, feedback, classContext, essays, count)(r) == Err(KeyError(r.userId))
  {
  }

  /** For a valid director with a registered instruction style and well-keyed retrieved
      examples, a request's prompt is the FEEDBACK_GENERATION template filled with the
      request's own texts, its teacher's persona, its own retrieved examples and its
      assignment's documents. */
  lemma GenerationStepComposes(d: FeedbackGenerationDirector, teacherModels: map<string, Option<string>>,
                               feedback: Retrieved, classContext: Retrieved, essays: seq<EssayContext>,
                               count: TokenCounter, r: FeedbackRequest)
    requires ValidFeedbackGeneration(d) && d.instructionStyle in PromptEnums.FeedbackGenerationInstructionStyles
    requires r.userId in teacherModels
    requires HaveKeys(Get(feedback, r.requestId), "feedback_text", "highlighted_text")
    requires HaveKeys(Get(classContext, r.requestId), "document_name", "document_content")
    ensures var reference := FeedbackGenerationReference(d, RequestDoc(r), teacherModels[r.userId],
                                                         Get(feedback, r.requestId), Get(classContext, r.requestId),
                                                         EssayInput(essays, r.assignmentId), count);
            GenerationStep(d, teacherModels, feedback, classContext, essays, count)(r)
            == if reference.Ok? then Ok(r.(llmPrompt := Some(reference.value))) else Err(reference.error)
  {
    FeedbackGenerationBuildComposes(d, RequestDoc(r), teacherModels[r.userId], Get(feedback, r.requestId),
                                    Get(classContext, r.requestId), EssayInput(essays, r.assignmentId), count);
  }

  /** `feedback_generation_prompt` over the caller's request list, changed in place. */
  method FeedbackGenerationPrompt(cfg: PromptConfig, teacherModels: map<string, Option<string>>,
                                  feedback: Option<Retrieved>, classContext: Option<Retrieved>,
                                  essays: seq<EssayContext>, requests: array<FeedbackRequest>, count: TokenCounter)
    returns (r: Result<()>)
    modifies requests
    ensures Run(r, requests[..]) == GenerationPromptRun(GenerationDirector(cfg, feedback, classContext), teacherModels,
                                                        feedback, classContext, essays, old(requests[..]), count)
  {
    var director := GenerationDirector(cfg, feedback, classContext);
    if director.Err? {
      return Err(director.error);
    }
    var feedbackByRequest := Defaulted(feedback, requests[..]);
    var classContextByRequest := Defaulted(classContext, requests[..]);
    r := MapInPlace(requests, GenerationStep(director.value, teacherModels, feedbackByRequest, classContextByRequest,
                                             essays, count));
    if r.Ok? && requests.Length == 0 {
      r := Err(IndexError("feedback_request"));
    }
  }
}

=== FILE: file_store_bucket.dfy ===
/** The file store client (experiment/pipeline/resources/_file_store_bucket.py): reads the
    versioned user-data files, appends to output files and reads single files, on a local
    disk. The disk is a value: file texts by path and the directories that exist; what the
    JSON and CSV libraries make of a text is a parameter. */
module FileStoreBucket {
  import opened Wrappers
  import opened PyText
  import opened Values

  /** The local disk: the text of every file by path, and the directories (paths ending in
      "/") that exist. */
  datatype Disk = Disk(files: map<string, string>, dirs: set<string>)

  /** A table read from CSV: one map per row. */
  type Table = seq<map<string, Value>>

  /** The JSON and CSV libraries: parsing fails with None. */
  datatype Codecs = Codecs(
    loadJson: string -> Option<Value>,
    dumpJson: Value -> string,
    readCsv: string -> Option<Table>)

  /** Loading what was dumped gives the value back. */
  ghost predicate JsonRoundTrips(codecs: Codecs)
  {
    forall v :: codecs.loadJson(codecs.dumpJson(v)) == Some(v)
  }

  /** The data keys that name a user-data record type. */
  const UserDataKeys: set<string> :=
    {"teacher_feedback", "class_documents", "essay_context", "teacher_profiles", "student_essays", "feedback_requests"}

  /** `FileStoreClient`: a region, a source and a dataset, fixed at construction. */
  datatype FileStoreClient = FileStoreClient(region: string, source: string, dataset: string)

  /** `_validate_inputs`: the source is "AWS" or "local", the dataset "simulation", "real"
      or "dummy"; the source is checked first. */
  function ValidateInputs(c: FileStoreClient): (r: Result<()>)
    ensures r.Ok? <==> (c.source == "AWS" || c.source == "local")
                       && (c.dataset == "simulation" || c.dataset == "real" || c.dataset == "dummy")
    ensures r.Err? ==> r.error.ValueError?
  {
    if c.source != "AWS" && c.source != "local" then Err(ValueError("source"))
    else if c.dataset != "simulation" && c.dataset != "real" && c.dataset != "dummy" then Err(ValueError("dataset"))
    else Ok(())
  }

  /** The constructor: the client, or the ValueError of its validation. */
  function NewFileStoreClient(region: string, source: string, dataset: string): (r: Result<FileStoreClient>)
    ensures r.Ok? <==> ValidateInputs(FileStoreClient(region, source, dataset)).Ok?
    ensures r.Ok? ==> r.value == FileStoreClient(region, source, dataset)
  {
    var c := FileStoreClient(region, source, dataset);
    var _ :- ValidateInputs(c);
    Ok(c)
  }

  /** The source an operation uses: "default" stands for the client's own. */
  function ResolveSource(c: FileStoreClient, source: string): string
  {
    if source == "default" then c.source else source
  }

  // ===================== VERSION FILE NAMES =====================

  /** The number of consecutive ASCII digits from position `i`. */
  function DigitRun(s: string, i: nat): (r: nat)
    ensures i + r <= |s| || r == 0
    ensures forall k :: i <= k < i + r ==> IsDigit(s[k])
    decreases |s| - i
  {
    if i < |s| && IsDigit(s[i]) then 1 + DigitRun(s, i + 1) else 0
  }

  /** The regular expression `v(\d+).json` matched at the "v" at `p`, trying the digit run
      from its longest length `k` down to one as backtracking does: the digits, then any
      character but a newline, then "json". */
  function MatchDigits(s: string, p: nat, k: nat): (r: Option<string>)
    requires p + 1 + k <= |s|
    requires forall i :: p + 1 <= i < p + 1 + k ==> IsDigit(s[i])
    ensures r.Some? ==> |r.value| >= 1 && forall i :: 0 <= i < |r.value| ==> IsDigit(r.value[i])
  {
    if k == 0 then None
    else
      var q := p + 1 + k;
      if q + 5 <= |s| && s[q] != '\n' && s[q + 1..q + 5] == "json" then Some(s[p + 1..q])
      else MatchDigits(s, p, k - 1)
  }

  /** `re.search(r"v(\d+).json", s)` from position `p`: the digit group of the first match. */
  function SearchVersion(s: string, p: nat): (r: Option<string>)
    ensures r.Some? ==> |r.value| >= 1 && forall i :: 0 <= i < |r.value| ==> IsDigit(r.value[i])
    decreases |s| - p
  {
    if p >= |s| then None
    else
      var m := if s[p] == 'v' then MatchDigits(s, p, DigitRun(s, p + 1)) else None;
      if m.Some? then m else SearchVersion(s, p + 1)
  }

  /** The version number a file name carries, when the pattern matches. */
  function VersionOf(name: string): Option<nat>
  {
    match SearchVersion(name, 0)
    case Some(digits) => Some(DigitsValue(digits))
    case None => None
  }

  /** The file names directly inside directory `dir`. */
  function Listing(disk: Disk, dir: string): set<string>
  {
    set p | p in disk.files && StartsWith(p, dir) && '/' !in p[|dir|..] :: p[|dir|..]
  }

  /** The versions of the names containing ".json"; a such name without a match raises
      AttributeError (the match is None). */
  function JsonVersions(names: set<string>): (r: Result<set<nat>>)
    ensures r.Ok? <==> forall n :: n in names && Contains(n, ".json") ==> VersionOf(n).Some?
    ensures r.Ok? ==> forall v :: v in r.value <==> exists n :: n in names && Contains(n, ".json") && VersionOf(n) == Some(v)
  {
    if exists n :: n in names && Contains(n, ".json") && VersionOf(n).None? then Err(AttributeError("group"))
    else Ok(set n | n in names && Contains(n, ".json") :: VersionOf(n).value)
  }

  /** The largest number of a non-empty set. */
  ghost function MaxOf(s: set<nat>): (m: nat)
    requires s != {}
    ensures m in s && forall x :: x in s ==> x <= m
  {
    var x :| x in s;
    if s == {x} then x
    else
      var rest := MaxOf(s - {x});
      assert forall y :: y in s ==> y == x || y in s - {x};
      if x <= rest then rest else x
  }

  /** "latest": the name `v{max}` over the versions in the directory, or None when there is
      none; a missing directory raises FileNotFoundError. */
  ghost function LatestVersion(disk: Disk, dir: string): (r: Result<Option<string>>)
    ensures r.Ok? ==> dir in disk.dirs
    ensures r.Ok? && r.value.Some? ==>
              && JsonVersions(Listing(disk, dir)).Ok?
              && (exists v :: && v in JsonVersions(Listing(disk, dir)).value
                              && r.value.value == "v" + NatDecimal(v)
                              && forall w :: w in JsonVersions(Listing(disk, dir)).value ==> w <= v)
  {
    if dir !in disk.dirs then Err(FileNotFoundError(dir))
    else
      var versions :- JsonVersions(Listing(disk, dir));
      if versions == {} then Ok(None) else Ok(Some("v" + NatDecimal(MaxOf(versions))))
  }

  // ===================== READ =====================

  /** What `read` returns: "" for the unimplemented AWS source, or the records of the file. */
  datatype ReadOutput = NotImplemented | Records(items: seq<map<string, Value>>)

  /** `[model(**item) for item in data]`: iterating a list gives its items, each of which
      must be an object; iterating a non-empty object or string gives keys or characters,
      which are no mapping (TypeError), while an empty one gives no records; any other JSON
      value is not iterable (TypeError). */
  function RecordsOf(data: Value): (r: Result<seq<map<string, Value>>>)
    ensures r.Ok? <==> || (data.List? && forall i :: 0 <= i < |data.items| ==> data.items[i].Dict?)
                       || data == Dict(map[])
                       || data == Str("")
    ensures r.Ok? && data.List? ==>
              |r.value| == |data.items| && forall i :: 0 <= i < |data.items| ==> r.value[i] == data.items[i].entries
    ensures r.Ok? && !data.List? ==> r.value == []
    ensures r.Err? ==> r.error.TypeError?
  {
    match data
    case List(items) =>
      if forall i :: 0 <= i < |items| ==> items[i].Dict? then
        Ok(seq(|items|, i requires 0 <= i < |items| => items[i].entries))
      else Err(TypeError("argument after ** must be a mapping"))
    case Dict(entries) =>
      if entries == map[] then Ok([]) else Err(TypeError("argument after ** must be a mapping"))
    case Str(text) =>
      if text == "" then Ok([]) else Err(TypeError("argument after ** must be a mapping"))
    case _ => Err(TypeError("object is not iterable"))
  }

  /** The directory holding a data key's versions. */
  function DataDir(c: FileStoreClient, dataKey: string): string
  {
    "data/" + c.dataset + "/" + dataKey + "/"
  }

  /** `read`: validate; resolve the source; AWS gives ""; local reads `{version}.json` from
      the data key's directory ("latest" picks the highest version, and an empty `[]` when
      there is none); any other source raises ValueError. */
  ghost function Read(c: FileStoreClient, disk: Disk, codecs: Codecs, dataKey: string, source: string, version: string)
    : (r: Result<ReadOutput>)
    ensures r.Ok? ==> ValidateInputs(c).Ok?
    ensures r == Ok(NotImplemented) <==> ValidateInputs(c).Ok? && ResolveSource(c, source) == "AWS"
    ensures r.Ok? && r.value.Records? && r.value.items != [] ==> dataKey in UserDataKeys
  {
    var _ :- ValidateInputs(c);
    var src := ResolveSource(c, source);
    if src == "AWS" then Ok(NotImplemented)
    else if src != "local" then Err(ValueError("source"))
    else
      var chosen :- if version == "latest" then LatestVersion(disk, DataDir(c, dataKey)) else Ok(Some(version));
      if chosen.None? then Ok(Records([]))
      else
        var path := DataDir(c, dataKey) + chosen.value + ".json";
        if path !in disk.files then Err(FileNotFoundError(path))
        else
          var data := codecs.loadJson(disk.files[path]);
          if data.None? then Err(ValueError("json"))
          else if dataKey !in UserDataKeys then Err(KeyError(dataKey))
          else
            var items :- RecordsOf(data.value);
            Ok(Records(items))
  }

  // ===================== WRITE =====================

  /** The output file of a data key. */
  function OutputPath(c: FileStoreClient, dataKey: string): string
  {
    "data/" + c.dataset + "/output/" + dataKey + ".json"
  }

  /** The list a `write_json` call dumps: in append mode with an existing file, its list
      followed by the new data (TypeError when it holds no list); otherwise the new data. */
  function ToWrite(disk: Disk, codecs: Codecs, path: string, data: seq<Value>, mode: string): Result<seq<Value>>
  {
    if mode == "append" && path in disk.files then
      var existing := codecs.loadJson(disk.files[path]);
      if existing.None? then Err(ValueError("json"))
      else if !existing.value.List? then Err(TypeError("concatenate"))
      else Ok(existing.value.items + data)
    else Ok(data)
  }

  /** `write_json`: validate; resolve the source; AWS writes nothing; local dumps the list to
      the output file (its directory must exist) and changes nothing else; any other source
      raises ValueError. */
  function WriteJson(c: FileStoreClient, disk: Disk, codecs: Codecs, dataKey: string, source: string,
                     data: seq<Value>, mode: string): (r: Result<Disk>)
    ensures r.Ok? ==> r.value.dirs == disk.dirs
    ensures r.Ok? ==> forall p :: p != OutputPath(c, dataKey) ==> (p in r.value.files <==> p in disk.files)
    ensures r.Ok? ==> forall p :: p != OutputPath(c, dataKey) && p in disk.files ==> r.value.files[p] == disk.files[p]
  {
    var _ :- ValidateInputs(c);
    var src := ResolveSource(c, source);
    if src == "AWS" then Ok(disk)
    else if src != "local" then Err(ValueError("source"))
    else
      var path := OutputPath(c, dataKey);
      var list :- ToWrite(disk, codecs, path, data, mode);
      if "data/" + c.dataset + "/output/" !in disk.dirs then Err(FileNotFoundError(path))
      else Ok(disk.(files := disk.files[path := codecs.dumpJson(List(list))]))
  }

  // ===================== READ ONE FILE =====================

  /** What `read_file` returns. */
  datatype FileOutput =
    | NoFile              // "" for the unimplemented AWS source
    | Missing             // False: no such path
    | JsonValue(value: Value)
    | Frame(table: Table)
    | Text(text: string)

  /** `read_file`: validate; resolve the source; locally, False for a missing path, then a
      path containing ".json" is parsed as JSON, else one containing ".csv" as CSV, else the
      text is returned; a parse failure raises ValueError. */
  function ReadFile(c: FileStoreClient, disk: Disk, codecs: Codecs, filePath: string, source: string)
    : (r: Result<FileOutput>)
  {
    var _ :- ValidateInputs(c);
    var src := ResolveSource(c, source);
    if src == "AWS" then Ok(NoFile)
    else if src != "local" then Err(ValueError("source"))
    else if filePath !in disk.files then Ok(Missing)
    else
      var text := disk.files[filePath];
      if Contains(filePath, ".json") then
        var v := codecs.loadJson(text);
        if v.None? then Err(ValueError("json")) else Ok(JsonValue(v.value))
      else if Contains(filePath, ".csv") then
        var t := codecs.readCsv(text);
        if t.None? then Err(ValueError("csv")) else Ok(Frame(t.value))
      else Ok(Text(text))
  }

  // ===================== PROPERTIES =====================

  /** Every operation of a client with a bad source or dataset raises that ValueError. */
  lemma InvalidClientRejected(c: FileStoreClient, disk: Disk, codecs: Codecs, key: string, source: string,
                              version: string, data: seq<Value>, mode: string)
    requires ValidateInputs(c).Err?
    ensures Read(c, disk, codecs, key, source, version) == Err(ValidateInputs(c).error)
    ensures WriteJson(c, disk, codecs, key, source, data, mode) == Err(ValidateInputs(c).error)
    ensures ReadFile(c, disk, codecs, key, source) == Err(ValidateInputs(c).error)
    ensures ValidateInputs(c).error.ValueError?
  {
  }

  /** "default" behaves exactly as the client's own source, in every operation. */
  lemma DefaultSourceIsOwn(c: FileStoreClient, disk: Disk, codecs: Codecs, key: string, version: string,
                           data: seq<Value>, mode: string)
    ensures Read(c, disk, codecs, key, "default", version) == Read(c, disk, codecs, key, c.source, version)
    ensures WriteJson(c, disk, codecs, key, "default", data, mode) == WriteJson(c, disk, codecs, key, c.source, data, mode)
    ensures ReadFile(c, disk, codecs, key, "default") == ReadFile(c, disk, codecs, key, c.source)
  {
  }

  /** A valid client never raises on an AWS read or write: reads give "", writes leave the
      disk alone. */
  lemma AwsNotImplemented(c: FileStoreClient, disk: Disk, codecs: Codecs, key: string, version: string,
                          data: seq<Value>, mode: string)
    requires ValidateInputs(c).Ok?
    ensures Read(c, disk, codecs, key, "AWS", version) == Ok(NotImplemented)
    ensures WriteJson(c, disk, codecs, key, "AWS", data, mode) == Ok(disk)
    ensures ReadFile(c, disk, codecs, key, "AWS") == Ok(NoFile)
  {
  }

  /** A local read of an explicit version of a known data key gives the records of that
      version's JSON file, and fails exactly as building them fails. */
  lemma ReadExplicitVersion(c: FileStoreClient, disk: Disk, codecs: Codecs, key: string, version: string,
                            data: Value)
    requires ValidateInputs(c).Ok? && version != "latest" && key in UserDataKeys
    requires DataDir(c, key) + version + ".json" in disk.files
    requires codecs.loadJson(disk.files[DataDir(c, key) + version + ".json"]) == Some(data)
    ensures Read(c, disk, codecs, key, "local", version).Ok? <==> RecordsOf(data).Ok?
    ensures RecordsOf(data).Ok? ==> Read(c, disk, codecs, key, "local", version) == Ok(Records(RecordsOf(data).value))
  {
  }

  /** A local "latest" read is the read of the highest version in the data key's directory,
      and gives no records when the directory holds no JSON file. */
  lemma ReadLatestIsHighest(c: FileStoreClient, disk: Disk, codecs: Codecs, key: string)
    requires ValidateInputs(c).Ok?
    requires DataDir(c, key) in disk.dirs && JsonVersions(Listing(disk, DataDir(c, key))).Ok?
    ensures JsonVersions(Listing(disk, DataDir(c, key))).value == {} ==>
              Read(c, disk, codecs, key, "local", "latest") == Ok(Records([]))
    ensures JsonVersions(Listing(disk, DataDir(c, key))).value != {} ==>
              exists v :: && v in JsonVersions(Listing(disk, DataDir(c, key))).value
                          && (forall w :: w in JsonVersions(Listing(disk, DataDir(c, key))).value ==> w <= v)
                          && Read(c, disk, codecs, key, "local", "latest") == Read(c, disk, codecs, key, "local", "v" + NatDecimal(v))
  {
    var versions := JsonVersions(Listing(disk, DataDir(c, key))).value;
    if versions != {} {
      var v := MaxOf(versions);
      var name := "v" + NatDecimal(v);
      assert name[0] == 'v' && "latest"[0] == 'l';
      assert Read(c, disk, codecs, key, "local", "latest") == Read(c, disk, codecs, key, "local", name);
    }
  }

  /** A name ending in a sub-string contains it. */
  lemma {:induction false} EndsWithContains(s: string, sub: string)
    requires EndsWith(s, sub)
    ensures Contains(s, sub)
    decreases |s|
  {
    if !StartsWith(s, sub) {
      assert |s| > |sub|;
      assert s[1..][|s[1..]| - |sub|..] == s[|s| - |sub|..];
      EndsWithContains(s[1..], sub);
    }
  }

  /** A run of `n` digits followed by a non-digit is counted as `n`. */
  lemma {:induction false} DigitRunExact(s: string, i: nat, n: nat)
    requires i + n < |s|
    requires forall k :: i <= k < i + n ==> IsDigit(s[k])
    requires !IsDigit(s[i + n])
    ensures DigitRun(s, i) == n
    decreases n
  {
    if n > 0 {
      DigitRunExact(s, i + 1, n - 1);
    }
  }

  /** The pattern reads back the number of the canonical name `v{n}.json`. */
  lemma CanonicalVersionName(n: nat)
    ensures VersionOf("v" + NatDecimal(n) + ".json") == Some(n)
  {
    var d := NatDecimal(n);
    var s := "v" + d + ".json";
    var q := 1 + |d|;
    assert forall k :: 1 <= k < q ==> s[k] == d[k - 1];
    assert s[q] == '.';
    DigitRunExact(s, 1, |d|);
    assert s[q + 1..q + 5] == "json";
    assert s[1..q] == d;
    DigitsValueOfDecimal(n);
  }

  /** When the directory holds only canonical version files, "latest" is the name of the
      highest of them; with none, there is no version. */
  lemma LatestOfCanonicalNames(disk: Disk, dir: string, versions: set<nat>)
    requires dir in disk.dirs
    requires Listing(disk, dir) == set v | v in versions :: "v" + NatDecimal(v) + ".json"
    ensures versions == {} ==> LatestVersion(disk, dir) == Ok(None)
    ensures versions != {} ==> LatestVersion(disk, dir) == Ok(Some("v" + NatDecimal(MaxOf(versions))))
  {
    var names := Listing(disk, dir);
    forall v | v in versions
      ensures Contains("v" + NatDecimal(v) + ".json", ".json")
      ensures VersionOf("v" + NatDecimal(v) + ".json") == Some(v)
    {
      var s := "v" + NatDecimal(v) + ".json";
      assert s[|s| - 5..] == ".json";
      EndsWithContains(s, ".json");
      CanonicalVersionName(v);
    }
    assert forall n :: n in names ==> exists v :: v in versions && n == "v" + NatDecimal(v) + ".json";
    var found := JsonVersions(names);
    assert found.Ok?;
    assert found.value == versions by {
      forall v | v in versions ensures v in found.value {
        assert "v" + NatDecimal(v) + ".json" in names;
      }
    }
  }

  /** An append writes the existing list followed by the new data: reading the output file
      back gives exactly that list, and an overwrite gives only the new data. */
  lemma WriteJsonAppends(c: FileStoreClient, disk: Disk, codecs: Codecs, dataKey: string, data: seq<Value>,
                         mode: string)
    requires JsonRoundTrips(codecs)
    requires ValidateInputs(c).Ok? && c.source == "local"
    requires WriteJson(c, disk, codecs, dataKey, "local", data, mode).Ok?
    ensures var path := OutputPath(c, dataKey);
            var after := WriteJson(c, disk, codecs, dataKey, "local", data, mode).value;
            && path in after.files
            && codecs.loadJson(after.files[path])
               == Some(List(if mode == "append" && path in disk.files
                            then codecs.loadJson(disk.files[path]).value.items + data
                            else data))
  {
  }

  /** Written data reads back through `read_file` as the same JSON list. */
  lemma WriteThenReadFile(c: FileStoreClient, disk: Disk, codecs: Codecs, dataKey: string, data: seq<Value>)
    requires JsonRoundTrips(codecs)
    requires ValidateInputs(c).Ok? && c.source == "local"
    requires WriteJson(c, disk, codecs, dataKey, "default", data, "overwrite").Ok?
    ensures var after := WriteJson(c, disk, codecs, dataKey, "default", data, "overwrite").value;
            ReadFile(c, after, codecs, OutputPath(c, dataKey), "default") == Ok(JsonValue(List(data)))
  {
    var path := OutputPath(c, dataKey);
    assert path[|path| - 5..] == ".json";
    EndsWithContains(path, ".json");
  }

  /** `read_file` returns False exactly for a missing local path, and dispatches on ".json"
      before ".csv". */
  lemma ReadFileDispatch(c: FileStoreClient, disk: Disk, codecs: Codecs, filePath: string)
    requires ValidateInputs(c).Ok? && c.source == "local"
    ensures (ReadFile(c, disk, codecs, filePath, "default") == Ok(Missing)) <==> filePath !in disk.files
    ensures filePath in disk.files && Contains(filePath, ".json") ==>
              ReadFile(c, disk, codecs, filePath, "default").Ok? ==> ReadFile(c, disk, codecs, filePath, "default").value.JsonValue?
    ensures filePath in disk.files && !Contains(filePath, ".json") && Contains(filePath, ".csv") ==>
              ReadFile(c, disk, codecs, filePath, "default").Ok? ==> ReadFile(c, disk, codecs, filePath, "default").value.Frame?
    ensures filePath in disk.files && !Contains(filePath, ".json") && !Contains(filePath, ".csv") ==>
              ReadFile(c, disk, codecs, filePath, "default") == Ok(Text(disk.files[filePath]))
  {
  }
}

=== FILE: loops.dfy ===
/** The loop shape the pipeline assets share: walk a list of objects and replace each one, in
    place, by the result of a step that may raise. The first exception stops the walk, so the
    objects before it are already replaced and the rest are left as they were. */
module Loops {
  import opened Wrappers

  /** The exception raised, if any, and the list afterwards. */
  datatype Run<T> = Run(result: Result<()>, items: seq<T>)

  /** The walk over the list before it starts. */
  function MapLoop<T>(xs: seq<T>, step: T -> Result<T>): (r: Run<T>)
    ensures |r.items| == |xs|
  {
    if xs == [] then Run(Ok(()), [])
    else
      var x := xs[|xs| - 1];
      var before := MapLoop(xs[..|xs| - 1], step);
      if before.result.Err? then Run(before.result, before.items + [x])
      else
        var next := step(x);
        if next.Err? then Run(Err(next.error), before.items + [x])
        else Run(Ok(()), before.items + [next.value])
  }

  /** The walk succeeds exactly when every step does, and then every item is its step's
      result. */
  lemma {:induction false} MapLoopOk<T>(xs: seq<T>, step: T -> Result<T>)
    ensures var r := MapLoop(xs, step);
            && (r.result.Ok? <==> forall i :: 0 <= i < |xs| ==> step(xs[i]).Ok?)
            && (r.result.Ok? ==> forall i :: 0 <= i < |xs| ==> r.items[i] == step(xs[i]).value)
  {
    if xs != [] {
      var init := xs[..|xs| - 1];
      MapLoopOk(init, step);
      assert forall i :: 0 <= i < |init| ==> init[i] == xs[i];
    }
  }

  /** The first failing step decides the exception; the items before it are replaced and the
      rest are left as they were. */
  lemma {:induction false} MapLoopFirstError<T>(xs: seq<T>, step: T -> Result<T>, k: nat)
    requires k < |xs| && step(xs[k]).Err?
    requires forall i :: 0 <= i < k ==> step(xs[i]).Ok?
    ensures var r := MapLoop(xs, step);
            && r.result == Err(step(xs[k]).error)
            && r.items[k..] == xs[k..]
            && forall i :: 0 <= i < k ==> r.items[i] == step(xs[i]).value
  {
    if k + 1 < |xs| {
      MapLoopFirstError(xs[..|xs| - 1], step, k);
      var before := MapLoop(xs[..|xs| - 1], step);
      assert before.items[k..] == xs[..|xs| - 1][k..];
      assert xs[k..] == xs[..|xs| - 1][k..] + [xs[|xs| - 1]];
    } else {
      var init := xs[..|xs| - 1];
      assert init == xs[..k];
      MapLoopOk(init, step);
    }
  }

  /** One more item: the walk over a longer prefix, from the walk over the shorter one. */
  lemma MapLoopStep<T>(xs: seq<T>, step: T -> Result<T>, i: nat)
    requires i < |xs|
    ensures var before := MapLoop(xs[..i], step);
            var next := step(xs[i]);
            MapLoop(xs[..i + 1], step)
            == if before.result.Err? then Run(before.result, before.items + [xs[i]])
               else if next.Err? then Run(Err(next.error), before.items + [xs[i]])
               else Run(Ok(()), before.items + [next.value])
  {
    assert xs[..i + 1][..i] == xs[..i];
  }

  /** Once a step fails, the walk's outcome is fixed: later items are untouched. */
  lemma {:induction false} MapLoopAfterError<T>(xs: seq<T>, step: T -> Result<T>, n: nat)
    requires 0 < n <= |xs|
    requires MapLoop(xs[..n], step).result.Err?
    ensures MapLoop(xs, step) == Run(MapLoop(xs[..n], step).result, MapLoop(xs[..n], step).items + xs[n..])
    decreases |xs| - n
  {
    if n < |xs| {
      assert xs[..n + 1][..n] == xs[..n];
      MapLoopAfterError(xs, step, n + 1);
      assert xs[n..] == [xs[n]] + xs[n + 1..];
    } else {
      assert xs[..n] == xs;
    }
  }

  /** The walk, in place over the caller's array. */
  method MapInPlace<T>(a: array<T>, step: T -> Result<T>) returns (r: Result<()>)
    modifies a
    ensures Run(r, a[..]) == MapLoop(old(a[..]), step)
  {
    ghost var xs := a[..];
    var i := 0;
    while i < a.Length
      invariant 0 <= i <= a.Length
      invariant MapLoop(xs[..i], step) == Run(Ok(()), a[..i])
      invariant a[i..] == xs[i..]
    {
      var x := a[i];
      assert x == xs[i];
      MapLoopStep(xs, step, i);
      var next := step(x);
      if next.Err? {
        MapLoopAfterError(xs, step, i + 1);
        assert a[..] == a[..i] + [xs[i]] + xs[i + 1..];
        return Err(next.error);
      }
      a[i] := next.value;
      assert a[..i + 1] == a[..i] + [next.value];
      i := i + 1;
    }
    assert xs[..i] == xs;
    assert a[..i] == a[..];
    r := Ok(());
  }
}

=== FILE: pipeline_models.dfy ===
/** The records the pipeline passes between its stages (experiment/pipeline/models/__init__.py),
    with their fields only: validation, aliases and serialisation belong to the schema library.
    Fields that may be absent are options. */
module PipelineModels {
  import opened Wrappers

  /** An embedding vector; only the similarity measure looks inside it. */
  type Embedding = seq<real>

  /** A piece of teacher feedback on a highlighted passage, with the texts and vectors the
      retrieval stage adds to it. */
  datatype Feedback = Feedback(
    documentId: int,
    assignmentId: int,
    userId: string,
    highlightedText: string,
    feedbackText: string,
    feedbackId: int,
    timestamp: string,
    highlightedTextChunks: Option<seq<string>>,
    indexText: Option<seq<string>>,
    indexEmbeddings: Option<seq<Embedding>>)

  /** A student's request for feedback on a passage, with the texts the pipeline fills in. */
  datatype FeedbackRequest = FeedbackRequest(
    requestId: int,
    userId: string,
    essayId: int,
    assignmentId: int,
    textSelection: string,
    instruction: string,
    searchQueryText: Option<string>,
    searchQueryEmbedding: Option<Embedding>,
    llmPrompt: Option<string>,
    llmResponse: Option<string>,
    timestamp: Option<string>)

  /** A document describing an assignment. */
  datatype EssayContext = EssayContext(
    userId: string,
    classId: int,
    documentId: int,
    name: Option<string>,
    filePath: Option<string>,
    assignmentId: int,
    content: Option<string>)

  /** A class document, with its chunks and their embeddings once computed. */
  datatype ClassDocument = ClassDocument(
    userId: string,
    classId: int,
    documentId: int,
    name: Option<string>,
    filePath: Option<string>,
    content: Option<string>,
    chunks: Option<seq<string>>,
    embeddings: Option<seq<Embedding>>)

  /** One onboarding question and the teacher's answer. */
  datatype Onboarding = Onboarding(question: string, response: string)

  /** A teacher, with the persona text the prompt layer maintains. */
  datatype Teacher = Teacher(
    userId: string,
    firstName: string,
    lastName: string,
    onboardingResponses: Option<seq<Onboarding>>,
    teacherModel: Option<string>)
}

=== FILE: prompt_builder.dfy ===
/** The prompt builder (experiment/prompt/_builder.py) and the rendering rules of the two
    prompt kinds it constructs: a few-shot block (prefix, one rendered example per document,
    empty suffix) and a composed prompt whose sub-prompts fill the slots of a final template. */
module PromptBuilder {
  import opened Wrappers
  import opened PyText
  import opened Values
  import opened PromptEnums

  // ===================== RENDERING =====================

  /** The text of a few-shot block is formatted once more with no arguments (langchain's
      strict formatter, a `string.Formatter`). `{{` and `}}` stand for single braces, and a
      lone `}` or a `{` ending the text is ValueError; any other `{` opens a replacement
      field, which is parsed (`ParseField`) and then looked up among no arguments, so it
      raises `LookupError` of its name. */
  function FormatNoArgs(s: string): (r: Result<string>)
    ensures r.Ok? ==> |r.value| <= |s|
    decreases |s|
  {
    if s == [] then Ok("")
    else if s[0] == '{' then
      if |s| == 1 then Err(ValueError("Single '{' encountered in format string"))
      else if s[1] == '{' then
        var rest :- FormatNoArgs(s[2..]);
        Ok("{" + rest)
      else
        var name :- ParseField(s, 1);
        Err(LookupError(name))
    else if s[0] == '}' then
      if |s| >= 2 && s[1] == '}' then
        var rest :- FormatNoArgs(s[2..]);
        Ok("}" + rest)
      else Err(ValueError("Single '}' encountered in format string"))
    else
      var rest :- FormatNoArgs(s[1..]);
      Ok([s[0]] + rest)
  }

  /** The characters that end a field name: `}`, `:` (a format spec follows) and `!` (a
      conversion follows). */
  predicate NameStop(c: char)
  {
    c == '}' || c == ':' || c == '!'
  }

  /** The first `]` at or after `i`, or the end of the text. */
  function BracketEnd(s: string, i: nat): (r: nat)
    requires i <= |s|
    ensures i <= r <= |s|
    ensures r < |s| ==> s[r] == ']'
    ensures forall k :: i <= k < r ==> s[k] != ']'
    decreases |s| - i
  {
    if i == |s| || s[i] == ']' then i else BracketEnd(s, i + 1)
  }

  /** Where the name of a replacement field starting at `i` ends: at the first `}`, `:` or
      `!`, where a `[` jumps to the next `]` anywhere in the rest of the text. A `{` in the
      name, or running out of text, is ValueError. */
  function NameEnd(s: string, i: nat): (r: Result<nat>)
    requires i <= |s|
    ensures r.Ok? ==> i <= r.value < |s| && NameStop(s[r.value])
    ensures r.Err? ==> r.error.ValueError?
    decreases |s| - i
  {
    if i == |s| then Err(ValueError("expected '}' before end of string"))
    else if s[i] == '{' then Err(ValueError("unexpected '{' in field name"))
    else if NameStop(s[i]) then Ok(i)
    else if s[i] == '[' then NameEnd(s, BracketEnd(s, i + 1))
    else NameEnd(s, i + 1)
  }

  /** The index of the `}` closing a format spec, scanning from `i` with `depth` braces
      open: a `{...}` nested in the spec is skipped whole. */
  function ClosingBrace(s: string, i: nat, depth: nat): (r: Option<nat>)
    requires depth >= 1
    ensures r.Some? ==> i <= r.value < |s| && s[r.value] == '}'
    decreases |s| - i
  {
    if i >= |s| then None
    else if s[i] == '{' then ClosingBrace(s, i + 1, depth + 1)
    else if s[i] == '}' then
      if depth == 1 then Some(i) else ClosingBrace(s, i + 1, depth - 1)
    else ClosingBrace(s, i + 1, depth)
  }

  /** The name of the replacement field whose text starts at `i`, just after its `{`. The
      name ends as `NameEnd` says; a `!` takes the next character, whatever it is, as the
      conversion, which must be followed by `}` or `:`; after the `:` the format spec runs
      to its matching `}`. A malformed field is ValueError; otherwise the name is the
      stretch of text before the character that ended it. */
  function ParseField(s: string, i: nat): (r: Result<string>)
    requires i <= |s|
    ensures r.Err? ==> r.error.ValueError?
    ensures r.Ok? ==> i + |r.value| < |s| && r.value == s[i..i + |r.value|] && NameStop(s[i + |r.value|])
  {
    var k :- NameEnd(s, i);
    var name := s[i..k];
    if s[k] == '}' then Ok(name)
    else
      var specStart :=
        if s[k] == ':' then k + 1
        else if k + 2 < |s| then k + 3
        else |s|;
      if s[k] == '!' && k + 1 >= |s| then
        Err(ValueError("end of string while looking for conversion specifier"))
      else if s[k] == '!' && k + 2 < |s| && s[k + 2] == '}' then Ok(name)
      else if s[k] == '!' && k + 2 < |s| && s[k + 2] != ':' then
        Err(ValueError("expected ':' after conversion specifier"))
      else if ClosingBrace(s, specStart, 1).None? then Err(ValueError("unmatched '{' in format spec"))
      else Ok(name)
  }

  /** The argument part of a parsed field name, before any `.` or `[`, holds no brace, no
      `:` and no `!`. */
  lemma ParsedArgNamePlain(s: string, i: nat)
    requires i <= |s| && ParseField(s, i).Ok?
    ensures forall k :: 0 <= k < |ArgName(ParseField(s, i).value)| ==>
              var c := ArgName(ParseField(s, i).value)[k]; c != '{' && !NameStop(c)
  {
    var name := ParseField(s, i).value;
    var arg := ArgName(name);
    assert forall m :: i <= m < i + |arg| ==> s[m] == arg[m - i] && s[m] != '[';
    NameHeadPlain(s, i, i + |arg|);
  }

  /** Before the first `[`, a field name that scans without error holds no brace, `:` or
      `!`. */
  lemma {:induction false} NameHeadPlain(s: string, i: nat, k: nat)
    requires i <= k <= |s|
    requires NameEnd(s, i).Ok? && k <= NameEnd(s, i).value
    requires forall m :: i <= m < k ==> s[m] != '['
    ensures forall m :: i <= m < k ==> s[m] != '{' && !NameStop(s[m])
    decreases k - i
  {
    if i < k {
      NameHeadPlain(s, i + 1, k);
    }
  }

  /** The leading part of a field name, before the first `.` or `[`: the argument the
      field looks up. */
  function ArgName(name: string): (r: string)
    ensures r <= name
    ensures forall k :: 0 <= k < |r| ==> r[k] != '.' && r[k] != '['
    ensures |r| < |name| ==> name[|r|] == '.' || name[|r|] == '['
  {
    if name == [] || name[0] == '.' || name[0] == '[' then ""
    else [name[0]] + ArgName(name[1..])
  }

  /** A non-empty run of decimal digits: an argument position. */
  predicate IsDecimal(s: string)
  {
    s != [] && forall k :: 0 <= k < |s| ==> '0' <= s[k] <= '9'
  }

  /** The exception looking a parsed field name up among no arguments raises: an empty name,
      or a number before the first `.` or `[`, is a position (IndexError); anything else
      names the keyword argument it looks up, its part before the first `.` or `[`, in a
      KeyError. */
  function LookupError(name: string): (e: Error)
    ensures e.KeyError? || e.IndexError?
    ensures e.KeyError? ==> e.key <= name && !IsDecimal(e.key)
    ensures e.KeyError? ==> forall k :: 0 <= k < |e.key| ==> e.key[k] != '.' && e.key[k] != '['
    ensures e.KeyError? && |e.key| < |name| ==> name[|e.key|] == '.' || name[|e.key|] == '['
    ensures (name == "" || IsDecimal(name)) ==> e.IndexError?
    ensures name != "" && !IsDecimal(name) && '.' !in name && '[' !in name ==> e == KeyError(name)
  {
    var arg := ArgName(name);
    if name == "" || IsDecimal(arg) then IndexError("tuple index out of range")
    else KeyError(arg)
  }

  /** Text with no braces at all. */
  predicate NoBraces(s: string)
  {
    forall i :: 0 <= i < |s| ==> s[i] != '{' && s[i] != '}'
  }

  /** Text without braces survives the second formatting pass unchanged; text with a
      single `{` or `}` in it does not survive it at all. */
  lemma {:induction false} FormatNoArgsOfPlainText(s: string)
    ensures NoBraces(s) ==> FormatNoArgs(s) == Ok(s)
    ensures (|s| == 1 && s[0] in "{}") ==> FormatNoArgs(s).Err?
    decreases |s|
  {
    if s != [] && NoBraces(s) {
      assert NoBraces(s[1..]);
      FormatNoArgsOfPlainText(s[1..]);
      assert [s[0]] + s[1..] == s;
    }
  }

  /** Brace-free text in front changes nothing but the front of the result: the rest
      fails exactly as it fails alone, or formats to the same text after it. */
  lemma {:induction false} FormatNoArgsPlainPrefix(p: string, s: string)
    requires NoBraces(p)
    ensures FormatNoArgs(s).Err? ==> FormatNoArgs(p + s) == FormatNoArgs(s)
    ensures FormatNoArgs(s).Ok? ==> FormatNoArgs(p + s) == Ok(p + FormatNoArgs(s).value)
    decreases |p|
  {
    if p == [] {
      assert p + s == s;
      if FormatNoArgs(s).Ok? {
        assert p + FormatNoArgs(s).value == FormatNoArgs(s).value;
      }
    } else {
      assert (p + s)[0] == p[0];
      assert NoBraces(p[1..]);
      assert (p + s)[1..] == p[1..] + s;
      FormatNoArgsPlainPrefix(p[1..], s);
      if FormatNoArgs(s).Ok? {
        assert [p[0]] + (p[1..] + FormatNoArgs(s).value) == p + FormatNoArgs(s).value;
      }
    }
  }

  /** The part of a field's text before its first `:`: its name when it has no brackets
      and no conversion. */
  function BeforeColon(f: string): (r: string)
    ensures r <= f && ':' !in r
    ensures |r| < |f| ==> f[|r|] == ':'
  {
    match IndexOf(f, ':')
    case None => f
    case Some(j) => f[..j]
  }

  /** A field whose text holds no brace, no `[` and no `!`, closed by the `}` at its end,
      is named by its text before any `:`. */
  lemma ParseFieldOfPlainText(s: string, i: nat, f: string)
    requires i + |f| < |s| && s[i..i + |f|] == f && s[i + |f|] == '}'
    requires forall k :: 0 <= k < |f| ==> f[k] != '{' && f[k] != '}' && f[k] != '[' && f[k] != '!'
    ensures ParseField(s, i) == Ok(BeforeColon(f))
  {
    var b := BeforeColon(f);
    var n := |b|;
    forall k | i <= k < i + |f|
      ensures s[k] == f[k - i] && s[k] != '{' && s[k] != '}' && s[k] != '[' && s[k] != '!'
    {
      assert s[k] == s[i..i + |f|][k - i];
    }
    forall k | i <= k < i + n
      ensures s[k] != ':'
    {
      assert s[k] == b[k - i];
    }
    assert s[i..i + n] == b by {
      assert s[i..i + n] == s[i..i + |f|][..n];
    }
    if n == |f| {
      ParseFieldAtClose(s, i, i + n);
    } else {
      ParseFieldAtColon(s, i, i + n, i + |f|);
    }
  }

  /** A field whose name runs plainly up to a `}` is named by that text. */
  lemma ParseFieldAtClose(s: string, i: nat, j: nat)
    requires i <= j < |s| && s[j] == '}'
    requires forall k :: i <= k < j ==> s[k] != '{' && s[k] != '[' && !NameStop(s[k])
    ensures ParseField(s, i) == Ok(s[i..j])
  {
    NameEndOfPlain(s, i, j);
    ParseFieldEnds(s, i);
  }

  /** A field whose name runs plainly up to a `:`, followed by a brace-free spec closed by
      a `}`, is named by the text before the `:`. */
  lemma ParseFieldAtColon(s: string, i: nat, c: nat, j: nat)
    requires i <= c < j < |s| && s[c] == ':' && s[j] == '}'
    requires forall k :: i <= k < c ==> s[k] != '{' && s[k] != '[' && !NameStop(s[k])
    requires forall k :: c < k < j ==> s[k] != '{' && s[k] != '}'
    ensures ParseField(s, i) == Ok(s[i..c])
  {
    NameEndOfPlain(s, i, c);
    ClosingBraceOfPlain(s, c + 1, j);
    ParseFieldEnds(s, i);
  }

  /** The name scan stops at the first `}`, `:` or `!` when no brace or `[` comes before. */
  lemma {:induction false} NameEndOfPlain(s: string, i: nat, j: nat)
    requires i <= j < |s| && NameStop(s[j])
    requires forall k :: i <= k < j ==> s[k] != '{' && s[k] != '[' && !NameStop(s[k])
    ensures NameEnd(s, i) == Ok(j)
    decreases j - i
  {
    if i < j {
      NameEndOfPlain(s, i + 1, j);
    }
  }

  /** With no brace between `i` and a `}` at `j`, that `}` closes the format spec. */
  lemma {:induction false} ClosingBraceOfPlain(s: string, i: nat, j: nat)
    requires i <= j < |s| && s[j] == '}'
    requires forall k :: i <= k < j ==> s[k] != '{' && s[k] != '}'
    ensures ClosingBrace(s, i, 1) == Some(j)
    decreases j - i
  {
    if i < j {
      ClosingBraceOfPlain(s, i + 1, j);
    }
  }

  /** After text without braces, a replacement field whose text holds no brace, no `[` and
      no `!` decides the outcome, whatever follows it: formatting fails with the lookup
      error of its name. */
  lemma FormatNoArgsFirstField(p: string, f: string, rest: string)
    requires NoBraces(p)
    requires forall k :: 0 <= k < |f| ==> f[k] != '{' && f[k] != '}' && f[k] != '[' && f[k] != '!'
    ensures FormatNoArgs(p + "{" + f + "}" + rest) == Err(LookupError(BeforeColon(f)))
  {
    var s := "{" + f + "}" + rest;
    assert p + "{" + f + "}" + rest == p + s;
    assert s[1..1 + |f|] == f && s[1 + |f|] == '}';
    assert |s| >= 2 && s[1] != '{' by {
      if f != [] { assert s[1] == f[0]; }
    }
    ParseFieldOfPlainText(s, 1, f);
    FormatNoArgsPlainPrefix(p, s);
  }

  /** Text opening with a single `{` fails at that field: with the ValueError parsing it
      raises, or with the lookup error of its name. */
  lemma FormatNoArgsOfField(s: string)
    requires |s| >= 2 && s[0] == '{' && s[1] != '{'
    ensures ParseField(s, 1).Err? ==> FormatNoArgs(s) == Err(ParseField(s, 1).error)
    ensures ParseField(s, 1).Ok? ==> FormatNoArgs(s) == Err(LookupError(ParseField(s, 1).value))
  {
  }

  /** How a field whose name scans without error ends: at `}`, at a conversion followed by
      `}` or by something other than `:`, or at a format spec that is closed. */
  lemma ParseFieldEnds(s: string, i: nat)
    requires i <= |s| && NameEnd(s, i).Ok?
    ensures var k := NameEnd(s, i).value;
      && (s[k] == '}' ==> ParseField(s, i) == Ok(s[i..k]))
      && (s[k] == '!' && k + 2 < |s| && s[k + 2] == '}' ==> ParseField(s, i) == Ok(s[i..k]))
      && (s[k] == '!' && k + 2 < |s| && s[k + 2] != '}' && s[k + 2] != ':' ==>
            ParseField(s, i) == Err(ValueError("expected ':' after conversion specifier")))
      && (s[k] == ':' && ClosingBrace(s, k + 1, 1).Some? ==> ParseField(s, i) == Ok(s[i..k]))
  {
  }

  /** An empty field is positional, and there is no argument to take: IndexError. */
  lemma EmptyFieldExample(s: string)
    requires s == "{}"
    ensures FormatNoArgs(s) == Err(IndexError("tuple index out of range"))
  {
    FormatNoArgsOfField(s);
    assert NameEnd(s, 1) == Ok(1);
    ParseFieldEnds(s, 1);
    assert s[1..1] == "";
  }

  /** A numbered field is positional too: IndexError. */
  lemma NumberedFieldExample(t: string)
    requires t == "{0}"
    ensures FormatNoArgs(t) == Err(IndexError("tuple index out of range"))
  {
    FormatNoArgsOfField(t);
    assert NameEnd(t, 2) == Ok(2);
    assert NameEnd(t, 1) == Ok(2);
    ParseFieldEnds(t, 1);
    assert t[1..2] == "0";
    assert ArgName("0") == "0";
    assert IsDecimal("0");
  }

  /** A field with an attribute reports the argument before the `.`. */
  lemma AttributeFieldExample(s: string)
    requires s == "{a.b}"
    ensures FormatNoArgs(s) == Err(KeyError("a"))
  {
    FormatNoArgsOfField(s);
    assert NameEnd(s, 4) == Ok(4);
    assert NameEnd(s, 3) == Ok(4);
    assert NameEnd(s, 2) == Ok(4);
    assert NameEnd(s, 1) == Ok(4);
    ParseFieldEnds(s, 1);
    assert s[1..4] == "a.b";
    assert ArgName(".b") == "";
    assert ArgName("a.b") == "a";
  }

  /** A field with a nested format spec reports its name; the spec is never expanded. */
  lemma NestedSpecFieldExample(t: string)
    requires t == "{a:{b}}"
    ensures FormatNoArgs(t) == Err(KeyError("a"))
  {
    FormatNoArgsOfField(t);
    assert NameEnd(t, 2) == Ok(2);
    assert NameEnd(t, 1) == Ok(2);
    assert ClosingBrace(t, 6, 1) == Some(6);
    assert ClosingBrace(t, 5, 2) == Some(6);
    assert ClosingBrace(t, 4, 2) == Some(6);
    assert ClosingBrace(t, 3, 1) == Some(6);
    ParseFieldEnds(t, 1);
    assert t[1..2] == "a";
    assert ArgName("a") == "a";
  }

  /** A `[` with no `]` after it leaves the field unterminated, even before a `}`. */
  lemma UnclosedBracketFieldExample(s: string)
    requires s == "{a[}"
    ensures FormatNoArgs(s) == Err(ValueError("expected '}' before end of string"))
  {
    FormatNoArgsOfField(s);
    assert BracketEnd(s, 4) == 4;
    assert BracketEnd(s, 3) == 4;
    assert NameEnd(s, 4) == Err(ValueError("expected '}' before end of string"));
    assert NameEnd(s, 2) == NameEnd(s, 4);
    assert NameEnd(s, 1) == NameEnd(s, 2);
  }

  /** A brace between `[` and `]` belongs to the field name. */
  lemma BracedIndexFieldExample(t: string)
    requires t == "{a[{]}"
    ensures FormatNoArgs(t) == Err(KeyError("a"))
  {
    FormatNoArgsOfField(t);
    assert BracketEnd(t, 4) == 4;
    assert BracketEnd(t, 3) == 4;
    assert NameEnd(t, 5) == Ok(5);
    assert NameEnd(t, 4) == Ok(5);
    assert NameEnd(t, 2) == Ok(5);
    assert NameEnd(t, 1) == Ok(5);
    ParseFieldEnds(t, 1);
    assert t[1..5] == "a[{]";
    assert ArgName("[{]") == "";
    assert ArgName("a[{]") == "a";
  }

  /** The character after `!` is the conversion, even a `}`. */
  lemma BraceConversionFieldExample(s: string)
    requires s == "{a!}}"
    ensures FormatNoArgs(s) == Err(KeyError("a"))
  {
    FormatNoArgsOfField(s);
    assert NameEnd(s, 2) == Ok(2);
    assert NameEnd(s, 1) == Ok(2);
    ParseFieldEnds(s, 1);
    assert s[1..2] == "a";
    assert ArgName("a") == "a";
  }

  /** A conversion must be followed by `}` or `:`. */
  lemma LongConversionFieldExample(t: string)
    requires t == "{a!rx}"
    ensures FormatNoArgs(t) == Err(ValueError("expected ':' after conversion specifier"))
  {
    FormatNoArgsOfField(t);
    assert NameEnd(t, 2) == Ok(2);
    assert NameEnd(t, 1) == Ok(2);
    ParseFieldEnds(t, 1);
  }

  /** `{k: str(e[k]) for k in e}`: the keyword arguments an example dict supplies. */
  function ExampleVars(e: Doc): (vars: map<string, string>)
    ensures vars.Keys == e.Keys
    ensures forall k :: k in e ==> vars[k] == PyStr(e[k])
  {
    map k | k in e :: PyStr(e[k])
  }

  /** Every example rendered with the example template, in order; the first example
      missing a placeholder raises KeyError. When that example misses several placeholders,
      the one named is the first in template order, where langchain names the first in
      sorted order; the directors check every example's keys beforehand, so a built prompt
      never reaches this case. */
  function RenderExamples(t: Template, examples: seq<Doc>): (r: Result<seq<string>>)
    ensures r.Ok? <==> forall e, n :: e in examples && n in Slots(t) ==> n in e
    ensures r.Ok? ==> |r.value| == |examples|
    ensures r.Ok? ==> forall i :: 0 <= i < |examples| ==> Fill(t, ExampleVars(examples[i])) == Ok(r.value[i])
  {
    if examples == [] then Ok([])
    else
      var head := Fill(t, ExampleVars(examples[0]));
      if head.Err? then
        assert head.error.key in Slots(t) && head.error.key !in examples[0];
        Err(head.error)
      else
        var rest := RenderExamples(t, examples[1..]);
        assert forall e :: e in examples <==> e == examples[0] || e in examples[1..];
        if rest.Err? then Err(rest.error)
        else
          var r := [head.value] + rest.value;
          assert forall i :: 1 <= i < |examples| ==> r[i] == rest.value[i - 1] && examples[i] == examples[1..][i - 1];
          Ok(r)
  }

  /** The pieces that are not the empty string, in order. */
  function NonEmpty(pieces: seq<string>): (r: seq<string>)
    ensures forall i :: 0 <= i < |r| ==> r[i] != ""
    ensures |r| <= |pieces|
  {
    if pieces == [] then []
    else if pieces[0] == "" then NonEmpty(pieces[1..])
    else [pieces[0]] + NonEmpty(pieces[1..])
  }

  /** A few-shot block: the example template, the examples, a prefix and a suffix. */
  datatype FewShotPrompt = FewShotPrompt(
    examplePrompt: Template,
    examples: seq<Doc>,
    prefix: string,
    suffix: string,
    inputVariables: seq<string>)

  /** A prompt handed to a composed prompt as one of its parts. */
  datatype SubPrompt =
    | FewShot(block: FewShotPrompt)
    | Plain(template: Template)

  /** `FewShotPromptTemplate.format()`: prefix, examples and suffix, empty ones dropped,
      joined by a blank line, then formatted once more with no arguments. */
  function FormatFewShot(p: FewShotPrompt): Result<string>
  {
    var rendered :- RenderExamples(p.examplePrompt, p.examples);
    FormatNoArgs(Join("\n\n", NonEmpty([p.prefix] + rendered + [p.suffix])))
  }

  /** `format()` of a sub-prompt; sub-prompts take no arguments. */
  function FormatSubPrompt(p: SubPrompt): Result<string>
  {
    match p
    case FewShot(b) => FormatFewShot(b)
    case Plain(t) => Fill(t, map[])
  }

  /** A composed prompt: its final template and its named sub-prompts, in order. */
  datatype PipelinePrompt = PipelinePrompt(
    finalPrompt: Template,
    pipelinePrompts: seq<(string, SubPrompt)>,
    inputVariables: seq<string>)

  /** The sub-prompts rendered in order, each stored under its name. */
  function RenderPipeline(ps: seq<(string, SubPrompt)>, kwargs: map<string, string>): (r: Result<map<string, string>>)
    ensures r.Ok? ==> kwargs.Keys <= r.value.Keys
    ensures r.Ok? ==> forall i :: 0 <= i < |ps| ==> ps[i].0 in r.value
  {
    if ps == [] then Ok(kwargs)
    else
      var s :- FormatSubPrompt(ps[0].1);
      var rest :- RenderPipeline(ps[1..], kwargs[ps[0].0 := s]);
      assert forall i :: 1 <= i < |ps| ==> ps[i] == ps[1..][i - 1];
      Ok(rest)
  }

  /** `PipelinePromptTemplate.format(**kwargs)`: render the sub-prompts in order, then fill
      the final template with the caller's arguments and the rendered sub-prompts. */
  function FormatPipeline(p: PipelinePrompt, kwargs: map<string, string>): Result<string>
  {
    var all :- RenderPipeline(p.pipelinePrompts, kwargs);
    Fill(p.finalPrompt, all)
  }

  /** A composed prompt whose sub-prompt names are distinct fills each slot with exactly
      that sub-prompt's text. */
  lemma {:induction false} RenderPipelineValues(ps: seq<(string, SubPrompt)>, kwargs: map<string, string>, i: nat)
    requires i < |ps|
    requires forall a, b :: 0 <= a < b < |ps| ==> ps[a].0 != ps[b].0
    requires RenderPipeline(ps, kwargs).Ok?
    ensures FormatSubPrompt(ps[i].1).Ok?
    ensures RenderPipeline(ps, kwargs).value[ps[i].0] == FormatSubPrompt(ps[i].1).value
  {
    var s := FormatSubPrompt(ps[0].1).value;
    assert forall j :: 1 <= j < |ps| ==> ps[j] == ps[1..][j - 1];
    if i == 0 {
      RenderPipelineKeeps(ps[1..], kwargs[ps[0].0 := s], ps[0].0);
    } else {
      RenderPipelineValues(ps[1..], kwargs[ps[0].0 := s], i - 1);
    }
  }

  /** A name no later sub-prompt uses keeps the value it had before rendering. */
  lemma {:induction false} RenderPipelineKeeps(ps: seq<(string, SubPrompt)>, kwargs: map<string, string>, k: string)
    requires forall j :: 0 <= j < |ps| ==> ps[j].0 != k
    requires k in kwargs
    requires RenderPipeline(ps, kwargs).Ok?
    ensures RenderPipeline(ps, kwargs).value[k] == kwargs[k]
  {
    if ps != [] {
      var s := FormatSubPrompt(ps[0].1).value;
      assert forall j :: 1 <= j < |ps| ==> ps[j] == ps[1..][j - 1];
      RenderPipelineKeeps(ps[1..], kwargs[ps[0].0 := s], k);
    }
  }

  // ===================== BUILDER =====================

  /** `PromptLayerBuilder`: a version and that version's two tables, fixed at construction. */
  datatype PromptLayerBuilder = PromptLayerBuilder(
    version: string,
    templates: map<string, Template>,
    prefixes: map<string, string>)

  /** The constructor: a version missing from either registry raises KeyError. */
  function NewPromptLayerBuilder(version: string): (r: Result<PromptLayerBuilder>)
    ensures r.Ok? <==> version == "V1" || version == "V2"
    ensures r.Err? ==> r.error == KeyError(version)
    ensures r.Ok? ==> r.value.templates == TemplateRegistry[version] && r.value.prefixes == PrefixRegistry[version]
    ensures r.Ok? ==> r.value.version == version
  {
    if version !in TemplateRegistry then Err(KeyError(version))
    else if version !in PrefixRegistry then Err(KeyError(version))
    else Ok(PromptLayerBuilder(version, TemplateRegistry[version], PrefixRegistry[version]))
  }

  /** `build_few_shot_prompt`: the section must be a template name (AssertionError, checked
      twice in the source), and must have a prefix (KeyError). */
  function BuildFewShotPrompt(b: PromptLayerBuilder, examples: seq<Doc>, context: string): (r: Result<FewShotPrompt>)
    ensures context !in b.templates ==> r.Err? && r.error.AssertionError?
    ensures context in b.templates && context !in b.prefixes ==> r == Err(KeyError(context))
    ensures r.Ok? <==> context in b.templates && context in b.prefixes
    ensures r.Ok? ==> r.value.examples == examples && r.value.suffix == "" && r.value.inputVariables == []
  {
    if context !in b.templates then Err(AssertionError(""))
    else if context !in b.prefixes then Err(KeyError(context))
    else Ok(FewShotPrompt(b.templates[context], examples, b.prefixes[context], "", []))
  }

  /** `build_compose_prompt`: the event must be a template name; its template becomes the
      final prompt over the given sub-prompts, in the given order. */
  function BuildComposePrompt(b: PromptLayerBuilder, inputPrompts: seq<(string, SubPrompt)>, event: string,
                              inputVars: seq<string>): (r: Result<PipelinePrompt>)
    ensures r.Ok? <==> event in b.templates
    ensures r.Err? ==> r.error.AssertionError?
    ensures r.Ok? ==> r.value.pipelinePrompts == inputPrompts && r.value.inputVariables == inputVars
  {
    if event !in b.templates then Err(AssertionError(""))
    else Ok(PipelinePrompt(b.templates[event], inputPrompts, inputVars))
  }

  /** The registered builders are exactly those of versions 1 and 2. */
  lemma BuilderVersions(version: int)
    ensures NewPromptLayerBuilder("V" + Decimal(version)).Ok? <==> version == 1 || version == 2
  {
    var name := "V" + Decimal(version);
    if version < 0 {
      assert name[1] == '-';
    } else {
      DecimalSingleDigit(version);
      if version >= 10 {
        assert |name| >= 3;
      } else {
        assert name == ['V', DigitChar(version)];
      }
    }
  }

  /** A few-shot block over no examples renders as its prefix, when the prefix has no
      braces; this is what every registered prefix gives. */
  lemma {:induction false} FewShotOfNoExamples(p: FewShotPrompt)
    requires p.examples == [] && p.suffix == ""
    requires NoBraces(p.prefix)
    ensures FormatFewShot(p) == Ok(p.prefix)
  {
    FormatNoArgsOfPlainText(p.prefix);
    FormatNoArgsOfPlainText("");
    if p.prefix == "" {
      assert NonEmpty([p.prefix] + [] + [p.suffix]) == [];
    } else {
      assert NonEmpty([p.prefix] + [] + [p.suffix]) == [p.prefix];
    }
  }

  /** A few-shot block over brace-free examples is the prefix followed by each rendered
      example, each after a blank line, in the given order. */
  lemma {:induction false} FewShotLayout(p: FewShotPrompt)
    requires p.suffix == "" && p.prefix != ""
    requires RenderExamples(p.examplePrompt, p.examples).Ok?
    requires forall i :: 0 <= i < |RenderExamples(p.examplePrompt, p.examples).value| ==>
               RenderExamples(p.examplePrompt, p.examples).value[i] != ""
    ensures FormatFewShot(p) == FormatNoArgs(Join("\n\n", [p.prefix] + RenderExamples(p.examplePrompt, p.examples).value))
  {
    var rendered := RenderExamples(p.examplePrompt, p.examples).value;
    NonEmptyOfNonEmpty([p.prefix] + rendered);
    assert [p.prefix] + rendered + [p.suffix] == ([p.prefix] + rendered) + [""];
    NonEmptyDropsTrailingEmpty([p.prefix] + rendered);
  }

  lemma {:induction false} NonEmptyOfNonEmpty(pieces: seq<string>)
    requires forall i :: 0 <= i < |pieces| ==> pieces[i] != ""
    ensures NonEmpty(pieces) == pieces
  {
    if pieces != [] {
      NonEmptyOfNonEmpty(pieces[1..]);
      assert [pieces[0]] + pieces[1..] == pieces;
    }
  }

  lemma {:induction false} NonEmptyDropsTrailingEmpty(pieces: seq<string>)
    ensures NonEmpty(pieces + [""]) == NonEmpty(pieces)
  {
    if pieces == [] {
      assert NonEmpty([""]) == NonEmpty([""][1..]);
    } else {
      assert (pieces + [""])[1..] == pieces[1..] + [""];
      NonEmptyDropsTrailingEmpty(pieces[1..]);
    }
  }
}

=== FILE: prompt_directors.dfy ===
/** The four prompt directors (experiment/prompt/_directors.py). Each director is a value
    fixed at construction; `build_prompt` validates its inputs, trims the documents it is
    given, asks the builder for one few-shot block per enabled section, composes them into
    the event's template and formats the result.

    `trim_document_content` overwrites the texts of the caller's list in place. Each
    `build_prompt` is therefore given twice: as a function returning the prompt (or the
    exception) together with the new contents of the caller's lists, and as a method over
    arrays that is proved to agree with it. A trimmed list stays trimmed even when a later
    step raises. */
module PromptDirectors {
  import opened Wrappers
  import opened PyText
  import opened Values
  import opened PromptEnums
  import opened PromptBuilder
  import opened Utils

  /** The language model: a prompt to its completion. */
  type Llm = string -> string

  /** `f"V{version}"`. */
  function VersionName(version: int): string
  {
    "V" + Decimal(version)
  }

  /** Every document has both keys. */
  predicate HaveKeys(docs: seq<Doc>, first: string, second: string)
  {
    forall i :: 0 <= i < |docs| ==> first in docs[i] && second in docs[i]
  }

  /** The per-document assertions: documents are checked in order, the first key before the
      second, and the first failure raises AssertionError naming the missing key. */
  function RequireKeys(docs: seq<Doc>, first: string, second: string): (r: Result<()>)
    ensures r.Ok? <==> HaveKeys(docs, first, second)
    ensures r.Err? ==> r.error == AssertionError(first) || r.error == AssertionError(second)
  {
    if docs == [] then Ok(())
    else if first !in docs[0] then Err(AssertionError(first))
    else if second !in docs[0] then Err(AssertionError(second))
    else
      assert forall i :: 1 <= i < |docs| ==> docs[i] == docs[1..][i - 1];
      RequireKeys(docs[1..], first, second)
  }

  /** A section of a composed prompt: the few-shot block over `docs` when the section is
      enabled, otherwise the empty template. */
  function SectionPrompt(b: PromptLayerBuilder, enabled: bool, section: string, docs: seq<Doc>): (r: Result<SubPrompt>)
    ensures !enabled ==> r == Ok(Plain(End))
    ensures enabled ==> (r.Ok? <==> section in b.templates && section in b.prefixes)
    ensures enabled && r.Ok? ==> r.value == FewShot(FewShotPrompt(b.templates[section], docs, b.prefixes[section], "", []))
  {
    if enabled then
      var p :- BuildFewShotPrompt(b, docs, section);
      Ok(FewShot(p))
    else Ok(Plain(End))
  }

  /** The text a registered section contributes: its few-shot block over `docs` rendered. */
  function SectionText(b: PromptLayerBuilder, section: string, docs: seq<Doc>): Result<string>
    requires section in b.templates && section in b.prefixes
  {
    FormatFewShot(FewShotPrompt(b.templates[section], docs, b.prefixes[section], "", []))
  }

  /** A builder the constructor makes for a registered version, described by the sections
      it has: the standard ones always, the conferencing ones exactly in V1. */
  predicate RegisteredBuilder(b: PromptLayerBuilder)
  {
    && StandardSections(b.templates, b.prefixes)
    && (b.version == "V1" ==> ConferencingSections(b.templates, b.prefixes))
    && (b.version != "V1" ==> EssayContextStudentConferencing !in b.templates)
  }

  /** The builder a director constructs for `version`: a registered one for versions 1 and
      2, the KeyError of the unknown version otherwise. */
  lemma DirectorBuilder(version: int)
    ensures NewPromptLayerBuilder(VersionName(version)).Ok? <==> version == 1 || version == 2
    ensures NewPromptLayerBuilder(VersionName(version)).Ok? ==> RegisteredBuilder(NewPromptLayerBuilder(VersionName(version)).value)
  {
    BuilderVersions(version);
    if version == 1 || version == 2 {
      RegisteredSections(VersionName(version));
    }
  }

  // ===================== TEACHER MODEL BASE =====================

  /** `TeacherModelBaseDirector`. */
  datatype TeacherModelBaseDirector = TeacherModelBaseDirector(
    version: string,
    includeClassContext: bool,
    includeOnboarding: bool,
    summarizeClassContext: bool,
    instructionStyle: string,
    outputFormat: string,
    llm: Llm,
    maxClassContextTokens: int,
    builder: PromptLayerBuilder)

  /** What `_validate_config` accepts. */
  predicate BaseConfigOk(includeClassContext: bool, includeOnboarding: bool, summarizeClassContext: bool,
                         instructionStyle: string, outputFormat: string)
  {
    (includeClassContext || includeOnboarding)
    && (summarizeClassContext ==> includeClassContext)
    && instructionStyle in TeacherModelBaseInstructionStyles
    && outputFormat in TeacherModelOutputFormats
  }

  /** `_validate_config`: four checks in order, each raising ValueError. */
  function ValidateBaseConfig(includeClassContext: bool, includeOnboarding: bool, summarizeClassContext: bool,
                              instructionStyle: string, outputFormat: string): (r: Result<()>)
    ensures r.Ok? <==> BaseConfigOk(includeClassContext, includeOnboarding, summarizeClassContext, instructionStyle, outputFormat)
    ensures r.Err? ==> r.error.ValueError?
  {
    if !includeClassContext && !includeOnboarding then
      Err(ValueError("no section"))
    else if !includeClassContext && summarizeClassContext then
      Err(ValueError("summarize"))
    else if instructionStyle !in TeacherModelBaseInstructionStyles then
      Err(ValueError("instruction_style"))
    else if outputFormat !in TeacherModelOutputFormats then
      Err(ValueError("output_format"))
    else Ok(())
  }

  /** A director the constructor can return. */
  predicate ValidBase(d: TeacherModelBaseDirector)
  {
    RegisteredBuilder(d.builder) && d.version == d.builder.version
    && BaseConfigOk(d.includeClassContext, d.includeOnboarding, d.summarizeClassContext, d.instructionStyle, d.outputFormat)
  }

  /** The constructor: the builder is made first (KeyError for an unregistered version),
      then the configuration is validated (ValueError). */
  function NewTeacherModelBaseDirector(version: int, includeClassContext: bool, includeOnboarding: bool,
                                       summarizeClassContext: bool, instructionStyle: string, outputFormat: string,
                                       llm: Llm, maxClassContextTokens: int): (r: Result<TeacherModelBaseDirector>)
    ensures r.Ok? <==> (version == 1 || version == 2)
                       && BaseConfigOk(includeClassContext, includeOnboarding, summarizeClassContext, instructionStyle, outputFormat)
    ensures !(version == 1 || version == 2) ==> r.Err? && r.error == KeyError(VersionName(version))
    ensures (version == 1 || version == 2) && r.Err? ==> r.error.ValueError?
    ensures r.Ok? ==> ValidBase(r.value) && r.value.version == VersionName(version)
    ensures r.Ok? ==> r.value.includeClassContext == includeClassContext && r.value.includeOnboarding == includeOnboarding
                      && r.value.summarizeClassContext == summarizeClassContext
                      && r.value.instructionStyle == instructionStyle && r.value.outputFormat == outputFormat
                      && r.value.maxClassContextTokens == maxClassContextTokens
  {
    DirectorBuilder(version);
    var b :- NewPromptLayerBuilder(VersionName(version));
    var _ :- ValidateBaseConfig(includeClassContext, includeOnboarding, summarizeClassContext, instructionStyle, outputFormat);
    Ok(TeacherModelBaseDirector(VersionName(version), includeClassContext, includeOnboarding, summarizeClassContext,
                                instructionStyle, outputFormat, llm, maxClassContextTokens, b))
  }

  /** `_validate_build_inputs`: class documents need a name and a content, onboarding
      answers a question and a response. */
  function ValidateBaseInputs(classContext: seq<Doc>, onboarding: seq<Doc>): (r: Result<()>)
    ensures r.Ok? <==> HaveKeys(classContext, "document_name", "document_content") && HaveKeys(onboarding, "question", "response")
    ensures r.Err? ==> r.error.AssertionError?
  {
    var _ :- RequireKeys(classContext, "document_name", "document_content");
    RequireKeys(onboarding, "question", "response")
  }

  /** The summarising prompt's opening words. */
  const SummarizeLead := "Consider the following task: "

  /** The summarising request that follows the task instruction. */
  const SummarizeRequest :=
    ":\n\nHere is your task: Summarize the key " + "information from the document below to " + "help complete this task. Limit your " + "response to 3 sentences:\n"

  /** The shape of the summarising prompt: opening words, the instruction, the request, the text. */
  function SummaryShape(lead: string, request: string): Template
  {
    Lit(lead, Slot("task_instruction", Lit(request, Slot("document_content", Lit("\n", End)))))
  }

  /** The summarising prompt, with the instruction and the document's text as placeholders. */
  const SummarizeTemplate: Template := SummaryShape(SummarizeLead, SummarizeRequest)

  /** The summarising prompt for one document. */
  function SummaryPrompt(task: string, content: Option<string>): string
  {
    SummarizeLead + task + SummarizeRequest + PyStr(content) + "\n"
  }

  /** Filling the summarising shape places the instruction and the text between its fixed parts. */
  lemma SummaryShapeFills(lead: string, request: string, task: string, text: string)
    ensures Fill(SummaryShape(lead, request), map["task_instruction" := task, "document_content" := text])
         == Ok(lead + task + request + text + "\n")
  {
    var vars := map["task_instruction" := task, "document_content" := text];
    assert Fill(End, vars) == Ok("");
    assert "\n" + "" == "\n";
    var t1 := Lit("\n", End);
    assert Fill(t1, vars) == Ok("\n");
    var t2 := Slot("document_content", t1);
    assert Fill(t2, vars) == Ok(text + "\n");
    var t3 := Lit(request, t2);
    assert Fill(t3, vars) == Ok(request + (text + "\n"));
    var t4 := Slot("task_instruction", t3);
    assert Fill(t4, vars) == Ok(task + (request + (text + "\n")));
    assert lead + (task + (request + (text + "\n"))) == lead + task + request + text + "\n";
  }

  /** The template fills to the summarising prompt. */
  lemma SummaryPromptFills(task: string, content: Option<string>)
    ensures Fill(SummarizeTemplate, map["task_instruction" := task, "document_content" := PyStr(content)])
         == Ok(SummaryPrompt(task, content))
  {
    SummaryShapeFills(SummarizeLead, SummarizeRequest, task, PyStr(content));
  }

  /** One summarised document: its name and the model's summary. The instruction style is
      looked up first, then the text, then the name, and only then is the model called. */
  function SummarizeOne(instructionStyle: string, context: Doc, llm: Llm): (r: Result<Doc>)
    ensures r.Ok? <==> instructionStyle in TeacherModelBaseInstructionStyles
                       && "document_content" in context && "document_name" in context
    ensures instructionStyle !in TeacherModelBaseInstructionStyles ==> r == Err(KeyError(instructionStyle))
    ensures r.Ok? ==> r.value == map["document_name" := context["document_name"],
                                     "document_content" := Some(llm(SummaryPrompt(TeacherModelBaseInstructionStyles[instructionStyle],
                                                                                   context["document_content"])))]
  {
    if instructionStyle !in TeacherModelBaseInstructionStyles then Err(KeyError(instructionStyle))
    else
    var task := TeacherModelBaseInstructionStyles[instructionStyle];
    if "document_content" !in context then Err(KeyError("document_content"))
    else if "document_name" !in context then Err(KeyError("document_name"))
    else
      Ok(map["document_name" := context["document_name"],
             "document_content" := Some(llm(SummaryPrompt(task, context["document_content"])))])
  }

  /** `_summarize_class_context`, as a function: a fresh list of summaries, in order; the
      first document that cannot be summarised raises. */
  function Summaries(instructionStyle: string, classContext: seq<Doc>, llm: Llm): (r: Result<seq<Doc>>)
    ensures r.Ok? <==> forall i :: 0 <= i < |classContext| ==> SummarizeOne(instructionStyle, classContext[i], llm).Ok?
    ensures r.Ok? ==> |r.value| == |classContext|
    ensures r.Ok? ==> forall i :: 0 <= i < |classContext| ==> Ok(r.value[i]) == SummarizeOne(instructionStyle, classContext[i], llm)
    decreases |classContext|
  {
    if classContext == [] then Ok([])
    else
      var n := |classContext| - 1;
      var init := Summaries(instructionStyle, classContext[..n], llm);
      if init.Err? then
        Err(init.error)
      else
        var last :- SummarizeOne(instructionStyle, classContext[n], llm);
        Ok(init.value + [last])
  }

  /** `_summarize_class_context`: one model call per document, in order. */
  method SummarizeClassContext(d: TeacherModelBaseDirector, classContext: seq<Doc>) returns (r: Result<seq<Doc>>)
    ensures r == Summaries(d.instructionStyle, classContext, d.llm)
  {
    var summarized: seq<Doc> := [];
    var i := 0;
    while i < |classContext|
      invariant 0 <= i <= |classContext|
      invariant Summaries(d.instructionStyle, classContext[..i], d.llm) == Ok(summarized)
    {
      var one := SummarizeOne(d.instructionStyle, classContext[i], d.llm);
      assert classContext[..i + 1][..i] == classContext[..i];
      if one.Err? {
        SummariesPrefixError(d.instructionStyle, classContext, d.llm, i + 1);
        return Err(one.error);
      }
      summarized := summarized + [one.value];
      i := i + 1;
    }
    assert classContext[..i] == classContext;
    r := Ok(summarized);
  }

  /** Once a prefix fails, the whole list fails with the same exception. */
  lemma {:induction false} SummariesPrefixError(instructionStyle: string, classContext: seq<Doc>, llm: Llm, k: nat)
    requires k <= |classContext|
    requires Summaries(instructionStyle, classContext[..k], llm).Err?
    ensures Summaries(instructionStyle, classContext, llm) == Summaries(instructionStyle, classContext[..k], llm)
    decreases |classContext| - k
  {
    if k < |classContext| {
      var n := |classContext| - 1;
      assert classContext[..n][..k] == classContext[..k];
      SummariesPrefixError(instructionStyle, classContext[..n], llm, k);
      assert classContext[..k + 1][..k] == classContext[..k];
    } else {
      assert classContext[..k] == classContext;
    }
  }

  /** The outcome of the base `build_prompt`: the prompt or its exception, and the contents
      of the caller's class-context list afterwards. */
  datatype BaseOutcome = BaseOutcome(prompt: Result<string>, classContext: seq<Doc>)

  /** Composing and formatting the CREATE prompt once the class-context section is built. */
  function BaseCompose(d: TeacherModelBaseDirector, classContextPrompt: SubPrompt, onboarding: seq<Doc>): Result<string>
  {
    var onboardingPrompt :- SectionPrompt(d.builder, d.includeOnboarding, Onboarding, onboarding);
    var p :- BuildComposePrompt(d.builder, [("class_context_prompt", classContextPrompt), ("onboarding_prompt", onboardingPrompt)],
                                Create, ["task_instruction", "output_format"]);
    if d.instructionStyle !in TeacherModelBaseInstructionStyles then Err(KeyError(d.instructionStyle))
    else if d.outputFormat !in TeacherModelOutputFormats then Err(KeyError(d.outputFormat))
    else
      FormatPipeline(p, map["task_instruction" := TeacherModelBaseInstructionStyles[d.instructionStyle],
                            "output_format" := TeacherModelOutputFormats[d.outputFormat]])
  }

  /** `TeacherModelBaseDirector.build_prompt`, as a function of the caller's lists. A
      summarised list is a fresh list, so only an unsummarised one is trimmed in place. */
  function BaseBuild(d: TeacherModelBaseDirector, classContext: seq<Doc>, onboarding: seq<Doc>, count: TokenCounter): BaseOutcome
  {
    var checked := ValidateBaseInputs(classContext, onboarding);
    if checked.Err? then BaseOutcome(Err(checked.error), classContext)
    else if !d.includeClassContext then BaseOutcome(BaseCompose(d, Plain(End), onboarding), classContext)
    else
      var docs := if d.summarizeClassContext then Summaries(d.instructionStyle, classContext, d.llm) else Ok(classContext);
      if docs.Err? then BaseOutcome(Err(docs.error), classContext)
      else
        var trimmed := Trim(docs.value, d.maxClassContextTokens, "document_content", count);
        if trimmed.Err? then BaseOutcome(Err(trimmed.error), classContext)
        else
          var after := if d.summarizeClassContext then classContext else trimmed.value;
          var section := BuildFewShotPrompt(d.builder, trimmed.value, ClassContextTeacherModel);
          if section.Err? then BaseOutcome(Err(section.error), after)
          else BaseOutcome(BaseCompose(d, FewShot(section.value), onboarding), after)
  }

  /** `TeacherModelBaseDirector.build_prompt` over the caller's list. */
  method BuildBasePrompt(d: TeacherModelBaseDirector, classContext: array<Doc>, onboarding: seq<Doc>, count: TokenCounter)
    returns (r: Result<string>)
    modifies classContext
    ensures BaseOutcome(r, classContext[..]) == BaseBuild(d, old(classContext[..]), onboarding, count)
  {
    var checked := ValidateBaseInputs(classContext[..], onboarding);
    if checked.Err? {
      return Err(checked.error);
    }
    var classContextPrompt := Plain(End);
    if d.includeClassContext {
      var docs := classContext;
      if d.summarizeClassContext {
        var summaries := SummarizeClassContext(d, classContext[..]);
        if summaries.Err? {
          return Err(summaries.error);
        }
        var s := summaries.value;
        docs := new Doc[|s|](i requires 0 <= i < |s| => s[i]);
        assert docs[..] == s;
      }
      var trimmed := TrimDocumentContent(docs, d.maxClassContextTokens, "document_content", count);
      if trimmed.Err? {
        return Err(trimmed.error);
      }
      var section := BuildFewShotPrompt(d.builder, trimmed.value, ClassContextTeacherModel);
      if section.Err? {
        return Err(section.error);
      }
      classContextPrompt := FewShot(section.value);
    }
    r := BaseCompose(d, classContextPrompt, onboarding);
  }

  /** The base prompt of a valid director over valid inputs, stated directly: each enabled
      section's few-shot text (over the summarised-then-trimmed class documents), or the
      empty string for a disabled one, filled into the version's CREATE template together
      with the instruction and the output format. */
  function BaseReference(d: TeacherModelBaseDirector, classContext: seq<Doc>, onboarding: seq<Doc>, count: TokenCounter)
    : Result<string>
    requires ValidBase(d)
  {
    var classText :-
      if !d.includeClassContext then Ok("")
      else
        var docs :- if d.summarizeClassContext then Summaries(d.instructionStyle, classContext, d.llm) else Ok(classContext);
        var trimmed :- Trim(docs, d.maxClassContextTokens, "document_content", count);
        SectionText(d.builder, ClassContextTeacherModel, trimmed);
    var onboardingText :- if !d.includeOnboarding then Ok("") else SectionText(d.builder, Onboarding, onboarding);
    Fill(d.builder.templates[Create], map[
      "task_instruction" := TeacherModelBaseInstructionStyles[d.instructionStyle],
      "output_format" := TeacherModelOutputFormats[d.outputFormat]]
      ["class_context_prompt" := classText]["onboarding_prompt" := onboardingText])
  }

  /** A composed prompt of two sub-prompts renders the first, then the second, then fills
      the final template with both texts added to the arguments. */
  lemma PipelineOfTwo(t: Template, n1: string, p1: SubPrompt, n2: string, p2: SubPrompt, iv: seq<string>,
                      kwargs: map<string, string>)
    ensures FormatPipeline(PipelinePrompt(t, [(n1, p1), (n2, p2)], iv), kwargs)
         == (var a :- FormatSubPrompt(p1);
             var b :- FormatSubPrompt(p2);
             Fill(t, kwargs[n1 := a][n2 := b]))
  {
    var ps := [(n1, p1), (n2, p2)];
    assert ps[1..] == [(n2, p2)];
    assert ps[1..][1..] == [];
    var a := FormatSubPrompt(p1);
    if a.Ok? {
      var b := FormatSubPrompt(p2);
      assert RenderPipeline([(n2, p2)], kwargs[n1 := a.value])
          == (if b.Err? then Err(b.error) else Ok(kwargs[n1 := a.value][n2 := b.value]));
    }
  }

  /** The CREATE composition of a valid director fills the template with the instruction, the
      output format and then the two section texts under their names. */
  lemma BaseComposeFills(d: TeacherModelBaseDirector, classContextPrompt: SubPrompt, onboarding: seq<Doc>)
    requires ValidBase(d)
    ensures SectionPrompt(d.builder, d.includeOnboarding, Onboarding, onboarding).Ok?
    ensures var onboardingPrompt := SectionPrompt(d.builder, d.includeOnboarding, Onboarding, onboarding).value;
            BaseCompose(d, classContextPrompt, onboarding)
            == (var c :- FormatSubPrompt(classContextPrompt);
                var o :- FormatSubPrompt(onboardingPrompt);
                Fill(d.builder.templates[Create], map[
                  "task_instruction" := TeacherModelBaseInstructionStyles[d.instructionStyle],
                  "output_format" := TeacherModelOutputFormats[d.outputFormat]]
                  ["class_context_prompt" := c]["onboarding_prompt" := o]))
  {
    var task := TeacherModelBaseInstructionStyles[d.instructionStyle];
    var format := TeacherModelOutputFormats[d.outputFormat];
    var kwargs := map["task_instruction" := task, "output_format" := format];
    var onboardingPrompt := SectionPrompt(d.builder, d.includeOnboarding, Onboarding, onboarding).value;
    PipelineOfTwo(d.builder.templates[Create], "class_context_prompt", classContextPrompt,
                  "onboarding_prompt", onboardingPrompt, ["task_instruction", "output_format"], kwargs);
  }

  /** The rendered text of a section sub-prompt: its few-shot text, or "" when disabled. */
  lemma SectionPromptText(b: PromptLayerBuilder, enabled: bool, section: string, docs: seq<Doc>)
    requires section in b.templates && section in b.prefixes
    ensures SectionPrompt(b, enabled, section, docs).Ok?
    ensures FormatSubPrompt(SectionPrompt(b, enabled, section, docs).value)
         == if enabled then SectionText(b, section, docs) else Ok("")
  {
    assert Fill(End, map[]) == Ok("");
  }

  /** Composing the sub-prompts through the pipeline is the same as filling their texts into
      the CREATE template directly. */
  lemma BaseBuildComposes(d: TeacherModelBaseDirector, classContext: seq<Doc>, onboarding: seq<Doc>, count: TokenCounter)
    requires ValidBase(d)
    requires HaveKeys(classContext, "document_name", "document_content") && HaveKeys(onboarding, "question", "response")
    ensures BaseBuild(d, classContext, onboarding, count).prompt == BaseReference(d, classContext, onboarding, count)
  {
    SectionPromptText(d.builder, d.includeOnboarding, Onboarding, onboarding);
    if !d.includeClassContext {
      BaseComposeFills(d, Plain(End), onboarding);
      assert Fill(End, map[]) == Ok("");
    } else {
      var docs := if d.summarizeClassContext then Summaries(d.instructionStyle, classContext, d.llm) else Ok(classContext);
      if docs.Ok? {
        var trimmed := Trim(docs.value, d.maxClassContextTokens, "document_content", count);
        if trimmed.Ok? {
          SectionPromptText(d.builder, true, ClassContextTeacherModel, trimmed.value);
          BaseComposeFills(d, SectionPrompt(d.builder, true, ClassContextTeacherModel, trimmed.value).value, onboarding);
        }
      }
    }
  }

  /** The caller's class-context list afterwards: trimmed in place when it was trimmed and
      not summarised, whatever happens later; untouched otherwise. */
  lemma BaseCallerList(d: TeacherModelBaseDirector, classContext: seq<Doc>, onboarding: seq<Doc>, count: TokenCounter)
    ensures var o := BaseBuild(d, classContext, onboarding, count);
            o.classContext
            == if HaveKeys(classContext, "document_name", "document_content") && HaveKeys(onboarding, "question", "response")
                  && d.includeClassContext && !d.summarizeClassContext
                  && Trim(classContext, d.maxClassContextTokens, "document_content", count).Ok?
               then Trim(classContext, d.maxClassContextTokens, "document_content", count).value
               else classContext
  {
  }

  /** Invalid inputs are rejected before anything else happens, in particular before the
      model is asked for any summary. */
  lemma BaseValidatesFirst(d: TeacherModelBaseDirector, classContext: seq<Doc>, onboarding: seq<Doc>, count: TokenCounter)
    requires !HaveKeys(classContext, "document_name", "document_content") || !HaveKeys(onboarding, "question", "response")
    ensures BaseBuild(d, classContext, onboarding, count).prompt.Err?
    ensures BaseBuild(d, classContext, onboarding, count).prompt.error.AssertionError?
    ensures BaseBuild(d, classContext, onboarding, count).classContext == classContext
  {
  }

  // ===================== PIPELINES OF ONE AND FOUR =====================

  /** A composed prompt of one sub-prompt renders it, then fills the final template. */
  lemma PipelineOfOne(t: Template, n1: string, p1: SubPrompt, iv: seq<string>, kwargs: map<string, string>)
    ensures FormatPipeline(PipelinePrompt(t, [(n1, p1)], iv), kwargs)
         == (var a :- FormatSubPrompt(p1);
             Fill(t, kwargs[n1 := a]))
  {
    var ps := [(n1, p1)];
    assert ps[1..] == [];
    var a := FormatSubPrompt(p1);
    assert RenderPipeline(ps, kwargs) == (if a.Err? then Err(a.error) else Ok(kwargs[n1 := a.value]));
  }

  /** Rendering a pipeline renders its first sub-prompt, then the rest with it stored. */
  lemma RenderPipelineCons(n: string, p: SubPrompt, rest: seq<(string, SubPrompt)>, kwargs: map<string, string>)
    ensures RenderPipeline([(n, p)] + rest, kwargs)
         == (var s :- FormatSubPrompt(p);
             RenderPipeline(rest, kwargs[n := s]))
  {
    assert ([(n, p)] + rest)[1..] == rest;
  }

  /** A composed prompt of four sub-prompts renders them in order, then fills the final
      template with the four texts added to the arguments. */
  lemma PipelineOfFour(t: Template, n1: string, p1: SubPrompt, n2: string, p2: SubPrompt,
                       n3: string, p3: SubPrompt, n4: string, p4: SubPrompt, iv: seq<string>,
                       kwargs: map<string, string>)
    ensures FormatPipeline(PipelinePrompt(t, [(n1, p1), (n2, p2), (n3, p3), (n4, p4)], iv), kwargs)
         == (var a :- FormatSubPrompt(p1);
             var b :- FormatSubPrompt(p2);
             var c :- FormatSubPrompt(p3);
             var e :- FormatSubPrompt(p4);
             Fill(t, kwargs[n1 := a][n2 := b][n3 := c][n4 := e]))
  {
    var ps := [(n1, p1), (n2, p2), (n3, p3), (n4, p4)];
    RenderPipelineCons(n1, p1, [(n2, p2), (n3, p3), (n4, p4)], kwargs);
    assert ps == [(n1, p1)] + [(n2, p2), (n3, p3), (n4, p4)];
    var a := FormatSubPrompt(p1);
    if a.Ok? {
      var k1 := kwargs[n1 := a.value];
      RenderPipelineCons(n2, p2, [(n3, p3), (n4, p4)], k1);
      assert [(n2, p2), (n3, p3), (n4, p4)] == [(n2, p2)] + [(n3, p3), (n4, p4)];
      var b := FormatSubPrompt(p2);
      if b.Ok? {
        var k2 := k1[n2 := b.value];
        RenderPipelineCons(n3, p3, [(n4, p4)], k2);
        assert [(n3, p3), (n4, p4)] == [(n3, p3)] + [(n4, p4)];
        var c := FormatSubPrompt(p3);
        if c.Ok? {
          var k3 := k2[n3 := c.value];
          RenderPipelineCons(n4, p4, [], k3);
          assert [(n4, p4)] == [(n4, p4)] + [];
        }
      }
    }
  }

  /** The text of a section that may be disabled. */
  function EnabledText(b: PromptLayerBuilder, enabled: bool, section: string, docs: seq<Doc>): Result<string>
    requires section in b.templates && section in b.prefixes
  {
    if enabled then SectionText(b, section, docs) else Ok("")
  }

  /** Trimming that only happens when its section is enabled. */
  function TrimIf(enabled: bool, docs: seq<Doc>, maxTokens: int, key: string, count: TokenCounter): Result<seq<Doc>>
  {
    if enabled then Trim(docs, maxTokens, key, count) else Ok(docs)
  }

  /** A section built over a list that is trimmed first when the section is enabled: the
      sub-prompt or the exception, and the list afterwards. */
  datatype SectionOutcome = SectionOutcome(prompt: Result<SubPrompt>, docs: seq<Doc>)

  /** Trimming a section's list in place, then building its few-shot block. */
  function TrimmedSection(b: PromptLayerBuilder, enabled: bool, section: string, docs: seq<Doc>, maxTokens: int,
                          key: string, count: TokenCounter): SectionOutcome
  {
    var trimmed := TrimIf(enabled, docs, maxTokens, key, count);
    if trimmed.Err? then SectionOutcome(Err(trimmed.error), docs)
    else SectionOutcome(SectionPrompt(b, enabled, section, trimmed.value), trimmed.value)
  }

  /** A section's list trimmed in place when the section is enabled, then its block built. */
  method TrimSection(b: PromptLayerBuilder, enabled: bool, section: string, docs: array<Doc>, maxTokens: int,
                     key: string, count: TokenCounter) returns (r: Result<SubPrompt>)
    modifies docs
    ensures SectionOutcome(r, docs[..]) == TrimmedSection(b, enabled, section, old(docs[..]), maxTokens, key, count)
  {
    if !enabled {
      return Ok(Plain(End));
    }
    var trimmed := TrimDocumentContent(docs, maxTokens, key, count);
    if trimmed.Err? {
      return Err(trimmed.error);
    }
    r := SectionPrompt(b, enabled, section, trimmed.value);
  }

  /** For a registered section, the block is built exactly when the trim succeeds, the list
      keeps the trimmed documents, and the block renders to the section's text over them. */
  lemma TrimmedSectionText(b: PromptLayerBuilder, enabled: bool, section: string, docs: seq<Doc>, maxTokens: int,
                           key: string, count: TokenCounter)
    requires section in b.templates && section in b.prefixes
    ensures var o := TrimmedSection(b, enabled, section, docs, maxTokens, key, count);
            var t := TrimIf(enabled, docs, maxTokens, key, count);
            && (o.prompt.Ok? <==> t.Ok?)
            && o.docs == (if t.Ok? then t.value else docs)
            && (t.Err? ==> o.prompt.error == t.error)
            && (t.Ok? ==> FormatSubPrompt(o.prompt.value) == EnabledText(b, enabled, section, t.value))
  {
    var t := TrimIf(enabled, docs, maxTokens, key, count);
    if t.Ok? {
      SectionPromptText(b, enabled, section, t.value);
    }
  }

  // ===================== TEACHER MODEL UPDATE =====================

  /** `TeacherModelUpdateDirector`. */
  datatype TeacherModelUpdateDirector = TeacherModelUpdateDirector(
    version: string,
    instructionStyle: string,
    maxFeedbackExampleTokens: int,
    builder: PromptLayerBuilder)

  /** A director the constructor can return. */
  predicate ValidUpdate(d: TeacherModelUpdateDirector)
  {
    RegisteredBuilder(d.builder) && d.version == d.builder.version
  }

  /** The constructor: only the version is checked (KeyError); the instruction style is
      looked up when a prompt is built. */
  function NewTeacherModelUpdateDirector(version: int, instructionStyle: string, maxFeedbackExampleTokens: int)
    : (r: Result<TeacherModelUpdateDirector>)
    ensures r.Ok? <==> version == 1 || version == 2
    ensures r.Err? ==> r.error == KeyError(VersionName(version))
    ensures r.Ok? ==> ValidUpdate(r.value) && r.value.version == VersionName(version)
                      && r.value.instructionStyle == instructionStyle
                      && r.value.maxFeedbackExampleTokens == maxFeedbackExampleTokens
  {
    DirectorBuilder(version);
    var b :- NewPromptLayerBuilder(VersionName(version));
    Ok(TeacherModelUpdateDirector(VersionName(version), instructionStyle, maxFeedbackExampleTokens, b))
  }

  /** `_validate_build_inputs`: at least one example, each with a highlighted text and a
      feedback text. */
  function ValidateUpdateInputs(feedbackExamples: seq<Doc>): (r: Result<()>)
    ensures r.Ok? <==> |feedbackExamples| > 0 && HaveKeys(feedbackExamples, "highlighted_text", "feedback_text")
    ensures r.Err? ==> r.error.AssertionError?
  {
    if |feedbackExamples| == 0 then Err(AssertionError("feedback_examples"))
    else RequireKeys(feedbackExamples, "highlighted_text", "feedback_text")
  }

  /** The outcome of the update `build_prompt`, with the caller's example list afterwards. */
  datatype UpdateOutcome = UpdateOutcome(prompt: Result<string>, feedbackExamples: seq<Doc>)

  /** Composing and formatting the UPDATE prompt once the feedback section is built. The
      base persona is formatted with `str`, so a missing one reads "None". */
  function UpdateCompose(d: TeacherModelUpdateDirector, feedbackPrompt: SubPrompt, teacherModelBase: Option<string>)
    : Result<string>
  {
    var p :- BuildComposePrompt(d.builder, [("feedback_prompt", feedbackPrompt)], Update,
                                ["teacher_model_base", "task_instruction"]);
    if d.instructionStyle !in TeacherModelUpdateInstructionStyles then Err(KeyError(d.instructionStyle))
    else
      FormatPipeline(p, map["task_instruction" := TeacherModelUpdateInstructionStyles[d.instructionStyle],
                            "teacher_model_base" := PyStr(teacherModelBase)])
  }

  /** `TeacherModelUpdateDirector.build_prompt`, as a function of the caller's list. */
  function UpdateBuild(d: TeacherModelUpdateDirector, teacherModelBase: Option<string>, feedbackExamples: seq<Doc>,
                       count: TokenCounter): UpdateOutcome
  {
    var checked := ValidateUpdateInputs(feedbackExamples);
    if checked.Err? then UpdateOutcome(Err(checked.error), feedbackExamples)
    else
      var trimmed := Trim(feedbackExamples, d.maxFeedbackExampleTokens, "highlighted_text", count);
      if trimmed.Err? then UpdateOutcome(Err(trimmed.error), feedbackExamples)
      else
        var section := BuildFewShotPrompt(d.builder, trimmed.value, Feedback);
        if section.Err? then UpdateOutcome(Err(section.error), trimmed.value)
        else UpdateOutcome(UpdateCompose(d, FewShot(section.value), teacherModelBase), trimmed.value)
  }

  /** `TeacherModelUpdateDirector.build_prompt` over the caller's list. */
  method BuildUpdatePrompt(d: TeacherModelUpdateDirector, teacherModelBase: Option<string>,
                           feedbackExamples: array<Doc>, count: TokenCounter) returns (r: Result<string>)
    modifies feedbackExamples
    ensures UpdateOutcome(r, feedbackExamples[..]) == UpdateBuild(d, teacherModelBase, old(feedbackExamples[..]), count)
  {
    var checked := ValidateUpdateInputs(feedbackExamples[..]);
    if checked.Err? {
      return Err(checked.error);
    }
    var trimmed := TrimDocumentContent(feedbackExamples, d.maxFeedbackExampleTokens, "highlighted_text", count);
    if trimmed.Err? {
      return Err(trimmed.error);
    }
    var section := BuildFewShotPrompt(d.builder, trimmed.value, Feedback);
    if section.Err? {
      return Err(section.error);
    }
    r := UpdateCompose(d, FewShot(section.value), teacherModelBase);
  }

  /** The update prompt of a valid director over valid inputs, stated directly: the
      instruction, the current persona and the trimmed examples' few-shot text filled into
      the version's UPDATE template. */
  function UpdateReference(d: TeacherModelUpdateDirector, teacherModelBase: Option<string>, feedbackExamples: seq<Doc>,
                           count: TokenCounter): Result<string>
    requires ValidUpdate(d) && d.instructionStyle in TeacherModelUpdateInstructionStyles
  {
    var trimmed :- Trim(feedbackExamples, d.maxFeedbackExampleTokens, "highlighted_text", count);
    var feedbackText :- SectionText(d.builder, Feedback, trimmed);
    Fill(d.builder.templates[Update], map[
      "task_instruction" := TeacherModelUpdateInstructionStyles[d.instructionStyle],
      "teacher_model_base" := PyStr(teacherModelBase)]["feedback_prompt" := feedbackText])
  }

  /** Composing through the pipeline is filling the UPDATE template directly. */
  lemma UpdateBuildComposes(d: TeacherModelUpdateDirector, teacherModelBase: Option<string>, feedbackExamples: seq<Doc>,
                            count: TokenCounter)
    requires ValidUpdate(d) && d.instructionStyle in TeacherModelUpdateInstructionStyles
    requires |feedbackExamples| > 0 && HaveKeys(feedbackExamples, "highlighted_text", "feedback_text")
    ensures UpdateBuild(d, teacherModelBase, feedbackExamples, count).prompt
         == UpdateReference(d, teacherModelBase, feedbackExamples, count)
  {
    var trimmed := Trim(feedbackExamples, d.maxFeedbackExampleTokens, "highlighted_text", count);
    if trimmed.Ok? {
      var section := SectionPrompt(d.builder, true, Feedback, trimmed.value).value;
      var task := TeacherModelUpdateInstructionStyles[d.instructionStyle];
      var kwargs := map["task_instruction" := task, "teacher_model_base" := PyStr(teacherModelBase)];
      PipelineOfOne(d.builder.templates[Update], "feedback_prompt", section, ["teacher_model_base", "task_instruction"], kwargs);
    }
  }

  /** An unknown instruction style is only found once the prompt is built, after the
      caller's examples have already been trimmed in place. */
  lemma UpdateUnknownStyle(d: TeacherModelUpdateDirector, teacherModelBase: Option<string>, feedbackExamples: seq<Doc>,
                           count: TokenCounter)
    requires ValidUpdate(d) && d.instructionStyle !in TeacherModelUpdateInstructionStyles
    requires |feedbackExamples| > 0 && HaveKeys(feedbackExamples, "highlighted_text", "feedback_text")
    requires Trim(feedbackExamples, d.maxFeedbackExampleTokens, "highlighted_text", count).Ok?
    ensures UpdateBuild(d, teacherModelBase, feedbackExamples, count)
         == UpdateOutcome(Err(KeyError(d.instructionStyle)),
                          Trim(feedbackExamples, d.maxFeedbackExampleTokens, "highlighted_text", count).value)
  {
  }

  // ===================== FEEDBACK GENERATION =====================

  /** `FeedbackGenerationDirector`. */
  datatype FeedbackGenerationDirector = FeedbackGenerationDirector(
    version: string,
    includeTeacherModel: bool,
    includeFewShotFeedback: bool,
    includeClassContextRetrieval: bool,
    includeEssayContext: bool,
    instructionStyle: string,
    maxEssayContextTokens: int,
    maxClassContextTokens: int,
    maxFeedbackExampleTokens: int,
    builder: PromptLayerBuilder)

  /** A director the constructor can return: a registered builder and at least one section. */
  predicate ValidFeedbackGeneration(d: FeedbackGenerationDirector)
  {
    RegisteredBuilder(d.builder) && d.version == d.builder.version
    && (d.includeClassContextRetrieval || d.includeEssayContext || d.includeTeacherModel || d.includeFewShotFeedback)
  }

  /** The constructor: the builder first (KeyError), then at least one section must be on
      (ValueError). The instruction style is looked up when a prompt is built. */
  function NewFeedbackGenerationDirector(version: int, includeTeacherModel: bool, includeFewShotFeedback: bool,
                                         includeClassContextRetrieval: bool, includeEssayContext: bool,
                                         instructionStyle: string, maxEssayContextTokens: int,
                                         maxClassContextTokens: int, maxFeedbackExampleTokens: int)
    : (r: Result<FeedbackGenerationDirector>)
    ensures r.Ok? <==> (version == 1 || version == 2)
                       && (includeClassContextRetrieval || includeEssayContext || includeTeacherModel || includeFewShotFeedback)
    ensures !(version == 1 || version == 2) ==> r.Err? && r.error == KeyError(VersionName(version))
    ensures (version == 1 || version == 2) && r.Err? ==> r.error.ValueError?
    ensures r.Ok? ==> ValidFeedbackGeneration(r.value) && r.value.version == VersionName(version)
    ensures r.Ok? ==> r.value.includeTeacherModel == includeTeacherModel
                      && r.value.includeFewShotFeedback == includeFewShotFeedback
                      && r.value.includeClassContextRetrieval == includeClassContextRetrieval
                      && r.value.includeEssayContext == includeEssayContext
                      && r.value.instructionStyle == instructionStyle
                      && r.value.maxEssayContextTokens == maxEssayContextTokens
                      && r.value.maxClassContextTokens == maxClassContextTokens
                      && r.value.maxFeedbackExampleTokens == maxFeedbackExampleTokens
  {
    DirectorBuilder(version);
    var b :- NewPromptLayerBuilder(VersionName(version));
    if !(includeClassContextRetrieval || includeEssayContext || includeTeacherModel || includeFewShotFeedback) then
      Err(ValueError("no section"))
    else
      Ok(FeedbackGenerationDirector(VersionName(version), includeTeacherModel, includeFewShotFeedback,
                                    includeClassContextRetrieval, includeEssayContext, instructionStyle,
                                    maxEssayContextTokens, maxClassContextTokens, maxFeedbackExampleTokens, b))
  }

  /** What `_validate_build_inputs` accepts. */
  predicate FeedbackGenerationInputsOk(request: Doc, feedbackRetrieval: seq<Doc>, classContextRetrieval: seq<Doc>,
                                       essayContext: seq<Doc>)
  {
    "text_selection" in request && "instruction" in request
    && HaveKeys(feedbackRetrieval, "feedback_text", "highlighted_text")
    && HaveKeys(classContextRetrieval, "document_name", "document_content")
    && HaveKeys(essayContext, "document_name", "document_content")
  }

  /** `_validate_build_inputs`: the request's two keys, then each list's two keys. */
  function ValidateFeedbackGenerationInputs(request: Doc, feedbackRetrieval: seq<Doc>, classContextRetrieval: seq<Doc>,
                                            essayContext: seq<Doc>): (r: Result<()>)
    ensures r.Ok? <==> FeedbackGenerationInputsOk(request, feedbackRetrieval, classContextRetrieval, essayContext)
    ensures r.Err? ==> r.error.AssertionError?
  {
    if "text_selection" !in request then Err(AssertionError("text_selection"))
    else if "instruction" !in request then Err(AssertionError("instruction"))
    else
      var _ :- RequireKeys(feedbackRetrieval, "feedback_text", "highlighted_text");
      var _ :- RequireKeys(classContextRetrieval, "document_name", "document_content");
      RequireKeys(essayContext, "document_name", "document_content")
  }

  /** The outcome of the feedback-generation `build_prompt`, with the caller's three lists
      afterwards. */
  datatype FeedbackGenerationOutcome = FeedbackGenerationOutcome(
    prompt: Result<string>,
    feedbackRetrieval: seq<Doc>,
    classContextRetrieval: seq<Doc>,
    essayContext: seq<Doc>)

  /** Composing and formatting the FEEDBACK_GENERATION prompt once its four sections are
      built: teacher model, class context, feedback examples, essay context, in that order. */
  function FeedbackGenerationCompose(d: FeedbackGenerationDirector, teacherModelPrompt: SubPrompt,
                                     classContextPrompt: SubPrompt, feedbackPrompt: SubPrompt,
                                     essayContextPrompt: SubPrompt, request: Doc): Result<string>
    requires "text_selection" in request && "instruction" in request
  {
    var p :- BuildComposePrompt(d.builder, [("teacher_model_prompt", teacherModelPrompt),
                                            ("class_context_prompt", classContextPrompt),
                                            ("feedback_prompt", feedbackPrompt),
                                            ("essay_context_prompt", essayContextPrompt)],
                                FeedbackGeneration, ["task_instruction", "student_text", "teacher_instruction"]);
    if d.instructionStyle !in FeedbackGenerationInstructionStyles then Err(KeyError(d.instructionStyle))
    else
      FormatPipeline(p, map["task_instruction" := FeedbackGenerationInstructionStyles[d.instructionStyle],
                            "student_text" := PyStr(request["text_selection"]),
                            "teacher_instruction" := PyStr(request["instruction"])])
  }

  /** `FeedbackGenerationDirector.build_prompt`, as a function of the caller's lists: each
      enabled list is trimmed in place in turn, and stays trimmed if a later step raises. */
  function FeedbackGenerationBuild(d: FeedbackGenerationDirector, request: Doc, teacherModel: Option<string>,
                                   feedbackRetrieval: seq<Doc>, classContextRetrieval: seq<Doc>,
                                   essayContext: seq<Doc>, count: TokenCounter): FeedbackGenerationOutcome
  {
    var checked := ValidateFeedbackGenerationInputs(request, feedbackRetrieval, classContextRetrieval, essayContext);
    if checked.Err? then
      FeedbackGenerationOutcome(Err(checked.error), feedbackRetrieval, classContextRetrieval, essayContext)
    else
    var feedback := TrimmedSection(d.builder, d.includeFewShotFeedback, Feedback, feedbackRetrieval,
                                   d.maxFeedbackExampleTokens, "highlighted_text", count);
    if feedback.prompt.Err? then
      FeedbackGenerationOutcome(Err(feedback.prompt.error), feedback.docs, classContextRetrieval, essayContext)
    else
    var classContext := TrimmedSection(d.builder, d.includeClassContextRetrieval, ClassContextFeedbackGeneration,
                                       classContextRetrieval, d.maxClassContextTokens, "document_content", count);
    if classContext.prompt.Err? then
      FeedbackGenerationOutcome(Err(classContext.prompt.error), feedback.docs, classContext.docs, essayContext)
    else
    var essay := TrimmedSection(d.builder, d.includeEssayContext, EssayContext, essayContext,
                                d.maxEssayContextTokens, "document_content", count);
    var teacherPrompt := SectionPrompt(d.builder, d.includeTeacherModel, TeacherModel, [map["teacher_model" := teacherModel]]);
    var prompt :=
      if essay.prompt.Err? then Err(essay.prompt.error)
      else if teacherPrompt.Err? then Err(teacherPrompt.error)
      else FeedbackGenerationCompose(d, teacherPrompt.value, classContext.prompt.value, feedback.prompt.value,
                                     essay.prompt.value, request);
    FeedbackGenerationOutcome(prompt, feedback.docs, classContext.docs, essay.docs)
  }

  /** `FeedbackGenerationDirector.build_prompt` over the caller's three lists, which are
      distinct lists. */
  method BuildFeedbackGenerationPrompt(d: FeedbackGenerationDirector, request: Doc, teacherModel: Option<string>,
                                       feedbackRetrieval: array<Doc>, classContextRetrieval: array<Doc>,
                                       essayContext: array<Doc>, count: TokenCounter) returns (r: Result<string>)
    requires feedbackRetrieval != classContextRetrieval && feedbackRetrieval != essayContext
    requires classContextRetrieval != essayContext
    modifies feedbackRetrieval, classContextRetrieval, essayContext
    ensures FeedbackGenerationOutcome(r, feedbackRetrieval[..], classContextRetrieval[..], essayContext[..])
         == FeedbackGenerationBuild(d, request, teacherModel, old(feedbackRetrieval[..]), old(classContextRetrieval[..]),
                                    old(essayContext[..]), count)
  {
    var checked := ValidateFeedbackGenerationInputs(request, feedbackRetrieval[..], classContextRetrieval[..], essayContext[..]);
    if checked.Err? {
      return Err(checked.error);
    }
    var feedbackPrompt := TrimSection(d.builder, d.includeFewShotFeedback, Feedback, feedbackRetrieval,
                                      d.maxFeedbackExampleTokens, "highlighted_text", count);
    if feedbackPrompt.Err? {
      return Err(feedbackPrompt.error);
    }
    var classPrompt := TrimSection(d.builder, d.includeClassContextRetrieval, ClassContextFeedbackGeneration,
                                   classContextRetrieval, d.maxClassContextTokens, "document_content", count);
    if classPrompt.Err? {
      return Err(classPrompt.error);
    }
    var essayPrompt := TrimSection(d.builder, d.includeEssayContext, EssayContext, essayContext,
                                   d.maxEssayContextTokens, "document_content", count);
    if essayPrompt.Err? {
      return Err(essayPrompt.error);
    }
    var teacherPrompt := SectionPrompt(d.builder, d.includeTeacherModel, TeacherModel, [map["teacher_model" := teacherModel]]);
    if teacherPrompt.Err? {
      return Err(teacherPrompt.error);
    }
    r := FeedbackGenerationCompose(d, teacherPrompt.value, classPrompt.value, feedbackPrompt.value, essayPrompt.value, request);
  }

  /** The feedback-generation prompt of a valid director over valid inputs, stated directly:
      the enabled lists trimmed first, then each section's text (or "" when disabled) and
      the request's text and instruction filled into the FEEDBACK_GENERATION template. */
  function FeedbackGenerationReference(d: FeedbackGenerationDirector, request: Doc, teacherModel: Option<string>,
                                       feedbackRetrieval: seq<Doc>, classContextRetrieval: seq<Doc>,
                                       essayContext: seq<Doc>, count: TokenCounter): Result<string>
    requires ValidFeedbackGeneration(d) && d.instructionStyle in FeedbackGenerationInstructionStyles
    requires "text_selection" in request && "instruction" in request
  {
    var feedbackDocs :- TrimIf(d.includeFewShotFeedback, feedbackRetrieval, d.maxFeedbackExampleTokens, "highlighted_text", count);
    var classDocs :- TrimIf(d.includeClassContextRetrieval, classContextRetrieval, d.maxClassContextTokens, "document_content", count);
    var essayDocs :- TrimIf(d.includeEssayContext, essayContext, d.maxEssayContextTokens, "document_content", count);
    var teacherText :- EnabledText(d.builder, d.includeTeacherModel, TeacherModel, [map["teacher_model" := teacherModel]]);
    var classText :- EnabledText(d.builder, d.includeClassContextRetrieval, ClassContextFeedbackGeneration, classDocs);
    var feedbackText :- EnabledText(d.builder, d.includeFewShotFeedback, Feedback, feedbackDocs);
    var essayText :- EnabledText(d.builder, d.includeEssayContext, EssayContext, essayDocs);
    Fill(d.builder.templates[FeedbackGeneration], map[
      "task_instruction" := FeedbackGenerationInstructionStyles[d.instructionStyle],
      "student_text" := PyStr(request["text_selection"]),
      "teacher_instruction" := PyStr(request["instruction"])]
      ["teacher_model_prompt" := teacherText]["class_context_prompt" := classText]
      ["feedback_prompt" := feedbackText]["essay_context_prompt" := essayText])
  }

  /** The composition of the four sections fills the template with the caller's arguments
      and then the four texts under their names. */
  lemma FeedbackGenerationComposeFills(d: FeedbackGenerationDirector, tp: SubPrompt, cp: SubPrompt, fp: SubPrompt,
                                       ep: SubPrompt, request: Doc)
    requires ValidFeedbackGeneration(d) && d.instructionStyle in FeedbackGenerationInstructionStyles
    requires "text_selection" in request && "instruction" in request
    ensures FeedbackGenerationCompose(d, tp, cp, fp, ep, request)
         == (var t :- FormatSubPrompt(tp);
             var c :- FormatSubPrompt(cp);
             var f :- FormatSubPrompt(fp);
             var e :- FormatSubPrompt(ep);
             Fill(d.builder.templates[FeedbackGeneration], map[
               "task_instruction" := FeedbackGenerationInstructionStyles[d.instructionStyle],
               "student_text" := PyStr(request["text_selection"]),
               "teacher_instruction" := PyStr(request["instruction"])]
               ["teacher_model_prompt" := t]["class_context_prompt" := c]
               ["feedback_prompt" := f]["essay_context_prompt" := e]))
  {
    PipelineOfFour(d.builder.templates[FeedbackGeneration], "teacher_model_prompt", tp, "class_context_prompt", cp,
                   "feedback_prompt", fp, "essay_context_prompt", ep,
                   ["task_instruction", "student_text", "teacher_instruction"],
                   map["task_instruction" := FeedbackGenerationInstructionStyles[d.instructionStyle],
                       "student_text" := PyStr(request["text_selection"]),
                       "teacher_instruction" := PyStr(request["instruction"])]);
  }

  /** Composing through the pipeline is filling the FEEDBACK_GENERATION template directly. */
  lemma FeedbackGenerationBuildComposes(d: FeedbackGenerationDirector, request: Doc, teacherModel: Option<string>,
                                        feedbackRetrieval: seq<Doc>, classContextRetrieval: seq<Doc>,
                                        essayContext: seq<Doc>, count: TokenCounter)
    requires ValidFeedbackGeneration(d) && d.instructionStyle in FeedbackGenerationInstructionStyles
    requires FeedbackGenerationInputsOk(request, feedbackRetrieval, classContextRetrieval, essayContext)
    ensures FeedbackGenerationBuild(d, request, teacherModel, feedbackRetrieval, classContextRetrieval, essayContext, count).prompt
         == FeedbackGenerationReference(d, request, teacherModel, feedbackRetrieval, classContextRetrieval, essayContext, count)
  {
    var b := d.builder;
    var tm := [map["teacher_model" := teacherModel]];
    FeedbackGenerationBuildPrompt(d, request, teacherModel, feedbackRetrieval, classContextRetrieval, essayContext, count);
    var f := TrimIf(d.includeFewShotFeedback, feedbackRetrieval, d.maxFeedbackExampleTokens, "highlighted_text", count);
    var c := TrimIf(d.includeClassContextRetrieval, classContextRetrieval, d.maxClassContextTokens, "document_content", count);
    var e := TrimIf(d.includeEssayContext, essayContext, d.maxEssayContextTokens, "document_content", count);
    if f.Ok? && c.Ok? && e.Ok? {
      FeedbackGenerationComposeSections(d, request, teacherModel, f.value, c.value, e.value);
    }
  }

  /** The composition of the four blocks over given lists is the template filled with the
      four section texts, each "" when its section is disabled. */
  lemma FeedbackGenerationComposeSections(d: FeedbackGenerationDirector, request: Doc, teacherModel: Option<string>,
                                          feedbackDocs: seq<Doc>, classDocs: seq<Doc>, essayDocs: seq<Doc>)
    requires ValidFeedbackGeneration(d) && d.instructionStyle in FeedbackGenerationInstructionStyles
    requires "text_selection" in request && "instruction" in request
    ensures var b := d.builder;
            var tm := [map["teacher_model" := teacherModel]];
            FeedbackGenerationCompose(d, SectionPrompt(b, d.includeTeacherModel, TeacherModel, tm).value,
                                      SectionPrompt(b, d.includeClassContextRetrieval, ClassContextFeedbackGeneration, classDocs).value,
                                      SectionPrompt(b, d.includeFewShotFeedback, Feedback, feedbackDocs).value,
                                      SectionPrompt(b, d.includeEssayContext, EssayContext, essayDocs).value, request)
            == (var teacherText :- EnabledText(b, d.includeTeacherModel, TeacherModel, tm);
                var classText :- EnabledText(b, d.includeClassContextRetrieval, ClassContextFeedbackGeneration, classDocs);
                var feedbackText :- EnabledText(b, d.includeFewShotFeedback, Feedback, feedbackDocs);
                var essayText :- EnabledText(b, d.includeEssayContext, EssayContext, essayDocs);
                Fill(b.templates[FeedbackGeneration], map[
                  "task_instruction" := FeedbackGenerationInstructionStyles[d.instructionStyle],
                  "student_text" := PyStr(request["text_selection"]),
                  "teacher_instruction" := PyStr(request["instruction"])]
                  ["teacher_model_prompt" := teacherText]["class_context_prompt" := classText]
                  ["feedback_prompt" := feedbackText]["essay_context_prompt" := essayText]))
  {
    var b := d.builder;
    var tm := [map["teacher_model" := teacherModel]];
    SectionPromptText(b, d.includeTeacherModel, TeacherModel, tm);
    SectionPromptText(b, d.includeClassContextRetrieval, ClassContextFeedbackGeneration, classDocs);
    SectionPromptText(b, d.includeFewShotFeedback, Feedback, feedbackDocs);
    SectionPromptText(b, d.includeEssayContext, EssayContext, essayDocs);
    FeedbackGenerationComposeFills(d, SectionPrompt(b, d.includeTeacherModel, TeacherModel, tm).value,
                                   SectionPrompt(b, d.includeClassContextRetrieval, ClassContextFeedbackGeneration, classDocs).value,
                                   SectionPrompt(b, d.includeFewShotFeedback, Feedback, feedbackDocs).value,
                                   SectionPrompt(b, d.includeEssayContext, EssayContext, essayDocs).value, request);
  }

  /** For valid inputs, the prompt is the first trimming error, or the composition of the
      four blocks over the trimmed lists. */
  lemma FeedbackGenerationBuildPrompt(d: FeedbackGenerationDirector, request: Doc, teacherModel: Option<string>,
                                      feedbackRetrieval: seq<Doc>, classContextRetrieval: seq<Doc>,
                                      essayContext: seq<Doc>, count: TokenCounter)
    requires ValidFeedbackGeneration(d)
    requires FeedbackGenerationInputsOk(request, feedbackRetrieval, classContextRetrieval, essayContext)
    ensures FeedbackGenerationBuild(d, request, teacherModel, feedbackRetrieval, classContextRetrieval, essayContext, count).prompt
         == (var b := d.builder;
             var f :- TrimIf(d.includeFewShotFeedback, feedbackRetrieval, d.maxFeedbackExampleTokens, "highlighted_text", count);
             var c :- TrimIf(d.includeClassContextRetrieval, classContextRetrieval, d.maxClassContextTokens, "document_content", count);
             var e :- TrimIf(d.includeEssayContext, essayContext, d.maxEssayContextTokens, "document_content", count);
             FeedbackGenerationCompose(d, SectionPrompt(b, d.includeTeacherModel, TeacherModel, [map["teacher_model" := teacherModel]]).value,
                                       SectionPrompt(b, d.includeClassContextRetrieval, ClassContextFeedbackGeneration, c).value,
                                       SectionPrompt(b, d.includeFewShotFeedback, Feedback, f).value,
                                       SectionPrompt(b, d.includeEssayContext, EssayContext, e).value, request))
  {
    var b := d.builder;
    assert ValidateFeedbackGenerationInputs(request, feedbackRetrieval, classContextRetrieval, essayContext).Ok?;
    TrimmedSectionText(b, d.includeFewShotFeedback, Feedback, feedbackRetrieval, d.maxFeedbackExampleTokens,
                       "highlighted_text", count);
    TrimmedSectionText(b, d.includeClassContextRetrieval, ClassContextFeedbackGeneration, classContextRetrieval,
                       d.maxClassContextTokens, "document_content", count);
    TrimmedSectionText(b, d.includeEssayContext, EssayContext, essayContext, d.maxEssayContextTokens,
                       "document_content", count);
    SectionPromptText(b, d.includeTeacherModel, TeacherModel, [map["teacher_model" := teacherModel]]);
  }

  /** A disabled section's list is never touched; an enabled one that trims without error
      is trimmed in place, whatever happens afterwards. */
  lemma FeedbackGenerationCallerLists(d: FeedbackGenerationDirector, request: Doc, teacherModel: Option<string>,
                                      feedbackRetrieval: seq<Doc>, classContextRetrieval: seq<Doc>,
                                      essayContext: seq<Doc>, count: TokenCounter)
    requires ValidFeedbackGeneration(d)
    requires FeedbackGenerationInputsOk(request, feedbackRetrieval, classContextRetrieval, essayContext)
    ensures var o := FeedbackGenerationBuild(d, request, teacherModel, feedbackRetrieval, classContextRetrieval, essayContext, count);
            && (!d.includeFewShotFeedback ==> o.feedbackRetrieval == feedbackRetrieval)
            && (!d.includeClassContextRetrieval ==> o.classContextRetrieval == classContextRetrieval)
            && (!d.includeEssayContext ==> o.essayContext == essayContext)
            && (d.includeFewShotFeedback && Trim(feedbackRetrieval, d.maxFeedbackExampleTokens, "highlighted_text", count).Ok?
                ==> o.feedbackRetrieval == Trim(feedbackRetrieval, d.maxFeedbackExampleTokens, "highlighted_text", count).value)
  {
  }

  // ===================== STUDENT CONFERENCING =====================

  /** The token budget of the conferencing essay context, fixed in the source. */
  const ConferencingEssayTokens := 2000

  /** `StudentConferencingDirector`. */
  datatype StudentConferencingDirector = StudentConferencingDirector(
    version: string,
    instructionStyle: string,
    builder: PromptLayerBuilder)

  /** A director the constructor can return. */
  predicate ValidConferencing(d: StudentConferencingDirector)
  {
    RegisteredBuilder(d.builder) && d.version == d.builder.version
  }

  /** The constructor: only the version is checked (KeyError). */
  function NewStudentConferencingDirector(version: int, instructionStyle: string): (r: Result<StudentConferencingDirector>)
    ensures r.Ok? <==> version == 1 || version == 2
    ensures r.Err? ==> r.error == KeyError(VersionName(version))
    ensures r.Ok? ==> ValidConferencing(r.value) && r.value.version == VersionName(version)
                      && r.value.instructionStyle == instructionStyle
  {
    DirectorBuilder(version);
    var b :- NewPromptLayerBuilder(VersionName(version));
    Ok(StudentConferencingDirector(VersionName(version), instructionStyle, b))
  }

  /** `_validate_build_inputs`: a non-empty student text, query and teacher feedback, in
      that order, then the essay documents' keys. An empty essay list is accepted. */
  function ValidateConferencingInputs(studentText: string, studentQuery: string, teacherFeedback: string,
                                      essayContext: seq<Doc>): (r: Result<()>)
    ensures r.Ok? <==> |studentText| > 0 && |studentQuery| > 0 && |teacherFeedback| > 0
                       && HaveKeys(essayContext, "document_name", "document_content")
    ensures r.Err? ==> r.error.AssertionError?
  {
    if |studentText| == 0 then Err(AssertionError("student_text"))
    else if |studentQuery| == 0 then Err(AssertionError("student_query"))
    else if |teacherFeedback| == 0 then Err(AssertionError("teacher_feedback"))
    else RequireKeys(essayContext, "document_name", "document_content")
  }

  /** The outcome of the conferencing `build_prompt`, with the caller's essay list afterwards. */
  datatype ConferencingOutcome = ConferencingOutcome(prompt: Result<string>, essayContext: seq<Doc>)

  /** Composing and formatting the STUDENT_CONFERENCING prompt: teacher persona before essay
      context; the teacher's feedback is passed as an argument too. */
  function ConferencingCompose(d: StudentConferencingDirector, teacherModelPrompt: FewShotPrompt,
                               essayContextPrompt: FewShotPrompt, studentText: string, teacherFeedback: string,
                               studentQuery: string): Result<string>
  {
    var p :- BuildComposePrompt(d.builder, [("teacher_model_prompt", FewShot(teacherModelPrompt)),
                                            ("essay_context_prompt", FewShot(essayContextPrompt))],
                                StudentConferencing, ["task_instruction", "student_text", "student_query"]);
    if d.instructionStyle !in StudentConferencingInstructionStyles then Err(KeyError(d.instructionStyle))
    else
      FormatPipeline(p, map["task_instruction" := StudentConferencingInstructionStyles[d.instructionStyle],
                            "student_text" := studentText,
                            "student_query" := studentQuery,
                            "teacher_feedback" := teacherFeedback])
  }

  /** `StudentConferencingDirector.build_prompt`, as a function of the caller's essay list. */
  function ConferencingBuild(d: StudentConferencingDirector, teacherModel: string, essayContext: seq<Doc>,
                             studentText: string, teacherFeedback: string, studentQuery: string,
                             count: TokenCounter): ConferencingOutcome
  {
    var checked := ValidateConferencingInputs(studentText, studentQuery, teacherFeedback, essayContext);
    if checked.Err? then ConferencingOutcome(Err(checked.error), essayContext)
    else
      var trimmed := Trim(essayContext, ConferencingEssayTokens, "document_content", count);
      if trimmed.Err? then ConferencingOutcome(Err(trimmed.error), essayContext)
      else
        var essayPrompt := BuildFewShotPrompt(d.builder, trimmed.value, EssayContextStudentConferencing);
        var teacherPrompt := BuildFewShotPrompt(d.builder, [map["teacher_model" := Some(teacherModel)]],
                                                TeacherModelStudentConferencing);
        var prompt :=
          if essayPrompt.Err? then Err(essayPrompt.error)
          else if teacherPrompt.Err? then Err(teacherPrompt.error)
          else ConferencingCompose(d, teacherPrompt.value, essayPrompt.value, studentText, teacherFeedback, studentQuery);
        ConferencingOutcome(prompt, trimmed.value)
  }

  /** `StudentConferencingDirector.build_prompt` over the caller's essay list. */
  method BuildConferencingPrompt(d: StudentConferencingDirector, teacherModel: string, essayContext: array<Doc>,
                                 studentText: string, teacherFeedback: string, studentQuery: string,
                                 count: TokenCounter) returns (r: Result<string>)
    modifies essayContext
    ensures ConferencingOutcome(r, essayContext[..])
         == ConferencingBuild(d, teacherModel, old(essayContext[..]), studentText, teacherFeedback, studentQuery, count)
  {
    var checked := ValidateConferencingInputs(studentText, studentQuery, teacherFeedback, essayContext[..]);
    if checked.Err? {
      return Err(checked.error);
    }
    var trimmed := TrimDocumentContent(essayContext, ConferencingEssayTokens, "document_content", count);
    if trimmed.Err? {
      return Err(trimmed.error);
    }
    var essayPrompt := BuildFewShotPrompt(d.builder, trimmed.value, EssayContextStudentConferencing);
    if essayPrompt.Err? {
      return Err(essayPrompt.error);
    }
    var teacherPrompt := BuildFewShotPrompt(d.builder, [map["teacher_model" := Some(teacherModel)]],
                                            TeacherModelStudentConferencing);
    if teacherPrompt.Err? {
      return Err(teacherPrompt.error);
    }
    r := ConferencingCompose(d, teacherPrompt.value, essayPrompt.value, studentText, teacherFeedback, studentQuery);
  }

  /** Only version 1 has the conferencing sections: a version-2 director raises
      AssertionError on every valid input, after trimming the essay list. */
  lemma ConferencingNeedsV1(d: StudentConferencingDirector, teacherModel: string, essayContext: seq<Doc>,
                            studentText: string, teacherFeedback: string, studentQuery: string, count: TokenCounter)
    requires ValidConferencing(d) && d.version != "V1"
    requires |studentText| > 0 && |studentQuery| > 0 && |teacherFeedback| > 0
    requires HaveKeys(essayContext, "document_name", "document_content")
    requires Trim(essayContext, ConferencingEssayTokens, "document_content", count).Ok?
    ensures ConferencingBuild(d, teacherModel, essayContext, studentText, teacherFeedback, studentQuery, count).prompt.Err?
    ensures ConferencingBuild(d, teacherModel, essayContext, studentText, teacherFeedback, studentQuery, count).prompt.error.AssertionError?
  {
  }

  /** The conferencing prompt of a V1 director over valid inputs, stated directly: the
      teacher persona and the trimmed essay context, the student's text, the teacher's
      feedback and the student's query filled into the STUDENT_CONFERENCING template. */
  function ConferencingReference(d: StudentConferencingDirector, teacherModel: string, essayContext: seq<Doc>,
                                 studentText: string, teacherFeedback: string, studentQuery: string,
                                 count: TokenCounter): Result<string>
    requires ValidConferencing(d) && d.version == "V1"
    requires d.instructionStyle in StudentConferencingInstructionStyles
  {
    var essayDocs :- Trim(essayContext, ConferencingEssayTokens, "document_content", count);
    var teacherText :- SectionText(d.builder, TeacherModelStudentConferencing, [map["teacher_model" := Some(teacherModel)]]);
    var essayText :- SectionText(d.builder, EssayContextStudentConferencing, essayDocs);
    Fill(d.builder.templates[StudentConferencing], map[
      "task_instruction" := StudentConferencingInstructionStyles[d.instructionStyle],
      "student_text" := studentText,
      "student_query" := studentQuery,
      "teacher_feedback" := teacherFeedback]
      ["teacher_model_prompt" := teacherText]["essay_context_prompt" := essayText])
  }

  /** Composing through the pipeline is filling the STUDENT_CONFERENCING template directly. */
  lemma ConferencingBuildComposes(d: StudentConferencingDirector, teacherModel: string, essayContext: seq<Doc>,
                                  studentText: string, teacherFeedback: string, studentQuery: string,
                                  count: TokenCounter)
    requires ValidConferencing(d) && d.version == "V1"
    requires d.instructionStyle in StudentConferencingInstructionStyles
    requires |studentText| > 0 && |studentQuery| > 0 && |teacherFeedback| > 0
    requires HaveKeys(essayContext, "document_name", "document_content")
    ensures ConferencingBuild(d, teacherModel, essayContext, studentText, teacherFeedback, studentQuery, count).prompt
         == ConferencingReference(d, teacherModel, essayContext, studentText, teacherFeedback, studentQuery, count)
  {
    var trimmed := Trim(essayContext, ConferencingEssayTokens, "document_content", count);
    if trimmed.Ok? {
      var b := d.builder;
      var tm := [map["teacher_model" := Some(teacherModel)]];
      var tp := FewShotPrompt(b.templates[TeacherModelStudentConferencing], tm, b.prefixes[TeacherModelStudentConferencing], "", []);
      var ep := FewShotPrompt(b.templates[EssayContextStudentConferencing], trimmed.value, b.prefixes[EssayContextStudentConferencing], "", []);
      PipelineOfTwo(b.templates[StudentConferencing], "teacher_model_prompt", FewShot(tp), "essay_context_prompt", FewShot(ep),
                    ["task_instruction", "student_text", "student_query"],
                    map["task_instruction" := StudentConferencingInstructionStyles[d.instructionStyle],
                        "student_text" := studentText, "student_query" := studentQuery,
                        "teacher_feedback" := teacherFeedback]);
    }
  }
}

=== FILE: prompt_enums.dfy ===
/** The versioned prompt-template and prefix registries and the instruction-text tables
    (experiment/prompt/_enums.py). A template is kept already split into literal text and
    `{name}` placeholders, so the order of its slots is part of its structure. */
module PromptEnums {
  import opened Wrappers

  /** A parsed template: literal text and `{name}` placeholders, in order. */
  datatype Template =
    | End
    | Lit(text: string, rest: Template)
    | Slot(name: string, rest: Template)

  /** The placeholder names of a template, in the order they occur. */
  function Slots(t: Template): seq<string>
  {
    match t
    case End => []
    case Lit(_, r) => Slots(r)
    case Slot(n, r) => [n] + Slots(r)
  }

  /** Python `str.format(**vars)` on a template: each placeholder is replaced by its value,
      verbatim (a value is never parsed as a template itself); the first placeholder with no
      value raises KeyError. */
  function Fill(t: Template, vars: map<string, string>): (r: Result<string>)
    ensures r.Ok? <==> forall n :: n in Slots(t) ==> n in vars
    ensures r.Err? ==> r.error.KeyError? && r.error.key in Slots(t) && r.error.key !in vars
  {
    match t
    case End => Ok("")
    case Lit(x, rest) =>
      var tail :- Fill(rest, vars);
      Ok(x + tail)
    case Slot(n, rest) =>
      if n !in vars then Err(KeyError(n))
      else
        var tail :- Fill(rest, vars);
        Ok(vars[n] + tail)
  }

  /** Only the values of the template's own placeholders matter: two variable maps that agree
      on them fill the template identically. */
  lemma {:induction false} FillDependsOnlyOnSlots(t: Template, v1: map<string, string>, v2: map<string, string>)
    requires forall n :: n in Slots(t) ==> (n in v1 <==> n in v2)
    requires forall n :: n in Slots(t) && n in v1 && n in v2 ==> v1[n] == v2[n]
    ensures Fill(t, v1) == Fill(t, v2)
  {
    match t
    case End =>
    case Lit(_, rest) => FillDependsOnlyOnSlots(rest, v1, v2);
    case Slot(n, rest) => FillDependsOnlyOnSlots(rest, v1, v2);
  }

  /** The literal text of a template, with every placeholder left out. */
  function Literals(t: Template): string
  {
    match t
    case End => ""
    case Lit(x, r) => x + Literals(r)
    case Slot(_, r) => Literals(r)
  }

  /** A template without placeholders formats to its own text. */
  lemma {:induction false} FillNoSlots(t: Template, vars: map<string, string>)
    requires Slots(t) == []
    ensures Fill(t, vars) == Ok(Literals(t))
  {
    match t
    case End =>
    case Lit(_, rest) => FillNoSlots(rest, vars);
    case Slot(_, _) =>
  }

  // ===================== SECTION NAMES =====================

  const ClassContextTeacherModel := "CLASS_CONTEXT_TEACHER_MODEL"
  const ClassContextFeedbackGeneration := "CLASS_CONTEXT_FEEDBACK_GENERATION"
  const Onboarding := "ONBOARDING"
  const Feedback := "FEEDBACK"
  const EssayContext := "ESSAY_CONTEXT"
  const TeacherModel := "TEACHER_MODEL"
  const Create := "CREATE"
  const Update := "UPDATE"
  const FeedbackGeneration := "FEEDBACK_GENERATION"
  const StudentConferencing := "STUDENT_CONFERENCING"
  const EssayContextStudentConferencing := "ESSAY_CONTEXT_STUDENT_CONFERENCING"
  const TeacherModelStudentConferencing := "TEACHER_MODEL_STUDENT_CONFERENCING"

  /** The four templates that compose a whole prompt from sub-prompts. */
  const ComposeSections: set<string> := {Create, Update, FeedbackGeneration, StudentConferencing}

  // ===================== TEMPLATES V1 =====================

  const ClassDocumentV1: Template :=
    Lit("======= CLASS DOCUMENT =======\nDOCUMENT NAME: ", Slot("document_name",
      Lit("\nDOCUMENT CONTENT:\n", Slot("document_content", End))))

  const EssayContextV1: Template :=
    Lit("======= ESSAY CONTEXT =======\nDOCUMENT NAME: ", Slot("document_name",
      Lit("\nDOCUMENT CONTENT: ", Slot("document_content", End))))

  const OnboardingV1: Template :=
    Lit("======= Q&A =======\nQUESTION: ", Slot("question",
      Lit("\nTEACHER RESPONSE: ", Slot("response", End))))

  const FeedbackV1: Template :=
    Lit("======= FEEDBACK EXAMPLE =======\nSTUDENT ESSAY TEXT: ", Slot("highlighted_text",
      Lit("\n\nTEACHER FEEDBACK: ", Slot("feedback_text", End))))

  /** The teacher-model template of both versions: the persona text alone. */
  const TeacherModelOnly: Template := Slot("teacher_model", End)

  const TeacherPersonaV1: Template := Lit("======= TEACHER PERSONA =======\n", Slot("teacher_model", End))

  const CreateV1: Template :=
    Lit("\nTASK: ", Slot("task_instruction",
      Lit("\n\n---------------------------\n\n", Slot("class_context_prompt",
      Lit("\n\n", Slot("onboarding_prompt",
      Lit("\n---------------------------\n\n", Slot("output_format",
      Lit("\n", End)))))))))

  const UpdateV1: Template :=
    Lit("\nTASK: ", Slot("task_instruction",
      Lit("\n\n---------------------------\n\n", Lit("----- EXISTING TEACHER PERSONA -----\n",
        Lit("Here is the current profile of the teacher.\n\n", Slot("teacher_model_base",
      Lit("\n\n", Slot("feedback_prompt",
      Lit("\n---------------------------\n\n", Lit("Your updated profile should maintain ",
        Lit("the format of the existing teacher persona.\n", End)))))))))))

  const FeedbackGenerationV1: Template :=
    Lit("\nTASK: ", Slot("task_instruction",
      Lit("\n\n---------------------------\n\n", Slot("teacher_model_prompt",
      Lit("\n\n", Slot("class_context_prompt",
      Lit("\n\n", Slot("feedback_prompt",
      Lit("\n\n", Slot("essay_context_prompt",
      Lit("\n\n---------------------------\n\nSTUDENT ESSAY TEXT: ", Slot("student_text",
      Lit("\nTEACHER INSTRUCTION: ", Slot("teacher_instruction",
      Lit("\nFEEDBACK: \n", End)))))))))))))))

  const StudentConferencingV1: Template :=
    Lit("\nTASK: ", Slot("task_instruction",
      Lit("\n\n---------------------------\n\n", Slot("teacher_model_prompt",
      Lit("\n\n", Slot("essay_context_prompt",
      Lit("\n\n---------------------------\n\nSTUDENT ESSAY TEXT: ", Slot("student_text",
      Lit("\nTEACHER FEEDBACK: ", Slot("teacher_feedback",
      Lit("\nSTUDENT QUERY: ", Slot("student_query",
      Lit("\nRESPONSE:\n", End)))))))))))))

  const TemplatesV1: map<string, Template> := map[
    ClassContextTeacherModel := ClassDocumentV1,
    ClassContextFeedbackGeneration := ClassDocumentV1,
    Onboarding := OnboardingV1,
    Feedback := FeedbackV1,
    EssayContext := EssayContextV1,
    TeacherModel := TeacherModelOnly,
    Create := CreateV1,
    Update := UpdateV1,
    FeedbackGeneration := FeedbackGenerationV1,
    StudentConferencing := StudentConferencingV1,
    EssayContextStudentConferencing := EssayContextV1,
    TeacherModelStudentConferencing := TeacherPersonaV1
  ]

  // ===================== TEMPLATES V2 =====================

  const ClassDocumentV2: Template :=
    Lit("### ", Slot("document_name", Lit("\n", Slot("document_content", End))))

  const OnboardingV2: Template :=
    Lit("### Q&A\nQUESTION: ", Slot("question", Lit("\nANSWER: ", Slot("response", End))))

  const FeedbackV2: Template :=
    Lit("### Feedback Example\nSTUDENT ESSAY TEXT: ", Slot("highlighted_text",
      Lit("\n\nTEACHER FEEDBACK: ", Slot("feedback_text", End))))

  const EssayContextV2: Template :=
    Lit("### Essay Context\nDOCUMENT NAME: ", Slot("document_name",
      Lit("\nDOCUMENT CONTENT: ", Slot("document_content", End))))

  const CreateV2: Template :=
    Lit("\n# TASK\n", Slot("task_instruction",
      Lit("\n\n# INFORMATION ABOUT THE TEACHER\n\n", Slot("class_context_prompt",
      Lit("\n\n", Slot("onboarding_prompt",
      Lit("\n\n# OUTPUT FORMAT\n", Slot("output_format",
      Lit("\n", End)))))))))

  const UpdateV2: Template :=
    Lit("\n# TASK\n", Slot("task_instruction",
      Lit("\n\n# INFORMATION ABOUT THE TEACHER\n", Lit("## EXISTING TEACHER PERSONA\n",
        Lit("Here is the current profile of the teacher.\n\n", Slot("teacher_model_base",
      Lit("\n\n", Slot("feedback_prompt",
      Lit("\n\n# OUTPUT FORMAT\n", Lit("Your updated profile should maintain ",
        Lit("the format of the existing teacher persona.\n", End)))))))))))

  const FeedbackGenerationV2: Template :=
    Lit("\n# TASK\n", Slot("task_instruction",
      Lit("\n\n# INFORMATION ABOUT THE TEACHER\n", Slot("teacher_model_prompt",
      Lit("\n\n", Slot("class_context_prompt",
      Lit("\n\n", Slot("feedback_prompt",
      Lit("\n\n", Slot("essay_context_prompt",
      Lit("\n\n# STUDENT ESSAY TEXT\n", Slot("student_text",
      Lit("\n\n# TEACHER INSTRUCTION\n", Slot("teacher_instruction",
      Lit("\n\n# FEEDBACK\n", End)))))))))))))))

  const TemplatesV2: map<string, Template> := map[
    ClassContextTeacherModel := ClassDocumentV2,
    ClassContextFeedbackGeneration := ClassDocumentV2,
    Onboarding := OnboardingV2,
    Feedback := FeedbackV2,
    EssayContext := EssayContextV2,
    TeacherModel := TeacherModelOnly,
    Create := CreateV2,
    Update := UpdateV2,
    FeedbackGeneration := FeedbackGenerationV2
  ]

  /** `PromptLayerTemplates`: version tag to that version's templates. */
  const TemplateRegistry: map<string, map<string, Template>> := map["V1" := TemplatesV1, "V2" := TemplatesV2]

  // ===================== PREFIXES =====================

  const PrefixesV1: map<string, string> := map[
    ClassContextTeacherModel := ("----- TEACHER'S CLASS DOCUMENTS " + "-----\nHere are documents from " + "the teacher's class. Use them " + "to extract information about the " + "class and the teacher's goals " + "and teaching style."),
    ClassContextFeedbackGeneration := ("----- TEACHER'S CLASS DOCUMENTS " + "-----\nHere is relevant context " + "from the class documents. Use " + "them to provide better feedback " + "to students in alignment with " + "the class needs."),
    Onboarding := ("----- INTERVIEW WITH TEACHER -----\n" + "Here is an interview with the " + "teacher."),
    Feedback := ("----- FEEDBACK -----\nHere are " + "examples of feedback the teacher " + "has given to students."),
    EssayContext := ("----- ESSAY CONTEXT -----\nHere " + "is context on the essay assignment. " + "Use this to provide feedback that " + "is relevant to the essay assignment."),
    TeacherModel := ("----- TEACHER PERSONA -----\nHere " + "is a persona of the teacher. Use " + "this to help with impersonating " + "them when writing feedback."),
    EssayContextStudentConferencing := ("----- ESSAY CONTEXT -----\nHere " + "is context on the essay assignment. " + "Use this to interact with the " + "student in 1:1 conversation that " + "is relevant to the essay assignment."),
    TeacherModelStudentConferencing := ("----- TEACHER PERSONA -----\nHere " + "is a persona of the teacher. Use " + "this to help with impersonating " + "them when 1:1 conversing with " + "students.")
  ]

  const PrefixesV2: map<string, string> := map[
    ClassContextTeacherModel := ("## Teacher's Class Documents\nHere " + "are documents from the teacher's " + "class. Use them to extract information " + "about the class and the teacher's " + "goals and teaching style."),
    ClassContextFeedbackGeneration := ("## Teacher's Class Documents\nHere " + "is relevant context from the class " + "documents. Use them to provide " + "better feedback to students in " + "alignment with the class needs."),
    Onboarding := ("## Interview with Teacher\nHere " + "is an interview with the teacher."),
    Feedback := ("## Feedback Examples\nHere are " + "examples of feedback the teacher " + "has given to students."),
    EssayContext := ("## Essay Context\nHere is context " + "on the essay assignment. Use this " + "to provide feedback that is relevant " + "to the essay assignment."),
    TeacherModel := ("## Teacher Persona\nHere is a persona " + "of the teacher. Use this to help " + "with impersonating them when writing " + "feedback.")
  ]

  /** `PromptLayerPrefixes`: version tag to that version's prefixes. */
  const PrefixRegistry: map<string, map<string, string>> := map["V1" := PrefixesV1, "V2" := PrefixesV2]

  // ===================== INSTRUCTION TABLES =====================

  const TeacherModelOutputFormats: map<string, string> := map[
    "PARAGRAPH" := ("Please format the output as a " + "coherent paragraph."),
    "BULLET_POINTS" := ("Please format the output as a " + "list of bullet points."),
    "SECTIONS" := ("Please format the output as sections " + "describing different aspects of " + "the teacher. Each section should " + "be written in paragraph form.")
  ]

  const TeacherModelBaseInstructionStyles: map<string, string> := map[
    "DESCRIBE" := ("The goal is to generate a persona " + "of this teacher to help with impersonating " + "them when writing feedback or " + "1:1 conversing with students. " + "Here is some info on the teacher " + "for you to use."),
    "IMPERSONATE" := ("You are a school principal trying " + "to draft a detailed report on " + "one of your teachers. Use the " + "information provided to create " + "a comprehensive profile of the " + "teacher.")
  ]

  const TeacherModelUpdateInstructionStyles: map<string, string> := map[
    "DESCRIBE" := ("The goal is to take the existing " + "persona of this teacher and update " + "it based on examples of feedback " + "the teacher has given to students. " + "We want the persona to allow us " + "to accurately predict how the " + "teacher will give feedback in " + "the future and interact with students " + "in 1:1 converstaion."),
    "IMPERSONATE" := ("You are a school principal and " + "have been handed a profile of " + "one of your teachers. The district " + "has asked you to update the profile " + "based on feedback the teacher " + "has given to students. Use the " + "information provided to create " + "a comprehensive profile of the " + "teacher that includes their feedback " + "style. If you don't do this well, " + "you will be fired.")
  ]

  const FeedbackGenerationInstructionStyles: map<string, string> := map[
    "DESCRIBE" := ("The goal is to generate feedback " + "for a highlighted passage (STUDENT " + "ESSAY TEXT) from a student's essay " + "as if it were written by the teacher. " + "Provide feedback that is aligned " + "with the teacher's style and the " + "class needs. Use all of the information " + "at your disposable to customize " + "to the teacher and class. Take " + "the teacher instruction into account, " + "in case they emphasize specifically " + "what they want you to do."),
    "IMPERSONATE" := ("You have hacked into a teacher's " + "account and are interacting with " + "that teacher's students online. " + "They can't see you, but they can " + "see your feedback on their essays. " + "You don't want to get caught, " + "so you try your hardest to mimic " + "the teacher's feedback style. " + "Provide feedback on the STUDENT " + "ESSAY TEXT.")
  ]

  const StudentConferencingInstructionStyles: map<string, string> := map[
    "DESCRIBE" := ("The goal is to interact with the " + "student in a 1:1 conversation " + "about their essay. Their teacher " + "has provided TEACHER FEEDBACK " + "on a select STUDENT TEXT. Your " + "task is to answer the STUDENT " + "QUERY in a way that is relevant " + "to the ESSAY CONTEXT and reflect " + "the TEACHER PERSONA. Use the information " + "provided to guide the conversation " + "that is aligned with the teacher's " + "style and the class needs."),
    "IMPERSONATE" := ("You are a teacher's assistant " + "and have been asked to talk to " + "a student on their essay. Use " + "the information provided to guide " + "the conversation and provide feedback " + "that is aligned with the teacher's " + "style and the class needs. The " + "student is expecting help from " + "the teacher, so you need to impersonate " + "the teacher's style.")
  ]

  // ===================== REGISTRY PROPERTIES =====================

  /** Exactly V1 and V2 are registered, for templates and for prefixes alike. */
  lemma RegisteredVersions()
    ensures TemplateRegistry.Keys == {"V1", "V2"}
    ensures PrefixRegistry.Keys == TemplateRegistry.Keys
  {
  }

  /** Every prefix name of version 1 is a template name, and no composed prompt has one. */
  lemma PrefixesNameTemplatesV1()
    ensures PrefixesV1.Keys <= TemplatesV1.Keys
    ensures PrefixesV1.Keys !! ComposeSections
  {
  }

  /** Every prefix name of version 2 is a template name, and no composed prompt has one. */
  lemma PrefixesNameTemplatesV2()
    ensures PrefixesV2.Keys <= TemplatesV2.Keys
    ensures PrefixesV2.Keys !! ComposeSections
  {
  }

  /** The sections the builders rely on: a template and a prefix for every few-shot section,
      and a template for the composed base, update and feedback-generation prompts. */
  predicate StandardSections(templates: map<string, Template>, prefixes: map<string, string>)
  {
    && ClassContextTeacherModel in templates && ClassContextTeacherModel in prefixes
    && ClassContextFeedbackGeneration in templates && ClassContextFeedbackGeneration in prefixes
    && Onboarding in templates && Onboarding in prefixes
    && Feedback in templates && Feedback in prefixes
    && EssayContext in templates && EssayContext in prefixes
    && TeacherModel in templates && TeacherModel in prefixes
    && Create in templates && Update in templates && FeedbackGeneration in templates
  }

  /** The student-conferencing sections: its composed prompt and its two few-shot sections. */
  predicate ConferencingSections(templates: map<string, Template>, prefixes: map<string, string>)
  {
    && StudentConferencing in templates
    && EssayContextStudentConferencing in templates && EssayContextStudentConferencing in prefixes
    && TeacherModelStudentConferencing in templates && TeacherModelStudentConferencing in prefixes
  }

  /** Version 1 has every section, student conferencing included. */
  lemma SectionsV1()
    ensures StandardSections(TemplatesV1, PrefixesV1)
    ensures ConferencingSections(TemplatesV1, PrefixesV1)
  {
  }

  /** Version 2 has the standard sections but none of the student-conferencing ones, so
      only V1 can build that prompt. */
  lemma SectionsV2()
    ensures StandardSections(TemplatesV2, PrefixesV2)
    ensures StudentConferencing !in TemplatesV2
    ensures EssayContextStudentConferencing !in TemplatesV2 && EssayContextStudentConferencing !in PrefixesV2
    ensures TeacherModelStudentConferencing !in TemplatesV2 && TeacherModelStudentConferencing !in PrefixesV2
  {
  }

  /** A registered version's tables: the standard sections always, the conferencing
      sections exactly for V1. */
  lemma RegisteredSections(v: string)
    requires v in TemplateRegistry
    ensures v in PrefixRegistry
    ensures StandardSections(TemplateRegistry[v], PrefixRegistry[v])
    ensures ConferencingSections(TemplateRegistry[v], PrefixRegistry[v]) <==> v == "V1"
    ensures v != "V1" ==> EssayContextStudentConferencing !in TemplateRegistry[v]
  {
    if v == "V1" {
      assert TemplateRegistry[v] == TemplatesV1 && PrefixRegistry[v] == PrefixesV1;
      SectionsV1();
    } else {
      assert TemplateRegistry[v] == TemplatesV2 && PrefixRegistry[v] == PrefixesV2;
      SectionsV2();
    }
  }

  /** The slot orders of the version-1 templates. */
  lemma SlotsV1()
    ensures Slots(CreateV1) == ["task_instruction", "class_context_prompt", "onboarding_prompt", "output_format"]
    ensures Slots(UpdateV1) == ["task_instruction", "teacher_model_base", "feedback_prompt"]
    ensures Slots(FeedbackGenerationV1)
         == ["task_instruction", "teacher_model_prompt", "class_context_prompt", "feedback_prompt",
             "essay_context_prompt", "student_text", "teacher_instruction"]
    ensures Slots(StudentConferencingV1)
         == ["task_instruction", "teacher_model_prompt", "essay_context_prompt",
             "student_text", "teacher_feedback", "student_query"]
    ensures Slots(ClassDocumentV1) == ["document_name", "document_content"]
    ensures Slots(EssayContextV1) == ["document_name", "document_content"]
    ensures Slots(OnboardingV1) == ["question", "response"]
    ensures Slots(FeedbackV1) == ["highlighted_text", "feedback_text"]
    ensures Slots(TeacherModelOnly) == ["teacher_model"]
    ensures Slots(TeacherPersonaV1) == ["teacher_model"]
  {
  }

  /** The slot orders of the version-2 templates. */
  lemma SlotsV2()
    ensures Slots(CreateV2) == ["task_instruction", "class_context_prompt", "onboarding_prompt", "output_format"]
    ensures Slots(UpdateV2) == ["task_instruction", "teacher_model_base", "feedback_prompt"]
    ensures Slots(FeedbackGenerationV2)
         == ["task_instruction", "teacher_model_prompt", "class_context_prompt", "feedback_prompt",
             "essay_context_prompt", "student_text", "teacher_instruction"]
    ensures Slots(ClassDocumentV2) == ["document_name", "document_content"]
    ensures Slots(EssayContextV2) == ["document_name", "document_content"]
    ensures Slots(OnboardingV2) == ["question", "response"]
    ensures Slots(FeedbackV2) == ["highlighted_text", "feedback_text"]
    ensures Slots(TeacherModelOnly) == ["teacher_model"]
  {
  }

  /** The compose templates take their sub-prompts in a fixed order, the same in both
      versions: class context before onboarding; teacher model, class context, feedback and
      essay context before the student text and the teacher's instruction. */
  lemma ComposeSlotOrder(v: string)
    requires v in TemplateRegistry
    ensures Slots(TemplateRegistry[v][Create])
         == ["task_instruction", "class_context_prompt", "onboarding_prompt", "output_format"]
    ensures Slots(TemplateRegistry[v][Update])
         == ["task_instruction", "teacher_model_base", "feedback_prompt"]
    ensures Slots(TemplateRegistry[v][FeedbackGeneration])
         == ["task_instruction", "teacher_model_prompt", "class_context_prompt", "feedback_prompt",
             "essay_context_prompt", "student_text", "teacher_instruction"]
  {
    if v == "V1" {
      SlotsV1();
    } else {
      SlotsV2();
    }
  }

  /** The conferencing template puts the teacher model before the essay context, and the
      student text, the teacher's feedback and the student's query after both. */
  lemma ConferencingSlotOrder()
    ensures Slots(TemplatesV1[StudentConferencing])
         == ["task_instruction", "teacher_model_prompt", "essay_context_prompt",
             "student_text", "teacher_feedback", "student_query"]
  {
    SlotsV1();
  }

  /** The example templates ask for exactly the fields the directors check for. */
  lemma ExampleTemplateFields(v: string)
    requires v in TemplateRegistry
    ensures Slots(TemplateRegistry[v][ClassContextTeacherModel]) == ["document_name", "document_content"]
    ensures Slots(TemplateRegistry[v][ClassContextFeedbackGeneration]) == ["document_name", "document_content"]
    ensures Slots(TemplateRegistry[v][EssayContext]) == ["document_name", "document_content"]
    ensures Slots(TemplateRegistry[v][Onboarding]) == ["question", "response"]
    ensures Slots(TemplateRegistry[v][Feedback]) == ["highlighted_text", "feedback_text"]
    ensures Slots(TemplateRegistry[v][TeacherModel]) == ["teacher_model"]
  {
    var ts := TemplateRegistry[v];
    if v == "V1" {
      assert ts == TemplatesV1;
      assert ts[ClassContextTeacherModel] == ts[ClassContextFeedbackGeneration] == ClassDocumentV1;
      assert ts[EssayContext] == EssayContextV1 && ts[Onboarding] == OnboardingV1;
      assert ts[Feedback] == FeedbackV1 && ts[TeacherModel] == TeacherModelOnly;
      SlotsV1();
    } else {
      assert ts == TemplatesV2;
      assert ts[ClassContextTeacherModel] == ts[ClassContextFeedbackGeneration] == ClassDocumentV2;
      assert ts[EssayContext] == EssayContextV2 && ts[Onboarding] == OnboardingV2;
      assert ts[Feedback] == FeedbackV2 && ts[TeacherModel] == TeacherModelOnly;
      SlotsV2();
    }
  }

  /** The conferencing example templates ask for the same fields as their V1 counterparts. */
  lemma ConferencingExampleFields()
    ensures Slots(TemplatesV1[EssayContextStudentConferencing]) == ["document_name", "document_content"]
    ensures Slots(TemplatesV1[TeacherModelStudentConferencing]) == ["teacher_model"]
  {
    SlotsV1();
  }

  /** The base instruction styles are DESCRIBE and IMPERSONATE. */
  lemma BaseInstructionStyleNames()
    ensures TeacherModelBaseInstructionStyles.Keys == {"DESCRIBE", "IMPERSONATE"}
  {
  }

  /** The update instruction styles are DESCRIBE and IMPERSONATE. */
  lemma UpdateInstructionStyleNames()
    ensures TeacherModelUpdateInstructionStyles.Keys == {"DESCRIBE", "IMPERSONATE"}
  {
  }

  /** The feedback-generation instruction styles are DESCRIBE and IMPERSONATE. */
  lemma FeedbackGenerationInstructionStyleNames()
    ensures FeedbackGenerationInstructionStyles.Keys == {"DESCRIBE", "IMPERSONATE"}
  {
  }

  /** The student-conferencing instruction styles are DESCRIBE and IMPERSONATE. */
  lemma StudentConferencingInstructionStyleNames()
    ensures StudentConferencingInstructionStyles.Keys == {"DESCRIBE", "IMPERSONATE"}
  {
  }

  /** The output formats are PARAGRAPH, BULLET_POINTS and SECTIONS. */
  lemma OutputFormatNames()
    ensures TeacherModelOutputFormats.Keys == {"PARAGRAPH", "BULLET_POINTS", "SECTIONS"}
  {
  }
}

=== FILE: prompt_layer_assets.dfy ===
/** The prompt-layer assets of the pipeline (experiment/pipeline/assets/prompt_layer.py): a
    base persona per teacher from that teacher's own class documents and onboarding answers,
    an update prompt per teacher from a bounded sample of that teacher's feedback, and the
    persona replaced wherever an update prompt exists.

    Teachers are objects the assets change in place, so the teacher list is an array whose
    elements get a new `teacherModel`. Each loop is specified by a function over the list
    before the call; the language model, the token counter and the shuffle are parameters,
    and logging is left out. */
module PromptLayerAssets {
  import opened Wrappers
  import opened Values
  import opened PyText
  import opened Utils
  import opened PipelineModels
  import opened PromptDirectors
  import PromptEnums
  import opened Loops

  // ===================== TEACHER MODEL BASE =====================

  /** `TeacherModelBaseConfig` (lines 22-29). */
  datatype BaseConfig = BaseConfig(
    version: int,
    includeClassContext: bool,
    includeOnboarding: bool,
    summarizeClassContext: bool,
    instructionStyle: string,
    outputFormat: string,
    maxClassContextTokens: int)

  /** One class document as the director receives it. */
  function DocEntry(doc: ClassDocument): Doc
  {
    map["document_name" := doc.name, "document_content" := doc.content]
  }

  /** One document's contribution to a teacher's class context: its entry when it is the
      teacher's, nothing otherwise. */
  function OwnEntry(userId: string, doc: ClassDocument): seq<Doc>
  {
    if doc.userId == userId then [DocEntry(doc)] else []
  }

  /** The class documents of one teacher, in list order, as name/content entries. */
  function ClassContextFor(userId: string, docs: seq<ClassDocument>): (r: seq<Doc>)
    ensures |r| <= |docs|
    ensures HaveKeys(r, "document_name", "document_content")
  {
    if docs == [] then []
    else OwnEntry(userId, docs[0]) + ClassContextFor(userId, docs[1..])
  }

  /** Selection distributes over concatenation: each part of the list contributes its own
      matching documents, in order. */
  lemma {:induction false} ClassContextConcat(userId: string, a: seq<ClassDocument>, b: seq<ClassDocument>)
    ensures ClassContextFor(userId, a + b) == ClassContextFor(userId, a) + ClassContextFor(userId, b)
  {
    if a == [] {
      assert a + b == b;
    } else {
      assert (a + b)[0] == a[0];
      assert (a + b)[1..] == a[1..] + b;
      ClassContextConcat(userId, a[1..], b);
      calc {
        ClassContextFor(userId, a + b);
        OwnEntry(userId, a[0]) + ClassContextFor(userId, a[1..] + b);
        OwnEntry(userId, a[0]) + (ClassContextFor(userId, a[1..]) + ClassContextFor(userId, b));
        (OwnEntry(userId, a[0]) + ClassContextFor(userId, a[1..])) + ClassContextFor(userId, b);
      }
    }
  }

  /** A single document is selected exactly when it belongs to the teacher. */
  lemma ClassContextSingle(userId: string, doc: ClassDocument)
    ensures ClassContextFor(userId, [doc]) == if doc.userId == userId then [DocEntry(doc)] else []
  {
    assert [doc][1..] == [];
  }

  /** Documents of other teachers never reach a teacher's prompt. */
  lemma {:induction false} ClassContextOthers(userId: string, docs: seq<ClassDocument>)
    requires forall i :: 0 <= i < |docs| ==> docs[i].userId != userId
    ensures ClassContextFor(userId, docs) == []
  {
    if docs != [] {
      ClassContextOthers(userId, docs[1..]);
    }
  }

  /** The onboarding answers as the director receives them (`model_dump` of each). */
  function OnboardingDocs(responses: seq<Onboarding>): (r: seq<Doc>)
    ensures |r| == |responses|
    ensures forall i :: 0 <= i < |r| ==>
              r[i] == map["question" := Some(responses[i].question), "response" := Some(responses[i].response)]
  {
    if responses == [] then []
    else
      [map["question" := Some(responses[0].question), "response" := Some(responses[0].response)]]
      + OnboardingDocs(responses[1..])
  }

  /** The base prompt of one teacher. Iterating over missing onboarding answers raises
      TypeError. */
  function BasePromptFor(d: TeacherModelBaseDirector, t: Teacher, docs: seq<ClassDocument>, count: TokenCounter)
    : Result<string>
  {
    if t.onboardingResponses.None? then Err(TypeError("onboarding_responses"))
    else BaseBuild(d, ClassContextFor(t.userId, docs), OnboardingDocs(t.onboardingResponses.value), count).prompt
  }

  /** The asset always hands the director well-keyed inputs, so for a valid director a
      teacher's prompt is the CREATE template filled with that teacher's own sections. */
  lemma BasePromptForComposes(d: TeacherModelBaseDirector, t: Teacher, docs: seq<ClassDocument>, count: TokenCounter)
    requires ValidBase(d) && t.onboardingResponses.Some?
    ensures BasePromptFor(d, t, docs, count)
         == BaseReference(d, ClassContextFor(t.userId, docs), OnboardingDocs(t.onboardingResponses.value), count)
  {
    BaseBuildComposes(d, ClassContextFor(t.userId, docs), OnboardingDocs(t.onboardingResponses.value), count);
  }

  /** The teacher with a new persona. */
  function WithModel(t: Teacher, model: string): Teacher
  {
    t.(teacherModel := Some(model))
  }

  /** One step of `teacher_model_base`: the teacher gets the model's answer to its prompt. */
  function BaseStep(d: TeacherModelBaseDirector, docs: seq<ClassDocument>, count: TokenCounter, generate: Llm)
    : Teacher -> Result<Teacher>
  {
    t => var prompt := BasePromptFor(d, t, docs, count);
         if prompt.Err? then Err(prompt.error) else Ok(WithModel(t, generate(prompt.value)))
  }

  /** The director of the base asset; summaries go to the model through `summarize`. */
  function NewBaseDirector(cfg: BaseConfig, summarize: Llm): Result<TeacherModelBaseDirector>
  {
    NewTeacherModelBaseDirector(cfg.version, cfg.includeClassContext, cfg.includeOnboarding, cfg.summarizeClassContext,
                                cfg.instructionStyle, cfg.outputFormat, summarize, cfg.maxClassContextTokens)
  }

  /** `teacher_model_base` once its director has been built from the configuration (or has
      failed to be): each teacher in turn gets a new persona until a prompt fails; after the
      loop, a debug line reads the first teacher, which raises IndexError for an empty list. */
  function TeacherModelBaseRun(director: Result<TeacherModelBaseDirector>, ts: seq<Teacher>, docs: seq<ClassDocument>,
                               generate: Llm, count: TokenCounter): (r: Run<Teacher>)
    ensures |r.items| == |ts|
    ensures r.result.Ok? ==> |ts| > 0
    ensures director.Err? ==> r == Run(Err(director.error), ts)
  {
    if director.Err? then Run(Err(director.error), ts)
    else
      var run := MapLoop(ts, BaseStep(director.value, docs, count, generate));
      if run.result.Ok? && |ts| == 0 then Run(Err(IndexError("teacher_profile")), run.items)
      else run
  }

  /** The asset succeeds exactly when there is a teacher and every teacher's prompt builds;
      it then changes nothing but the personas, each the model's answer to that teacher's own
      prompt. */
  lemma TeacherModelBaseUpdates(d: TeacherModelBaseDirector, ts: seq<Teacher>, docs: seq<ClassDocument>,
                                generate: Llm, count: TokenCounter)
    ensures var r := TeacherModelBaseRun(Ok(d), ts, docs, generate, count);
            && (r.result.Ok? <==> |ts| > 0 && forall i :: 0 <= i < |ts| ==> BasePromptFor(d, ts[i], docs, count).Ok?)
            && (r.result.Ok? ==> forall i :: 0 <= i < |ts| ==>
                  r.items[i] == WithModel(ts[i], generate(BasePromptFor(d, ts[i], docs, count).value)))
  {
    var step := BaseStep(d, docs, count, generate);
    MapLoopOk(ts, step);
    assert forall i :: 0 <= i < |ts| ==> (step(ts[i]).Ok? <==> BasePromptFor(d, ts[i], docs, count).Ok?);
  }

  /** The first teacher whose prompt fails decides the exception; the teachers before it
      already have their new personas and the rest are left as they were. */
  lemma TeacherModelBaseFirstError(d: TeacherModelBaseDirector, ts: seq<Teacher>, docs: seq<ClassDocument>,
                                   generate: Llm, count: TokenCounter, k: nat)
    requires k < |ts| && BasePromptFor(d, ts[k], docs, count).Err?
    requires forall i :: 0 <= i < k ==> BasePromptFor(d, ts[i], docs, count).Ok?
    ensures var r := TeacherModelBaseRun(Ok(d), ts, docs, generate, count);
            && r.result == Err(BasePromptFor(d, ts[k], docs, count).error)
            && r.items[k..] == ts[k..]
            && forall i :: 0 <= i < k ==> r.items[i] == WithModel(ts[i], generate(BasePromptFor(d, ts[i], docs, count).value))
  {
    MapLoopFirstError(ts, BaseStep(d, docs, count, generate), k);
  }

  /** `teacher_model_base` over the caller's teacher list, changed in place. */
  method TeacherModelBase(cfg: BaseConfig, teachers: array<Teacher>, docs: seq<ClassDocument>, summarize: Llm,
                          generate: Llm, count: TokenCounter) returns (r: Result<()>)
    modifies teachers
    ensures Run(r, teachers[..]) == TeacherModelBaseRun(NewBaseDirector(cfg, summarize), old(teachers[..]), docs, generate, count)
  {
    var director := NewBaseDirector(cfg, summarize);
    if director.Err? {
      return Err(director.error);
    }
    r := MapInPlace(teachers, BaseStep(director.value, docs, count, generate));
    if r.Ok? && teachers.Length == 0 {
      r := Err(IndexError("teacher_profile"));
    }
  }

  // ===================== TEACHER MODEL UPDATE PROMPT =====================

  /** `TeacherModelUpdateConfig` (lines 32-37). */
  datatype UpdateConfig = UpdateConfig(
    version: int,
    enabled: bool,
    maxExamples: int,
    instructionStyle: string,
    maxFeedbackExampleTokens: int)

  /** The feedback one teacher has given, in list order. */
  function OwnFeedback(userId: string, fbs: seq<Feedback>): (r: seq<Feedback>)
    ensures |r| <= |fbs|
  {
    if fbs == [] then []
    else (if fbs[0].userId == userId then [fbs[0]] else []) + OwnFeedback(userId, fbs[1..])
  }

  /** The selection is a filter: every feedback item of the teacher, as often as it occurs,
      and nothing else. */
  lemma {:induction false} OwnFeedbackFilters(userId: string, fbs: seq<Feedback>)
    ensures forall f :: multiset(OwnFeedback(userId, fbs))[f] == if f.userId == userId then multiset(fbs)[f] else 0
  {
    if fbs != [] {
      OwnFeedbackFilters(userId, fbs[1..]);
      assert fbs == [fbs[0]] + fbs[1..];
    }
  }

  /** The examples of one teacher: all of its feedback when there are at most `maxExamples`
      items, otherwise the first `maxExamples` after shuffling. The shuffle is a parameter. */
  function Selected(own: seq<Feedback>, maxExamples: int, shuffle: seq<Feedback> -> seq<Feedback>): seq<Feedback>
  {
    if |own| > maxExamples then SliceTo(shuffle(own), maxExamples) else own
  }

  /** A prefix of a list holds no more of anything than the list. */
  lemma PrefixMultiset<T>(s: seq<T>, k: nat)
    requires k <= |s|
    ensures multiset(s[..k]) <= multiset(s)
  {
    assert s == s[..k] + s[k..];
  }

  /** For a shuffle that permutes its list, the examples are a sample of the teacher's own
      feedback of size `min(len, maxExamples)`, and the whole list, in order, when it fits. */
  lemma SelectedSample(own: seq<Feedback>, maxExamples: int, shuffle: seq<Feedback> -> seq<Feedback>)
    requires multiset(shuffle(own)) == multiset(own)
    ensures var r := Selected(own, maxExamples, shuffle);
            && multiset(r) <= multiset(own)
            && (maxExamples >= 0 ==> |r| == if |own| <= maxExamples then |own| else maxExamples)
            && (|own| <= maxExamples ==> r == own)
  {
    var s := shuffle(own);
    assert |s| == |multiset(s)| == |own|;
    if |own| > maxExamples {
      var r := SliceTo(s, maxExamples);
      PrefixMultiset(s, |r|);
    }
  }

  /** The examples as the director receives them: highlighted text and feedback text. */
  function ExampleDocs(fs: seq<Feedback>): (r: seq<Doc>)
    ensures |r| == |fs|
    ensures forall i :: 0 <= i < |r| ==>
              r[i] == map["highlighted_text" := Some(fs[i].highlightedText), "feedback_text" := Some(fs[i].feedbackText)]
  {
    if fs == [] then []
    else
      [map["highlighted_text" := Some(fs[0].highlightedText), "feedback_text" := Some(fs[0].feedbackText)]]
      + ExampleDocs(fs[1..])
  }

  /** The update prompt of one teacher: none when updating is switched off or the teacher
      has given no feedback, otherwise the director's prompt over the selected examples. */
  function UpdatePromptFor(d: TeacherModelUpdateDirector, enabled: bool, maxExamples: int, t: Teacher,
                           fbs: seq<Feedback>, shuffle: seq<Feedback> -> seq<Feedback>, count: TokenCounter)
    : Result<Option<string>>
  {
    if !enabled then Ok(None)
    else
      var own := OwnFeedback(t.userId, fbs);
      if own == [] then Ok(None)
      else
        var prompt := UpdateBuild(d, t.teacherModel, ExampleDocs(Selected(own, maxExamples, shuffle)), count).prompt;
        if prompt.Err? then Err(prompt.error) else Ok(Some(prompt.value))
  }

  /** A teacher with feedback and a limit of at least one example gets the UPDATE template
      filled with its current persona and a sample of its own feedback. */
  lemma UpdatePromptForComposes(d: TeacherModelUpdateDirector, maxExamples: int, t: Teacher, fbs: seq<Feedback>,
                                shuffle: seq<Feedback> -> seq<Feedback>, count: TokenCounter)
    requires ValidUpdate(d) && d.instructionStyle in PromptEnums.TeacherModelUpdateInstructionStyles
    requires maxExamples >= 1 && OwnFeedback(t.userId, fbs) != []
    requires multiset(shuffle(OwnFeedback(t.userId, fbs))) == multiset(OwnFeedback(t.userId, fbs))
    ensures var examples := ExampleDocs(Selected(OwnFeedback(t.userId, fbs), maxExamples, shuffle));
            var reference := UpdateReference(d, t.teacherModel, examples, count);
            UpdatePromptFor(d, true, maxExamples, t, fbs, shuffle, count)
            == if reference.Ok? then Ok(Some(reference.value)) else Err(reference.error)
  {
    var own := OwnFeedback(t.userId, fbs);
    SelectedSample(own, maxExamples, shuffle);
    var examples := ExampleDocs(Selected(own, maxExamples, shuffle));
    UpdateBuildComposes(d, t.teacherModel, examples, count);
  }

  /** With `max_examples` at 0, a teacher with feedback gets an empty example list, which the
      director refuses. */
  lemma NoExamplesRefused(d: TeacherModelUpdateDirector, t: Teacher, fbs: seq<Feedback>,
                          shuffle: seq<Feedback> -> seq<Feedback>, count: TokenCounter)
    requires OwnFeedback(t.userId, fbs) != []
    ensures var r := UpdatePromptFor(d, true, 0, t, fbs, shuffle, count);
            r.Err? && r.error.AssertionError?
  {
    assert Selected(OwnFeedback(t.userId, fbs), 0, shuffle) == [];
  }

  /** The update prompts by teacher id, and how many teachers got one. */
  datatype Prompts = Prompts(prompts: map<string, Option<string>>, updates: nat)

  /** The ids of a list of teachers. */
  function UserIds(ts: seq<Teacher>): set<string>
  {
    set i | 0 <= i < |ts| :: ts[i].userId
  }

  /** No two teachers share an id. */
  predicate DistinctIds(ts: seq<Teacher>)
  {
    forall i, j :: 0 <= i < j < |ts| ==> ts[i].userId != ts[j].userId
  }

  /** The loop of `teacher_model_update_prompt` for a given outcome per teacher: each teacher's
      entry is written in turn (a later teacher with the same id overwrites), each prompt
      counts as an update, and the first failure stops the loop. */
  function PromptsLoop(ts: seq<Teacher>, promptOf: Teacher -> Result<Option<string>>): Result<Prompts>
  {
    if ts == [] then Ok(Prompts(map[], 0))
    else
      var before :- PromptsLoop(ts[..|ts| - 1], promptOf);
      var t := ts[|ts| - 1];
      var p :- promptOf(t);
      Ok(Prompts(before.prompts[t.userId := p], before.updates + if p.Some? then 1 else 0))
  }

  /** The loop succeeds exactly when every teacher's outcome does. */
  lemma {:induction false} PromptsLoopOk(ts: seq<Teacher>, promptOf: Teacher -> Result<Option<string>>)
    ensures PromptsLoop(ts, promptOf).Ok? <==> forall i :: 0 <= i < |ts| ==> promptOf(ts[i]).Ok?
  {
    if ts != [] {
      var init := ts[..|ts| - 1];
      PromptsLoopOk(init, promptOf);
      assert forall i :: 0 <= i < |init| ==> init[i] == ts[i];
    }
  }

  /** There is one entry per teacher id. */
  lemma {:induction false} PromptsLoopKeys(ts: seq<Teacher>, promptOf: Teacher -> Result<Option<string>>)
    requires PromptsLoop(ts, promptOf).Ok?
    ensures PromptsLoop(ts, promptOf).value.prompts.Keys == UserIds(ts)
  {
    if ts != [] {
      var init := ts[..|ts| - 1];
      PromptsLoopKeys(init, promptOf);
      assert UserIds(ts) == UserIds(init) + {ts[|ts| - 1].userId} by {
        assert forall i :: 0 <= i < |init| ==> init[i] == ts[i];
      }
    }
  }

  /** Each entry is the outcome of some teacher with that id. */
  lemma {:induction false} PromptsLoopSource(ts: seq<Teacher>, promptOf: Teacher -> Result<Option<string>>)
    requires PromptsLoop(ts, promptOf).Ok?
    ensures var r := PromptsLoop(ts, promptOf).value;
            forall k :: k in r.prompts ==>
              exists i :: 0 <= i < |ts| && ts[i].userId == k && promptOf(ts[i]) == Ok(r.prompts[k])
  {
    if ts != [] {
      var init := ts[..|ts| - 1];
      var t := ts[|ts| - 1];
      PromptsLoopSource(init, promptOf);
      var before := PromptsLoop(init, promptOf).value;
      var r := PromptsLoop(ts, promptOf).value;
      forall k | k in r.prompts
        ensures exists i :: 0 <= i < |ts| && ts[i].userId == k && promptOf(ts[i]) == Ok(r.prompts[k])
      {
        if k == t.userId {
          assert ts[|ts| - 1].userId == k && promptOf(ts[|ts| - 1]) == Ok(r.prompts[k]);
        } else {
          var i :| 0 <= i < |init| && init[i].userId == k && promptOf(init[i]) == Ok(before.prompts[k]);
          assert ts[i] == init[i];
        }
      }
    }
  }

  /** The last teacher with an id decides its entry. */
  lemma {:induction false} PromptsLoopLast(ts: seq<Teacher>, promptOf: Teacher -> Result<Option<string>>, i: nat)
    requires PromptsLoop(ts, promptOf).Ok?
    requires i < |ts| && forall j :: i < j < |ts| ==> ts[j].userId != ts[i].userId
    ensures ts[i].userId in PromptsLoop(ts, promptOf).value.prompts
    ensures promptOf(ts[i]) == Ok(PromptsLoop(ts, promptOf).value.prompts[ts[i].userId])
  {
    if i < |ts| - 1 {
      var init := ts[..|ts| - 1];
      assert init[i] == ts[i];
      PromptsLoopLast(init, promptOf, i);
    }
  }

  /** Once an outcome fails, the loop has failed with it. */
  lemma {:induction false} PromptsLoopAfterError(ts: seq<Teacher>, promptOf: Teacher -> Result<Option<string>>, n: nat)
    requires n <= |ts| && PromptsLoop(ts[..n], promptOf).Err?
    ensures PromptsLoop(ts, promptOf) == PromptsLoop(ts[..n], promptOf)
    decreases |ts| - n
  {
    if n < |ts| {
      assert ts[..n + 1][..n] == ts[..n];
      PromptsLoopAfterError(ts, promptOf, n + 1);
    } else {
      assert ts[..n] == ts;
    }
  }

  /** With distinct ids, the update count is the number of teachers given a prompt. */
  lemma {:induction false} PromptsLoopCount(ts: seq<Teacher>, promptOf: Teacher -> Result<Option<string>>)
    requires DistinctIds(ts) && PromptsLoop(ts, promptOf).Ok?
    ensures var r := PromptsLoop(ts, promptOf).value;
            r.updates == |set k | k in r.prompts && r.prompts[k].Some?|
  {
    if ts != [] {
      var init := ts[..|ts| - 1];
      var t := ts[|ts| - 1];
      assert DistinctIds(init);
      PromptsLoopCount(init, promptOf);
      var before := PromptsLoop(init, promptOf).value;
      var r := PromptsLoop(ts, promptOf).value;
      var s0 := set k | k in before.prompts && before.prompts[k].Some?;
      var s1 := set k | k in r.prompts && r.prompts[k].Some?;
      PromptsLoopKeys(init, promptOf);
      assert t.userId !in UserIds(init);
      if promptOf(t).value.Some? {
        assert s1 == s0 + {t.userId};
      } else {
        assert s1 == s0;
      }
    }
  }

  /** When no teacher gets a prompt, every entry is None and nothing is counted. */
  lemma {:induction false} PromptsLoopNone(ts: seq<Teacher>, promptOf: Teacher -> Result<Option<string>>)
    requires forall i :: 0 <= i < |ts| ==> promptOf(ts[i]) == Ok(None)
    ensures var r := PromptsLoop(ts, promptOf);
            r.Ok? && r.value.updates == 0 && forall k :: k in r.value.prompts ==> r.value.prompts[k] == None
  {
    if ts != [] {
      var init := ts[..|ts| - 1];
      assert forall i :: 0 <= i < |init| ==> init[i] == ts[i];
      PromptsLoopNone(init, promptOf);
    }
  }

  /** The loop of `teacher_model_update_prompt`, building the dictionary entry by entry. */
  method BuildPrompts(ts: seq<Teacher>, promptOf: Teacher -> Result<Option<string>>) returns (r: Result<Prompts>)
    ensures r == PromptsLoop(ts, promptOf)
  {
    var prompts: map<string, Option<string>> := map[];
    var updates := 0;
    for i := 0 to |ts|
      invariant PromptsLoop(ts[..i], promptOf) == Ok(Prompts(prompts, updates))
    {
      assert ts[..i + 1][..i] == ts[..i];
      var t := ts[i];
      var p := promptOf(t);
      if p.Err? {
        PromptsLoopAfterError(ts, promptOf, i + 1);
        return Err(p.error);
      }
      if p.value.Some? {
        updates := updates + 1;
      }
      prompts := prompts[t.userId := p.value];
    }
    assert ts[..|ts|] == ts;
    r := Ok(Prompts(prompts, updates));
  }

  /** The director of the update asset. */
  function NewUpdateDirector(cfg: UpdateConfig): Result<TeacherModelUpdateDirector>
  {
    NewTeacherModelUpdateDirector(cfg.version, cfg.instructionStyle, cfg.maxFeedbackExampleTokens)
  }

  /** The update outcome of every teacher, as one function. */
  function UpdatePrompts(d: TeacherModelUpdateDirector, cfg: UpdateConfig, fbs: seq<Feedback>,
                         shuffle: seq<Feedback> -> seq<Feedback>, count: TokenCounter)
    : Teacher -> Result<Option<string>>
  {
    t => UpdatePromptFor(d, cfg.enabled, cfg.maxExamples, t, fbs, shuffle, count)
  }

  /** `teacher_model_update_prompt` once its director has been built (or has failed to be).
      The director is built before the loop, so an unregistered version raises KeyError even
      when updating is switched off. */
  function UpdatePromptRun(director: Result<TeacherModelUpdateDirector>, cfg: UpdateConfig, ts: seq<Teacher>,
                           fbs: seq<Feedback>, shuffle: seq<Feedback> -> seq<Feedback>, count: TokenCounter)
    : (r: Result<Prompts>)
    ensures director.Err? ==> r == Err(director.error)
  {
    var d :- director;
    PromptsLoop(ts, UpdatePrompts(d, cfg, fbs, shuffle, count))
  }

  /** Switched off, the asset maps every teacher id to None and counts no update. */
  lemma UpdateDisabled(director: Result<TeacherModelUpdateDirector>, cfg: UpdateConfig, ts: seq<Teacher>,
                       fbs: seq<Feedback>, shuffle: seq<Feedback> -> seq<Feedback>, count: TokenCounter)
    requires director.Ok? && !cfg.enabled
    ensures var r := UpdatePromptRun(director, cfg, ts, fbs, shuffle, count);
            && r.Ok? && r.value.updates == 0 && r.value.prompts.Keys == UserIds(ts)
            && forall k :: k in r.value.prompts ==> r.value.prompts[k] == None
  {
    var promptOf := UpdatePrompts(director.value, cfg, fbs, shuffle, count);
    PromptsLoopNone(ts, promptOf);
    PromptsLoopKeys(ts, promptOf);
  }

  /** A teacher id without feedback maps to None. */
  lemma UpdateWithoutFeedback(director: Result<TeacherModelUpdateDirector>, cfg: UpdateConfig, ts: seq<Teacher>,
                              fbs: seq<Feedback>, shuffle: seq<Feedback> -> seq<Feedback>, count: TokenCounter,
                              userId: string)
    requires UpdatePromptRun(director, cfg, ts, fbs, shuffle, count).Ok?
    requires userId in UserIds(ts) && OwnFeedback(userId, fbs) == []
    ensures var prompts := UpdatePromptRun(director, cfg, ts, fbs, shuffle, count).value.prompts;
            userId in prompts && prompts[userId] == None
  {
    var promptOf := UpdatePrompts(director.value, cfg, fbs, shuffle, count);
    PromptsLoopKeys(ts, promptOf);
    PromptsLoopSource(ts, promptOf);
    var prompts := PromptsLoop(ts, promptOf).value.prompts;
    var i :| 0 <= i < |ts| && ts[i].userId == userId && promptOf(ts[i]) == Ok(prompts[userId]);
  }

  /** `teacher_model_update_prompt`, returning the prompts by teacher id and the update
      count. */
  method TeacherModelUpdatePrompt(cfg: UpdateConfig, ts: seq<Teacher>, fbs: seq<Feedback>,
                                  shuffle: seq<Feedback> -> seq<Feedback>, count: TokenCounter)
    returns (r: Result<Prompts>)
    ensures r == UpdatePromptRun(NewUpdateDirector(cfg), cfg, ts, fbs, shuffle, count)
  {
    var director := NewUpdateDirector(cfg);
    if director.Err? {
      return Err(director.error);
    }
    r := BuildPrompts(ts, UpdatePrompts(director.value, cfg, fbs, shuffle, count));
  }

  // ===================== TEACHER MODEL =====================

  /** A teacher after the update step: a new persona when there is a prompt for its id. */
  function Updated(t: Teacher, prompts: map<string, Option<string>>, generate: Llm): Teacher
    requires t.userId in prompts
  {
    var p := prompts[t.userId];
    if p.Some? then WithModel(t, generate(p.value)) else t
  }

  /** The loop of `teacher_model`: the personas by teacher id and the teachers afterwards. */
  datatype ModelsRun = ModelsRun(result: Result<map<string, Option<string>>>, teachers: seq<Teacher>)

  /** The loop of `teacher_model` over the teachers before the call: looking up a teacher
      without an entry raises KeyError and stops the loop. */
  function ModelsLoop(ts: seq<Teacher>, prompts: map<string, Option<string>>, generate: Llm): (r: ModelsRun)
    ensures |r.teachers| == |ts|
  {
    if ts == [] then ModelsRun(Ok(map[]), [])
    else
      var t := ts[|ts| - 1];
      var before := ModelsLoop(ts[..|ts| - 1], prompts, generate);
      if before.result.Err? then ModelsRun(before.result, before.teachers + [t])
      else if t.userId !in prompts then ModelsRun(Err(KeyError(t.userId)), before.teachers + [t])
      else
        var after := Updated(t, prompts, generate);
        ModelsRun(Ok(before.result.value[t.userId := after.teacherModel]), before.teachers + [after])
  }

  /** The loop succeeds exactly when every teacher has an entry; then every teacher is
      updated by its own entry, and the result has one persona per teacher id. */
  lemma {:induction false} ModelsLoopOk(ts: seq<Teacher>, prompts: map<string, Option<string>>, generate: Llm)
    ensures var r := ModelsLoop(ts, prompts, generate);
            && (r.result.Ok? <==> UserIds(ts) <= prompts.Keys)
            && (r.result.Ok? ==> r.result.value.Keys == UserIds(ts))
            && (r.result.Ok? ==> forall i :: 0 <= i < |ts| ==> r.teachers[i] == Updated(ts[i], prompts, generate))
  {
    if ts != [] {
      var init := ts[..|ts| - 1];
      ModelsLoopOk(init, prompts, generate);
      assert forall i :: 0 <= i < |init| ==> init[i] == ts[i];
      assert UserIds(ts) == UserIds(init) + {ts[|ts| - 1].userId};
    }
  }

  /** The last teacher with an id decides the persona returned for it. */
  lemma {:induction false} ModelsLoopLast(ts: seq<Teacher>, prompts: map<string, Option<string>>, generate: Llm,
                                          i: nat)
    requires ModelsLoop(ts, prompts, generate).result.Ok?
    requires i < |ts| && forall j :: i < j < |ts| ==> ts[j].userId != ts[i].userId
    ensures var r := ModelsLoop(ts, prompts, generate);
            ts[i].userId in r.result.value && r.result.value[ts[i].userId] == r.teachers[i].teacherModel
  {
    if i < |ts| - 1 {
      var init := ts[..|ts| - 1];
      assert init[i] == ts[i];
      ModelsLoopLast(init, prompts, generate, i);
    }
  }

  /** The first teacher without an entry decides the KeyError; the teachers before it are
      updated and the rest are left as they were. */
  lemma {:induction false} ModelsLoopMissing(ts: seq<Teacher>, prompts: map<string, Option<string>>, generate: Llm,
                                             k: nat)
    requires k < |ts| && ts[k].userId !in prompts
    requires forall i :: 0 <= i < k ==> ts[i].userId in prompts
    ensures var r := ModelsLoop(ts, prompts, generate);
            && r.result == Err(KeyError(ts[k].userId))
            && r.teachers[k..] == ts[k..]
            && forall i :: 0 <= i < k ==> r.teachers[i] == Updated(ts[i], prompts, generate)
  {
    if k + 1 < |ts| {
      ModelsLoopMissing(ts[..|ts| - 1], prompts, generate, k);
      var before := ModelsLoop(ts[..|ts| - 1], prompts, generate);
      assert before.teachers[k..] == ts[..|ts| - 1][k..];
      assert ts[k..] == ts[..|ts| - 1][k..] + [ts[|ts| - 1]];
    } else {
      var init := ts[..|ts| - 1];
      assert init == ts[..k];
      ModelsLoopOk(init, prompts, generate);
      assert UserIds(init) <= prompts.Keys;
    }
  }

  /** Once a lookup fails, the loop's outcome is fixed: later teachers are untouched. */
  lemma {:induction false} ModelsLoopAfterError(ts: seq<Teacher>, prompts: map<string, Option<string>>, generate: Llm,
                                                n: nat)
    requires 0 < n <= |ts|
    requires ModelsLoop(ts[..n], prompts, generate).result.Err?
    ensures ModelsLoop(ts, prompts, generate)
         == ModelsRun(ModelsLoop(ts[..n], prompts, generate).result, ModelsLoop(ts[..n], prompts, generate).teachers + ts[n..])
    decreases |ts| - n
  {
    if n < |ts| {
      assert ts[..n + 1][..n] == ts[..n];
      ModelsLoopAfterError(ts, prompts, generate, n + 1);
      assert ts[n..] == [ts[n]] + ts[n + 1..];
    } else {
      assert ts[..n] == ts;
    }
  }

  /** One more teacher: the loop over a longer prefix, from the loop over the shorter one. */
  lemma ModelsLoopStep(ts: seq<Teacher>, prompts: map<string, Option<string>>, generate: Llm, i: nat)
    requires i < |ts|
    ensures var before := ModelsLoop(ts[..i], prompts, generate);
            var t := ts[i];
            ModelsLoop(ts[..i + 1], prompts, generate)
            == if before.result.Err? then ModelsRun(before.result, before.teachers + [t])
               else if t.userId !in prompts then ModelsRun(Err(KeyError(t.userId)), before.teachers + [t])
               else ModelsRun(Ok(before.result.value[t.userId := Updated(t, prompts, generate).teacherModel]),
                              before.teachers + [Updated(t, prompts, generate)])
  {
    assert ts[..i + 1][..i] == ts[..i];
  }

  /** `teacher_model` over the caller's teacher list, changed in place. */
  method TeacherModel(teachers: array<Teacher>, prompts: map<string, Option<string>>, generate: Llm)
    returns (r: Result<map<string, Option<string>>>)
    modifies teachers
    ensures ModelsRun(r, teachers[..]) == ModelsLoop(old(teachers[..]), prompts, generate)
  {
    ghost var ts := teachers[..];
    var models: map<string, Option<string>> := map[];
    var i := 0;
    while i < teachers.Length
      invariant 0 <= i <= teachers.Length
      invariant ModelsLoop(ts[..i], prompts, generate) == ModelsRun(Ok(models), teachers[..i])
      invariant teachers[i..] == ts[i..]
    {
      var t := teachers[i];
      assert t == ts[i];
      ModelsLoopStep(ts, prompts, generate, i);
      if t.userId !in prompts {
        ModelsLoopAfterError(ts, prompts, generate, i + 1);
        assert teachers[..] == teachers[..i] + [ts[i]] + ts[i + 1..];
        return Err(KeyError(t.userId));
      }
      var prompt := prompts[t.userId];
      if prompt.Some? {
        teachers[i] := WithModel(t, generate(prompt.value));
      }
      models := models[t.userId := teachers[i].teacherModel];
      assert teachers[..i + 1] == teachers[..i] + [Updated(t, prompts, generate)];
      i := i + 1;
    }
    assert ts[..i] == ts;
    assert teachers[..i] == teachers[..];
    r := Ok(models);
  }

  // ===================== THE ASSETS TOGETHER =====================

  /** The update prompts have an entry for every teacher they were built from, so on the
      same teachers `teacher_model` never raises KeyError; a teacher without feedback keeps
      its base persona. */
  lemma UpdateThenModel(director: Result<TeacherModelUpdateDirector>, cfg: UpdateConfig, ts: seq<Teacher>,
                        fbs: seq<Feedback>, shuffle: seq<Feedback> -> seq<Feedback>, count: TokenCounter,
                        generate: Llm)
    requires UpdatePromptRun(director, cfg, ts, fbs, shuffle, count).Ok?
    ensures var prompts := UpdatePromptRun(director, cfg, ts, fbs, shuffle, count).value.prompts;
            var r := ModelsLoop(ts, prompts, generate);
            && r.result.Ok?
            && forall i :: 0 <= i < |ts| && OwnFeedback(ts[i].userId, fbs) == [] ==> r.teachers[i] == ts[i]
  {
    var promptOf := UpdatePrompts(director.value, cfg, fbs, shuffle, count);
    var prompts := PromptsLoop(ts, promptOf).value.prompts;
    PromptsLoopKeys(ts, promptOf);
    ModelsLoopOk(ts, prompts, generate);
    forall i | 0 <= i < |ts| && OwnFeedback(ts[i].userId, fbs) == []
      ensures prompts[ts[i].userId] == None
    {
      UpdateWithoutFeedback(director, cfg, ts, fbs, shuffle, count, ts[i].userId);
    }
  }

  /** Switched off, the update step leaves every persona as the base asset made it. */
  lemma DisabledKeepsBase(director: Result<TeacherModelUpdateDirector>, cfg: UpdateConfig, ts: seq<Teacher>,
                          fbs: seq<Feedback>, shuffle: seq<Feedback> -> seq<Feedback>, count: TokenCounter,
                          generate: Llm)
    requires director.Ok? && !cfg.enabled
    ensures UpdatePromptRun(director, cfg, ts, fbs, shuffle, count).Ok?
    ensures var prompts := UpdatePromptRun(director, cfg, ts, fbs, shuffle, count).value.prompts;
            var r := ModelsLoop(ts, prompts, generate);
            r.result.Ok? && r.teachers == ts
  {
    UpdateDisabled(director, cfg, ts, fbs, shuffle, count);
    var prompts := UpdatePromptRun(director, cfg, ts, fbs, shuffle, count).value.prompts;
    ModelsLoopOk(ts, prompts, generate);
  }
}

=== FILE: pytext.dfy ===
/** Python string and list semantics the modelled code relies on: slicing with negative
    bounds, `str.join`, substring tests and `str(int)`. */
module PyText {
  import opened Wrappers

  /** A Python slice bound `i` over a sequence of length `n`, after clamping. */
  function ClampIndex(i: int, n: nat): (r: nat)
    ensures r <= n
    ensures 0 <= i <= n ==> r == i
    ensures i < 0 ==> r == if i + n < 0 then 0 else i + n
  {
    if i < 0 then (if i + n < 0 then 0 else i + n) else if i > n then n else i
  }

  /** Python `s[a:b]` (no step). */
  function Slice<T>(s: seq<T>, a: int, b: int): seq<T>
  {
    var lo := ClampIndex(a, |s|);
    var hi := ClampIndex(b, |s|);
    if lo <= hi then s[lo..hi] else []
  }

  /** Python `s[:n]`: a prefix of `s`; a negative `n` drops `-n` elements from the end. */
  function SliceTo<T>(s: seq<T>, n: int): (r: seq<T>)
    ensures |r| <= |s| && r == s[..|r|]
    ensures n >= 0 ==> |r| == if n <= |s| then n else |s|
    ensures n < 0 ==> |r| == if |s| + n < 0 then 0 else |s| + n
  {
    Slice(s, 0, n)
  }

  /** Python `sep.join(parts)`. */
  function Join(sep: string, parts: seq<string>): string
  {
    if |parts| == 0 then ""
    else if |parts| == 1 then parts[0]
    else parts[0] + sep + Join(sep, parts[1..])
  }

  /** Python `s.startswith(p)`. */
  predicate StartsWith(s: string, p: string)
  {
    |p| <= |s| && s[..|p|] == p
  }

  /** Python `s.endswith(p)`. */
  predicate EndsWith(s: string, p: string)
  {
    |p| <= |s| && s[|s| - |p|..] == p
  }

  /** Python `sub in s`. */
  predicate Contains(s: string, sub: string)
    decreases |s|
  {
    StartsWith(s, sub) || (|s| > 0 && Contains(s[1..], sub))
  }

  /** Python `s.find(c)`, as an option: the first index holding `c`. */
  function IndexOf(s: string, c: char): (r: Option<nat>)
    ensures r.None? <==> c !in s
    ensures r.Some? ==> r.value < |s| && s[r.value] == c && c !in s[..r.value]
  {
    if s == [] then None
    else if s[0] == c then Some(0)
    else match IndexOf(s[1..], c)
      case None => None
      case Some(j) => assert s[..j + 1] == [s[0]] + s[1..][..j]; Some(j + 1)
  }

  /** Python `str(x)` for a value that may be `None`. */
  function PyStr(x: Option<string>): string
  {
    match x
    case Some(s) => s
    case None => "None"
  }

  predicate IsDigit(c: char)
  {
    '0' <= c <= '9'
  }

  function DigitChar(d: nat): (c: char)
    requires d < 10
    ensures IsDigit(c) && (c as int) - ('0' as int) == d
  {
    (('0' as int) + d) as char
  }

  /** Python `str(n)` for a non-negative integer. */
  function NatDecimal(n: nat): (r: string)
    ensures |r| >= 1
    ensures forall i :: 0 <= i < |r| ==> IsDigit(r[i])
    decreases n
  {
    if n < 10 then [DigitChar(n)] else NatDecimal(n / 10) + [DigitChar(n % 10)]
  }

  /** Python `str(i)` for any integer. */
  function Decimal(i: int): string
  {
    if i < 0 then "-" + NatDecimal(-i) else NatDecimal(i)
  }

  /** Python `int(s)` on a non-empty run of ASCII digits. */
  function DigitsValue(s: string): nat
    requires forall i :: 0 <= i < |s| ==> IsDigit(s[i])
  {
    if s == [] then 0
    else
      assert IsDigit(s[|s| - 1]);
      DigitsValue(s[..|s| - 1]) * 10 + ((s[|s| - 1] as int) - ('0' as int))
  }

  /** Parsing the decimal rendering of a number gives the number back. */
  lemma {:induction false} DigitsValueOfDecimal(n: nat)
    ensures DigitsValue(NatDecimal(n)) == n
    decreases n
  {
    var r := NatDecimal(n);
    if n >= 10 {
      DigitsValueOfDecimal(n / 10);
      assert r[..|r| - 1] == NatDecimal(n / 10);
    }
  }

  /** A single decimal digit is exactly a number below ten. */
  lemma {:induction false} DecimalSingleDigit(n: nat)
    ensures |NatDecimal(n)| == 1 <==> n < 10
  {
    if n >= 10 {
      assert |NatDecimal(n / 10)| >= 1;
    }
  }
}

=== FILE: tracking.dfy ===
/** The experiment tracking client (experiment/pipeline/resources/_mlflow.py): parameters and
    metrics logged to the tracking server, and artifacts written under the run's directory.
    What the server records and what the artifact files hold are fields of the client. */
module Tracking {
  import opened Wrappers
  import opened PyText
  import opened Values

  /** A logged parameter. */
  datatype Param = Param(name: string, value: Value)

  /** A logged metric, with its optional step. */
  datatype Metric = Metric(name: string, value: real, step: Option<int>)

  /** An artifact file: a table (CSV or Parquet) or a JSON document. */
  datatype Artifact = TableArtifact(rows: seq<map<string, Value>>) | JsonArtifact(value: Value)

  /** What `log_artifact` is given: a DataFrame, a list or a dict. */
  datatype ArtifactData =
    | FrameData(rows: seq<map<string, Value>>)
    | ListData(items: seq<Value>)
    | DictData(entries: map<string, Value>)

  /** `asset_key.to_string()[2:-2]`: the rendered key without its first two and last two
      characters. */
  function AssetName(assetKey: string): string
  {
    Slice(assetKey, 2, -2)
  }

  /** A one-part asset key renders as `["name"]`, from which the slice takes the name back. */
  lemma AssetNameOfKey(name: string)
    ensures AssetName("[\"" + name + "\"]") == name
  {
    var rendered := "[\"" + name + "\"]";
    assert rendered[2..|rendered| - 2] == name;
  }

  /** `f"{prefix}-{param}"`. */
  function ParamName(prefix: string, param: string): string
  {
    prefix + "-" + param
  }

  /** `log_resource_config` keeps a parameter unless its name contains "api_key",
      "tracking_client" or "dagster_run_id_", or starts with "_". */
  predicate LoggedResourceParam(param: string)
  {
    !Contains(param, "api_key") && !StartsWith(param, "_") && !Contains(param, "tracking_client")
    && !Contains(param, "dagster_run_id_")
  }

  /** The parameters `log_asset_config` logs, in the order of the configuration's fields. */
  function AssetParams(assetKey: string, config: seq<(string, Value)>): seq<Param>
  {
    seq(|config|, i requires 0 <= i < |config| => Param(ParamName(AssetName(assetKey), config[i].0), config[i].1))
  }

  /** The parameters `log_resource_config` logs, in field order. */
  function ResourceParams(className: string, config: seq<(string, Value)>): seq<Param>
  {
    if config == [] then []
    else
      var last := config[|config| - 1];
      ResourceParams(className, config[..|config| - 1])
      + (if LoggedResourceParam(last.0) then [Param(ParamName(className, last.0), last.1)] else [])
  }

  /** Every asset parameter's name is the asset's name, a dash and the field, which can be
      read back after the prefix; the values are the fields' own. */
  lemma AssetParamsNamed(assetKey: string, config: seq<(string, Value)>)
    ensures |AssetParams(assetKey, config)| == |config|
    ensures forall i :: 0 <= i < |config| ==>
              var name := AssetParams(assetKey, config)[i].name;
              && StartsWith(name, AssetName(assetKey) + "-")
              && name[|AssetName(assetKey)| + 1..] == config[i].0
              && AssetParams(assetKey, config)[i].value == config[i].1
  {
  }

  /** A field is logged exactly when the filter keeps it, under the class name and a dash. */
  lemma {:induction false} ResourceParamsFiltered(className: string, config: seq<(string, Value)>)
    ensures forall k, v :: Param(ParamName(className, k), v) in ResourceParams(className, config)
              <== (k, v) in config && LoggedResourceParam(k)
    ensures forall p :: p in ResourceParams(className, config) ==>
              exists k :: (k, p.value) in config && LoggedResourceParam(k) && p.name == ParamName(className, k)
  {
    if config != [] {
      var init := config[..|config| - 1];
      ResourceParamsFiltered(className, init);
      assert forall x :: x in config <==> x in init || x == config[|config| - 1];
    }
  }

  /** The run's artifact directory, with the asset key's sub-directory when one is given. */
  function ArtifactDir(runId: string, assetKey: Option<string>): string
  {
    if assetKey.Some? && assetKey.value != "" then "artifacts/" + runId + "/" + assetKey.value + "/"
    else "artifacts/" + runId + "/"
  }

  /** The file extensions `log_artifact` accepts. */
  predicate SupportedExtension(filename: string)
  {
    EndsWith(filename, ".csv") || EndsWith(filename, ".parquet") || EndsWith(filename, ".json")
  }

  /** `dict.update` with a list: every element must be a pair, which is modelled for a
      two-element list whose first element is a string; later pairs win. */
  function PairsToMap(items: seq<Value>): (r: Result<map<string, Value>>)
    ensures r.Ok? ==> forall i :: 0 <= i < |items| ==> items[i].List? && |items[i].items| == 2
                                                        && items[i].items[0].Str? && items[i].items[0].s in r.value
  {
    if items == [] then Ok(map[])
    else
      var init :- PairsToMap(items[..|items| - 1]);
      var last := items[|items| - 1];
      if last.List? && |last.items| == 2 && last.items[0].Str? then Ok(init[last.items[0].s := last.items[1]])
      else Err(TypeError("update"))
  }

  /** The data as the JSON document it is written as. */
  function AsJson(data: ArtifactData): Value
    requires !data.FrameData?
  {
    match data
    case ListData(items) => List(items)
    case DictData(entries) => Dict(entries)
  }

  /** The JSON append rules: an existing dict is updated with the data; an existing list is
      extended by a list, or gets a dict appended as one element; anything else has neither
      method. */
  function MergeJson(existing: Value, data: ArtifactData): Result<Value>
    requires !data.FrameData?
  {
    if existing.Dict? then
      match data
      case DictData(entries) => Ok(Dict(existing.entries + entries))
      case ListData(items) =>
        var pairs :- PairsToMap(items);
        Ok(Dict(existing.entries + pairs))
    else if existing.List? then
      match data
      case ListData(items) => Ok(List(existing.items + items))
      case DictData(entries) => Ok(List(existing.items + [Dict(entries)]))
    else Err(AttributeError("append"))
  }

  /** What the artifact file holds after the write: None when the data's kind does not match
      the extension and nothing is written; otherwise, in append mode over an existing file,
      the existing rows before the new ones (tables) or the JSON merge; else the data. */
  function StoredArtifact(existing: Option<Artifact>, data: ArtifactData, filename: string, mode: string)
    : Result<Option<Artifact>>
  {
    match data
    case FrameData(rows) =>
      if !(EndsWith(filename, ".csv") || EndsWith(filename, ".parquet")) then Ok(None)
      else if mode == "append" && existing.Some? then
        if existing.value.TableArtifact? then Ok(Some(TableArtifact(existing.value.rows + rows)))
        else Err(ValueError("table"))
      else Ok(Some(TableArtifact(rows)))
    case _ =>
      if !EndsWith(filename, ".json") then Ok(None)
      else if mode == "append" && existing.Some? then
        if existing.value.JsonArtifact? then
          var merged :- MergeJson(existing.value.value, data);
          Ok(Some(JsonArtifact(merged)))
        else Err(ValueError("json"))
      else Ok(Some(JsonArtifact(AsJson(data))))
  }

  // ===================== MERGE PROPERTIES =====================

  /** Updating a dict with a dict keeps every key of both, the new value winning. */
  lemma MergeDictUpdates(existing: map<string, Value>, entries: map<string, Value>)
    ensures MergeJson(Dict(existing), DictData(entries)).Ok?
    ensures var m := MergeJson(Dict(existing), DictData(entries)).value.entries;
            && m.Keys == existing.Keys + entries.Keys
            && (forall k :: k in entries ==> m[k] == entries[k])
            && (forall k :: k in existing && k !in entries ==> m[k] == existing[k])
  {
  }

  /** A list is extended by a list and gets a dict as one more element: the existing
      elements come first, unchanged. */
  lemma MergeListExtends(existing: seq<Value>, data: ArtifactData)
    requires !data.FrameData?
    ensures MergeJson(List(existing), data).Ok?
    ensures var m := MergeJson(List(existing), data).value.items;
            && m[..|existing|] == existing
            && (data.ListData? ==> m[|existing|..] == data.items)
            && (data.DictData? ==> m[|existing|..] == [Dict(data.entries)])
  {
    var m := MergeJson(List(existing), data).value.items;
    assert m[..|existing|] == existing;
  }

  /** Appending to a stored artifact never loses what it held: a table keeps its rows first
      and grows by the new ones, a JSON list keeps its elements first, a JSON dict keeps its
      keys. A kind mismatch between the file and the data is an error, never a silent
      replacement. */
  lemma StoredArtifactKeepsExisting(e: Artifact, data: ArtifactData, filename: string)
    ensures var r := StoredArtifact(Some(e), data, filename, "append");
            r.Ok? && r.value.Some? ==>
              && (e.TableArtifact? ==>
                    && r.value.value.TableArtifact?
                    && |r.value.value.rows| == |e.rows| + |data.rows|
                    && r.value.value.rows[..|e.rows|] == e.rows)
              && (e.JsonArtifact? && e.value.List? ==>
                    && r.value.value.JsonArtifact? && r.value.value.value.List?
                    && |e.value.items| <= |r.value.value.value.items|
                    && r.value.value.value.items[..|e.value.items|] == e.value.items)
              && (e.JsonArtifact? && e.value.Dict? ==>
                    && r.value.value.JsonArtifact? && r.value.value.value.Dict?
                    && e.value.entries.Keys <= r.value.value.value.entries.Keys)
  {
    var r := StoredArtifact(Some(e), data, filename, "append");
    if r.Ok? && r.value.Some? && e.JsonArtifact? {
      if e.value.List? {
        MergeListExtends(e.value.items, data);
      } else if e.value.Dict? && data.DictData? {
        MergeDictUpdates(e.value.entries, data.entries);
      }
    }
  }

  /** Outside append mode the file's new content depends only on the data: whatever was
      stored before is replaced. */
  lemma StoredArtifactOverwrite(e1: Option<Artifact>, e2: Option<Artifact>, data: ArtifactData, filename: string, mode: string)
    requires mode != "append"
    ensures StoredArtifact(e1, data, filename, mode) == StoredArtifact(e2, data, filename, mode)
    ensures StoredArtifact(e1, data, filename, mode).Ok?
  {
  }

  /** Two table appends to the same file leave what one append of both row lists leaves. */
  lemma TableAppendsCompose(existing: Option<Artifact>, rows1: seq<map<string, Value>>,
                            rows2: seq<map<string, Value>>, filename: string)
    requires EndsWith(filename, ".csv") || EndsWith(filename, ".parquet")
    requires existing.None? || existing.value.TableArtifact?
    ensures var first := StoredArtifact(existing, FrameData(rows1), filename, "append");
            first.Ok? && first.value.Some?
            && StoredArtifact(first.value, FrameData(rows2), filename, "append")
               == StoredArtifact(existing, FrameData(rows1 + rows2), filename, "append")
  {
    if existing.Some? {
      assert existing.value.rows + rows1 + rows2 == existing.value.rows + (rows1 + rows2);
    }
  }

  // ===================== THE CLIENT =====================

  /** `TrackingClient`: whether tracking is on, the run it logs to, and what has been
      logged so far. */
  class TrackingClient {
    const enabled: bool
    const runId: string
    var params: seq<Param>
    var metrics: seq<Metric>
    var tags: map<string, string>
    var artifacts: map<string, Artifact>
    var dirs: set<string>
    var uploads: seq<string>

    /** A client for the run `runId` (the setup hook's effect), with nothing logged. */
    constructor(enabled: bool, runId: string)
      ensures this.enabled == enabled && this.runId == runId
      ensures params == [] && metrics == [] && tags == map[] && artifacts == map[] && dirs == {} && uploads == []
    {
      this.enabled := enabled;
      this.runId := runId;
      params := [];
      metrics := [];
      tags := map[];
      artifacts := map[];
      dirs := {};
      uploads := [];
    }

    /** `log_asset_config`: one parameter per field, named after the asset; nothing when
        tracking is off. */
    method LogAssetConfig(config: seq<(string, Value)>, assetKey: string)
      modifies this
      ensures params == old(params) + (if enabled then AssetParams(assetKey, config) else [])
      ensures metrics == old(metrics) && tags == old(tags) && artifacts == old(artifacts)
      ensures dirs == old(dirs) && uploads == old(uploads)
    {
      if !enabled {
        return;
      }
      var assetName := AssetName(assetKey);
      var i := 0;
      while i < |config|
        invariant 0 <= i <= |config|
        invariant params == old(params) + AssetParams(assetKey, config[..i])
        invariant metrics == old(metrics) && tags == old(tags) && artifacts == old(artifacts)
        invariant dirs == old(dirs) && uploads == old(uploads)
      {
        params := params + [Param(ParamName(assetName, config[i].0), config[i].1)];
        i := i + 1;
      }
      assert config[..i] == config;
    }

    /** `log_resource_config`: the fields the filter keeps, named after the resource's
        class; nothing when tracking is off. */
    method LogResourceConfig(className: string, config: seq<(string, Value)>)
      modifies this
      ensures params == old(params) + (if enabled then ResourceParams(className, config) else [])
      ensures metrics == old(metrics) && tags == old(tags) && artifacts == old(artifacts)
      ensures dirs == old(dirs) && uploads == old(uploads)
    {
      if !enabled {
        return;
      }
      var i := 0;
      while i < |config|
        invariant 0 <= i <= |config|
        invariant params == old(params) + ResourceParams(className, config[..i])
        invariant metrics == old(metrics) && tags == old(tags) && artifacts == old(artifacts)
        invariant dirs == old(dirs) && uploads == old(uploads)
      {
        assert config[..i + 1][..i] == config[..i];
        if LoggedResourceParam(config[i].0) {
          params := params + [Param(ParamName(className, config[i].0), config[i].1)];
        }
        i := i + 1;
      }
      assert config[..i] == config;
    }

    /** `log_metric`: one metric named after the asset; nothing when tracking is off. */
    method LogMetric(assetKey: string, key: string, value: real, step: Option<int>)
      modifies this
      ensures metrics == old(metrics) + (if enabled then [Metric(ParamName(AssetName(assetKey), key), value, step)] else [])
      ensures params == old(params) && tags == old(tags) && artifacts == old(artifacts)
      ensures dirs == old(dirs) && uploads == old(uploads)
    {
      if enabled {
        metrics := metrics + [Metric(ParamName(AssetName(assetKey), key), value, step)];
      }
    }

    /** `log_metrics`: the metrics as given, without a step; nothing when tracking is off. */
    method LogMetrics(values: seq<(string, real)>)
      modifies this
      ensures metrics == old(metrics)
                         + (if enabled then seq(|values|, i requires 0 <= i < |values| => Metric(values[i].0, values[i].1, None))
                            else [])
      ensures params == old(params) && tags == old(tags) && artifacts == old(artifacts)
      ensures dirs == old(dirs) && uploads == old(uploads)
    {
      if enabled {
        metrics := metrics + seq(|values|, i requires 0 <= i < |values| => Metric(values[i].0, values[i].1, None));
      }
    }

    /** `set_dataset`: the run's "dataset" tag; nothing when tracking is off. */
    method SetDataset(datasetName: string)
      modifies this
      ensures tags == if enabled then old(tags)["dataset" := datasetName] else old(tags)
      ensures params == old(params) && metrics == old(metrics) && artifacts == old(artifacts)
      ensures dirs == old(dirs) && uploads == old(uploads)
    {
      if enabled {
        tags := tags["dataset" := datasetName];
      }
    }

    /** `log_artifact`: nothing when tracking is off; otherwise the directory is created,
        then an unsupported extension raises ValueError, then the file at the directory plus
        the file name gets its new contents, and is uploaded unless `localOnly`. */
    method LogArtifact(data: ArtifactData, filename: string, mode: string, assetKey: Option<string>, localOnly: bool)
      returns (r: Result<()>)
      modifies this
      ensures params == old(params) && metrics == old(metrics) && tags == old(tags)
      ensures !enabled ==> r == Ok(()) && dirs == old(dirs) && artifacts == old(artifacts) && uploads == old(uploads)
      ensures enabled ==> dirs == old(dirs) + {ArtifactDir(runId, assetKey)}
      ensures enabled && !SupportedExtension(filename) ==>
                r == Err(ValueError("extension")) && artifacts == old(artifacts) && uploads == old(uploads)
      ensures enabled && SupportedExtension(filename) ==>
                var path := ArtifactDir(runId, assetKey) + filename;
                var stored := StoredArtifact(if path in old(artifacts) then Some(old(artifacts)[path]) else None,
                                             data, filename, mode);
                && (r.Ok? <==> stored.Ok?)
                && (stored.Err? ==> r == Err(stored.error) && artifacts == old(artifacts) && uploads == old(uploads))
                && (stored.Ok? ==> artifacts == (if stored.value.Some? then old(artifacts)[path := stored.value.value]
                                                 else old(artifacts))
                                   && uploads == old(uploads) + (if localOnly then [] else [path]))
    {
      if !enabled {
        return Ok(());
      }
      var dir := ArtifactDir(runId, assetKey);
      dirs := dirs + {dir};
      if !SupportedExtension(filename) {
        return Err(ValueError("extension"));
      }
      var path := dir + filename;
      var existing := if path in artifacts then Some(artifacts[path]) else None;
      var stored := StoredArtifact(existing, data, filename, mode);
      if stored.Err? {
        return Err(stored.error);
      }
      if stored.value.Some? {
        artifacts := artifacts[path := stored.value.value];
      }
      if !localOnly {
        uploads := uploads + [path];
      }
      r := Ok(());
    }
  }
}

=== FILE: treatments.dfy ===
/** The experiment's catalogue of treatments (experiment/design/treatments.py): constant
    data, one entry per enum member, each a single treatment or a group applied together;
    and what makes the catalogue well-formed against the default configuration and the
    prompt layer's registries. */
module Treatments {
  import opened Wrappers
  import opened Values
  import opened PromptEnums
  import opened PromptBuilder
  import opened PromptDirectors
  import opened DesignModels
  import opened DesignFunctions

  function Asset(name: string, key: string, factor: string, value: Value): Treatment
  {
    Treatment(name, "Asset", key, factor, value)
  }

  function Resource(name: string, key: string, factor: string, value: Value): Treatment
  {
    Treatment(name, "Resource", key, factor, value)
  }

  // ===================== CATALOGUE =====================

  /** `CLASS_CONTEXT_AUGMENTED_PROMPT` (lines 10-25). */
  const ClassContextAugmentedPrompt: TreatmentArg := Several([
    Asset("Augment teacher model prompt with class context",
          "teacher_model_base", "include_class_context", Bool(true)),
    Asset("Augment feedback generation prompt with class context",
          "class_context_retrieval", "enabled", Bool(true))
  ])

  /** `LLM_SUMMARY_PROMPT` (lines 27-42). */
  const LlmSummaryPrompt: TreatmentArg := Several([
    Asset("Summarize class context with LLM",
          "teacher_model_base", "summarize_class_context", Bool(true)),
    Asset("Augment teacher model prompt with class context",
          "teacher_model_base", "include_class_context", Bool(true))
  ])

  /** `IMPERSONATE_PROMPT_STYLE` (lines 44-66). */
  const ImpersonatePromptStyle: TreatmentArg := Several([
    Asset("Impersonation prompt for LLM to create teacher model",
          "teacher_model_base", "instruction_style", Str("IMPERSONATE")),
    Asset("Impersonation prompt for LLM to update teacher model",
          "teacher_model_update_prompt", "instruction_style", Str("IMPERSONATE")),
    Asset("Impersonation prompt for LLM to generate feedback",
          "feedback_generation_prompt", "instruction_style", Str("IMPERSONATE"))
  ])

  /** `PARAGRAPHS_OUTPUT_FORMAT` (lines 68-74). */
  const ParagraphsOutputFormat: TreatmentArg :=
    One(Asset("Paragraphs output format for teacher model",
              "teacher_model_base", "output_format", Str("PARAGRAPH")))

  /** `MARKDOWN_PROMPT_STYLE` (lines 76-98). */
  const MarkdownPromptStyle: TreatmentArg := Several([
    Asset("Markdown prompt style for base teacher model",
          "teacher_model_base", "version", Int(2)),
    Asset("Markdown prompt style for updating teacher model",
          "teacher_model_update_prompt", "version", Int(2)),
    Asset("Markdown prompt style for feedback generation",
          "feedback_generation_prompt", "version", Int(2))
  ])

  /** `ONBOARDING_ABLATION` (lines 100-115). */
  const OnboardingAblation: TreatmentArg := Several([
    Asset("Onboarding ablation for teacher model",
          "teacher_model_base", "include_onboarding", Bool(false)),
    Asset("Augment teacher model prompt with class context",
          "teacher_model_base", "include_class_context", Bool(true))
  ])

  /** `DYNAMIC_TEACHER_MODEL_ABLATION` (lines 117-123). */
  const DynamicTeacherModelAblation: TreatmentArg :=
    One(Asset("Dynamic teacher model ablation",
              "teacher_model_update_prompt", "enabled", Bool(false)))

  /** `ONE_SHOT_TEACHER_MODEL_UPDATE` (lines 125-131). */
  const OneShotTeacherModelUpdate: TreatmentArg :=
    One(Asset("One shot teacher model update",
              "teacher_model_update_prompt", "max_examples", Int(1)))

  /** `LARGE_TEACHER_MODEL_PROMPT_WITH_CLASS_CONTEXT` (lines 133-162). */
  const LargeTeacherModelPromptWithClassContext: TreatmentArg := Several([
    Asset("Include class context in teacher model base prompt",
          "teacher_model_base", "include_class_context", Bool(true)),
    Asset("Large class context for teacher model base prompt",
          "teacher_model_base", "max_class_context_tokens", Int(4000)),
    Asset("Large number of feedback examples in teacher model update prompt",
          "teacher_model_update_prompt", "max_examples", Int(5)),
    Asset("Large feedback example context for teacher model update prompt",
          "teacher_model_update_prompt", "max_feedback_example_tokens", Int(4000))
  ])

  /** `LARGE_TEACHER_MODEL_PROMPT_WITHOUT_CLASS_CONTEXT` (lines 164-179). */
  const LargeTeacherModelPromptWithoutClassContext: TreatmentArg := Several([
    Asset("Large number of feedback examples in teacher model update prompt",
          "teacher_model_update_prompt", "max_examples", Int(5)),
    Asset("Large feedback example context for teacher model update prompt",
          "teacher_model_update_prompt", "max_feedback_example_tokens", Int(4000))
  ])

  /** `FEW_SHOT_FEEDBACK_ABLATION` (lines 183-189). */
  const FewShotFeedbackAblation: TreatmentArg :=
    One(Asset("Few shot feedback ablation",
              "feedback_retrieval", "enabled", Bool(false)))

  /** `TEACHER_MODEL_ABLATION` (lines 191-197). */
  const TeacherModelAblation: TreatmentArg :=
    One(Asset("Teacher model ablation from feedback generation",
              "feedback_generation_prompt", "include_teacher_model", Bool(false)))

  /** `ESSAY_CONTEXT_ABLATION` (lines 199-205). */
  const EssayContextAblation: TreatmentArg :=
    One(Asset("Essay context ablation from feedback generation",
              "feedback_generation_prompt", "include_essay_context", Bool(false)))

  /** `LARGE_FEEDBACK_GENERATION_CONTEXT` (lines 207-250). */
  const LargeFeedbackGenerationContext: TreatmentArg := Several([
    Asset("Large essay context for feedback generation",
          "feedback_generation_prompt", "max_essay_context_tokens", Int(5000)),
    Asset("Higher class context retrieval",
          "class_context_retrieval", "top_k", Int(4)),
    Asset("Large class context for feedback generation",
          "feedback_generation_prompt", "max_class_context_tokens", Int(3000)),
    Asset("Augment feedback generation prompt with class context",
          "class_context_retrieval", "enabled", Bool(true)),
    Asset("Higher few shot feedback retrieval",
          "feedback_retrieval", "top_k", Int(4)),
    Asset("Large feedback example context for feedback generation",
          "feedback_generation_prompt", "max_feedback_example_tokens", Int(3000))
  ])

  /** `STRICT_FEW_SHOT_FEEDBACK_RETRIEVAL` (lines 252-258). */
  const StrictFewShotFeedbackRetrieval: TreatmentArg :=
    One(Asset("Higher similarity threshold for few shot feedback",
              "feedback_retrieval", "threshold", Num(0.8)))

  /** `LOOSE_FEW_SHOT_FEEDBACK_RETRIEVAL` (lines 260-266). */
  const LooseFewShotFeedbackRetrieval: TreatmentArg :=
    One(Asset("Lower similarity threshold for few shot feedback",
              "feedback_retrieval", "threshold", Num(0.4)))

  /** `ONE_SHOT_FEEDBACK` (lines 268-274). */
  const OneShotFeedback: TreatmentArg :=
    One(Asset("One shot feedback",
              "feedback_retrieval", "top_k", Int(1)))

  /** `STRICT_CLASS_CONTEXT_RETRIEVAL` (lines 276-291). */
  const StrictClassContextRetrieval: TreatmentArg := Several([
    Asset("Higher similarity threshold for class context retrieval",
          "class_context_retrieval", "threshold", Num(0.8)),
    Asset("Augment feedback generation prompt with class context",
          "class_context_retrieval", "enabled", Bool(true))
  ])

  /** `LOOSE_CLASS_CONTEXT_RETRIEVAL` (lines 293-308). */
  const LooseClassContextRetrieval: TreatmentArg := Several([
    Asset("Lower similarity threshold for class context retrieval",
          "class_context_retrieval", "threshold", Num(0.2)),
    Asset("Augment feedback generation prompt with class context",
          "class_context_retrieval", "enabled", Bool(true))
  ])

  /** `ONE_SHOT_CLASS_CONTEXT` (lines 310-325). */
  const OneShotClassContext: TreatmentArg := Several([
    Asset("One shot class context retrieval",
          "class_context_retrieval", "top_k", Int(1)),
    Asset("Augment feedback generation prompt with class context",
          "class_context_retrieval", "enabled", Bool(true))
  ])

  /** `SEMANTIC_CHUNKING` (lines 329-351). */
  const SemanticChunking: TreatmentArg := Several([
    Asset("Semantic chunking on feedback",
          "chunked_feedback", "strategy", Str("semantic_chunking")),
    Asset("Semantic chunking on class documents",
          "chunked_class_documents", "strategy", Str("semantic_chunking")),
    Asset("Augment feedback generation prompt with class context",
          "class_context_retrieval", "enabled", Bool(true))
  ])

  /** `NLTK_CHUNKING` (lines 353-375). */
  const NltkChunking: TreatmentArg := Several([
    Asset("NLTK chunking on feedback",
          "chunked_feedback", "strategy", Str("nltk_text_splitting")),
    Asset("NLTK chunking on class documents",
          "chunked_class_documents", "strategy", Str("nltk_text_splitting")),
    Asset("Augment feedback generation prompt with class context",
          "class_context_retrieval", "enabled", Bool(true))
  ])

  /** `SMALL_CHUNKS` (lines 377-413). */
  const SmallChunks: TreatmentArg := Several([
    Asset("Small chunks on feedback",
          "chunked_feedback", "chunk_size", Int(200)),
    Asset("Small chunks on class documents",
          "chunked_class_documents", "chunk_size", Int(200)),
    Asset("Small chunks on feedback",
          "chunked_feedback", "overlap", Int(25)),
    Asset("Small chunks on class documents",
          "chunked_class_documents", "overlap", Int(25)),
    Asset("Augment feedback generation prompt with class context",
          "class_context_retrieval", "enabled", Bool(true))
  ])

  /** `LARGE_CHUNKS` (lines 415-465). */
  const LargeChunks: TreatmentArg := Several([
    Asset("Large chunks on feedback",
          "chunked_feedback", "chunk_size", Int(1000)),
    Asset("Large chunks on class documents",
          "chunked_class_documents", "chunk_size", Int(1000)),
    Asset("Large chunks on feedback",
          "chunked_feedback", "overlap", Int(150)),
    Asset("Large chunks on class documents",
          "chunked_class_documents", "overlap", Int(150)),
    Asset("Augment feedback generation prompt with class context",
          "class_context_retrieval", "enabled", Bool(true)),
    Asset("Large feedback example context for feedback generation",
          "feedback_generation_prompt", "max_feedback_example_tokens", Int(3000)),
    Asset("Large class context for feedback generation",
          "feedback_generation_prompt", "max_class_context_tokens", Int(3000))
  ])

  /** `GEMINI_PRO_LLM` (lines 484-490). */
  const GeminiProLlm: TreatmentArg :=
    One(Resource("Gemini Pro LLM",
                 "llm", "model_name", Str("gemini-1.5-pro")))

  /** `GPT_35_TURBO_LLM` (lines 492-498). */
  const Gpt35TurboLlm: TreatmentArg :=
    One(Resource("GPT-3.5 Turbo LLM",
                 "llm", "model_name", Str("gpt-3.5-turbo")))

  /** `GPT_4_TURBO_LLM` (lines 500-506). */
  const Gpt4TurboLlm: TreatmentArg :=
    One(Resource("GPT-4 Turbo LLM",
                 "llm", "model_name", Str("gpt-4-turbo")))

  /** `HIGH_TEMPERATURE_LLM` (lines 508-514). */
  const HighTemperatureLlm: TreatmentArg :=
    One(Resource("High temperature LLM",
                 "llm", "temperature", Num(0.9)))

  /** `LOW_TEMPERATURE_LLM` (lines 516-522). */
  const LowTemperatureLlm: TreatmentArg :=
    One(Resource("Low temperature LLM",
                 "llm", "temperature", Num(0.5)))

  /** `LOW_TOP_P_LLM` (lines 524-530). */
  const LowTopPLlm: TreatmentArg :=
    One(Resource("Low top-p LLM",
                 "llm", "top_p", Num(0.7)))

  /** `COMPLETE_EMBEDDING_PREPROCESS` (lines 532-554). */
  const CompleteEmbeddingPreprocess: TreatmentArg := Several([
    Resource("Include essay context in embedding preprocess",
             "embedding_preprocessor", "include_essay_context", Bool(true)),
    Resource("Include teacher feedback in embedding preprocess",
             "embedding_preprocessor", "include_teacher_feedback", Bool(true)),
    Resource("Include teacher instruction in embedding preprocess",
             "embedding_preprocessor", "include_teacher_instruction", Bool(true))
  ])

  /** `EMBEDDING_WITH_ESSAY_CONTEXT_ESSAY_TEXT` (lines 556-564). */
  const EmbeddingWithEssayContextEssayText: TreatmentArg := Several([
    Resource("Include essay context in embedding preprocess",
             "embedding_preprocessor", "include_essay_context", Bool(true))
  ])

  /** `EMBEDDING_WITH_ESSAY_CONTEXT_ESSAY_TEXT_INSTRUCTION` (lines 566-581). */
  const EmbeddingWithEssayContextEssayTextInstruction: TreatmentArg := Several([
    Resource("Include essay context in embedding preprocess",
             "embedding_preprocessor", "include_essay_context", Bool(true)),
    Resource("Include teacher instruction in embedding preprocess",
             "embedding_preprocessor", "include_teacher_instruction", Bool(true))
  ])

  /** The prompt layer section of the catalogue, in order. */
  const PromptLayerTreatments: seq<TreatmentArg> := [
    ClassContextAugmentedPrompt, LlmSummaryPrompt, ImpersonatePromptStyle, ParagraphsOutputFormat,
    MarkdownPromptStyle, OnboardingAblation, DynamicTeacherModelAblation, OneShotTeacherModelUpdate,
    LargeTeacherModelPromptWithClassContext, LargeTeacherModelPromptWithoutClassContext
  ]

  /** The feedback generation section of the catalogue, in order. */
  const FeedbackGenerationTreatments: seq<TreatmentArg> := [
    FewShotFeedbackAblation, TeacherModelAblation, EssayContextAblation, LargeFeedbackGenerationContext,
    StrictFewShotFeedbackRetrieval, LooseFewShotFeedbackRetrieval, OneShotFeedback,
    StrictClassContextRetrieval, LooseClassContextRetrieval, OneShotClassContext
  ]

  /** The data processing section of the catalogue, in order. */
  const DataProcessingTreatments: seq<TreatmentArg> := [
    SemanticChunking, NltkChunking, SmallChunks, LargeChunks
  ]

  /** The resource section of the catalogue, in order. */
  const ResourceTreatments: seq<TreatmentArg> := [
    GeminiProLlm, Gpt35TurboLlm, Gpt4TurboLlm, HighTemperatureLlm, LowTemperatureLlm, LowTopPLlm,
    CompleteEmbeddingPreprocess, EmbeddingWithEssayContextEssayText,
    EmbeddingWithEssayContextEssayTextInstruction
  ]

  /** The whole catalogue, in declaration order. */
  const Catalogue: seq<TreatmentArg> :=
    PromptLayerTreatments + FeedbackGenerationTreatments + DataProcessingTreatments + ResourceTreatments

  // ===================== WELL-FORMEDNESS =====================

  /** The resources the catalogue treats, with their dumped defaults. */
  function ResourceDefaults(key: string): Dump
  {
    if key == "llm" then LlmDefaults
    else if key == "embedding_preprocessor" then EmbeddingPreprocessorDefaults
    else []
  }

  /** The treatment names an existing setting of a stage's default configuration: one of
      the seven asset stages, or the two resources the catalogue varies. */
  predicate TargetsDefault(t: Treatment)
  {
    if t.dagsterType == "Asset" then
      t.key in AssetStages && t.factor in StageFields(DefaultAssetConfigurations, t.key)
    else
      t.dagsterType == "Resource" && (t.key == "llm" || t.key == "embedding_preprocessor")
      && Names(ResourceDefaults(t.key), t.factor)
  }

  /** No two treatments of a group write the same setting. */
  predicate DistinctTargets(ts: seq<Treatment>)
  {
    forall i, j :: 0 <= i < j < |ts| ==>
      !(ts[i].dagsterType == ts[j].dagsterType && ts[i].key == ts[j].key && ts[i].factor == ts[j].factor)
  }

  /** Every treatment is validated and aimed at an existing default setting. */
  predicate AllWellFormed(ts: seq<Treatment>)
  {
    forall i :: 0 <= i < |ts| ==> ValidTreatment(ts[i]) && TargetsDefault(ts[i])
  }

  predicate EntryWellFormed(arg: TreatmentArg)
  {
    AllWellFormed(AsList(arg))
  }

  lemma ClassContextAugmentedPromptWellFormed()
    ensures EntryWellFormed(ClassContextAugmentedPrompt)
  {
  }

  lemma LlmSummaryPromptWellFormed()
    ensures EntryWellFormed(LlmSummaryPrompt)
  {
  }

  lemma ImpersonatePromptStyleWellFormed()
    ensures EntryWellFormed(ImpersonatePromptStyle)
  {
  }

  lemma ParagraphsOutputFormatWellFormed()
    ensures EntryWellFormed(ParagraphsOutputFormat)
  {
  }

  lemma MarkdownPromptStyleWellFormed()
    ensures EntryWellFormed(MarkdownPromptStyle)
  {
  }

  lemma OnboardingAblationWellFormed()
    ensures EntryWellFormed(OnboardingAblation)
  {
  }

  lemma DynamicTeacherModelAblationWellFormed()
    ensures EntryWellFormed(DynamicTeacherModelAblation)
  {
  }

  lemma OneShotTeacherModelUpdateWellFormed()
    ensures EntryWellFormed(OneShotTeacherModelUpdate)
  {
  }

  lemma LargeTeacherModelPromptWithClassContextWellFormed()
    ensures EntryWellFormed(LargeTeacherModelPromptWithClassContext)
  {
  }

  lemma LargeTeacherModelPromptWithoutClassContextWellFormed()
    ensures EntryWellFormed(LargeTeacherModelPromptWithoutClassContext)
  {
  }

  lemma FewShotFeedbackAblationWellFormed()
    ensures EntryWellFormed(FewShotFeedbackAblation)
  {
  }

  lemma TeacherModelAblationWellFormed()
    ensures EntryWellFormed(TeacherModelAblation)
  {
  }

  lemma EssayContextAblationWellFormed()
    ensures EntryWellFormed(EssayContextAblation)
  {
  }

  lemma LargeFeedbackGenerationContextHeadWellFormed()
    ensures AllWellFormed(AsList(LargeFeedbackGenerationContext)[..3])
  {
  }

  lemma LargeFeedbackGenerationContextTailWellFormed()
    ensures AllWellFormed(AsList(LargeFeedbackGenerationContext)[3..])
  {
  }

  lemma LargeFeedbackGenerationContextWellFormed()
    ensures EntryWellFormed(LargeFeedbackGenerationContext)
  {
    LargeFeedbackGenerationContextHeadWellFormed();
    LargeFeedbackGenerationContextTailWellFormed();
    var ts := AsList(LargeFeedbackGenerationContext);
    forall i | 0 <= i < |ts| ensures ValidTreatment(ts[i]) && TargetsDefault(ts[i]) {
      if i < 3 {
        assert ts[i] == ts[..3][i];
      } else {
        assert ts[i] == ts[3..][i - 3];
      }
    }
  }

  lemma StrictFewShotFeedbackRetrievalWellFormed()
    ensures EntryWellFormed(StrictFewShotFeedbackRetrieval)
  {
  }

  lemma LooseFewShotFeedbackRetrievalWellFormed()
    ensures EntryWellFormed(LooseFewShotFeedbackRetrieval)
  {
  }

  lemma OneShotFeedbackWellFormed()
    ensures EntryWellFormed(OneShotFeedback)
  {
  }

  lemma StrictClassContextRetrievalWellFormed()
    ensures EntryWellFormed(StrictClassContextRetrieval)
  {
  }

  lemma LooseClassContextRetrievalWellFormed()
    ensures EntryWellFormed(LooseClassContextRetrieval)
  {
  }

  lemma OneShotClassContextWellFormed()
    ensures EntryWellFormed(OneShotClassContext)
  {
  }

  lemma SemanticChunkingWellFormed()
    ensures EntryWellFormed(SemanticChunking)
  {
  }

  lemma NltkChunkingWellFormed()
    ensures EntryWellFormed(NltkChunking)
  {
  }

  lemma SmallChunksHeadWellFormed()
    ensures AllWellFormed(AsList(SmallChunks)[..3])
  {
  }

  lemma SmallChunksTailWellFormed()
    ensures AllWellFormed(AsList(SmallChunks)[3..])
  {
  }

  lemma SmallChunksWellFormed()
    ensures EntryWellFormed(SmallChunks)
  {
    SmallChunksHeadWellFormed();
    SmallChunksTailWellFormed();
    var ts := AsList(SmallChunks);
    forall i | 0 <= i < |ts| ensures ValidTreatment(ts[i]) && TargetsDefault(ts[i]) {
      if i < 3 {
        assert ts[i] == ts[..3][i];
      } else {
        assert ts[i] == ts[3..][i - 3];
      }
    }
  }

  lemma LargeChunksHeadWellFormed()
    ensures AllWellFormed(AsList(LargeChunks)[..3])
  {
  }

  lemma LargeChunksTailWellFormed()
    ensures AllWellFormed(AsList(LargeChunks)[3..])
  {
  }

  lemma LargeChunksWellFormed()
    ensures EntryWellFormed(LargeChunks)
  {
    LargeChunksHeadWellFormed();
    LargeChunksTailWellFormed();
    var ts := AsList(LargeChunks);
    forall i | 0 <= i < |ts| ensures ValidTreatment(ts[i]) && TargetsDefault(ts[i]) {
      if i < 3 {
        assert ts[i] == ts[..3][i];
      } else {
        assert ts[i] == ts[3..][i - 3];
      }
    }
  }

  lemma GeminiProLlmWellFormed()
    ensures EntryWellFormed(GeminiProLlm)
  {
    assert LlmDefaults[0].0 == "model_name";
  }

  lemma Gpt35TurboLlmWellFormed()
    ensures EntryWellFormed(Gpt35TurboLlm)
  {
    assert LlmDefaults[0].0 == "model_name";
  }

  lemma Gpt4TurboLlmWellFormed()
    ensures EntryWellFormed(Gpt4TurboLlm)
  {
    assert LlmDefaults[0].0 == "model_name";
  }

  lemma HighTemperatureLlmWellFormed()
    ensures EntryWellFormed(HighTemperatureLlm)
  {
    assert LlmDefaults[2].0 == "temperature";
  }

  lemma LowTemperatureLlmWellFormed()
    ensures EntryWellFormed(LowTemperatureLlm)
  {
    assert LlmDefaults[2].0 == "temperature";
  }

  lemma LowTopPLlmWellFormed()
    ensures EntryWellFormed(LowTopPLlm)
  {
    assert LlmDefaults[3].0 == "top_p";
  }

  lemma CompleteEmbeddingPreprocessWellFormed()
    ensures EntryWellFormed(CompleteEmbeddingPreprocess)
  {
    assert EmbeddingPreprocessorDefaults[1].0 == "include_essay_context";
    assert EmbeddingPreprocessorDefaults[2].0 == "include_teacher_feedback";
    assert EmbeddingPreprocessorDefaults[3].0 == "include_teacher_instruction";
  }

  lemma EmbeddingWithEssayContextEssayTextWellFormed()
    ensures EntryWellFormed(EmbeddingWithEssayContextEssayText)
  {
    assert EmbeddingPreprocessorDefaults[1].0 == "include_essay_context";
  }

  lemma EmbeddingWithEssayContextEssayTextInstructionWellFormed()
    ensures EntryWellFormed(EmbeddingWithEssayContextEssayTextInstruction)
  {
    assert EmbeddingPreprocessorDefaults[1].0 == "include_essay_context";
    assert EmbeddingPreprocessorDefaults[3].0 == "include_teacher_instruction";
  }

  lemma ClassContextAugmentedPromptDistinct()
    ensures DistinctTargets(AsList(ClassContextAugmentedPrompt))
  {
  }

  lemma LlmSummaryPromptDistinct()
    ensures DistinctTargets(AsList(LlmSummaryPrompt))
  {
  }

  lemma ImpersonatePromptStyleDistinct()
    ensures DistinctTargets(AsList(ImpersonatePromptStyle))
  {
  }

  lemma MarkdownPromptStyleDistinct()
    ensures DistinctTargets(AsList(MarkdownPromptStyle))
  {
  }

  lemma OnboardingAblationDistinct()
    ensures DistinctTargets(AsList(OnboardingAblation))
  {
  }

  lemma LargeTeacherModelPromptWithClassContextDistinct()
    ensures DistinctTargets(AsList(LargeTeacherModelPromptWithClassContext))
  {
  }

  lemma LargeTeacherModelPromptWithoutClassContextDistinct()
    ensures DistinctTargets(AsList(LargeTeacherModelPromptWithoutClassContext))
  {
  }

  lemma LargeFeedbackGenerationContextDistinct()
    ensures DistinctTargets(AsList(LargeFeedbackGenerationContext))
  {
  }

  lemma StrictClassContextRetrievalDistinct()
    ensures DistinctTargets(AsList(StrictClassContextRetrieval))
  {
  }

  lemma LooseClassContextRetrievalDistinct()
    ensures DistinctTargets(AsList(LooseClassContextRetrieval))
  {
  }

  lemma OneShotClassContextDistinct()
    ensures DistinctTargets(AsList(OneShotClassContext))
  {
  }

  lemma SemanticChunkingDistinct()
    ensures DistinctTargets(AsList(SemanticChunking))
  {
  }

  lemma NltkChunkingDistinct()
    ensures DistinctTargets(AsList(NltkChunking))
  {
  }

  lemma SmallChunksDistinct()
    ensures DistinctTargets(AsList(SmallChunks))
  {
  }

  lemma LargeChunksDistinct()
    ensures DistinctTargets(AsList(LargeChunks))
  {
  }

  lemma CompleteEmbeddingPreprocessDistinct()
    ensures DistinctTargets(AsList(CompleteEmbeddingPreprocess))
  {
  }

  lemma EmbeddingWithEssayContextEssayTextDistinct()
    ensures DistinctTargets(AsList(EmbeddingWithEssayContextEssayText))
  {
  }

  lemma EmbeddingWithEssayContextEssayTextInstructionDistinct()
    ensures DistinctTargets(AsList(EmbeddingWithEssayContextEssayTextInstruction))
  {
  }

  // ===================== REGISTERED SETTINGS =====================

  /** IMPERSONATE is an instruction style of each of the three prompt stages. */
  lemma ImpersonateEverywhere()
    ensures "IMPERSONATE" in TeacherModelBaseInstructionStyles
    ensures "IMPERSONATE" in TeacherModelUpdateInstructionStyles
    ensures "IMPERSONATE" in FeedbackGenerationInstructionStyles
  {
    BaseInstructionStyleNames();
    UpdateInstructionStyleNames();
    FeedbackGenerationInstructionStyleNames();
  }

  /** The impersonation treatments set the instruction style of the three prompt stages to
      IMPERSONATE, a style each of those stages' directors registers. */
  lemma ImpersonateStyleRegistered()
    ensures forall t :: t in AsList(ImpersonatePromptStyle) ==>
      t.factor == "instruction_style" && t.value == Str("IMPERSONATE")
    ensures "IMPERSONATE" in TeacherModelBaseInstructionStyles
    ensures "IMPERSONATE" in TeacherModelUpdateInstructionStyles
    ensures "IMPERSONATE" in FeedbackGenerationInstructionStyles
  {
    ImpersonateEverywhere();
  }

  /** The paragraph treatment names a registered output format. */
  lemma ParagraphFormatRegistered()
    ensures forall t :: t in AsList(ParagraphsOutputFormat) ==>
      t.factor == "output_format" && t.value.Str? && t.value.s in TeacherModelOutputFormats
  {
    OutputFormatNames();
  }

  /** The prompt layer has a builder for template version 2. */
  lemma VersionTwoBuilds()
    ensures NewPromptLayerBuilder(VersionName(2)).Ok?
  {
    assert VersionName(2) == "V2";
  }

  /** The markdown treatments switch the three prompt stages to template version 2, for
      which the prompt layer has a builder. */
  lemma MarkdownVersionRegistered()
    ensures forall t :: t in AsList(MarkdownPromptStyle) ==> t.factor == "version" && t.value == Int(2)
    ensures NewPromptLayerBuilder(VersionName(2)).Ok?
  {
    VersionTwoBuilds();
  }

  // ===================== WHOLE CATALOGUE =====================

  lemma PromptLayerSectionWellFormed()
    ensures forall arg :: arg in PromptLayerTreatments ==> EntryWellFormed(arg)
  {
    ClassContextAugmentedPromptWellFormed();
    LlmSummaryPromptWellFormed();
    ImpersonatePromptStyleWellFormed();
    ParagraphsOutputFormatWellFormed();
    MarkdownPromptStyleWellFormed();
    OnboardingAblationWellFormed();
    DynamicTeacherModelAblationWellFormed();
    OneShotTeacherModelUpdateWellFormed();
    LargeTeacherModelPromptWithClassContextWellFormed();
    LargeTeacherModelPromptWithoutClassContextWellFormed();
  }

  lemma PromptLayerSectionDistinct()
    ensures forall arg :: arg in PromptLayerTreatments ==> DistinctTargets(AsList(arg))
  {
    ClassContextAugmentedPromptDistinct();
    LlmSummaryPromptDistinct();
    ImpersonatePromptStyleDistinct();
    MarkdownPromptStyleDistinct();
    OnboardingAblationDistinct();
    LargeTeacherModelPromptWithClassContextDistinct();
    LargeTeacherModelPromptWithoutClassContextDistinct();
  }

  lemma FeedbackGenerationSectionWellFormed()
    ensures forall arg :: arg in FeedbackGenerationTreatments ==> EntryWellFormed(arg)
  {
    FewShotFeedbackAblationWellFormed();
    TeacherModelAblationWellFormed();
    EssayContextAblationWellFormed();
    LargeFeedbackGenerationContextWellFormed();
    StrictFewShotFeedbackRetrievalWellFormed();
    LooseFewShotFeedbackRetrievalWellFormed();
    OneShotFeedbackWellFormed();
    StrictClassContextRetrievalWellFormed();
    LooseClassContextRetrievalWellFormed();
    OneShotClassContextWellFormed();
  }

  lemma FeedbackGenerationSectionDistinct()
    ensures forall arg :: arg in FeedbackGenerationTreatments ==> DistinctTargets(AsList(arg))
  {
    LargeFeedbackGenerationContextDistinct();
    StrictClassContextRetrievalDistinct();
    LooseClassContextRetrievalDistinct();
    OneShotClassContextDistinct();
  }

  lemma DataProcessingSectionWellFormed()
    ensures forall arg :: arg in DataProcessingTreatments ==> EntryWellFormed(arg)
  {
    SemanticChunkingWellFormed();
    NltkChunkingWellFormed();
    SmallChunksWellFormed();
    LargeChunksWellFormed();
  }

  lemma DataProcessingSectionDistinct()
    ensures forall arg :: arg in DataProcessingTreatments ==> DistinctTargets(AsList(arg))
  {
    SemanticChunkingDistinct();
    NltkChunkingDistinct();
    SmallChunksDistinct();
    LargeChunksDistinct();
  }

  lemma ResourceSectionWellFormed()
    ensures forall arg :: arg in ResourceTreatments ==> EntryWellFormed(arg)
  {
    GeminiProLlmWellFormed();
    Gpt35TurboLlmWellFormed();
    Gpt4TurboLlmWellFormed();
    HighTemperatureLlmWellFormed();
    LowTemperatureLlmWellFormed();
    LowTopPLlmWellFormed();
    CompleteEmbeddingPreprocessWellFormed();
    EmbeddingWithEssayContextEssayTextWellFormed();
    EmbeddingWithEssayContextEssayTextInstructionWellFormed();
  }

  lemma ResourceSectionDistinct()
    ensures forall arg :: arg in ResourceTreatments ==> DistinctTargets(AsList(arg))
  {
    CompleteEmbeddingPreprocessDistinct();
    EmbeddingWithEssayContextEssayTextDistinct();
    EmbeddingWithEssayContextEssayTextInstructionDistinct();
  }

  /** Every entry of the catalogue consists of validated treatments aimed at settings the
      default configuration has. */
  lemma CatalogueWellFormed()
    ensures forall arg :: arg in Catalogue ==> EntryWellFormed(arg)
  {
    PromptLayerSectionWellFormed();
    FeedbackGenerationSectionWellFormed();
    DataProcessingSectionWellFormed();
    ResourceSectionWellFormed();
  }

  /** No entry of the catalogue writes the same setting twice. */
  lemma CatalogueDistinct()
    ensures forall arg :: arg in Catalogue ==> DistinctTargets(AsList(arg))
  {
    PromptLayerSectionDistinct();
    FeedbackGenerationSectionDistinct();
    DataProcessingSectionDistinct();
    ResourceSectionDistinct();
  }

  // ===================== APPLIED TO THE DEFAULT TREE =====================

  /** The default tree of both sections in an environment. */
  function DefaultTree(env: Environment): (r: ConfigTree)
    ensures r.Keys == {"ops", "resources"}
    ensures r["ops"] == ExportAssets(DefaultAssetConfigurations)
    ensures ExportResources(DefaultResourceConfigurations, env).Ok?
            && r["resources"] == ExportResources(DefaultResourceConfigurations, env).value
  {
    DefaultSystemConfig(env);
    BuildSystemConfig(DefaultAssetConfigurations, DefaultResourceConfigurations, env).value
  }

  /** A well-formed treatment's path exists in the default tree, whatever the environment:
      asset stages are always exported, and so are the llm and embedding_preprocessor
      resources. */
  lemma TargetReachesDefault(env: Environment, t: Treatment)
    requires ValidTreatment(t) && TargetsDefault(t)
    ensures Reaches(DefaultTree(env), t)
  {
    if t.dagsterType == "Asset" {
      ExportAssetsEntries(DefaultAssetConfigurations);
    } else {
      TreatedResourcesExported(env);
    }
  }

  /** The two resources the catalogue varies are exported with a "config" entry. */
  lemma TreatedResourcesExported(env: Environment)
    ensures var exported := DefaultTree(env)["resources"];
            && "llm" in exported && "config" in exported["llm"]
            && "embedding_preprocessor" in exported && "config" in exported["embedding_preprocessor"]
  {
    var rs := Resources(DefaultResourceConfigurations);
    assert ExportResources(DefaultResourceConfigurations, env) == ExportAll(rs, env);
    assert rs[1].0 == "llm" && rs[3].0 == "embedding_preprocessor";
  }

  /** Well-formed treatments apply to the default tree without raising. */
  lemma WellFormedApplies(env: Environment, ts: seq<Treatment>)
    requires AllWellFormed(ts)
    ensures ApplyAll(DefaultTree(env), ts).Ok?
  {
    forall i | 0 <= i < |ts|
      ensures Reaches(DefaultTree(env), ts[i])
    {
      TargetReachesDefault(env, ts[i]);
    }
    ApplyAllOk(DefaultTree(env), ts);
  }

  /** After the treatments, an asset stage has exactly its default settings' names. */
  predicate StageNamesKept(cfg: ConfigTree, ts: seq<Treatment>, stage: string)
  {
    ApplyAll(cfg, ts).Ok?
    && "ops" in cfg && stage in cfg["ops"] && "config" in cfg["ops"][stage]
    && var after := ApplyAll(cfg, ts).value;
       "ops" in after && stage in after["ops"] && "config" in after["ops"][stage]
       && after["ops"][stage]["config"].Keys == cfg["ops"][stage]["config"].Keys
  }

  /** Well-formed treatments only override existing asset settings of the default tree. */
  lemma WellFormedOverridesOnly(env: Environment, ts: seq<Treatment>, stage: string)
    requires AllWellFormed(ts) && stage in AssetStages
    ensures StageNamesKept(DefaultTree(env), ts, stage)
  {
    var tree := DefaultTree(env);
    WellFormedApplies(env, ts);
    ExportAssetsEntries(DefaultAssetConfigurations);
    assert forall i :: 0 <= i < |ts| && Section(ts[i]) == Ok("ops") && ts[i].key == stage ==>
             ts[i].factor in tree["ops"][stage]["config"];
    ApplyAllKeepsSettings(tree, ts, "ops", stage);
  }

  /** A base-stage setting after the treatments. */
  function BaseLeaf(cfg: ConfigTree, factor: string): Option<Value>
  {
    Leaf(cfg, "ops", "teacher_model_base", factor)
  }

  /** The teacher-model base director accepts the base stage's settings: the checks
      `TeacherModelBaseDirector` makes before building. */
  predicate BaseDirectorAccepts(cfg: ConfigTree)
  {
    var c, o, s := BaseLeaf(cfg, "include_class_context"), BaseLeaf(cfg, "include_onboarding"),
                   BaseLeaf(cfg, "summarize_class_context");
    var style, format := BaseLeaf(cfg, "instruction_style"), BaseLeaf(cfg, "output_format");
    && c.Some? && c.value.Bool? && o.Some? && o.value.Bool? && s.Some? && s.value.Bool?
    && style.Some? && style.value.Str? && format.Some? && format.value.Str?
    && BaseConfigOk(c.value.b, o.value.b, s.value.b, style.value.s, format.value.s)
  }

  /** The default base settings: onboarding only, described, as bullet points. */
  lemma DefaultBaseLeaves(env: Environment)
    ensures BaseLeaf(DefaultTree(env), "include_class_context") == Some(Bool(false))
    ensures BaseLeaf(DefaultTree(env), "include_onboarding") == Some(Bool(true))
    ensures BaseLeaf(DefaultTree(env), "summarize_class_context") == Some(Bool(false))
    ensures BaseLeaf(DefaultTree(env), "instruction_style") == Some(Str("DESCRIBE"))
    ensures BaseLeaf(DefaultTree(env), "output_format") == Some(Str("BULLET_POINTS"))
  {
    ExportAssetsFields(DefaultAssetConfigurations);
    BaseDefaultsLeaves(DefaultTree(env));
  }

  lemma BaseDefaultsLeaves(cfg: ConfigTree)
    requires "ops" in cfg && "teacher_model_base" in cfg["ops"] && "config" in cfg["ops"]["teacher_model_base"]
    requires cfg["ops"]["teacher_model_base"]["config"] == TeacherModelBaseDefaults
    ensures BaseLeaf(cfg, "include_class_context") == Some(Bool(false))
    ensures BaseLeaf(cfg, "include_onboarding") == Some(Bool(true))
    ensures BaseLeaf(cfg, "summarize_class_context") == Some(Bool(false))
    ensures BaseLeaf(cfg, "instruction_style") == Some(Str("DESCRIBE"))
    ensures BaseLeaf(cfg, "output_format") == Some(Str("BULLET_POINTS"))
  {
  }

  /** The director accepts the default base settings. */
  lemma DefaultBaseAccepted(env: Environment)
    ensures BaseDirectorAccepts(DefaultTree(env))
  {
    DefaultBaseLeaves(env);
    BaseInstructionStyleNames();
    OutputFormatNames();
  }

  /** The base settings after well-formed treatments: the last write to each, or the
      default. */
  lemma BaseAfter(env: Environment, ts: seq<Treatment>, factor: string)
    requires AllWellFormed(ts)
    ensures ApplyAll(DefaultTree(env), ts).Ok?
    ensures BaseLeaf(ApplyAll(DefaultTree(env), ts).value, factor)
         == var last := LastValue(ts, "ops", "teacher_model_base", factor);
            if last.Some? then last else BaseLeaf(DefaultTree(env), factor)
  {
    WellFormedApplies(env, ts);
    LastWriteWins(DefaultTree(env), ts, "ops", "teacher_model_base", factor);
  }

  /** A base setting after a pair of well-formed treatments: the second one's value if it
      writes the setting, else the first one's, else the default. */
  lemma PairBaseLeaf(env: Environment, t1: Treatment, t2: Treatment, factor: string)
    requires AllWellFormed([t1, t2])
    ensures ApplyAll(DefaultTree(env), [t1, t2]).Ok?
    ensures BaseLeaf(ApplyAll(DefaultTree(env), [t1, t2]).value, factor)
         == if Targets(t2, "ops", "teacher_model_base", factor) then Some(t2.value)
            else if Targets(t1, "ops", "teacher_model_base", factor) then Some(t1.value)
            else BaseLeaf(DefaultTree(env), factor)
  {
    BaseAfter(env, [t1, t2], factor);
    assert [t1, t2][..1] == [t1];
    assert [t1][..0] == [];
    var s, k := "ops", "teacher_model_base";
    assert LastValue([t1], s, k, factor) == if Targets(t1, s, k, factor) then Some(t1.value) else None;
    assert LastValue([t1, t2], s, k, factor)
        == if Targets(t2, s, k, factor) then Some(t2.value) else LastValue([t1], s, k, factor);
  }

  /** A base setting after one well-formed treatment. */
  lemma SingleBaseLeaf(env: Environment, t: Treatment, factor: string)
    requires AllWellFormed([t])
    ensures ApplyAll(DefaultTree(env), [t]).Ok?
    ensures BaseLeaf(ApplyAll(DefaultTree(env), [t]).value, factor)
         == if Targets(t, "ops", "teacher_model_base", factor) then Some(t.value)
            else BaseLeaf(DefaultTree(env), factor)
  {
    BaseAfter(env, [t], factor);
    assert [t][..0] == [];
  }

  /** With the default style and format, the director accepts the base settings exactly
      when the prompt has class context or onboarding, and summarizes only class context
      it includes. */
  lemma BaseAccepts(cfg: ConfigTree, c: bool, o: bool, s: bool)
    requires BaseLeaf(cfg, "include_class_context") == Some(Bool(c))
    requires BaseLeaf(cfg, "include_onboarding") == Some(Bool(o))
    requires BaseLeaf(cfg, "summarize_class_context") == Some(Bool(s))
    requires BaseLeaf(cfg, "instruction_style") == Some(Str("DESCRIBE"))
    requires BaseLeaf(cfg, "output_format") == Some(Str("BULLET_POINTS"))
    ensures BaseDirectorAccepts(cfg) <==> (c || o) && (s ==> c)
  {
    BaseInstructionStyleNames();
    OutputFormatNames();
  }

  /** The base settings after `LLM_SUMMARY_PROMPT`: class context, onboarding and summary
      all on. */
  lemma SummaryLeaves(env: Environment)
    ensures var ts := AsList(LlmSummaryPrompt);
            ApplyAll(DefaultTree(env), ts).Ok?
            && var after := ApplyAll(DefaultTree(env), ts).value;
               && BaseLeaf(after, "include_class_context") == Some(Bool(true))
               && BaseLeaf(after, "include_onboarding") == Some(Bool(true))
               && BaseLeaf(after, "summarize_class_context") == Some(Bool(true))
               && BaseLeaf(after, "instruction_style") == Some(Str("DESCRIBE"))
               && BaseLeaf(after, "output_format") == Some(Str("BULLET_POINTS"))
  {
    var ts := AsList(LlmSummaryPrompt);
    LlmSummaryPromptWellFormed();
    DefaultBaseLeaves(env);
    assert ts == [ts[0], ts[1]];
    PairBaseLeaf(env, ts[0], ts[1], "include_class_context");
    PairBaseLeaf(env, ts[0], ts[1], "include_onboarding");
    PairBaseLeaf(env, ts[0], ts[1], "summarize_class_context");
    PairBaseLeaf(env, ts[0], ts[1], "instruction_style");
    PairBaseLeaf(env, ts[0], ts[1], "output_format");
  }

  /** The base settings after the summary treatment alone: summary on, class context off. */
  lemma SummaryAloneLeaves(env: Environment)
    ensures var ts := AsList(LlmSummaryPrompt)[..1];
            ApplyAll(DefaultTree(env), ts).Ok?
            && var after := ApplyAll(DefaultTree(env), ts).value;
               && BaseLeaf(after, "include_class_context") == Some(Bool(false))
               && BaseLeaf(after, "include_onboarding") == Some(Bool(true))
               && BaseLeaf(after, "summarize_class_context") == Some(Bool(true))
               && BaseLeaf(after, "instruction_style") == Some(Str("DESCRIBE"))
               && BaseLeaf(after, "output_format") == Some(Str("BULLET_POINTS"))
  {
    var ts := AsList(LlmSummaryPrompt)[..1];
    LlmSummaryPromptWellFormed();
    DefaultBaseLeaves(env);
    assert ts == [ts[0]];
    SingleBaseLeaf(env, ts[0], "include_class_context");
    SingleBaseLeaf(env, ts[0], "include_onboarding");
    SingleBaseLeaf(env, ts[0], "summarize_class_context");
    SingleBaseLeaf(env, ts[0], "instruction_style");
    SingleBaseLeaf(env, ts[0], "output_format");
  }

  /** `LLM_SUMMARY_PROMPT` turns class context on together with its summary: with both, the
      base director accepts the settings; the summary alone would be rejected, since a
      summary needs class context. */
  lemma SummaryNeedsClassContext(env: Environment)
    ensures var ts := AsList(LlmSummaryPrompt);
            ApplyAll(DefaultTree(env), ts).Ok? && BaseDirectorAccepts(ApplyAll(DefaultTree(env), ts).value)
    ensures var ts := AsList(LlmSummaryPrompt)[..1];
            ApplyAll(DefaultTree(env), ts).Ok? && !BaseDirectorAccepts(ApplyAll(DefaultTree(env), ts).value)
  {
    SummaryLeaves(env);
    SummaryAloneLeaves(env);
    var tree := DefaultTree(env);
    BaseAccepts(ApplyAll(tree, AsList(LlmSummaryPrompt)).value, true, true, true);
    BaseAccepts(ApplyAll(tree, AsList(LlmSummaryPrompt)[..1]).value, false, true, true);
  }

  /** The base settings after `ONBOARDING_ABLATION`: onboarding off, class context on. */
  lemma AblationLeaves(env: Environment)
    ensures var ts := AsList(OnboardingAblation);
            ApplyAll(DefaultTree(env), ts).Ok?
            && var after := ApplyAll(DefaultTree(env), ts).value;
               && BaseLeaf(after, "include_class_context") == Some(Bool(true))
               && BaseLeaf(after, "include_onboarding") == Some(Bool(false))
               && BaseLeaf(after, "summarize_class_context") == Some(Bool(false))
               && BaseLeaf(after, "instruction_style") == Some(Str("DESCRIBE"))
               && BaseLeaf(after, "output_format") == Some(Str("BULLET_POINTS"))
  {
    var ts := AsList(OnboardingAblation);
    OnboardingAblationWellFormed();
    DefaultBaseLeaves(env);
    assert ts == [ts[0], ts[1]];
    PairBaseLeaf(env, ts[0], ts[1], "include_class_context");
    PairBaseLeaf(env, ts[0], ts[1], "include_onboarding");
    PairBaseLeaf(env, ts[0], ts[1], "summarize_class_context");
    PairBaseLeaf(env, ts[0], ts[1], "instruction_style");
    PairBaseLeaf(env, ts[0], ts[1], "output_format");
  }

  /** The base settings after the ablation treatment alone: neither onboarding nor class
      context. */
  lemma AblationAloneLeaves(env: Environment)
    ensures var ts := AsList(OnboardingAblation)[..1];
            ApplyAll(DefaultTree(env), ts).Ok?
            && var after := ApplyAll(DefaultTree(env), ts).value;
               && BaseLeaf(after, "include_class_context") == Some(Bool(false))
               && BaseLeaf(after, "include_onboarding") == Some(Bool(false))
               && BaseLeaf(after, "summarize_class_context") == Some(Bool(false))
               && BaseLeaf(after, "instruction_style") == Some(Str("DESCRIBE"))
               && BaseLeaf(after, "output_format") == Some(Str("BULLET_POINTS"))
  {
    var ts := AsList(OnboardingAblation)[..1];
    OnboardingAblationWellFormed();
    DefaultBaseLeaves(env);
    assert ts == [ts[0]];
    SingleBaseLeaf(env, ts[0], "include_class_context");
    SingleBaseLeaf(env, ts[0], "include_onboarding");
    SingleBaseLeaf(env, ts[0], "summarize_class_context");
    SingleBaseLeaf(env, ts[0], "instruction_style");
    SingleBaseLeaf(env, ts[0], "output_format");
  }

  /** `ONBOARDING_ABLATION` turns onboarding off and class context on: with both, the base
      director accepts the settings; without class context the prompt would have neither
      and is rejected. */
  lemma AblationNeedsClassContext(env: Environment)
    ensures var ts := AsList(OnboardingAblation);
            ApplyAll(DefaultTree(env), ts).Ok? && BaseDirectorAccepts(ApplyAll(DefaultTree(env), ts).value)
    ensures var ts := AsList(OnboardingAblation)[..1];
            ApplyAll(DefaultTree(env), ts).Ok? && !BaseDirectorAccepts(ApplyAll(DefaultTree(env), ts).value)
  {
    AblationLeaves(env);
    AblationAloneLeaves(env);
    var tree := DefaultTree(env);
    BaseAccepts(ApplyAll(tree, AsList(OnboardingAblation)).value, true, false, false);
    BaseAccepts(ApplyAll(tree, AsList(OnboardingAblation)[..1]).value, false, false, false);
  }
}

=== FILE: utils.dfy ===
/** Token counting and the token-budget trimmer (experiment/utils/__init__.py). The tokenizer
    is a parameter: `count(text, model)` is the number of tokens of `text` for `model`. */
module Utils {
  import opened Wrappers
  import opened PyText
  import opened Values

  /** A tokenizer: text and model name to a number of tokens. */
  type TokenCounter = (string, string) -> nat

  /** The model name the trimmer always counts with. */
  const TrimModel := "gpt-3.5-turbo"

  /** `[d[key] for d in docs]`: KeyError at the first document without the key. */
  function Column(docs: seq<Doc>, key: string): (r: Result<seq<Option<string>>>)
    ensures r.Ok? <==> forall i :: 0 <= i < |docs| ==> key in docs[i]
    ensures r.Err? ==> r.error == KeyError(key)
    ensures r.Ok? ==> |r.value| == |docs| && forall i :: 0 <= i < |docs| ==> r.value[i] == docs[i][key]
  {
    if docs == [] then Ok([])
    else if key !in docs[0] then Err(KeyError(key))
    else
      var rest :- Column(docs[1..], key);
      assert forall i :: 1 <= i < |docs| ==> docs[i] == docs[1..][i - 1];
      Ok([docs[0][key]] + rest)
  }

  /** The texts, when none of them is `None`. */
  predicate AllText(xs: seq<Option<string>>)
  {
    forall i :: 0 <= i < |xs| ==> xs[i].Some?
  }

  /** `" ".join(texts)`: TypeError when an entry is `None`. */
  function JoinTexts(xs: seq<Option<string>>): (r: Result<string>)
    ensures r.Ok? <==> AllText(xs)
    ensures r.Err? ==> r.error.TypeError?
  {
    if AllText(xs) then Ok(Join(" ", seq(|xs|, i requires 0 <= i < |xs| => xs[i].value)))
    else Err(TypeError("NoneType"))
  }

  /** One document with its text cut to `per` characters and marked with "...". */
  function TrimOne(d: Doc, key: string, per: int): Doc
    requires key in d && d[key].Some?
  {
    d[key := Some(SliceTo(d[key].value, per) + "...")]
  }

  /** `trim_document_content`, as a function of the documents before the call: the new
      contents of the list, or the exception it raises. */
  function Trim(docs: seq<Doc>, maxTokens: int, key: string, count: TokenCounter): (r: Result<seq<Doc>>)
    ensures r.Ok? ==> |r.value| == |docs|
    ensures r.Ok? ==> forall i :: 0 <= i < |docs| ==>
              key in docs[i] && docs[i][key].Some? && r.value[i].Keys == docs[i].Keys && r.value[i][key].Some?
    ensures r.Ok? ==> forall i, k :: 0 <= i < |docs| && k in docs[i] && k != key ==> r.value[i][k] == docs[i][k]
  {
    var texts :- Column(docs, key);
    var total :- JoinTexts(texts);
    if count(total, TrimModel) <= maxTokens then Ok(docs)
    else if |docs| == 0 then Err(ZeroDivisionError)
    else
      var per := maxTokens / |docs|;
      Ok(seq(|docs|, i requires 0 <= i < |docs| => TrimOne(docs[i], key, per)))
  }

  /** `trim_document_content`: the documents' texts are overwritten in place, and the same
      list is returned. Nothing is changed when an exception is raised. */
  method TrimDocumentContent(docs: array<Doc>, maxTokens: int, key: string, count: TokenCounter)
    returns (r: Result<seq<Doc>>)
    modifies docs
    ensures r == Trim(old(docs[..]), maxTokens, key, count)
    ensures r.Ok? ==> docs[..] == r.value
    ensures r.Err? ==> docs[..] == old(docs[..])
  {
    var texts := Column(docs[..], key);
    if texts.Err? {
      return Err(texts.error);
    }
    var total := JoinTexts(texts.value);
    if total.Err? {
      return Err(total.error);
    }
    if count(total.value, TrimModel) <= maxTokens {
      return Ok(docs[..]);
    }
    if docs.Length == 0 {
      return Err(ZeroDivisionError);
    }
    var per := maxTokens / docs.Length;
    ghost var before := docs[..];
    var i := 0;
    while i < docs.Length
      invariant 0 <= i <= docs.Length
      invariant forall j :: 0 <= j < i ==> docs[j] == TrimOne(before[j], key, per)
      invariant forall j :: i <= j < docs.Length ==> docs[j] == before[j]
    {
      docs[i] := TrimOne(docs[i], key, per);
      i := i + 1;
    }
    assert docs[..] == seq(|before|, j requires 0 <= j < |before| => TrimOne(before[j], key, per));
    r := Ok(docs[..]);
  }

  // ===================== PROPERTIES =====================

  /** Within the budget nothing is touched. */
  lemma TrimWithinBudget(docs: seq<Doc>, maxTokens: int, key: string, count: TokenCounter)
    requires forall i :: 0 <= i < |docs| ==> key in docs[i] && docs[i][key].Some?
    requires count(Join(" ", seq(|docs|, i requires 0 <= i < |docs| => docs[i][key].value)), TrimModel) <= maxTokens
    ensures Trim(docs, maxTokens, key, count) == Ok(docs)
  {
    var texts := Column(docs, key).value;
    assert seq(|texts|, i requires 0 <= i < |texts| => texts[i].value)
        == seq(|docs|, i requires 0 <= i < |docs| => docs[i][key].value);
  }

  /** Over the budget, every text becomes its first `maxTokens // len(docs)` characters
      followed by "...". */
  lemma TrimOverBudget(docs: seq<Doc>, maxTokens: int, key: string, count: TokenCounter, i: int)
    requires forall j :: 0 <= j < |docs| ==> key in docs[j] && docs[j][key].Some?
    requires count(Join(" ", seq(|docs|, j requires 0 <= j < |docs| => docs[j][key].value)), TrimModel) > maxTokens
    requires 0 <= i < |docs|
    ensures Trim(docs, maxTokens, key, count).Ok?
    ensures Trim(docs, maxTokens, key, count).value[i][key]
         == Some(SliceTo(docs[i][key].value, maxTokens / |docs|) + "...")
  {
    var texts := Column(docs, key).value;
    assert seq(|texts|, j requires 0 <= j < |texts| => texts[j].value)
        == seq(|docs|, j requires 0 <= j < |docs| => docs[j][key].value);
  }

  /** Within budget a text is returned untouched. Over budget a trimmed text is no longer
      than the shorter of its original and the per-document budget, plus the three dots, and
      it starts with a prefix of the original. */
  lemma TrimmedTextBound(docs: seq<Doc>, maxTokens: int, key: string, count: TokenCounter, i: int)
    requires Trim(docs, maxTokens, key, count).Ok?
    requires 0 <= i < |docs|
    ensures var before := docs[i][key].value;
            var after := Trim(docs, maxTokens, key, count).value[i][key].value;
            var total := Join(" ", seq(|docs|, j requires 0 <= j < |docs| => docs[j][key].value));
            && (count(total, TrimModel) <= maxTokens ==> after == before)
            && (count(total, TrimModel) > maxTokens ==>
                  && 3 <= |after| <= Min(|before|, if maxTokens / |docs| < 0 then |before| else maxTokens / |docs|) + 3
                  && after[..|after| - 3] == before[..|after| - 3] && after[|after| - 3..] == "...")
  {
    var texts := Column(docs, key).value;
    assert seq(|texts|, j requires 0 <= j < |texts| => texts[j].value)
        == seq(|docs|, j requires 0 <= j < |docs| => docs[j][key].value);
  }

  function Min(a: int, b: int): int
  {
    if a <= b then a else b
  }

  /** The list is never guarded against being empty: an empty list passes only because the
      empty text counts as no tokens, and a negative budget then divides by zero. */
  lemma TrimEmpty(maxTokens: int, key: string, count: TokenCounter)
    requires count("", TrimModel) == 0
    ensures maxTokens >= 0 ==> Trim([], maxTokens, key, count) == Ok([])
    ensures maxTokens < 0 ==> Trim([], maxTokens, key, count) == Err(ZeroDivisionError)
  {
    assert Join(" ", seq(0, i requires 0 <= i < 0 => "")) == "";
  }

  /** The exceptions: a document without the key raises KeyError, a `None` text TypeError. */
  lemma TrimErrors(docs: seq<Doc>, maxTokens: int, key: string, count: TokenCounter)
    ensures (exists i :: 0 <= i < |docs| && key !in docs[i]) ==> Trim(docs, maxTokens, key, count) == Err(KeyError(key))
    ensures (forall i :: 0 <= i < |docs| ==> key in docs[i]) && (exists i :: 0 <= i < |docs| && docs[i][key].None?)
            ==> Trim(docs, maxTokens, key, count).Err? && Trim(docs, maxTokens, key, count).error.TypeError?
  {
    if forall i :: 0 <= i < |docs| ==> key in docs[i] {
      var texts := Column(docs, key).value;
      if exists i :: 0 <= i < |docs| && docs[i][key].None? {
        var i :| 0 <= i < |docs| && docs[i][key].None?;
        assert texts[i].None?;
      }
    }
  }
}

=== FILE: values.dfy ===
/** JSON-like values: what a pydantic `model_dump()` produces and what the tracking sink
    reads back from a `.json` artifact; and the string dictionaries the prompt layer passes
    around. */
module Values {
  import opened Wrappers

  datatype Value =
    | Null
    | Bool(b: bool)
    | Int(i: int)
    | Num(r: real)
    | Str(s: string)
    | List(items: seq<Value>)
    | Dict(entries: map<string, Value>)

  /** A flat configuration object: field name to value. */
  type Fields = map<string, Value>

  /** A document or example handed to the prompt layer: a dict whose values are strings or
      `None`. */
  type Doc = map<string, Option<string>>
}

=== FILE: vector_store.dfy ===
/** The in-memory vector store (experiment/pipeline/resources/_vector_store.py): it stores one
    row per embedding, numbered consecutively, and answers each feedback request with the
    best-scoring rows of the request's own teacher. The similarity measure is a parameter;
    scores are real numbers compared by their order only. */
module VectorStore {
  import opened Wrappers
  import opened PyText
  import opened Values
  import opened PipelineModels

  /** A stored row: its id, its vector, its text, the owner it is filtered by, and the other
      fields of the item it came from. */
  datatype VectorRow = VectorRow(
    id: int,
    embedding: Embedding,
    text: string,
    userId: string,
    metadata: map<string, Value>)

  /** `str | None` as a stored value. */
  function OptionalText(x: Option<string>): Value
  {
    match x
    case Some(s) => Str(s)
    case None => Null
  }

  // ===================== STORING FEEDBACK =====================

  /** The fields a feedback row keeps besides its id, vector, text and owner. */
  function FeedbackMetadata(fb: Feedback, chunk: Value): (m: map<string, Value>)
    ensures "highlighted_text_chunk" in m && m["highlighted_text_chunk"] == chunk
  {
    map["document_id" := Int(fb.documentId), "assignment_id" := Int(fb.assignmentId),
        "feedback_text" := Str(fb.feedbackText), "feedback_id" := Int(fb.feedbackId),
        "timestamp" := Str(fb.timestamp)]["highlighted_text_chunk" := chunk]
  }

  /** The rows of one piece of feedback, numbered from `start`: one per embedding, with the
      index text of the same position, and the highlighted chunk of the same position only
      when there are as many chunks as index texts. Missing lists raise TypeError, too few
      index texts IndexError. */
  function FeedbackRows(fb: Feedback, start: int): (r: Result<seq<VectorRow>>)
    ensures r.Ok? ==> fb.indexEmbeddings.Some? && |r.value| == |fb.indexEmbeddings.value|
  {
    if fb.highlightedTextChunks.None? || fb.indexText.None? || fb.indexEmbeddings.None? then Err(TypeError("NoneType"))
    else
      var chunks, texts, embeddings := fb.highlightedTextChunks.value, fb.indexText.value, fb.indexEmbeddings.value;
      if |embeddings| > |texts| then Err(IndexError("index_text"))
      else
        Ok(seq(|embeddings|, j requires 0 <= j < |embeddings| =>
          VectorRow(start + j, embeddings[j], texts[j], fb.userId,
                    FeedbackMetadata(fb, if |chunks| == |texts| then Str(chunks[j]) else Null))))
  }

  /** All feedback rows, in input order, numbered across the whole list. */
  function AllFeedbackRows(feedback: seq<Feedback>): (r: Result<seq<VectorRow>>)
  {
    if feedback == [] then Ok([])
    else
      var before :- AllFeedbackRows(feedback[..|feedback| - 1]);
      var rows :- FeedbackRows(feedback[|feedback| - 1], |before|);
      Ok(before + rows)
  }

  /** `store_feedback`'s frame: the rows, or the exception; with no row at all, setting the
      index of the empty frame raises KeyError. */
  function FeedbackVectors(feedback: seq<Feedback>): Result<seq<VectorRow>>
  {
    var rows :- AllFeedbackRows(feedback);
    if rows == [] then Err(KeyError("_id")) else Ok(rows)
  }

  /** Row ids are 0, 1, 2, ... across all feedback, and every feedback contributes one row per
      embedding, in input order. */
  lemma {:induction false} FeedbackRowIds(feedback: seq<Feedback>)
    requires AllFeedbackRows(feedback).Ok?
    ensures var rows := AllFeedbackRows(feedback).value;
            forall i :: 0 <= i < |rows| ==> rows[i].id == i
  {
    if feedback != [] {
      var before := AllFeedbackRows(feedback[..|feedback| - 1]).value;
      FeedbackRowIds(feedback[..|feedback| - 1]);
      var rows := FeedbackRows(feedback[|feedback| - 1], |before|).value;
      assert forall i :: |before| <= i < |before| + |rows| ==> (before + rows)[i] == rows[i - |before|];
    }
  }

  /** A feedback row carries the index text of its position, and the highlighted chunk of its
      position exactly when the chunks and the index texts are equally many (otherwise None). */
  lemma FeedbackRowContents(fb: Feedback, start: int, j: int)
    requires FeedbackRows(fb, start).Ok?
    requires 0 <= j < |FeedbackRows(fb, start).value|
    ensures fb.indexText.Some? && fb.highlightedTextChunks.Some? && fb.indexEmbeddings.Some?
    ensures var row := FeedbackRows(fb, start).value[j];
            && j < |fb.indexText.value|
            && row.id == start + j
            && row.embedding == fb.indexEmbeddings.value[j]
            && row.text == fb.indexText.value[j]
            && row.userId == fb.userId
            && "highlighted_text_chunk" in row.metadata
            && row.metadata["highlighted_text_chunk"]
               == if |fb.highlightedTextChunks.value| == |fb.indexText.value| then Str(fb.highlightedTextChunks.value[j]) else Null
  {
    var chunks, texts := fb.highlightedTextChunks.value, fb.indexText.value;
    var chunk := if |chunks| == |texts| then Str(chunks[j]) else Null;
    assert FeedbackRows(fb, start).value[j].metadata == FeedbackMetadata(fb, chunk);
  }

  // ===================== STORING CLASS DOCUMENTS =====================

  /** The fields a class-document row keeps besides its id, vector, text and owner. */
  function ClassMetadata(doc: ClassDocument): map<string, Value>
  {
    map["class_id" := Int(doc.classId), "document_id" := Int(doc.documentId),
        "name" := OptionalText(doc.name), "file_path" := OptionalText(doc.filePath)]
  }

  /** The rows of one class document, numbered from `start`: none when it has no embeddings,
      otherwise one per embedding with the chunk of the same position as its text. */
  function ClassRows(doc: ClassDocument, start: int): (r: Result<seq<VectorRow>>)
    ensures doc.embeddings.None? ==> r == Ok([])
    ensures r.Ok? && doc.embeddings.Some? ==> |r.value| == |doc.embeddings.value|
  {
    if doc.embeddings.None? then Ok([])
    else
      var embeddings := doc.embeddings.value;
      if |embeddings| == 0 then Ok([])
      else if doc.chunks.None? then Err(TypeError("NoneType"))
      else if |embeddings| > |doc.chunks.value| then Err(IndexError("chunks"))
      else
        var chunks := doc.chunks.value;
        Ok(seq(|embeddings|, j requires 0 <= j < |embeddings| =>
          VectorRow(start + j, embeddings[j], chunks[j], doc.userId, ClassMetadata(doc))))
  }

  /** A class-document row carries the chunk of its position as its text, the embedding of
      its position, the document's owner and the document's metadata. */
  lemma ClassRowContents(doc: ClassDocument, start: int, j: int)
    requires ClassRows(doc, start).Ok?
    requires 0 <= j < |ClassRows(doc, start).value|
    ensures doc.embeddings.Some? && doc.chunks.Some? && j < |doc.chunks.value|
    ensures ClassRows(doc, start).value[j]
            == VectorRow(start + j, doc.embeddings.value[j], doc.chunks.value[j], doc.userId, ClassMetadata(doc))
  {
  }

  /** All class-document rows, in input order, numbered across the whole list. An empty
      result is kept as it is. */
  function AllClassRows(docs: seq<ClassDocument>): (r: Result<seq<VectorRow>>)
  {
    if docs == [] then Ok([])
    else
      var before :- AllClassRows(docs[..|docs| - 1]);
      var rows :- ClassRows(docs[|docs| - 1], |before|);
      Ok(before + rows)
  }

  /** Class-document row ids are 0, 1, 2, ... across the documents that have embeddings. */
  lemma {:induction false} ClassRowIds(docs: seq<ClassDocument>)
    requires AllClassRows(docs).Ok?
    ensures var rows := AllClassRows(docs).value;
            forall i :: 0 <= i < |rows| ==> rows[i].id == i
  {
    if docs != [] {
      var before := AllClassRows(docs[..|docs| - 1]).value;
      ClassRowIds(docs[..|docs| - 1]);
      var rows := ClassRows(docs[|docs| - 1], |before|).value;
      assert forall i :: |before| <= i < |before| + |rows| ==> (before + rows)[i] == rows[i - |before|];
    }
  }

  /** Documents without embeddings add no rows and raise nothing. */
  lemma {:induction false} ClassRowsWithoutEmbeddings(docs: seq<ClassDocument>)
    requires forall i :: 0 <= i < |docs| ==> docs[i].embeddings.None?
    ensures AllClassRows(docs) == Ok([])
  {
    if docs != [] {
      ClassRowsWithoutEmbeddings(docs[..|docs| - 1]);
      assert ClassRows(docs[|docs| - 1], 0) == Ok([]);
      assert AllClassRows(docs[..|docs| - 1]).value + ClassRows(docs[|docs| - 1], 0).value == [];
    }
  }

  // ===================== SEARCH =====================

  /** The two similarity measures the store knows. */
  datatype ScoreKind = Cosine | DotProduct

  /** The score name: "cosine" or "dot-product", anything else a ValueError. */
  function ParseScore(score: string): (r: Result<ScoreKind>)
    ensures r.Ok? <==> score == "cosine" || score == "dot-product"
    ensures r.Err? ==> r.error.ValueError?
  {
    if score == "cosine" then Ok(Cosine)
    else if score == "dot-product" then Ok(DotProduct)
    else Err(ValueError("score"))
  }

  /** A similarity measure: a row's vector against a query's vector, which may be missing. */
  type Similarity = (ScoreKind, Embedding, Option<Embedding>) -> real

  /** A row with its score against one query. */
  datatype ScoredRow = ScoredRow(row: VectorRow, score: real)

  /** A result row: the scored row tagged with its query's id and texts. */
  datatype SearchResult = SearchResult(
    row: VectorRow,
    score: real,
    requestId: int,
    query: Option<string>,
    queryTextSelection: string,
    queryInstruction: string)

  /** The rows of one owner, in store order. */
  function Authorized(rows: seq<VectorRow>, userId: string): (r: seq<VectorRow>)
    ensures forall x :: x in r <==> x in rows && x.userId == userId
    ensures |r| <= |rows|
  {
    if rows == [] then []
    else
      var rest := Authorized(rows[1..], userId);
      assert forall x :: x in rows <==> x == rows[0] || x in rows[1..];
      if rows[0].userId == userId then [rows[0]] + rest else rest
  }

  /** Each row scored against the query's vector. */
  function Scored(rows: seq<VectorRow>, kind: ScoreKind, query: Option<Embedding>, similarity: Similarity)
    : (r: seq<ScoredRow>)
    ensures |r| == |rows|
    ensures forall i :: 0 <= i < |rows| ==> r[i] == ScoredRow(rows[i], similarity(kind, rows[i].embedding, query))
  {
    seq(|rows|, i requires 0 <= i < |rows| => ScoredRow(rows[i], similarity(kind, rows[i].embedding, query)))
  }

  /** Sorted from the highest score to the lowest. */
  predicate SortedByScore(xs: seq<ScoredRow>)
  {
    forall i, j :: 0 <= i < j < |xs| ==> xs[i].score >= xs[j].score
  }

  /** `x` placed before the first row that scores no higher. */
  function InsertByScore(x: ScoredRow, xs: seq<ScoredRow>): (r: seq<ScoredRow>)
    requires SortedByScore(xs)
    ensures SortedByScore(r)
    ensures multiset(r) == multiset(xs) + multiset{x}
    ensures |r| == |xs| + 1
  {
    if xs == [] then [x]
    else if x.score >= xs[0].score then [x] + xs
    else
      var rest := InsertByScore(x, xs[1..]);
      assert xs == [xs[0]] + xs[1..];
      HeadBoundsRest(xs[0], x, xs[1..], rest);
      [xs[0]] + rest
  }

  /** The head of a sorted list scores at least as high as every row of a reordering of its
      tail with a lower-scoring row added. */
  lemma HeadBoundsRest(h: ScoredRow, x: ScoredRow, tail: seq<ScoredRow>, rest: seq<ScoredRow>)
    requires SortedByScore([h] + tail)
    requires x.score < h.score
    requires multiset(rest) == multiset(tail) + multiset{x}
    ensures forall k :: 0 <= k < |rest| ==> h.score >= rest[k].score
  {
    assert ([h] + tail)[0] == h;
    forall k | 0 <= k < |rest|
      ensures h.score >= rest[k].score
    {
      assert rest[k] in multiset(rest);
      if rest[k] != x {
        assert rest[k] in multiset(tail);
        var m :| 0 <= m < |tail| && tail[m] == rest[k];
        assert ([h] + tail)[m + 1] == tail[m];
      }
    }
  }

  /** `sort_values(by='score', ascending=False)`: the rows by descending score. */
  function SortByScore(xs: seq<ScoredRow>): (r: seq<ScoredRow>)
    ensures SortedByScore(r)
    ensures multiset(r) == multiset(xs)
    ensures |r| == |xs|
  {
    if xs == [] then []
    else
      assert xs == [xs[0]] + xs[1..];
      InsertByScore(xs[0], SortByScore(xs[1..]))
  }

  /** The rows scoring at least the threshold, in order. */
  function AtLeast(xs: seq<ScoredRow>, threshold: real): (r: seq<ScoredRow>)
    ensures forall x :: x in r <==> x in xs && x.score >= threshold
    ensures |r| <= |xs|
  {
    if xs == [] then []
    else
      var rest := AtLeast(xs[1..], threshold);
      assert forall x :: x in xs <==> x == xs[0] || x in xs[1..];
      if xs[0].score >= threshold then [xs[0]] + rest else rest
  }

  /** A scored row tagged with its query. */
  function Tag(x: ScoredRow, q: FeedbackRequest): SearchResult
  {
    SearchResult(x.row, x.score, q.requestId, q.searchQueryText, q.textSelection, q.instruction)
  }

  /** The owner's rows ranked for one query. */
  function Ranked(rows: seq<VectorRow>, q: FeedbackRequest, kind: ScoreKind, similarity: Similarity): seq<ScoredRow>
  {
    SortByScore(Scored(Authorized(rows, q.userId), kind, q.searchQueryEmbedding, similarity))
  }

  /** One query's block: the owner's rows by descending score, the first `topK` of them
      (`head`, which drops rows from the end for a negative `topK`), those at or above the
      threshold, tagged with the query. */
  function QueryResults(rows: seq<VectorRow>, q: FeedbackRequest, kind: ScoreKind, threshold: real, topK: int,
                        similarity: Similarity): seq<SearchResult>
  {
    var kept := AtLeast(SliceTo(Ranked(rows, q, kind, similarity), topK), threshold);
    seq(|kept|, i requires 0 <= i < |kept| => Tag(kept[i], q))
  }

  /** The query loop: KeyError when the store is empty (its frame has no columns), then the
      score name is checked, for every query in turn; the blocks are concatenated in query
      order. */
  function AllQueryResults(rows: seq<VectorRow>, queries: seq<FeedbackRequest>, score: string, threshold: real,
                           topK: int, similarity: Similarity): Result<seq<SearchResult>>
  {
    if queries == [] then Ok([])
    else
      var before :- AllQueryResults(rows, queries[..|queries| - 1], score, threshold, topK, similarity);
      if rows == [] then Err(KeyError("user_id"))
      else
        var kind :- ParseScore(score);
        Ok(before + QueryResults(rows, queries[|queries| - 1], kind, threshold, topK, similarity))
  }

  /** `_search`: nothing (`None`) unless the store is local; reading rows that were never
      stored raises AttributeError. */
  function SearchSpec(source: string, vectors: Option<seq<VectorRow>>, queries: seq<FeedbackRequest>, score: string,
                      threshold: real, topK: int, similarity: Similarity): Option<Result<seq<SearchResult>>>
  {
    if source != "local" then None
    else if vectors.None? then Some(Err(AttributeError("_vectors")))
    else Some(AllQueryResults(vectors.value, queries, score, threshold, topK, similarity))
  }

  // ===================== SEARCH PROPERTIES =====================

  /** Every kept row belongs to the teacher, passes the threshold and carries its own score. */
  lemma KeptSound(rows: seq<VectorRow>, userId: string, kind: ScoreKind, query: Option<Embedding>, threshold: real,
                  topK: int, similarity: Similarity)
    ensures var scored := Scored(Authorized(rows, userId), kind, query, similarity);
            forall x :: x in AtLeast(SliceTo(SortByScore(scored), topK), threshold) ==>
              && x.row in rows && x.row.userId == userId
              && x.score >= threshold && x.score == similarity(kind, x.row.embedding, query)
  {
    var authorized := Authorized(rows, userId);
    var scored := Scored(authorized, kind, query, similarity);
    var sorted := SortByScore(scored);
    var top := SliceTo(sorted, topK);
    forall x | x in AtLeast(top, threshold)
      ensures x.row in rows && x.row.userId == userId
      ensures x.score == similarity(kind, x.row.embedding, query)
    {
      assert x in top;
      assert x in sorted;
      assert x in multiset(scored);
      var k :| 0 <= k < |scored| && scored[k] == x;
      assert authorized[k] in authorized;
    }
  }

  /** Every result row belongs to the query's teacher, scores at least the threshold by the
      chosen measure, and carries the query's id and texts. */
  lemma QueryResultsSound(rows: seq<VectorRow>, q: FeedbackRequest, kind: ScoreKind, threshold: real, topK: int,
                          similarity: Similarity)
    ensures forall r :: r in QueryResults(rows, q, kind, threshold, topK, similarity) ==>
              && r.row in rows && r.row.userId == q.userId
              && r.score >= threshold && r.score == similarity(kind, r.row.embedding, q.searchQueryEmbedding)
              && r.requestId == q.requestId && r.query == q.searchQueryText
              && r.queryTextSelection == q.textSelection && r.queryInstruction == q.instruction
  {
    var kept := AtLeast(SliceTo(Ranked(rows, q, kind, similarity), topK), threshold);
    KeptSound(rows, q.userId, kind, q.searchQueryEmbedding, threshold, topK, similarity);
    forall r | r in QueryResults(rows, q, kind, threshold, topK, similarity)
      ensures exists i :: 0 <= i < |kept| && r == Tag(kept[i], q)
    {
    }
  }

  /** At most `topK` rows per query, and never more than the teacher has. */
  lemma QueryResultsBound(rows: seq<VectorRow>, q: FeedbackRequest, kind: ScoreKind, threshold: real, topK: int,
                          similarity: Similarity)
    ensures |QueryResults(rows, q, kind, threshold, topK, similarity)| <= |Authorized(rows, q.userId)|
    ensures topK >= 0 ==> |QueryResults(rows, q, kind, threshold, topK, similarity)| <= topK
  {
  }

  /** The top-k cut keeps the best: every result scores at least as high as every row of the
      teacher that the cut left out; and within the cut, every row at or above the threshold
      is returned. */
  lemma QueryResultsTopK(rows: seq<VectorRow>, q: FeedbackRequest, kind: ScoreKind, threshold: real, topK: int,
                         similarity: Similarity)
    ensures var ranked := Ranked(rows, q, kind, similarity);
            var cut := |SliceTo(ranked, topK)|;
            && (forall r, j :: r in QueryResults(rows, q, kind, threshold, topK, similarity) && cut <= j < |ranked|
                  ==> r.score >= ranked[j].score)
            && (forall i :: 0 <= i < cut && ranked[i].score >= threshold
                  ==> Tag(ranked[i], q) in QueryResults(rows, q, kind, threshold, topK, similarity))
  {
    var ranked := Ranked(rows, q, kind, similarity);
    var top := SliceTo(ranked, topK);
    var kept := AtLeast(top, threshold);
    var results := QueryResults(rows, q, kind, threshold, topK, similarity);
    forall r, j | r in results && |top| <= j < |ranked|
      ensures r.score >= ranked[j].score
    {
      var i :| 0 <= i < |kept| && r == Tag(kept[i], q);
      assert kept[i] in top;
      var m :| 0 <= m < |top| && top[m] == kept[i];
      assert top[m] == ranked[m];
    }
    forall i | 0 <= i < |top| && ranked[i].score >= threshold
      ensures Tag(ranked[i], q) in results
    {
      assert ranked[i] == top[i];
      assert ranked[i] in kept;
      var m :| 0 <= m < |kept| && kept[m] == ranked[i];
      assert results[m] == Tag(ranked[i], q);
    }
  }

  /** The ranking is a reordering of the teacher's rows, highest score first. */
  lemma RankedIsSortedPermutation(rows: seq<VectorRow>, q: FeedbackRequest, kind: ScoreKind, similarity: Similarity)
    ensures SortedByScore(Ranked(rows, q, kind, similarity))
    ensures multiset(Ranked(rows, q, kind, similarity))
         == multiset(Scored(Authorized(rows, q.userId), kind, q.searchQueryEmbedding, similarity))
  {
  }

  /** An unknown score name raises ValueError only when there is a query to score; with no
      queries the result is empty whatever the name. */
  lemma SearchScoreChecked(rows: seq<VectorRow>, queries: seq<FeedbackRequest>, score: string, threshold: real,
                           topK: int, similarity: Similarity)
    requires rows != []
    ensures queries == [] ==> AllQueryResults(rows, queries, score, threshold, topK, similarity) == Ok([])
    ensures queries != [] && ParseScore(score).Err?
            ==> AllQueryResults(rows, queries, score, threshold, topK, similarity).Err?
  {
  }

  // ===================== THE CLIENT =====================

  /** `VectorStoreClient`: a named store over a source, holding the rows last stored and the
      key naming what they are. */
  class VectorStoreClient {
    const name: string
    const source: string
    var vectors: Option<seq<VectorRow>>
    var dataKey: Option<string>

    constructor(name: string, source: string)
      ensures this.name == name && this.source == source
      ensures vectors == None && dataKey == None
    {
      this.name := name;
      this.source := source;
      vectors := None;
      dataKey := None;
    }

    /** `store_feedback`: the rows replace the stored ones, under the feedback key; an
        exception leaves the store as it was. */
    method StoreFeedback(feedback: seq<Feedback>) returns (r: Result<()>)
      modifies this
      ensures var v := FeedbackVectors(feedback);
              && (r.Ok? <==> v.Ok?)
              && (v.Err? ==> r == Err(v.error) && vectors == old(vectors) && dataKey == old(dataKey))
              && (v.Ok? ==> vectors == Some(v.value) && dataKey == Some("feedback_vector_store"))
    {
      var rows: seq<VectorRow> := [];
      var i := 0;
      while i < |feedback|
        invariant 0 <= i <= |feedback|
        invariant AllFeedbackRows(feedback[..i]) == Ok(rows)
        invariant vectors == old(vectors) && dataKey == old(dataKey)
      {
        assert feedback[..i + 1][..i] == feedback[..i];
        var more := FeedbackItemRows(feedback[i], |rows|);
        if more.Err? {
          AllFeedbackRowsAfterError(feedback, i + 1);
          return Err(more.error);
        }
        rows := rows + more.value;
        i := i + 1;
      }
      assert feedback[..i] == feedback;
      if rows == [] {
        return Err(KeyError("_id"));
      }
      vectors := Some(rows);
      dataKey := Some("feedback_vector_store");
      r := Ok(());
    }

    /** `store_class_context`: the rows replace the stored ones, under the class-document key,
        even when there are none; an exception leaves the store as it was. */
    method StoreClassContext(docs: seq<ClassDocument>) returns (r: Result<()>)
      modifies this
      ensures var v := AllClassRows(docs);
              && (r.Ok? <==> v.Ok?)
              && (v.Err? ==> r == Err(v.error) && vectors == old(vectors) && dataKey == old(dataKey))
              && (v.Ok? ==> vectors == Some(v.value) && dataKey == Some("class_document_vector_store"))
    {
      var rows: seq<VectorRow> := [];
      var i := 0;
      while i < |docs|
        invariant 0 <= i <= |docs|
        invariant AllClassRows(docs[..i]) == Ok(rows)
        invariant vectors == old(vectors) && dataKey == old(dataKey)
      {
        assert docs[..i + 1][..i] == docs[..i];
        var more := ClassItemRows(docs[i], |rows|);
        if more.Err? {
          AllClassRowsAfterError(docs, i + 1);
          return Err(more.error);
        }
        rows := rows + more.value;
        i := i + 1;
      }
      assert docs[..i] == docs;
      vectors := Some(rows);
      dataKey := Some("class_document_vector_store");
      r := Ok(());
    }

    /** `_search` (and `search`, which forwards to it): the query blocks accumulated in query
        order. */
    method Search(queries: seq<FeedbackRequest>, score: string, threshold: real, topK: int, similarity: Similarity)
      returns (r: Option<Result<seq<SearchResult>>>)
      ensures r == SearchSpec(source, vectors, queries, score, threshold, topK, similarity)
    {
      if source != "local" {
        return None;
      }
      if vectors.None? {
        return Some(Err(AttributeError("_vectors")));
      }
      var rows := vectors.value;
      var results: seq<SearchResult> := [];
      var i := 0;
      while i < |queries|
        invariant 0 <= i <= |queries|
        invariant AllQueryResults(rows, queries[..i], score, threshold, topK, similarity) == Ok(results)
      {
        AllQueryResultsExtend(rows, queries, score, threshold, topK, similarity, i, results);
        if rows == [] {
          return Some(Err(KeyError("user_id")));
        }
        var kind := ParseScore(score);
        if kind.Err? {
          return Some(Err(kind.error));
        }
        results := results + QueryResults(rows, queries[i], kind.value, threshold, topK, similarity);
        i := i + 1;
      }
      assert queries[..i] == queries;
      r := Some(Ok(results));
    }
  }

  // ===================== ONE ITEM'S ROWS =====================

  /** The inner loop of `store_feedback`: one row per embedding of one piece of feedback. */
  method FeedbackItemRows(fb: Feedback, start: int) returns (r: Result<seq<VectorRow>>)
    ensures r == FeedbackRows(fb, start)
  {
    if fb.highlightedTextChunks.None? || fb.indexText.None? || fb.indexEmbeddings.None? {
      return Err(TypeError("NoneType"));
    }
    var chunks, texts, embeddings := fb.highlightedTextChunks.value, fb.indexText.value, fb.indexEmbeddings.value;
    var withChunks := |chunks| == |texts|;
    var rows: seq<VectorRow> := [];
    var j := 0;
    while j < |embeddings|
      invariant 0 <= j <= |embeddings| && j <= |texts| && |rows| == j
      invariant forall k :: 0 <= k < j ==>
                  rows[k] == VectorRow(start + k, embeddings[k], texts[k], fb.userId,
                                       FeedbackMetadata(fb, if withChunks then Str(chunks[k]) else Null))
    {
      if j >= |texts| {
        return Err(IndexError("index_text"));
      }
      var chunk := if withChunks then Str(chunks[j]) else Null;
      rows := rows + [VectorRow(start + j, embeddings[j], texts[j], fb.userId, FeedbackMetadata(fb, chunk))];
      j := j + 1;
    }
    assert rows == FeedbackRows(fb, start).value;
    r := Ok(rows);
  }

  /** The inner loop of `store_class_context`: one row per embedding of one document, none
      when it has no embeddings. */
  method ClassItemRows(doc: ClassDocument, start: int) returns (r: Result<seq<VectorRow>>)
    ensures r == ClassRows(doc, start)
  {
    if doc.embeddings.None? {
      return Ok([]);
    }
    var embeddings := doc.embeddings.value;
    var rows: seq<VectorRow> := [];
    var j := 0;
    while j < |embeddings|
      invariant 0 <= j <= |embeddings| && |rows| == j
      invariant j > 0 ==> doc.chunks.Some? && j <= |doc.chunks.value|
      invariant forall k :: 0 <= k < j ==>
                  rows[k] == VectorRow(start + k, embeddings[k], doc.chunks.value[k], doc.userId, ClassMetadata(doc))
    {
      if doc.chunks.None? {
        return Err(TypeError("NoneType"));
      }
      if j >= |doc.chunks.value| {
        return Err(IndexError("chunks"));
      }
      rows := rows + [VectorRow(start + j, embeddings[j], doc.chunks.value[j], doc.userId, ClassMetadata(doc))];
      j := j + 1;
    }
    assert |embeddings| > 0 ==> rows == ClassRows(doc, start).value;
    r := Ok(rows);
  }

  // ===================== ERRORS STOP THE LOOPS =====================

  /** Once a feedback item raises, the whole call raises that exception. */
  lemma {:induction false} AllFeedbackRowsAfterError(feedback: seq<Feedback>, k: nat)
    requires 0 < k <= |feedback|
    requires AllFeedbackRows(feedback[..k - 1]).Ok?
    requires FeedbackRows(feedback[k - 1], |AllFeedbackRows(feedback[..k - 1]).value|).Err?
    ensures AllFeedbackRows(feedback) == Err(FeedbackRows(feedback[k - 1], |AllFeedbackRows(feedback[..k - 1]).value|).error)
    ensures FeedbackVectors(feedback) == AllFeedbackRows(feedback)
    decreases |feedback| - k
  {
    var e := FeedbackRows(feedback[k - 1], |AllFeedbackRows(feedback[..k - 1]).value|).error;
    assert feedback[..k][..k - 1] == feedback[..k - 1];
    assert AllFeedbackRows(feedback[..k]) == Err(e);
    ErrorPersistsFeedback(feedback, k, e);
  }

  lemma {:induction false} ErrorPersistsFeedback(feedback: seq<Feedback>, k: nat, e: Error)
    requires k <= |feedback|
    requires AllFeedbackRows(feedback[..k]) == Err(e)
    ensures AllFeedbackRows(feedback) == Err(e)
    decreases |feedback| - k
  {
    if k == |feedback| {
      assert feedback[..k] == feedback;
    } else {
      var n := |feedback|;
      assert feedback[..n - 1][..k] == feedback[..k];
      ErrorPersistsFeedback(feedback[..n - 1], k, e);
    }
  }

  /** Once a class document raises, the whole call raises that exception. */
  lemma {:induction false} AllClassRowsAfterError(docs: seq<ClassDocument>, k: nat)
    requires 0 < k <= |docs|
    requires AllClassRows(docs[..k - 1]).Ok?
    requires ClassRows(docs[k - 1], |AllClassRows(docs[..k - 1]).value|).Err?
    ensures AllClassRows(docs) == Err(ClassRows(docs[k - 1], |AllClassRows(docs[..k - 1]).value|).error)
    decreases |docs| - k
  {
    var e := ClassRows(docs[k - 1], |AllClassRows(docs[..k - 1]).value|).error;
    assert docs[..k][..k - 1] == docs[..k - 1];
    assert AllClassRows(docs[..k]) == Err(e);
    ErrorPersistsClass(docs, k, e);
  }

  lemma {:induction false} ErrorPersistsClass(docs: seq<ClassDocument>, k: nat, e: Error)
    requires k <= |docs|
    requires AllClassRows(docs[..k]) == Err(e)
    ensures AllClassRows(docs) == Err(e)
    decreases |docs| - k
  {
    if k == |docs| {
      assert docs[..k] == docs;
    } else {
      var n := |docs|;
      assert docs[..n - 1][..k] == docs[..k];
      ErrorPersistsClass(docs[..n - 1], k, e);
    }
  }

  /** One more query, from the search over the queries before it: its block is appended, or
      the exception it raises is the whole search's. */
  lemma AllQueryResultsExtend(rows: seq<VectorRow>, queries: seq<FeedbackRequest>, score: string, threshold: real,
                              topK: int, similarity: Similarity, i: nat, results: seq<SearchResult>)
    requires i < |queries|
    requires AllQueryResults(rows, queries[..i], score, threshold, topK, similarity) == Ok(results)
    ensures rows == [] ==> AllQueryResults(rows, queries, score, threshold, topK, similarity) == Err(KeyError("user_id"))
    ensures rows != [] && ParseScore(score).Err? ==>
              AllQueryResults(rows, queries, score, threshold, topK, similarity) == Err(ParseScore(score).error)
    ensures rows != [] && ParseScore(score).Ok? ==>
              AllQueryResults(rows, queries[..i + 1], score, threshold, topK, similarity)
              == Ok(results + QueryResults(rows, queries[i], ParseScore(score).value, threshold, topK, similarity))
  {
    assert queries[..i + 1][..i] == queries[..i];
    if rows == [] || ParseScore(score).Err? {
      AllQueryResultsAfterError(rows, queries, score, threshold, topK, similarity, i + 1);
    }
  }

  /** Once a query raises, the whole search raises that exception. */
  lemma {:induction false} AllQueryResultsAfterError(rows: seq<VectorRow>, queries: seq<FeedbackRequest>, score: string,
                                                     threshold: real, topK: int, similarity: Similarity, k: nat)
    requires 0 < k <= |queries|
    requires AllQueryResults(rows, queries[..k - 1], score, threshold, topK, similarity).Ok?
    requires rows == [] || ParseScore(score).Err?
    ensures AllQueryResults(rows, queries, score, threshold, topK, similarity)
         == Err(if rows == [] then KeyError("user_id") else ParseScore(score).error)
    decreases |queries| - k
  {
    assert queries[..k][..k - 1] == queries[..k - 1];
    var e := if rows == [] then KeyError("user_id") else ParseScore(score).error;
    assert AllQueryResults(rows, queries[..k], score, threshold, topK, similarity) == Err(e);
    ErrorPersistsQueries(rows, queries, score, threshold, topK, similarity, k, e);
  }

  lemma {:induction false} ErrorPersistsQueries(rows: seq<VectorRow>, queries: seq<FeedbackRequest>, score: string,
                                                threshold: real, topK: int, similarity: Similarity, k: nat, e: Error)
    requires k <= |queries|
    requires AllQueryResults(rows, queries[..k], score, threshold, topK, similarity) == Err(e)
    ensures AllQueryResults(rows, queries, score, threshold, topK, similarity) == Err(e)
    decreases |queries| - k
  {
    if k == |queries| {
      assert queries[..k] == queries;
    } else {
      assert queries[..k + 1][..k] == queries[..k];
      QueryErrorStep(rows, queries[..k + 1], score, threshold, topK, similarity);
      ErrorPersistsQueries(rows, queries, score, threshold, topK, similarity, k + 1, e);
    }
  }

  /** A search whose earlier queries raised ends with that exception. */
  lemma QueryErrorStep(rows: seq<VectorRow>, queries: seq<FeedbackRequest>, score: string,
                       threshold: real, topK: int, similarity: Similarity)
    requires queries != []
    requires AllQueryResults(rows, queries[..|queries| - 1], score, threshold, topK, similarity).Err?
    ensures AllQueryResults(rows, queries, score, threshold, topK, similarity)
         == AllQueryResults(rows, queries[..|queries| - 1], score, threshold, topK, similarity)
  {
  }
}

=== FILE: wrappers.dfy ===
/** Failure-compatible result type and the Python exception classes the modelled code raises. */
module Wrappers {

  /** The exceptions raised by the modelled code, by Python exception class. */
  datatype Error =
    | KeyError(key: string)
    | ValueError(message: string)
    | AssertionError(message: string)
    | TypeError(message: string)
    | AttributeError(message: string)
    | IndexError(message: string)
    | ZeroDivisionError
    | FileNotFoundError(path: string)

  datatype Result<+T> = Ok(value: T) | Err(error: Error) {
    predicate IsFailure() {
      Err?
    }

    function PropagateFailure<U>(): Result<U>
      requires Err?
    {
      Err(error)
    }

    function Extract(): T
      requires Ok?
    {
      value
    }
  }

  datatype Option<+T> = None | Some(value: T)
}
